=== FILE: README.md ===
# kindle-utils in Dafny

This project models the core of kindle-utils, a set of Python tools that
read what a Kindle leaves on disk and turn it into reading statistics. It
proves properties of that model.

- **The log parser** (`log_parser.py`) reads the Kindle's rotated system
  logs one line at a time.
  - Each line's local timestamp is corrected for timezone changes and
    unexplained clock jumps.
  - Power-state transitions and reboots are tracked, with the time spent in
    each state.
  - Every book's pick-up, put-down, open and close events are recorded.
  - A `KindleBook` folds its events into reading sessions (`reads`).
  - A `KindleLogs` corpus hands the carried state from one log to the next,
    sorts the logs, and merges each book's events across logs.
- **The page-number sidecar** (`apnx_parser.py`, and the identical
  `BinaryFile`/`ApnxFile` classes in `apnx-parser.py`) decodes two things:
  - the binary `.apnx` file: a header, then per edition a format, a page
    count, a position width, JSON metadata and one position per page;
  - the page map `(start,type,first)` definitions into a `PageLabelIndex`
    that gives a label for every page.
- **The Mobipocket reader** (`mobibook.py`) reads:
  - the PalmDB header and its section table;
  - record 0 and the MOBI header;
  - the EXTH metadata records;
  - the title and the attributes built on them.
- **The statistics report** (`kindle_stats.py`) provides:
  - the duration printers `FormatHMS` and `PrintHMS`;
  - what `PrintBooks` computes: the books, newest read first, and the total
    reading time.

The model follows the source's form.

- Pure Python logic becomes datatypes, functions and lemmas. This covers:
  - the timestamp corrector, power-state tracking and the session fold;
  - the line dispatch and the corpus, as values;
  - the scheme parser, the sidecar and MOBI decoders, and the duration
    printers.
- The Python classes that update their fields become Dafny classes with
  `modifies` frames: `KindleBook`, `KindleLog`, `KindleLogs`,
  `PageLabelIndex`, `BinaryFile`, `ApnxFile` and `MobiBook`.
  - Each method is proved against the value-level function that specifies
    it, and the properties are proved about that function.
- Python's behaviour is written out where the code depends on it:
  - truthiness (0, '', None and empty containers are false);
  - negative list indices;
  - slices that clip at the end of a sequence;
  - `struct.error` on short data;
  - `str.split` with a limit;
  - Python 2 comparisons of None with numbers and strings.
- Exceptions are an `Outcome` or `Result` value that names the Python
  exception class.

Modules:

| file | module | models |
|---|---|---|
| common.dfy | PyText | Option/Result, bytes, big-endian numbers, `str` helpers, decimal text, string order |
| sorting.dfy | Sorting | a stable sort by a total preorder (`sorted`, `list.sort`) |
| fuzz.dfy | Fuzz | `EqualWithFuzz`, `MatchWithFuzzByHour` |
| log_state.dfy | LogStates | `KindleLogState` and the duration maps |
| events.dfy | BookEvents | book events, their order, `_CoalesceLast`, `_FixPosition` |
| sessions.dfy | Sessions | `KindleBook.reads` |
| kindle_book.dfy | KindleBooks | the `KindleBook` class |
| power_states.dfy | PowerStates | `_StateTransition`, `_TrackReboot`, `_TrackPowerState` |
| time_normalizer.dfy | TimeNormalizer | `_CalculateTime`, `_SwitchTimezone`, `_HandleJump`, `_CheckJump` |
| log_lines.dfy | LogLines | `_ParseTimestamp`, the per-line dispatch of `_ParseFile`, the book hand-off |
| kindle_log.dfy | LogFiles | the `KindleLog` class |
| corpus.dfy | Corpus | `KindleLogs` as values: `ProcessFiles`, `ProcessDirectory`, `GetStates`, `books` |
| kindle_logs.dfy | LogCorpus | the `KindleLogs` class |
| apnx.dfy | PageLabels | `PageNumberScheme` and `PageLabelIndex` |
| apnx_file.dfy | ApnxSidecar, ApnxFiles | `BinaryFile` and `ApnxFile` |
| mobibook.dfy | MobiFormat, MobiBooks | `MobiBook` |
| kindle_stats.dfy | KindleStats | `FormatHMS`, `PrintHMS`, `PrintBooks` |

## Model

| member | source | states |
|---|---|---|
| PyText.BigEndian | apnx_parser.py:255-258 | `struct.unpack('>…')` of w bytes is an unsigned value below 256^w |
| PyText.BigEndianBytes | apnx_parser.py:255-258 | `struct.pack('>…')`: w bytes whose big-endian value is n (the inverse of BigEndian) |
| PyText.BigEndianTwo | apnx_parser.py:263-264 | `>H` of two bytes is a*256+b |
| PyText.BigEndianFour | apnx_parser.py:266-267 | `>I` of four bytes is the usual base-256 number |
| PyText.BigEndianSnoc | apnx_parser.py:255-258 | one more byte shifts the value by eight bits |
| PyText.StripLeft | apnx_parser.py:148 | drops exactly the leading whitespace |
| PyText.StripRight | mobibook.py:157 | drops exactly the trailing whitespace |
| PyText.Find | apnx_parser.py:167-172 | `str.index`, with -1 for its ValueError: the first occurrence at or after `from`, or -1 when there is none |
| PyText.Split | log_parser.py:826 | `str.split(sep, maxsplit)`: at least one piece and at most maxsplit+1 |
| PyText.SplitNoSeparator | log_parser.py:187-191 | a string without the separator is one piece |
| PyText.DigitsRoundTrip | kindle_stats.py:25 | `int` reads back the digits `'%d'` writes for a natural number |
| PyText.ParseIntExtendsDecimal | apnx_parser.py:74 | Python 2 `int()` reads every signed decimal `float()` reads, to the same value, and also allows blanks after the sign |
| PyText.BlankAfterSign | apnx_parser.py:74 | `int('- 5') == -5`, while the stricter reading that `float()` uses refuses `'- 5'` |
| PyText.DecimalRoundTrip | log_parser.py:188-191 | `int('%d' % i) == i` for every integer, negative ones included, and `float` reads the text back too |
| PyText.LexLeTotal | log_parser.py:822 | Python 2 string order is total |
| PyText.LexLeTransitive | log_parser.py:822 | Python 2 string order is transitive |
| PyText.LexLeAntisymmetric | log_parser.py:822 | Python 2 string order is antisymmetric |
| Sorting.SortBy | log_parser.py:216 | `sort()` keeps the length |
| Sorting.SortByPermutes | log_parser.py:216 | `sort()` returns a permutation of its input |
| Sorting.SortBySorted | log_parser.py:240 | for a total preorder the result is in order |
| Sorting.SortByOfSorted | log_parser.py:240 | input already in order is returned unchanged |
| Sorting.SortByStable | log_parser.py:240 | the sort is stable: the elements tied with any x appear in the result in their input order |
| Sorting.SortedUnique | log_parser.py:240 | under an antisymmetric order there is one sorted arrangement of a multiset |
| Fuzz.EqualWithFuzz | log_parser.py:24-28 | true exactly when the two times are equal or lie strictly less than `fuzz` seconds apart |
| Fuzz.EqualWithFuzzSymmetric | log_parser.py:24-28 | the comparison does not depend on argument order |
| Fuzz.EqualWithFuzzOneIsEquality | log_parser.py:24-28 | with integer timestamps a fuzz of 1 is plain equality |
| Fuzz.MatchWithFuzzByHour | log_parser.py:30-42 | a result is one of ref, ref - 1h (only when ref > 1h) or ref + 1h and lies within 300 s of value; None exactly when no candidate does; ref itself wins when it matches |
| Fuzz.MatchIsUnique | log_parser.py:30-42 | any candidate that matches is the answer: the search order never decides it |
| Fuzz.MatchExamples | log_parser.py:31-37 | the four docstring examples: (3600,3600)->3600, (3600,3601)->3600, (3600,3901)->None, (3600,7200)->7200 |
| LogStates.AddTo | log_parser.py:662-673 | `setdefault(k, 0); d[k] += amount`: the keys gain k, k's entry grows by the amount, every other entry is unchanged |
| LogStates.SumValuesAddTo | log_parser.py:662-673 | adding an amount to one entry adds exactly that amount to the total of all durations |
| LogStates.Plus | log_parser.py:877-883 | entry-wise sum of two duration maps: the union of the keys, each entry the sum of both sides (0 where absent) |
| LogStates.SumValuesPlus | log_parser.py:877-883 | the total of the summed map is the sum of the two totals |
| BookEvents.EventLeIsTotalPreorder | log_parser.py:240-241 | the order `sorted(self.events)` uses (time, then event code, then position with None first) is total and transitive |
| BookEvents.EventLeIsAntisymmetric | log_parser.py:240-241 | two events the order cannot tell apart are equal |
| BookEvents.SortEvents | log_parser.py:215-216 | the sorted events are in that order and are a permutation of the input |
| BookEvents.SortEventsOrderIndependent | log_parser.py:215-216 | sorting gives the same list for any two orders of the same events |
| BookEvents.Coalesced | log_parser.py:169-183 | the new last event always has the new kind |
| BookEvents.CoalesceMerge | log_parser.py:173-181 | when the last event is within the fuzz (or a matching old event within old_fuzz), the list keeps its length and earlier events, and the last event takes the earlier time, the new kind and its old position |
| BookEvents.CoalesceAppend | log_parser.py:171-183 | otherwise exactly one event is appended, carrying the previous last position (None for a book's first event) |
| BookEvents.CoalesceOneSecond | log_parser.py:174 | with integer times the one-second fuzz merges exactly equal times |
| BookEvents.PutDownMergesIntoRecentClose | log_parser.py:202-203 | PutDown also absorbs a CLOSE from less than 15 seconds before |
| BookEvents.FixPosition | log_parser.py:185-195 | a position with a blank raises ValueError only when its last word is not a number; a position without a blank never raises |
| BookEvents.FixPositionOfDecimal | log_parser.py:185-195 | a position written as a decimal integer reads back as that integer |
| BookEvents.FixPositionFallback | log_parser.py:190-195 | unparsable text without a blank is position 0 |
| BookEvents.WithLastPosition | log_parser.py:199-200 | an empty position changes nothing; otherwise only the last event's position is replaced by the parsed one, and it fails exactly when parsing raises |
| BookEvents.Record | log_parser.py:197-213 | PickUp/Open/Close: the events are those of Coalesced except that a non-empty position that parses is set on the last event, which has the given kind; it fails exactly when the position does not parse, leaving the coalesced events |
| BookEvents.BookLength | log_parser.py:161-166 | an empty length is 0; a failure needs a blank in the text |
| Sessions.OptMin | log_parser.py:278 | Python 2 `min` on optional positions: the result is one of the two and below both, None counting as smallest |
| Sessions.AppendRead | log_parser.py:253-282 | a candidate under two minutes (ten when read backwards) leaves the list unchanged; otherwise the list grows by at most one, earlier sessions are untouched, and an appended session is the candidate itself; the only error is the TypeError of a None time in the gap test |
| Sessions.MergedAccepted | log_parser.py:276-279 | merging two accepted sessions, the second read forwards, gives an accepted forward session |
| Sessions.ContinuationMerges | log_parser.py:268-280 | a forward candidate that resumes where the last session stopped, or starts within two minutes of its end, replaces the last session by the merge (earliest start, lower start position, later end, summed time) |
| Sessions.NonContinuationAppends | log_parser.py:276-282 | an accepted candidate that does not continue, or reads backwards, is appended as a session of its own |
| Sessions.AppendReadKeepsAccepted | log_parser.py:253-282 | a list of accepted sessions stays accepted, and stays closed when the candidate has an end |
| Sessions.Accrue | log_parser.py:298-299 | reading time grows by `ts - start` only after PICK_UP or OPEN; a None start there is a TypeError |
| Sessions.Step | log_parser.py:285-311 | one turn of the loop over sorted events; its only failure is TypeError |
| Sessions.Fold | log_parser.py:284-311 | the loop over all events; its only failure is TypeError |
| Sessions.Finish | log_parser.py:312-313 | a session still in hand (a truthy `first`) is offered with no end time |
| Sessions.ReadsOf | log_parser.py:239-314 | `reads`: fold over the sorted events, then offer the open session; its only failure is TypeError |
| Sessions.FoldKeepsSessions | log_parser.py:284-311 | the loop keeps every stored session accepted and closed, and stores at most one per PUT_DOWN |
| Sessions.ReadsAreAccepted | log_parser.py:239-314 | every session lasted two minutes (ten when read backwards), only the last may lack an end, and there is at most one session per PUT_DOWN plus one |
| Sessions.FinishKeepsSessions | log_parser.py:312-314 | the session still in hand can only be the last one |
| Sessions.ReadsOrderIndependent | log_parser.py:239-314 | the sessions depend only on which events there are, not on the order they were stored in |
| Sessions.PickUpRestartsSession | log_parser.py:285-289 | a second PICK_UP discards the earlier candidate: the example events give one 290-second session |
| Sessions.ShortReadDiscarded | log_parser.py:255-257 | thirty seconds in hand gives no session |
| Sessions.BackwardReadThreshold | log_parser.py:258-261 | reading backwards, five minutes are discarded and eleven are kept |
| Sessions.ShortGapMerges | log_parser.py:271-279 | two sessions a minute apart are reported as one of 600 seconds |
| KindleBooks.KindleBook.constructor | log_parser.py:161-166 | a new book keeps its asin and its already-read length and has no events |
| KindleBooks.KindleBook.CoalesceLast | log_parser.py:169-183 | the event list becomes the coalesced list: the last event merged in place or one event appended |
| KindleBooks.KindleBook.SetLastPosition | log_parser.py:199-200 | an empty position changes nothing; otherwise the last event's position is replaced, and a position that raises leaves the list as it was after coalescing |
| KindleBooks.KindleBook.PickUp | log_parser.py:197-200 | events and outcome are those of `Record` for PICK_UP: coalesce, then set the position |
| KindleBooks.KindleBook.PutDown | log_parser.py:202-203 | coalesce a PUT_DOWN that also absorbs a CLOSE under 15 seconds old |
| KindleBooks.KindleBook.Open | log_parser.py:205-208 | events and outcome are those of `Record` for OPEN |
| KindleBooks.KindleBook.Close | log_parser.py:210-213 | events and outcome are those of `Record` for CLOSE |
| KindleBooks.KindleBook.UpdateEvents | log_parser.py:215-224 | the other list is sorted in place and appended (a book merged with itself doubles its sorted events); the reading sessions of the result equal those of both lists together |
| KindleBooks.KindleBook.Reads | log_parser.py:238-314 | the loop over the sorted events computes exactly the sessions `ReadsOf` specifies, or its TypeError |
| KindleBooks.ReadStep | log_parser.py:284-311 | one loop turn on the loop's locals equals `Step` |
| KindleBooks.NewBook | log_parser.py:161-166 | the constructor raises ValueError exactly when the length text does not parse; otherwise a fresh book with that length and no events |
| PowerStates.StateTransition | log_parser.py:662-673 | the time since the current state was entered is added to that state's duration (other durations unchanged), the transition is recorded, the new state (the old one for an empty name) starts at ts, and total durations minus the current state's start stay the same |
| PowerStates.DurationAccounting | log_parser.py:662-673 | transitions A->B->C->(same) charge exactly t1-t0 to A, t2-t1 to B, t3-t2 to C and record three transitions |
| PowerStates.TrackReboot | log_parser.py:609-630 | consumes the line exactly when it is a kernel banner, or an init/boot-finished marker while in KERNEL_BOOT or INITSCRIPTS; a consumed line starts a new state now; an unconsumed one changes nothing |
| PowerStates.TrackPowerState | log_parser.py:632-660 | a state change before any power state is not consumed and changes nothing; otherwise the device ends in the `to` state entered now, and a matching `from` is a single transition |
| PowerStates.MismatchAtStartRelabels | log_parser.py:646-650 | a mismatched `from` at the file's assumed start relabels that state, so its time is charged to `from` and one transition is recorded |
| PowerStates.MismatchElsewhereSplits | log_parser.py:651-658 | elsewhere a mismatch inserts a transition to `from` at the floor-division midpoint, recording two transitions |
| PowerStates.TrackingConserves | log_parser.py:609-673 | every move of the power-state machine keeps the durations telescoping (total minus current state's start is invariant) |
| TimeNormalizer.CalculateTime | log_parser.py:536-561 | without a baseline nothing changes; with one, the corrected time lies as far after the good time as the raw time lies after the bad time, and the call exits exactly when that is more than 120 days |
| TimeNormalizer.CalculateTimeKeepsDifferences | log_parser.py:536-561 | two lines corrected under one baseline keep their distance |
| TimeNormalizer.SwitchTimezone | log_parser.py:563-577 | the pending zone becomes current, the negated jump and the old zone are remembered, the pending change is cleared and the time moves back by the jump; nothing else changes |
| TimeNormalizer.HandleJump | log_parser.py:490-534 | without a baseline the jump starts one and the line lands on the last good time; a raw time within 0..120 days of the good time clears the baseline; its only failure is SystemExit |
| TimeNormalizer.LastRawTime | log_parser.py:432-440 | under a baseline the last time is taken back to the device clock, keeping its distance from the anchors; a last time before the good time exits |
| TimeNormalizer.Classify | log_parser.py:443-484 | the branch `_CheckJump` takes, tested in the source's order; a timezone switch needs a pending change and a straggler a remembered one |
| TimeNormalizer.CheckJump | log_parser.py:425-488 | the corrected line keeps a power state and the file start; its only failure is SystemExit |
| TimeNormalizer.TimezoneSwitchesOnce | log_parser.py:443-449 | a line showing the announced jump switches zone once: pending cleared, the jump remembered negated, the time moved back |
| TimeNormalizer.StragglerCorrectedWithoutStateChange | log_parser.py:450-461 | a line still in the old zone is moved by the remembered jump and changes nothing else |
| TimeNormalizer.UnexplainedJumpStartsBaseline | log_parser.py:492-500 | the first unexplained jump anchors a baseline at (last good time, this raw time) and places the line at the last good time |
| TimeNormalizer.ReturnToRealityClearsBaseline | log_parser.py:502-511 | a jump back to within 120 days of the good time clears the baseline; later lines keep their raw times |
| TimeNormalizer.SecondJumpRebases | log_parser.py:513-534 | a second jump re-anchors the baseline at the last corrected time and this raw time |
| TimeNormalizer.FileGapRecordsNoData | log_parser.py:463-470 | a file starting more than 30 minutes after the last line records NO_DATA at the last time and at this time and keeps the line's time |
| TimeNormalizer.SteadyLineUnchanged | log_parser.py:478-488 | an ordinary line without a baseline is left as it is |
| LogLines.ParseTimestamp | log_parser.py:370-381 | -1 exactly for a line without a timestamp; ValueError exactly for a malformed date; otherwise the zone's epoch time, with times before the epoch read as 0 |
| LogLines.NewLog | log_parser.py:350-368 | a new log is unparsed, has no start, end, transitions, durations or books, and works on the state handed over or a fresh one |
| LogLines.EnsureBook | log_parser.py:707-711 | an existing book is kept as it is; otherwise a book with no events is filed under the asin, other books unchanged; it raises exactly when the book is new and its length does not parse |
| LogLines.HeldBook | log_parser.py:707-711 | `_EnsureBook(asin, None)` never raises |
| LogLines.RecordOn | log_parser.py:197-213 | only the named book changes, by `Record` |
| LogLines.PutDownOn | log_parser.py:202-203 | only the named book changes, by a PUT_DOWN |
| LogLines.BookletTransition | log_parser.py:713-726 | never touches the tracked state, parse flag or end |
| LogLines.BookTransition | log_parser.py:728-754 | changes at most the held book among the tracked state, and can only raise ValueError |
| LogLines.TrackBook | log_parser.py:685-705 | a booklet switch, else book info, else a position sync; only the held book of the state may change; only ValueError |
| LogLines.Dispatch | log_parser.py:408-415 | the trackers leave a power state, the line time, the file start and the last line time unchanged; only ValueError, and a timezone change the library refuses raises it with the log unchanged |
| LogLines.TrackStates | log_parser.py:408-414 | raises ValueError exactly when no earlier tracker takes the line and its timezone change is one the library refuses; otherwise the line is consumed exactly when it has a state change, a reboot marker that counts, or a timezone change (which becomes the pending change), and an unconsumed line changes nothing |
| LogLines.Started | log_parser.py:396-399 | the first line sets the file start and, when no power state has a time yet, assumes NO_DATA from now |
| LogLines.Admit | log_parser.py:386-407 | after timestamp, clock correction and start, a line that goes on has a power state and a time not before the file start; the only errors are ValueError and SystemExit |
| LogLines.StepLine | log_parser.py:385-415 | one loop turn keeps a power state once the file has started; its only errors are ValueError and SystemExit |
| LogLines.Handle | log_parser.py:408-415 | a line handled without raising becomes the last line processed |
| LogLines.ParseLines | log_parser.py:385-415 | the loop up to the first line that raises, keeping the between-lines invariant |
| LogLines.FinishParse | log_parser.py:418-423 | raises ValueError, changing nothing, exactly when no line was ever processed; otherwise closes the current state at the last line's time, sets the end and the last file name and marks the log parsed |
| LogLines.ParseFile | log_parser.py:383-423 | a parse that does not raise leaves the log parsed; the only errors are ValueError and SystemExit |
| LogLines.Demanded | log_parser.py:756-772 | `start`, `end` and `state` parse an unparsed log first and leave a parsed one alone |
| LogLines.PowerStateBeforeReboot | log_parser.py:408-410 | a line that is both a state change and a kernel banner is taken by the power-state tracker |
| LogLines.EarlyLineKeepsCorrection | log_parser.py:400-403 | a line before the file start is dropped after the clock corrector has updated the carried state; the last line time stays |
| LogLines.UnstampedLineSkipped | log_parser.py:388-391 | a line without a timestamp changes only the current time |
| LogLines.RejectedTimezoneAborts | log_parser.py:385-415 | a timezone change the library refuses, on a line no earlier tracker takes, raises ValueError out of the loop and the file fails to parse |
| LogLines.NoValidLines | log_parser.py:383-419 | a file with no timestamped line raises exactly when no line was processed before it, and leaves the state and books as they were |
| LogLines.BookInfoPicksUp | log_parser.py:733-736 | book info while no book is held picks it up at the line's time |
| LogLines.BookInfoSwitchesBooks | log_parser.py:738-743 | another asin puts the held book down and picks the new one up, both at the line's time |
| LogLines.BookInfoReopens | log_parser.py:744-745 | the held asin again opens it at the new position |
| LogLines.PositionSync | log_parser.py:746-750 | a position sync closes the held book at that position, and does nothing with no book held |
| LogLines.BookletSwitch | log_parser.py:713-726 | with no book held nothing changes; switching to the reader opens the held book, away from it closes it, anything else adds no event |
| LogLines.StepLineConserves | log_parser.py:385-415 | once the power state has a time, a line keeps the durations telescoping |
| LogLines.AdmitConserves | log_parser.py:386-407 | admitting a line does not break the telescoping of durations |
| LogLines.CheckJumpConserves | log_parser.py:425-488 | the clock corrector keeps the telescoping, including the NO_DATA transitions of a file gap |
| LogLines.TrackingConservesDispatch | log_parser.py:408-415 | the trackers keep the telescoping |
| LogLines.ParseConserves | log_parser.py:383-423 | once a file has started, parsing the rest of it and the closing transition keep the telescoping: recorded durations grow by exactly the time spent in each state |
| LogFiles.KindleLog.constructor | log_parser.py:350-368 | a new log holds the value `NewLog` describes, with no books |
| LogFiles.KindleLog.EnsureBook | log_parser.py:707-711 | returns the book filed under the asin, creating it as `LogLines.EnsureBook` says; on ValueError nothing changes; existing book objects are kept |
| LogFiles.KindleLog.RecordOnBook | log_parser.py:197-213 | PickUp/Open/Close on the filed book object change the books exactly as `RecordOn` |
| LogFiles.KindleLog.PutDownBook | log_parser.py:202-203 | PutDown on the filed book object changes the books exactly as `PutDownOn` |
| LogFiles.KindleLog.BookletTransition | log_parser.py:713-726 | the log afterwards is `LogLines.BookletTransition` of the log before |
| LogFiles.KindleLog.PickUpBook | log_parser.py:733-736 | the held book becomes the asin, which is picked up |
| LogFiles.KindleLog.SwitchBook | log_parser.py:738-743 | the held book is put down, then the asin is held and picked up |
| LogFiles.KindleLog.BookInfo | log_parser.py:729-745 | a book-info line acts as `LogLines.BookTransition` |
| LogFiles.KindleLog.BookTransition | log_parser.py:728-754 | the log and outcome afterwards are those of `LogLines.BookTransition` |
| LogFiles.KindleLog.TrackBook | log_parser.py:685-705 | the log and outcome afterwards are those of `LogLines.TrackBook` |
| LogFiles.KindleLog.Dispatch | log_parser.py:408-414 | the log and outcome afterwards are those of `LogLines.Dispatch` |
| LogFiles.KindleLog.TrackStates | log_parser.py:408-413 | the consumed flag, tracked state and outcome are those of `LogLines.TrackStates`; a refused timezone change leaves the tracked state as it was; the books are untouched |
| LogFiles.KindleLog.Admit | log_parser.py:386-407 | the fields and the outcome match `LogLines.Admit` |
| LogFiles.KindleLog.ProcessLine | log_parser.py:385-415 | one loop iteration acts as `StepLine` |
| LogFiles.KindleLog.Handle | log_parser.py:408-415 | the trackers, then the line becomes the last line processed, as `LogLines.Handle` |
| LogFiles.KindleLog.FinishParse | log_parser.py:418-423 | the end of parsing acts as `LogLines.FinishParse` |
| LogFiles.KindleLog.ParseFile | log_parser.py:383-423 | the loop over the lines leaves the log and outcome `LogLines.ParseFile` describes |
| LogFiles.KindleLog.Demand | log_parser.py:756-772 | parse on first use, as `Demanded` |
| LogFiles.KindleLog.Start | log_parser.py:756-760 | parses on first use, then the file start or the parse's error |
| LogFiles.KindleLog.End | log_parser.py:762-766 | parses on first use, then the file end or the parse's error |
| LogFiles.KindleLog.State | log_parser.py:768-772 | parses on first use, then the consistent carried state or the parse's error |
| Corpus.OpenLog | log_parser.py:862 | a new log on the file, handed the carried state |
| Corpus.DemandLog | log_parser.py:756-772 | reading a lazy property parses an unparsed log and leaves a parsed one alone; only ValueError or SystemExit |
| Corpus.StartLeIsTotalPreorder | log_parser.py:776-778 | `cmp` on starts (None first) is a total preorder, so `sort` is well defined |
| Corpus.SortByStart | log_parser.py:872 | the logs sorted by start: ordered and a permutation of the input |
| Corpus.SortByStartOk | log_parser.py:872 | sorting keeps every log's state consistent |
| Corpus.DemandFrom | log_parser.py:776-778 | the comparisons read each log's `start` in turn, stopping at the first that raises; afterwards every log is parsed, or the error is ValueError/SystemExit; all-parsed logs are left alone |
| Corpus.DemandAll | log_parser.py:872-875 | sorting with its comparisons leaves every log parsed or raises |
| Corpus.Report | log_parser.py:872-875 | the logs end up parsed and sorted by start; an empty list raises IndexError exactly; other errors come from parsing |
| Corpus.Take | log_parser.py:862-864 | the log is appended before it is parsed; the state moves on exactly when the parse succeeds |
| Corpus.ProcessFilesLoop | log_parser.py:861-869 | the loop swallows ValueError and keeps going; SystemExit stops it; at most one log per input |
| Corpus.ProcessFiles | log_parser.py:853-875 | on success the logs are non-empty, all parsed and sorted by start; failures are IndexError, ValueError or SystemExit |
| Corpus.ProcessFilesIntendedLoop | log_parser.py:861-869 | the loop with a log that raised ValueError dropped |
| Corpus.ProcessFilesIntended | log_parser.py:853-875 | as ProcessFiles, with failed logs dropped |
| Corpus.IntendedKeepsOnlyParsed | log_parser.py:853-875 | with failed logs dropped every log kept is parsed, and only an empty list (IndexError) or SystemExit can fail |
| Corpus.ReportOfParsed | log_parser.py:872-875 | for parsed logs the summary is just the sort |
| Corpus.EmptyFileFails | log_parser.py:418-419 | a file with no lines and no carried state raises ValueError and stays unparsed |
| Corpus.OneLineFileParses | log_parser.py:383-423 | a file of one timestamped line parses |
| Corpus.FailedLogEscapes | log_parser.py:853-875 | an empty file followed by a good file: as written the ValueError escapes from the sort, while dropping the failed log succeeds |
| Corpus.NameLeIsTotalPreorder | log_parser.py:822 | byte-wise name order is a total preorder |
| Corpus.SortByName | log_parser.py:822 | the directory listing sorted by name and a permutation of it |
| Corpus.DirectoryEntry | log_parser.py:823-849 | one directory entry: a non-log goes on unchanged; a failed unpacking stops with an error; otherwise the state stays consistent |
| Corpus.DropLast | log_parser.py:830-835 | the retraction removes exactly one of two or more logs; an empty list raises IndexError; other errors come from the lazy parses |
| Corpus.DirectoryLoop | log_parser.py:822-849 | the loop keeps every log's state consistent |
| Corpus.ProcessDirectory | log_parser.py:815-851 | on success the logs are non-empty, parsed and sorted by start |
| Corpus.AlreadyProcessedSkipped | log_parser.py:826-829 | a log named no later than the last file handed on is skipped unparsed but its sequence is remembered |
| Corpus.NonLogIgnored | log_parser.py:823-824 | entries not starting `messages_` are ignored |
| Corpus.NewerCopyRetracts | log_parser.py:830-835 | a newer copy of the last log drops it and hands on the state of the log before |
| Corpus.TotalDurationsSum | log_parser.py:877-883 | the grand total of GetStates is the sum of each file's total |
| Corpus.TotalDurationsKeys | log_parser.py:877-883 | a state appears in GetStates iff some file has a duration for it |
| Corpus.Owner | log_parser.py:897-898 | the first log holding the book is the copy that is kept; it exists iff there are merged events |
| Corpus.MergedNone | log_parser.py:893-900 | a book is merged iff some log holds it |
| Corpus.MergedIsUnion | log_parser.py:893-900 | the merged events are exactly all events of all copies |
| Corpus.NoCopiesNoEvents | log_parser.py:893-900 | with no copy there are no events |
| Corpus.AsinsMerged | log_parser.py:893-900 | every asin some log holds gets merged events |
| Corpus.MergedCopy | log_parser.py:893-900 | the copy in each log keeps its length; logs not yet reached are unchanged |
| Corpus.MergeStep | log_parser.py:895-896 | `UpdateEvents` on the first copy: it grows by the other copy's events (a permutation of both), the other copy is sorted in place, and no other log changes |
| Corpus.MergeIntoFirst | log_parser.py:895-896 | a later copy of a book already listed is one MergeStep into the first copy |
| Corpus.MergeFirstCopy | log_parser.py:897-898 | the first copy of a book is kept as it is |
| Corpus.MergedUpToStart | log_parser.py:893-894 | before the loop nothing is merged |
| Corpus.MergedUpToNext | log_parser.py:894-895 | after all books of a log, the next log begins |
| Corpus.MergedBooks | log_parser.py:893-900 | one entry per asin held by some log, carrying the merged events |
| Corpus.BooksFail | log_parser.py:901-905 | `books` raises TypeError iff the reads of some book's merged events raise |
| Corpus.BooksListed | log_parser.py:901-905 | a book is listed iff some log holds it and its merged events give at least one read |
| Corpus.BookListedIsFirstCopy | log_parser.py:893-906 | the book listed is the first copy as the loop leaves it, holding exactly the events of all copies |
| Corpus.MergedReadsOrderFree | log_parser.py:893-906 | the reads of a merged book do not depend on the order its copies were merged in |
| LogCorpus.KindleLogs.constructor | log_parser.py:811-813 | no logs and no state to hand on |
| LogCorpus.KindleLogs.DemandFile | log_parser.py:756-772 | reading a lazy property of the i-th log changes that log alone, as `DemandLog` |
| LogCorpus.KindleLogs.Take | log_parser.py:862-864 | appends the log, parses it, and hands its state on only on success, as `Corpus.Take` |
| LogCorpus.KindleLogs.ProcessFiles | log_parser.py:853-875 | the loop and the summary leave the logs and outcome `Corpus.ProcessFiles` describes |
| LogCorpus.KindleLogs.Report | log_parser.py:872-875 | reads every log, sorts by start, and raises IndexError on an empty list, as `Corpus.Report` |
| LogCorpus.KindleLogs.ReadAll | log_parser.py:872 | the sort's comparisons parse the logs in turn until one raises, as `DemandAll` |
| LogCorpus.KindleLogs.ProcessDirectory | log_parser.py:815-851 | the loop over the sorted directory and the summary act as `Corpus.ProcessDirectory` |
| LogCorpus.KindleLogs.Entry | log_parser.py:823-849 | one directory entry acts as `DirectoryEntry` |
| LogCorpus.KindleLogs.DropLast | log_parser.py:830-835 | pops the last log and hands on the previous log's state, as `Corpus.DropLast` |
| LogCorpus.KindleLogs.GetStates | log_parser.py:877-883 | the totals are `TotalDurations` of the logs: each state's time summed over all logs |
| LogCorpus.AddDurations | log_parser.py:880-882 | the inner loop adds a log's durations into the totals entry-wise (`Plus`) |
| LogCorpus.KindleLogs.Books | log_parser.py:893-906 | the logs end as `BooksAfter` (first copies extended, later copies sorted in place) and the result is `BooksOf`: the merged books with at least one read, or TypeError |
| LogCorpus.KindleLogs.MergeAll | log_parser.py:894-898 | the nested loop leaves every log merged and the dictionary pointing at each book's first copy |
| LogCorpus.KindleLogs.MergeLog | log_parser.py:895-898 | the books of one log, merged one at a time |
| LogCorpus.KindleLogs.MergeBook | log_parser.py:895-898 | a listed book takes in the new copy; a new one is listed with this log's copy |
| LogCorpus.KindleLogs.UpdateEvents | log_parser.py:215-224 | the later copy is sorted in place and appended to the first, as `MergeStep` |
| LogCorpus.KindleLogs.Prune | log_parser.py:900-905 | deleting books with no reads leaves `BooksOf`, or raises TypeError |
| LogCorpus.PruneFails | log_parser.py:901-903 | a merged book whose reads raise makes `books` raise TypeError |
| LogCorpus.PruneKeeps | log_parser.py:900-906 | when no book raises, `books` keeps exactly the books with at least one read |
| LogCorpus.HeldAreMerged | log_parser.py:893-899 | the dictionary the loop builds holds exactly the merged books |
| LogCorpus.HeldKeys | log_parser.py:893-899 | the dictionary has every asin some log holds |
| LogCorpus.HeldCopy | log_parser.py:893-899 | the copy the dictionary keeps for a book is its merged copy |
| PageLabels.ParseScheme | apnx_parser.py:72-85 | a parsed scheme starts one page long; Custom labels number from 1 and are never an empty list; Integer labels number from 0 |
| PageLabels.SchemeOfParts | apnx_parser.py:73-85 | the same, once the definition is split on ','; a missing field is IndexError, a non-integer ValueError, an unknown type ApnxException |
| PageLabels.BlankAfterSignInScheme | apnx_parser.py:73-85 | `int()` reads the first page of the definition `- 5,a,1` as -5, so the scheme starts at page -5 |
| PageLabels.SetLast | apnx_parser.py:87-92 | succeeds exactly when the new last page is not before the first, and then changes only the last page; otherwise ApnxException |
| PageLabels.LabelAtOffset | apnx_parser.py:94-105 | Arabic gives first label + offset as an int; Integer gives ''; Custom gives the label at that index, '' past the end, a Python negative index from the end, and raises exactly below minus the count |
| PageLabels.JoinSplit | apnx_parser.py:82 | splitting '|'-joined labels gives the labels back |
| PageLabels.SchemeRoundTrip | apnx_parser.py:72-85 | parsing the written-out definition of a definable scheme gives that scheme |
| PageLabels.PartsRoundTrip | apnx_parser.py:74-85 | the constructor reads the written-out fields back into the scheme |
| PageLabels.UnknownSchemeType | apnx_parser.py:75-77 | a type character other than r, a, i, c is refused with ApnxException |
| PageLabels.CloseLast | apnx_parser.py:175-176 | closing the previous scheme keeps the number of schemes |
| PageLabels.NextScheme | apnx_parser.py:163-181 | one turn reads a one-page scheme and moves strictly forward, at most to the end |
| PageLabels.NextSchemeCases | apnx_parser.py:163-181 | a missing '(' or ')' is ApnxException, a bad definition raises its own error, a good one is read up to the ')' and one ',' |
| PageLabels.ParseFromStep | apnx_parser.py:162-181 | a turn that does not fail reads a scheme, closes the previous one and continues past it |
| PageLabels.ParseFromNext | apnx_parser.py:162-181 | a turn that reads a scheme and can close the previous continues past it |
| PageLabels.ParseFromStops | apnx_parser.py:162-181 | a failing turn ends the loop with its exception |
| PageLabels.ParseFromOpen | apnx_parser.py:162-181 | the loop keeps the schemes a chain, each ending the page before the next begins, and reads one scheme per turn |
| PageLabels.ParseIndexCases | apnx_parser.py:147-185 | a blank map or negative count is ApnxException; a loop error propagates; no scheme at all is AttributeError; otherwise it succeeds exactly when the last scheme can close at the page count |
| PageLabels.IndexTiled | apnx_parser.py:147-185 | a constructed index tiles its pages from the first scheme's first page to the page count without gap or overlap, so the sort keeps the order |
| PageLabels.ClosedTiled | apnx_parser.py:182 | closing the newest scheme at the page count completes the tiling |
| PageLabels.ChainSorted | apnx_parser.py:183 | a chain is already sorted by first page |
| PageLabels.MapParses | apnx_parser.py:162-181 | the loop over the page map written from ascending definable schemes reads them back, chained |
| PageLabels.MapRoundTrip | apnx_parser.py:147-185 | constructing an index from the page map of ascending definable schemes gives those schemes, each closed before the next and the last at the page count |
| PageLabels.LastStartingBy | apnx_parser.py:190-193 | the last scheme whose first page is at most the page, or none when every scheme starts later |
| PageLabels.SchemeCovers | apnx_parser.py:187-193 | a page has a scheme iff it is a page of the book at or after the first scheme's first page, and it is the scheme whose range holds the page |
| PageLabels.PageLabels | apnx_parser.py:195-207 | every page of a constructed index has a label, and an Arabic page is labelled first label + distance from the scheme's first page |
| PageLabels.LastPageOfType | apnx_parser.py:209-217 | 0 or the largest last page among schemes of that type, bounding them all |
| PageLabels.LargestLabelIsLast | apnx_parser.py:226-233 | the intended largest label is the last label of the Arabic scheme that ends last |
| PageLabels.LargestLabelOffByOne | apnx_parser.py:226-233 | for `(1,a,1)` and ten pages the code as written gives '' where the last label is 10 |
| PageLabels.LargestLabelNextScheme | apnx_parser.py:226-233 | for `(1,a,1),(5,r,1)` and ten pages the code as written gives the first Roman label where the last Arabic label is 4 |
| PageLabels.BisectRight | apnx_parser.py:191 | `bisect_right`: every element before the result is at most x, every one from it on is above x |
| PageLabels.PageLabelIndex.constructor | apnx_parser.py:182-185 | sorting the tiled schemes keeps them, the first pages are listed alongside, and the cache is empty |
| PageLabels.PageLabelIndex.GetSchemeForPage | apnx_parser.py:187-193 | the bisection finds `SchemeFor`: the scheme with the greatest first page at most the page, or None |
| PageLabels.PageLabelIndex.GetLabelForPage | apnx_parser.py:195-207 | the label of ordinal page `page + 1`; the cache gains that page only when it was not cached and has a scheme, and every cached label stays correct |
| PageLabels.PageLabelIndex.FindLastPageOfType | apnx_parser.py:209-217 | the loop computes `LastPageOfType` |
| PageLabels.PageLabelIndex.ArabicOnly | apnx_parser.py:219-224 | true iff every scheme is Arabic |
| PageLabels.PageLabelIndex.LargestPageLabel | apnx_parser.py:226-233 | the label the code as written returns, with the cache updated as GetLabelForPage does |
| PageLabels.ReadSchemes | apnx_parser.py:160-181 | the constructor's loop computes `ParseFrom` |
| PageLabels.NewPageLabelIndex | apnx_parser.py:147-185 | succeeds exactly when `ParseIndex` does, with its error otherwise; a new index holds the tiled schemes and an empty cache |
| ApnxSidecar.Slice | apnx_parser.py:269-272 | a byte-string slice: as many bytes as remain, at most n, each the byte at that offset from the start |
| ApnxSidecar.Unpacked | apnx_parser.py:255-258 | an n-byte big-endian read moves the cursor by n even when it fails; it fails with struct.error exactly when fewer than n bytes remain, and the value fits in n bytes |
| ApnxSidecar.UInts | apnx_parser.py:300-301 | the header's offset loop reads `count` u32 values and ends 4·count bytes on, or raises struct.error exactly when the data runs out |
| ApnxSidecar.PositionAt | apnx_parser.py:363-369 | `_ReadPosition`: the only exception is struct.error |
| ApnxSidecar.PositionIsUnpack | apnx_parser.py:363-369 | reading w bytes one at a time and shifting each in gives the w-byte big-endian value and the same error |
| ApnxSidecar.CheckPagePosition | apnx_parser.py:378-382 | a position is refused, with ApnxException, exactly when it exceeds MAX_IN_MEMORY_POSITION (2147483647) |
| ApnxSidecar.Positions | apnx_parser.py:355-361 | the page loop gives one position per page and ends width·count bytes on; its errors are struct.error or ApnxException |
| ApnxSidecar.HeaderAt | apnx_parser.py:290-312 | a decoded header has version 1 and one offset per edition; its errors are struct.error or ApnxException |
| ApnxSidecar.EditionBody | apnx_parser.py:329-347 | a decoded edition has a width of at most 32 bits and its data starts where the JSON ends |
| ApnxSidecar.EditionAt | apnx_parser.py:318-347 | an edition's errors are struct.error or ApnxException (format other than 1, width over 32) |
| ApnxSidecar.PyIndex | apnx_parser.py:316 | a Python list index is valid iff it is within -n..n-1, and then names i or n + i |
| ApnxSidecar.CheckEditionIndex | apnx_parser.py:371-376 | passes iff 0 <= idx < number of editions, otherwise ApnxException |
| ApnxSidecar.ReadHeader | apnx_parser.py:290-312 | keeps the object consistent with the bytes; passes exactly when the header is then read; does nothing when it was read before |
| ApnxSidecar.ReadFormatVersion | apnx_parser.py:314-320 | keeps the object consistent; a pass means the header is read and the index is in range; a header read before stays |
| ApnxSidecar.FinishEdition | apnx_parser.py:323-347 | the format check and the edition body keep the object consistent and mark the edition read on success |
| ApnxSidecar.ReadEdition | apnx_parser.py:322-347 | as written: keeps the object consistent; a pass means the header is read and the Python index names a read edition |
| ApnxSidecar.ReadEditionIntended | apnx_parser.py:314-347 | with the header read and the index checked first, a pass means the edition at idx is read |
| ApnxSidecar.ReadEditionPositions | apnx_parser.py:349-361 | keeps the object consistent; a pass means the indexed edition's positions are decoded |
| ApnxSidecar.IntendedEdition | apnx_parser.py:314-347 | read as intended, an edition passes iff the header decodes, the index is in range and the edition decodes at its offset; it then holds the decoded fields, and a failure carries the first error |
| ApnxSidecar.EditionReadOnce | apnx_parser.py:323-324 | once `_ReadEdition` has passed, a second call passes and changes nothing |
| ApnxSidecar.EditionBeforeHeader | apnx_parser.py:322-324 | on a fresh object `_ReadEdition` raises AttributeError for any good sidecar, where the intended order reads the edition |
| ApnxSidecar.IndexBeyondEditions | apnx_parser.py:314-347 | an index past the last edition raises IndexError as written and ApnxException as intended |
| ApnxSidecar.MinusOneIsLastEdition | apnx_parser.py:314-347 | index -1 passes as written once the last edition is read, while the index check refuses it |
| ApnxSidecar.EncodeAll | apnx_parser.py:363-369 | writer written only as the inverse for the round-trip lemmas, modelling no source code: w bytes per position, which the cited reader reads |
| ApnxSidecar.EncodeHeader | apnx_parser.py:290-312 | writer written only as the inverse for the round-trip lemmas, modelling no source code: a header is 8 bytes, 4 per offset, then the metadata, as the cited reader expects |
| ApnxSidecar.EncodeEdition | apnx_parser.py:322-347 | writer written only as the inverse for the round-trip lemmas, modelling no source code: an edition header is 8 bytes and then the JSON, as the cited reader expects |
| ApnxSidecar.UnpackEncoded | apnx_parser.py:255-258 | unpacking bytes written big-endian gives the value back |
| ApnxSidecar.UIntsEncoded | apnx_parser.py:300-301 | the offset loop reads back the offsets that were written |
| ApnxSidecar.PositionsEncoded | apnx_parser.py:355-361 | the page loop reads back positions that were written, when none exceeds the in-memory limit |
| ApnxSidecar.HeaderFields | apnx_parser.py:293-303 | each field of an encoded header reads back in turn |
| ApnxSidecar.HeaderRoundTrip | apnx_parser.py:290-312 | `_ReadHeader` decodes an encoded header, whatever follows it, and stops at its end |
| ApnxSidecar.EditionFields | apnx_parser.py:320-341 | each field of an encoded edition reads back in turn |
| ApnxSidecar.EditionRoundTrip | apnx_parser.py:318-347 | an encoded edition with a width of at most 32 decodes to its page count, width and JSON, with its data right after |
| ApnxFiles.BinaryFile.constructor | apnx_parser.py:250-253 | the whole file, its length as the end, the cursor at 0 |
| ApnxFiles.BinaryFile.Unpack | apnx_parser.py:255-258 | the read and the new cursor are those of `Unpacked` |
| ApnxFiles.BinaryFile.ReadByte | apnx_parser.py:260-261 | a one-byte `Unpacked` |
| ApnxFiles.BinaryFile.ReadUShort | apnx_parser.py:263-264 | a two-byte big-endian `Unpacked` |
| ApnxFiles.BinaryFile.ReadUInt | apnx_parser.py:266-267 | a four-byte big-endian `Unpacked` |
| ApnxFiles.BinaryFile.ReadBytes | apnx_parser.py:269-272 | the `Slice` from the cursor, and the cursor moved by n even past the end |
| ApnxFiles.ApnxFile.constructor | apnx_parser.py:285-288 | the fresh state: cursor 0, no header read |
| ApnxFiles.ApnxFile.ReadHeader | apnx_parser.py:290-312 | the new state and outcome are those of `ApnxSidecar.ReadHeader` |
| ApnxFiles.ApnxFile.ReadOffsets | apnx_parser.py:299-301 | the loop of ReadUInt computes `UInts` |
| ApnxFiles.ApnxFile.ReadEditionFormatVersion | apnx_parser.py:314-320 | the new state and outcome are those of `ReadFormatVersion` |
| ApnxFiles.ApnxFile.ReadEdition | apnx_parser.py:322-347 | the new state and outcome are those of `ApnxSidecar.ReadEdition` |
| ApnxFiles.ApnxFile.FinishReadEdition | apnx_parser.py:325-347 | the rest of `_ReadEdition` computes `FinishEdition` |
| ApnxFiles.ApnxFile.ReadEditionPositions | apnx_parser.py:349-361 | the new state and outcome are those of `ApnxSidecar.ReadEditionPositions` |
| ApnxFiles.ApnxFile.ReadPositions | apnx_parser.py:357-360 | the page loop computes `Positions` |
| ApnxFiles.ApnxFile.ReadPosition | apnx_parser.py:363-369 | the byte loop computes `PositionAt` |
| ApnxFiles.ApnxFile.GetEditionPaginationFormat | apnx_parser.py:384-386 | the format read by `ReadFormatVersion`, or its exception |
| ApnxFiles.ApnxFile.GetEditionPageCount | apnx_parser.py:388-390 | the page count of the edition `ReadEdition` read, or its exception |
| ApnxFiles.ApnxFile.GetEditionJSON | apnx_parser.py:392-394 | the JSON of the edition `ReadEdition` read, or its exception |
| ApnxFiles.ApnxFile.GetPagePositions | apnx_parser.py:396-399 | the positions `ReadEditionPositions` decoded, or its exception |
| ApnxFiles.ApnxFile.HeaderVersion | apnx_parser.py:401-404 | the version of the header `ReadHeader` read, or its exception |
| ApnxFiles.ApnxFile.HeaderMetadata | apnx_parser.py:406-409 | the metadata of the header `ReadHeader` read, or its exception |
| ApnxFiles.ApnxFile.NumEditions | apnx_parser.py:411-414 | the edition count of the header `ReadHeader` read, or its exception |
| MobiFormat.Range | mobibook.py:134-141 | a Python slice `s[lo:hi]`: as many elements as lie between the bounds within the sequence, each the element at that offset |
| MobiFormat.Field | mobibook.py:68-69 | a struct unpack of n bytes at `at` succeeds iff they are all there, with struct.error otherwise, and fits in n bytes |
| MobiFormat.Unpack | mobibook.py:169-179 | `struct.unpack` accepts content exactly as long as the format and raises struct.error otherwise |
| MobiFormat.Chars | mobibook.py:145 | a Python 2 byte string read as text, one character per byte |
| MobiFormat.SectionAt | mobibook.py:129-132 | section i's entry is read iff its 8 bytes after the 78-byte header are present; its offset fits in 4 bytes and its unique id in 3 |
| MobiFormat.Sections | mobibook.py:128-132 | n entries are read iff the table fits in the file (or n is 0), each the entry `SectionAt` reads |
| MobiFormat.SectionTable | mobibook.py:124-132 | the table has the count given by the u16 at header offset 76, or the read raises struct.error |
| MobiFormat.LoadSection | mobibook.py:134-141 | a section loads iff it is in the table, IndexError otherwise |
| MobiFormat.EncodeSection | mobibook.py:129-131 | writer written only as the inverse for the round-trip lemmas, modelling no source code: a section entry is 8 bytes, as the cited reader expects |
| MobiFormat.SectionEncoded | mobibook.py:129-131 | an encoded entry reads back as the section |
| MobiFormat.SectionsEncoded | mobibook.py:124-132 | an encoded table reads back as its sections |
| MobiFormat.SectionsSnoc | mobibook.py:128-132 | the loop's step: one more entry extends the table |
| MobiFormat.SectionsTile | mobibook.py:134-141 | with ascending offsets, loading the sections one after the other from section k gives every byte from k's offset to the end of the file |
| MobiFormat.ReadMobiFields | mobibook.py:80-94 | the MOBI header fields are read iff record 0 reaches 0xB8 (and 0xF4 when length >= 0xE4 and version >= 5); each is the big-endian value at its offset, the extra data flags only read in that case |
| MobiFormat.MobiHeader | mobibook.py:80-100 | fails iff the fields fail, with struct.error; the PalmDB part is kept, the EXTH offset is the MOBI length + 16, and without the 0x40 flag the metadata is unchanged |
| MobiFormat.MobiHeaderExth | mobibook.py:97-100 | with the EXTH flag, the metadata is the fully read EXTH block or empty |
| MobiFormat.ExthMetaCases | mobibook.py:97-100 | no flag keeps the metadata; a fully read block gives its records; otherwise the metadata is emptied |
| MobiFormat.ReadPalmDoc | mobibook.py:67-69 | record 0 and its compression and text record count, read iff section 0 loads and holds at least 10 bytes |
| MobiFormat.PalmDb | mobibook.py:53-77 | MobiException iff the magic is neither BOOKMOBI nor TEXtREAd; otherwise the section table, record 0 and the defaults, with the first image after the text records |
| MobiFormat.Open | mobibook.py:53-78 | a book keeps what the PalmDB part read; a TEXtREAd book is exactly that |
| MobiFormat.PalmDbSteps | mobibook.py:56-74 | the PalmDB part stage by stage, with the first error winning |
| MobiFormat.OpenCases | mobibook.py:76-78 | an error, or TEXtREAd, stops after the PalmDB part; BOOKMOBI goes on to the MOBI header |
| MobiFormat.MagicChecked | mobibook.py:58-60 | opening raises MobiException iff the magic is neither BOOKMOBI nor TEXtREAd |
| MobiFormat.MetadataNeedsExth | mobibook.py:72-100 | a BOOKMOBI book with metadata has the EXTH flag set and an EXTH block read to the end |
| MobiFormat.ExthRecords | mobibook.py:109-115 | at most n records, exactly n when none was cut short |
| MobiFormat.ScanStoreIsStore | mobibook.py:111-122 | storing each record as it is read equals reading the records and then storing them in order |
| MobiFormat.ProcessExth | mobibook.py:102-119 | None iff the block does not start with 'EXTH', and then the metadata is unchanged |
| MobiFormat.StoreKeys | mobibook.py:121-122 | after storing, the keys are the old keys plus the record types |
| MobiFormat.StoreLastWins | mobibook.py:121-122 | a type's stored content is that of its last record |
| MobiFormat.StoreUntouched | mobibook.py:121-122 | a key no record names keeps its content |
| MobiFormat.EncodeRecord | mobibook.py:112-113 | writer written only as the inverse for the round-trip lemmas, modelling no source code: a record is an 8-byte header and its content, as the cited reader expects |
| MobiFormat.RecordEncoded | mobibook.py:112-113 | an encoded record's type, size and content read back |
| MobiFormat.RecordsEncoded | mobibook.py:109-115 | encoded records read back completely |
| MobiFormat.RecordsStep | mobibook.py:111-115 | the loop's step: one record, then the rest |
| MobiFormat.ExthRoundTrip | mobibook.py:102-119 | `processEXTH` on an encoded EXTH block stores its records and returns True |
| MobiFormat.ExthValue | mobibook.py:163-185 | as written: '' for no content, the decimal value of 4 bytes; struct.error iff the size is 9, 10 or 12; AttributeError for any other size |
| MobiFormat.ExthValueIntended | mobibook.py:163-185 | content of 1, 2 or 4 bytes gives its decimal value, none gives '', anything else AttributeError |
| MobiFormat.OneByteValue | mobibook.py:171-173 | a one-byte value is refused as written and decoded as intended |
| MobiFormat.IntendedValueRoundTrip | mobibook.py:163-185 | every value of 1, 2 or 4 bytes is decoded back as intended |
| MobiFormat.Attribute | mobibook.py:143-149 | a string name always answers, '' when no record of its type; an unknown name is AttributeError |
| MobiFormat.AttributeIsLastRecord | mobibook.py:121-145 | after an EXTH block is stored, a string attribute is the last record of its type |
| MobiFormat.RecordTitle | mobibook.py:155-156 | the record 0 title is readable iff record 0 reaches 0x5C, struct.error otherwise |
| MobiFormat.HeaderTitle | mobibook.py:159-160 | the fallback title is a prefix of the stripped PalmDB name holding no NUL |
| MobiFormat.Title | mobibook.py:151-161 | fails only with struct.error, when there is no UpdatedTitle and record 0 is too short |
| MobiFormat.TitleChoice | mobibook.py:151-161 | the title is the stripped UpdatedTitle if non-empty, else the stripped record 0 title if there was no UpdatedTitle and it is non-empty, else the PalmDB name |
| MobiFormat.BlankUpdatedTitle | mobibook.py:153-159 | an all-whitespace UpdatedTitle skips the record 0 title and falls back to the PalmDB name |
| MobiBooks.MobiBook.constructor | mobibook.py:56 | the file's bytes, no metadata, no sections |
| MobiBooks.MobiBook.Open | mobibook.py:53-78 | a book exactly when `MobiFormat.Open` gives one, holding its fields, and otherwise its exception |
| MobiBooks.MobiBook.Load | mobibook.py:57-78 | passes iff `MobiFormat.Open` succeeds, the fields then being its book |
| MobiBooks.MobiBook.ReadPalmDb | mobibook.py:57-74 | passes iff `PalmDb` succeeds, the fields then being its book |
| MobiBooks.MobiBook.ReadMagic | mobibook.py:57-60 | the header and magic; passes iff the magic is BOOKMOBI or TEXtREAd, MobiException otherwise |
| MobiBooks.MobiBook.ReadRecord0 | mobibook.py:67-70 | record 0 and its fields are those `ReadPalmDoc` reads, with the first image after the text records |
| MobiBooks.MobiBook.ResetMobiHeader | mobibook.py:71-74 | the defaults before the MOBI header |
| MobiBooks.MobiBook.ParseSections | mobibook.py:124-132 | the loop builds `SectionTable` and the section count |
| MobiBooks.MobiBook.ParseMobiHeader | mobibook.py:80-100 | passes iff `ReadMobiFields` does; the fields are its values and the metadata is `ExthMeta` |
| MobiBooks.MobiBook.ProcessExth | mobibook.py:102-119 | the metadata and the return value are those of `MobiFormat.ProcessExth` |
| MobiBooks.MobiBook.StoreRecords | mobibook.py:110-115 | the record loop computes `ScanStore` |
| MobiBooks.MobiBook.StoreExth | mobibook.py:121-122 | the content stored under its type |
| KindleStats.FormatHMS | kindle_stats.py:24-37 | succeeds iff the text splits on ':' (at most twice) into three integers, ValueError otherwise |
| KindleStats.FormatReadBack | kindle_stats.py:26-37 | the text read back gives the hours and the minutes rounded up when more than 30 seconds are left |
| KindleStats.HourReadBack | kindle_stats.py:29-37 | with a positive hour the text is "h hour[s], m min[s]" and reads back as (h, rounded m) |
| KindleStats.MinuteReadBack | kindle_stats.py:34-37 | with no hours the text is "m min[s]" and reads back as (0, rounded m) |
| KindleStats.TwoDigits | kindle_stats.py:41-42 | `%02d`: two digits whose value is n |
| KindleStats.FormatClock | kindle_stats.py:24-44 | `FormatHMS` reads every timedelta clock text into its hours, minutes and seconds |
| KindleStats.ClockSplit | kindle_stats.py:25 | a clock text splits on ':' into the hours and the two two-digit fields |
| KindleStats.PrintHMS | kindle_stats.py:40-47 | its only exception is ValueError |
| KindleStats.PrintHmsNearest | kindle_stats.py:40-47 | never fails, and reads back as days, hours below 24 and minutes within 30 seconds of the duration |
| KindleStats.PrintSameDay | kindle_stats.py:43-44 | under a day, `FormatHMS` of the clock text |
| KindleStats.PrintWithDays | kindle_stats.py:45-47 | with days, the day prefix, ', ' and `FormatHMS` of the clock text |
| KindleStats.ReadSameDay | kindle_stats.py:43-44 | a text without days reads back as 0 days, the hours and the rounded minutes |
| KindleStats.ReadWithDays | kindle_stats.py:45-47 | a text with days reads back as those days, the hours and the rounded minutes |
| KindleStats.MaxEnd | kindle_stats.py:88 | `max` over the reads' ends, `now` for one in progress: at least each, equal to one |
| KindleStats.Entries | kindle_stats.py:79-89 | one entry per selected book (every book when no book is named), keyed by its newest end, 0 without reads |
| KindleStats.BeforeTotal | kindle_stats.py:93 | the reverse order of the (newest, asin) keys is total and transitive, so the sort is well defined |
| KindleStats.TotalTimeAppend | kindle_stats.py:116 | the total over two listings is the sum of their totals |
| KindleStats.TotalTimePermutation | kindle_stats.py:93-116 | the total does not depend on the listing order |
| KindleStats.TotalTimeMiddle | kindle_stats.py:116 | removing one entry removes its reading time from the total |
| KindleStats.PrintBooks | kindle_stats.py:75-132 | the books are listed as a permutation of the selected entries, newest first, and the total is their reading time |
| KindleStats.ListBooks | kindle_stats.py:79-89 | the first loop builds `Entries` |
| KindleStats.SumReadingTime | kindle_stats.py:105-116 | the reading-time loop sums `TotalTime` |

## Left out

- BookEvents.FixPosition: reads the number with integer parsing, not `int(float(x))`, so a fractional or exponent position differs. On "1.5" the source gives 1 and the model Ok(0). On "p 2.5" the source gives 2 and the model Err(ValueError). Python float parsing is not modelled. Like `float()`, the model refuses a blank after the sign, which `int()` allows.
- LogStates.TzJump: the `jump` is a whole number of seconds. The source uses the float `timedelta.total_seconds()` of the zone offsets (log_parser.py:579-607).
- LogLines.Line: the regular expressions (`TS_REGEXP`, `STATE_CHANGE_RE`, the reboot patterns, `TZ_CHANGE`, `BOOKLET_CHANGE_RE`, `BOOK_CHANGE_RE`, `LPR_RE`) are not modelled. A line is given by what each pattern matches and captures. For a timezone change, the timezone library is not modelled either: the line carries the jump already worked out from the two zones, or says that the library refuses the change. That refusal stands for every ValueError `_TrackTimezone` can raise, and the log then fails to parse as in the source.
- LogLines.ParseTimestamp: `time.strptime` and the pytz localisation are the `Clock` parameter, which maps a zone and a local time to epoch seconds. A date that does not parse is the `BadDate` stamp.
- Corpus.ProcessFiles: the clock and the timestamp parsing are the opaque `Clock` parameter. The files are given as names with their lines, since file reading is not modelled. Corpus.ProcessDirectory and the LogCorpus class take the same parameter.
- Corpus.DemandFrom: the parse that `list.sort` triggers through `KindleLog.__cmp__` and the lazy `start` property is modelled as each log being read in list order before sorting. CPython's sort compares in an order of its own. Here the first log that raises ends the sort, and which log that is may differ.
- Corpus.SortByStart: ties are kept in list order. Both Python sorts are stable. In `PrintBooks`, ties on key and ASIN would fall through to comparing book objects, and the model treats such entries as equal.
- KindleStats.PrintBooks: `now` is an integer with `requires now != 0`. The source uses the float `time.time()`, which is never 0 on a running device. Each book's `reads` is evaluated beforehand and given as `BookReads`. Everything printed is left out: `time.ctime`, titles via `GetBookMetadata`, page labels via `GetPageLabelForPosition`, and the verbose event listing. The total is computed even when one book is named, where the source computes it but does not print it.
- KindleStats.PrintHMS: takes whole seconds. Timedelta microseconds, which `str(timedelta)` would print after the seconds, are dropped.
- MobiBooks.MobiBook: for a 'TEXtREAd' file the model sets `exthOff` and the DRM fields to 0. In the source these attributes are never assigned and reading them raises AttributeError.
- MobiBooks.MobiBook.ProcessExth: the callback is fixed to `storeEXTH`, the only one the source passes. Logging inside the `except` is dropped.
- ApnxSidecar.ReadHeader: when a read inside `_ReadHeader` raises, only the cursor moves in the model. The source may already have assigned the version, the count or some offsets. `_metadataRead` and `_edition_read` are set only after every read, so each later call reads the header again and no result differs.
- `_ts_correction_str`, `_log_prefix`, `_debug`/`_info`/`_warn`, `FormatTime`, `FormatStates`, `__str__`, `__repr__`, `logname` and `EventToString`: they only build debug or display text, and no modelled result depends on them. `_fatal` is modelled as the SystemExit outcome.
- `LoadHistory`, `StoreHistory` (pickle), `PrintStates`, `ParseOptions`, `SetVerbosity` and every `main`: file I/O, persistence, logging configuration and the command line. This includes `json.loads` of the edition JSON in the sidecar mains.
- `GetBookMetadata` (kindle_stats.py:49-72): directory listing and file opening around the `MobiBook` and `ApnxFile` constructors, which are modelled.
- Integer widths: Python integers are unbounded, as in the model. Struct fields are decoded from their exact byte count, so their bounds are stated (`Pow256`).

## Findings

| source | as written | input that shows it | evidently intended | confidence | as-written member | corrected member |
|---|---|---|---|---|---|---|
| log_parser.py:853-875 | `ProcessFiles` appends each log to `files` before parsing it and only logs the ValueError of a bad log. The bad log stays in the list, so the closing `self.files.sort()` compares its lazy `start`, which parses it again and raises the same ValueError out of `ProcessFiles`. | a log with no timestamped line followed by a good one-line log, with no state carried in | a log that cannot be parsed is skipped, and the good log is processed | not executed | Corpus.ProcessFiles (shown by Corpus.FailedLogEscapes) | Corpus.ProcessFilesIntended (proved by Corpus.IntendedKeepsOnlyParsed and Corpus.FailedLogEscapes) |
| apnx_parser.py:226-233 | `largest_page_label` passes the 1-based last page number to `GetLabelForPage`, which takes a 0-based index. It labels the page after the last Arabic page: '' when that page is past the book's end, otherwise the first label of the scheme that follows. | the page map `(1,a,1)` with 10 pages gives '' instead of 10; the page map `(1,a,1),(5,r,1)` with 10 pages gives 'Roman(1)' instead of 4 | the label of the last page of the Arabic scheme that ends last | not executed | PageLabels.LargestLabelAsWritten (shown by PageLabels.LargestLabelOffByOne and PageLabels.LargestLabelNextScheme) | PageLabels.LargestLabel (proved by PageLabels.LargestLabelIsLast) |
| apnx_parser.py:322-347 | `_ReadEdition` reads `_edition_read[edition_idx]` before `_ReadEditionFormatVersion` has read the header or checked the index. | a fresh `ApnxFile` on a good sidecar: AttributeError. Index `num_editions`: IndexError instead of the ApnxException of `_CheckEditionIndex`. Index -1 once the last edition is read: it passes. | the header read and the index checked first, as `_ReadEditionFormatVersion` does | not executed | ApnxSidecar.ReadEdition (shown by ApnxSidecar.EditionBeforeHeader, ApnxSidecar.IndexBeyondEditions, ApnxSidecar.MinusOneIsLastEdition) | ApnxSidecar.ReadEditionIntended (proved by ApnxSidecar.IntendedEdition) |
| mobibook.py:163-185 | `returnEXTHValue` tests the content size for 9, 10 and 12, which are the sizes of whole records with 1, 2 and 4 content bytes. It unpacks 1, 2 and 4 bytes from content of that size, which raises struct.error. Content of 1 or 2 bytes is refused with AttributeError. | a StartOffset record whose content is the single byte 5 | content of 1, 2 or 4 bytes decoded as a big-endian number ("5") | not executed: the struct.error follows from the code; that 1, 2 and 4 content bytes were meant is inferred from the record sizes | MobiFormat.ExthValue (shown by MobiFormat.OneByteValue) | MobiFormat.ExthValueIntended (proved by MobiFormat.IntendedValueRoundTrip) |

=== FILE: apnx.dfy ===
/** Page labels of one edition of a book (apnx_parser.py:31-240). A page map
    such as `(1,r,1),(7,a,1),(300,c,Index|Notes)` says from which ordinal page
    each numbering scheme applies; a PageLabelIndex parses it and answers,
    for an ordinal page, which scheme covers it and which label the printed
    book shows there. */
module PageLabels {
  import opened PyText
  import Sorting

  /** `PageLabelType`: the four numbering styles. */
  datatype LabelType = Roman | Arabic | Integer | Custom

  /** `PageLabelType.FromChar`: None for any other character. */
  function FromChar(c: char): (r: Option<LabelType>) {
    if c == 'r' then Some(Roman)
    else if c == 'a' then Some(Arabic)
    else if c == 'i' then Some(Integer)
    else if c == 'c' then Some(Custom)
    else None
  }

  /** A page label: an int for Arabic numbering, a str for the others. */
  datatype Label = Number(n: int) | Text(s: string)

  /** `PageNumberScheme`: the ordinal pages it covers, its style, the label
      of its first page and, for Custom, the labels themselves. */
  datatype Scheme = Scheme(first: int, last: int, kind: LabelType, firstLabel: int, custom: seq<string>)

  // ------------------------------------------------------------ a scheme

  /** `PageNumberScheme(scheme_def)` for a definition `first,type[,label]`. */
  function ParseScheme(def: string): (r: Result<Scheme>)
    ensures r.Ok? ==> r.value.last == r.value.first
    ensures r.Ok? && r.value.kind == Custom ==> r.value.firstLabel == 1 && r.value.custom != []
    ensures r.Ok? && r.value.kind == Integer ==> r.value.firstLabel == 0
  {
    SchemeOfParts(Split(def, ",", -1))
  }

  /** The constructor once the definition is split on ',': Custom labels are
      split on '|' and number from 1, Integer labels from 0, the others from
      the third field; the scheme starts out one page long. A missing field
      is an IndexError, a non-integer a ValueError. */
  function SchemeOfParts(parts: seq<string>): (r: Result<Scheme>)
    requires parts != []
    ensures r.Ok? ==> r.value.last == r.value.first
    ensures r.Ok? && r.value.kind == Custom ==> r.value.firstLabel == 1 && r.value.custom != []
    ensures r.Ok? && r.value.kind == Integer ==> r.value.firstLabel == 0
  {
    match ParseInt(parts[0])
    case None => Err(ValueError)
    case Some(first) =>
      if |parts| < 2 || parts[1] == [] then Err(IndexError)
      else
        match FromChar(parts[1][0])
        case None => Err(ApnxException)
        case Some(kind) =>
          if kind == Custom then
            if |parts| < 3 then Err(IndexError)
            else Ok(Scheme(first, first, Custom, 1, Split(parts[2], "|", -1)))
          else if kind == Integer then Ok(Scheme(first, first, Integer, 0, []))
          else if |parts| < 3 then Err(IndexError)
          else
            match ParseInt(parts[2])
            case None => Err(ValueError)
            case Some(number) => Ok(Scheme(first, first, kind, number, []))
  }

  /** `SetLastOrdinalPage(last_page)`: refused when the scheme would end
      before it starts. */
  function SetLast(s: Scheme, last: int): (r: Result<Scheme>)
    ensures r.Ok? <==> s.first <= last
    ensures r.Ok? ==> r.value == s.(last := last)
    ensures r.Err? ==> r.error == ApnxException
  {
    if last < s.first then Err(ApnxException) else Ok(s.(last := last))
  }

  /** The `last_page_label` property. */
  function LastPageLabel(s: Scheme): (r: int) {
    s.firstLabel + (s.last - s.first)
  }

  /** `GetLabelAtOffset(offset)`. A Custom scheme indexes its labels the
      Python way, so a negative index counts from the end and one below
      minus the count raises. */
  function LabelAtOffset(s: Scheme, offset: int): (r: Result<Label>)
    ensures s.kind == Arabic ==> r == Ok(Number(s.firstLabel + offset))
    ensures s.kind == Integer ==> r == Ok(Text(""))
    ensures s.kind == Custom && 0 <= s.firstLabel + offset - 1 < |s.custom|
            ==> r == Ok(Text(s.custom[s.firstLabel + offset - 1]))
    ensures s.kind == Custom && s.firstLabel + offset - 1 >= |s.custom| ==> r == Ok(Text(""))
    ensures r.Err? <==> s.kind == Custom && s.firstLabel + offset - 1 < -|s.custom|
  {
    var at := offset + s.firstLabel;
    match s.kind
    case Arabic => Ok(Number(at))
    case Roman => Ok(Text("Roman(" + IntToDecimal(at) + ")"))
    case Custom =>
      var k := at - 1;
      if k < |s.custom| then
        if k >= 0 then Ok(Text(s.custom[k]))
        else if k >= -|s.custom| then Ok(Text(s.custom[|s.custom| + k]))
        else Err(IndexError)
      else Ok(Text(""))
    case Integer => Ok(Text(""))
  }

  // ---------------------------------------------- writing a definition out

  function TypeChar(k: LabelType): (r: char) {
    match k
    case Roman => 'r'
    case Arabic => 'a'
    case Integer => 'i'
    case Custom => 'c'
  }

  /** `sep.join(labels)`. */
  function Join(labels: seq<string>, sep: char): (r: string) {
    if labels == [] then ""
    else if |labels| == 1 then labels[0]
    else labels[0] + [sep] + Join(labels[1..], sep)
  }

  /** The definition a page map holds for a scheme. */
  function Render(s: Scheme): (r: string) {
    IntToDecimal(s.first) + "," + [TypeChar(s.kind)]
    + (match s.kind
       case Integer => ""
       case Custom => "," + Join(s.custom, '|')
       case _ => "," + IntToDecimal(s.firstLabel))
  }

  /** A scheme a definition can describe: one page long, numbered as the
      parser numbers its type, and Custom labels free of the characters that
      delimit them. */
  predicate Definable(s: Scheme) {
    && s.last == s.first
    && match s.kind
       case Custom =>
         && s.firstLabel == 1 && s.custom != []
         && forall i :: 0 <= i < |s.custom| ==> ',' !in s.custom[i] && '|' !in s.custom[i] && ')' !in s.custom[i]
       case Integer => s.firstLabel == 0 && s.custom == []
       case _ => s.custom == []
  }

  lemma {:induction false} JoinAbsent(labels: seq<string>, sep: char, c: char)
    requires c != sep && forall i :: 0 <= i < |labels| ==> c !in labels[i]
    ensures c !in Join(labels, sep)
  {
    if |labels| > 1 {
      JoinAbsent(labels[1..], sep, c);
    }
  }

  /** Splitting joined labels gives the labels back. */
  lemma {:induction false} JoinSplit(labels: seq<string>, sep: char)
    requires labels != [] && forall i :: 0 <= i < |labels| ==> sep !in labels[i]
    ensures Split(Join(labels, sep), [sep], -1) == labels
  {
    if |labels| == 1 {
      SplitAbsent(labels[0], [sep], -1);
    } else {
      SplitAtSeparator(labels[0], [sep], Join(labels[1..], sep), -1);
      JoinSplit(labels[1..], sep);
      assert labels == [labels[0]] + labels[1..];
    }
  }

  lemma RenderNoParen(s: Scheme)
    requires Definable(s)
    ensures ')' !in Render(s)
  {
    DecimalChars(s.first, ')');
    DecimalChars(s.firstLabel, ')');
    if s.kind == Custom {
      JoinAbsent(s.custom, '|', ')');
    }
  }

  /** The fields of a written-out definition. */
  function RenderParts(s: Scheme): (r: seq<string>)
    ensures |r| >= 2 && r[0] == IntToDecimal(s.first) && r[1] == [TypeChar(s.kind)]
    ensures s.kind != Integer ==> |r| == 3
  {
    var d := IntToDecimal(s.first);
    var t := [TypeChar(s.kind)];
    match s.kind
    case Integer => [d, t]
    case Custom => [d, t, Join(s.custom, '|')]
    case _ => [d, t, IntToDecimal(s.firstLabel)]
  }

  lemma RenderSplits(s: Scheme)
    requires Definable(s)
    ensures Split(Render(s), ",", -1) == RenderParts(s)
  {
    hide Split, Find, IntToDecimal, Join;
    var d := IntToDecimal(s.first);
    var t := [TypeChar(s.kind)];
    DecimalChars(s.first, ',');
    match s.kind
    case Integer =>
      assert Render(s) == d + [','] + t;
      SplitAtSeparator(d, ",", t, -1);
      SplitAbsent(t, ",", -1);
    case Custom =>
      var j := Join(s.custom, '|');
      assert Render(s) == d + [','] + (t + [','] + j);
      SplitAtSeparator(d, ",", t + [','] + j, -1);
      SplitAtSeparator(t, ",", j, -1);
      JoinAbsent(s.custom, '|', ',');
      SplitAbsent(j, ",", -1);
    case _ =>
      var l := IntToDecimal(s.firstLabel);
      assert Render(s) == d + [','] + (t + [','] + l);
      SplitAtSeparator(d, ",", t + [','] + l, -1);
      SplitAtSeparator(t, ",", l, -1);
      DecimalChars(s.firstLabel, ',');
      SplitAbsent(l, ",", -1);
  }

  /** Parsing the written-out definition of a scheme gives the scheme. */
  lemma SchemeRoundTrip(s: Scheme)
    requires Definable(s)
    ensures ParseScheme(Render(s)) == Ok(s)
  {
    RenderSplits(s);
    PartsRoundTrip(s);
  }

  lemma PartsRoundTrip(s: Scheme)
    requires Definable(s)
    ensures SchemeOfParts(RenderParts(s)) == Ok(s)
  {
    hide ParseInt, ParseDecimal, Split, Join, IntToDecimal;
    var parts := RenderParts(s);
    DecimalRoundTrip(s.first);
    assert ParseInt(parts[0]) == Some(s.first);
    assert |parts| >= 2 && parts[1] == [TypeChar(s.kind)];
    assert FromChar(parts[1][0]) == Some(s.kind);
    match s.kind
    case Integer =>
    case Custom =>
      JoinSplit(s.custom, '|');
      assert Split(parts[2], "|", -1) == s.custom;
    case _ =>
      DecimalRoundTrip(s.firstLabel);
      assert ParseInt(parts[2]) == Some(s.firstLabel);
  }

  /** The first page and the first label are read by `int()`, which allows
      blanks after the sign: the definition `- 5,a,1` starts at page -5. */
  lemma BlankAfterSignInScheme()
    ensures SchemeOfParts(["- 5", "a", "1"]) == Ok(Scheme(-5, -5, Arabic, 1, []))
  {
    hide ParseInt, ParseDecimal;
    BlankAfterSign();
    DecimalRoundTrip(1);
    assert IntToDecimal(1) == "1";
  }

  /** A type character other than r, a, i and c is refused with
      ApnxException, whatever follows it. */
  lemma UnknownSchemeType(first: int, c: char, rest: string)
    requires FromChar(c).None? && c != ','
    ensures ParseScheme(IntToDecimal(first) + "," + [c] + rest) == Err(ApnxException)
  {
    hide ParseInt, ParseDecimal, Split;
    var d := IntToDecimal(first);
    DecimalChars(first, ',');
    DecimalRoundTrip(first);
    assert d + "," + [c] + rest == d + [','] + ([c] + rest);
    SplitAtSeparator(d, ",", [c] + rest, -1);
    SplitHead([c] + rest, ',', -1);
  }

  // ------------------------------------------------------------ the index

  /** The previous scheme, if any, is closed at `last`. */
  function CloseLast(acc: seq<Scheme>, last: int): (r: Result<seq<Scheme>>)
    ensures r.Ok? ==> |r.value| == |acc|
  {
    if acc == [] then Ok(acc)
    else
      match SetLast(acc[|acc| - 1], last)
      case Err(e) => Err(e)
      case Ok(s) => Ok(acc[|acc| - 1 := s])
  }

  /** Past the ')' that ends a definition, one ',' is skipped. */
  function SkipComma(m: string, pos: nat): (r: nat) {
    if pos < |m| && m[pos] == ',' then pos + 1 else pos
  }

  /** One turn of the constructor's loop at `pos`: the definition between
      the '(' there and the next ')', and the position past that ')' and
      one ','. */
  function NextScheme(m: string, pos: nat): (r: Result<(Scheme, nat)>)
    requires pos < |m|
    ensures r.Ok? ==> pos < r.value.1 <= |m|
    ensures r.Ok? ==> r.value.0.last == r.value.0.first
    ensures r.Ok? && r.value.0.kind == Custom ==> r.value.0.firstLabel == 1
  {
    if m[pos] != '(' then Err(ApnxException)
    else
      var end := Find(m, ")", pos + 1);
      if end == -1 then Err(ApnxException)
      else
        match ParseScheme(m[pos + 1..end])
        case Err(e) => Err(e)
        case Ok(s) => Ok((s, SkipComma(m, end + 1)))
  }

  /** The loop of the PageLabelIndex constructor from `pos` on, with the
      schemes read so far in `acc`. */
  function ParseFrom(m: string, pos: nat, acc: seq<Scheme>): (r: Result<seq<Scheme>>)
    requires pos <= |m|
    decreases |m| - pos
  {
    if pos == |m| then Ok(acc)
    else
      match NextScheme(m, pos)
      case Err(e) => Err(e)
      case Ok((s, next)) =>
        match CloseLast(acc, s.first - 1)
        case Err(e) => Err(e)
        case Ok(closed) => ParseFrom(m, next, closed + [s])
  }

  /** A loop turn that does not fail reads a scheme, closes the one before
      it and goes on past it. */
  lemma ParseFromStep(m: string, pos: nat, acc: seq<Scheme>)
    requires pos < |m| && ParseFrom(m, pos, acc).Ok?
    ensures NextScheme(m, pos).Ok?
    ensures CloseLast(acc, NextScheme(m, pos).value.0.first - 1).Ok?
    ensures ParseFrom(m, pos, acc)
            == ParseFrom(m, NextScheme(m, pos).value.1,
                         CloseLast(acc, NextScheme(m, pos).value.0.first - 1).value + [NextScheme(m, pos).value.0])
  {
    hide NextScheme;
  }

  predicate FirstLe(a: Scheme, b: Scheme) {
    a.first <= b.first
  }

  /** `PageLabelIndex(page_map, total_pages)`: the schemes it keeps, or the
      exception it raises. */
  function ParseIndex(m: string, total: int): (r: Result<seq<Scheme>>) {
    if m == [] || Strip(m) == [] then Err(ApnxException)
    else if total < 0 then Err(ApnxException)
    else
      match ParseFrom(m, 0, [])
      case Err(e) => Err(e)
      case Ok(parsed) =>
        if parsed == [] then Err(AttributeError)
        else
          match CloseLast(parsed, total)
          case Err(e) => Err(e)
          case Ok(closed) => Ok(Sorting.SortBy(closed, FirstLe))
  }

  /** Schemes in order, each ending before the next begins. */
  predicate Chain(ss: seq<Scheme>) {
    && (forall i :: 0 <= i < |ss| ==> ss[i].first <= ss[i].last)
    && (forall i, j :: 0 <= i < j < |ss| ==> ss[i].last < ss[j].first)
    && (forall i :: 0 <= i < |ss| - 1 ==> ss[i].last + 1 == ss[i + 1].first)
  }

  /** What the loop holds between definitions: a chain whose newest scheme
      is still one page long. */
  predicate Open(acc: seq<Scheme>) {
    Chain(acc) && (acc != [] ==> acc[|acc| - 1].last == acc[|acc| - 1].first)
  }

  /** Custom schemes number their labels from 1, as the parser sets them. */
  predicate Numbered(ss: seq<Scheme>) {
    forall i :: 0 <= i < |ss| ==> ss[i].kind == Custom ==> ss[i].firstLabel == 1
  }

  /** The schemes of a constructed index: they cover every ordinal page from
      the first scheme's first page to `total` without gap or overlap. */
  predicate Tiled(ss: seq<Scheme>, total: int) {
    ss != [] && Chain(ss) && ss[|ss| - 1].last == total && Numbered(ss)
  }

  lemma OpenStep(acc: seq<Scheme>, s: Scheme, closed: seq<Scheme>)
    requires Open(acc) && Numbered(acc) && s.last == s.first
    requires s.kind == Custom ==> s.firstLabel == 1
    requires CloseLast(acc, s.first - 1) == Ok(closed)
    ensures Open(closed + [s]) && Numbered(closed + [s])
  {
    if acc != [] {
      var n := |acc|;
      assert closed == acc[n - 1 := acc[n - 1].(last := s.first - 1)];
      var c := closed + [s];
      forall i, j | 0 <= i < j < |c|
        ensures c[i].last < c[j].first
      {
        if j == n && i < n - 1 {
          assert acc[i].last < acc[n - 1].first;
        }
      }
    }
  }

  /** The converse: a turn that reads a scheme and can close the one
      before it goes on past it. */
  lemma ParseFromNext(m: string, pos: nat, acc: seq<Scheme>, s: Scheme, next: nat, closed: seq<Scheme>)
    requires pos < |m| && NextScheme(m, pos) == Ok((s, next))
    requires CloseLast(acc, s.first - 1) == Ok(closed)
    ensures ParseFrom(m, pos, acc) == ParseFrom(m, next, closed + [s])
  {
    hide NextScheme;
  }

  lemma Associative(a: seq<Scheme>, b: seq<Scheme>, c: seq<Scheme>)
    ensures a + b + c == a + (b + c)
  {
  }

  /** The checks around the constructor's loop: a blank map or a negative
      page count is refused before it, an exception in it propagates, and
      after it the last scheme is closed at the page count. */
  lemma ParseIndexCases(m: string, total: int)
    ensures m == [] || Strip(m) == [] || total < 0 ==> ParseIndex(m, total) == Err(ApnxException)
    ensures m != [] && Strip(m) != [] && total >= 0 && ParseFrom(m, 0, []).Err?
            ==> ParseIndex(m, total) == Err(ParseFrom(m, 0, []).error)
    ensures m != [] && Strip(m) != [] && total >= 0 && ParseFrom(m, 0, []) == Ok([])
            ==> ParseIndex(m, total) == Err(AttributeError)
    ensures m != [] && Strip(m) != [] && total >= 0 && ParseFrom(m, 0, []).Ok? && ParseFrom(m, 0, []).value != []
            ==> ParseIndex(m, total).Ok? == CloseLast(ParseFrom(m, 0, []).value, total).Ok?
    ensures m != [] && Strip(m) != [] && total >= 0 && ParseFrom(m, 0, []).Ok? && ParseFrom(m, 0, []).value != []
            && CloseLast(ParseFrom(m, 0, []).value, total).Err?
            ==> ParseIndex(m, total) == Err(CloseLast(ParseFrom(m, 0, []).value, total).error)
  {
    hide ParseFrom, Strip, Sorting.SortBy;
  }

  /** A loop turn at `pos`: a missing '(' or ')' is an ApnxException, a
      definition that does not parse raises its own exception, and one that
      does is read up to the next ')' and one ','. */
  lemma NextSchemeCases(m: string, pos: nat)
    requires pos < |m|
    ensures m[pos] != '(' ==> NextScheme(m, pos) == Err(ApnxException)
    ensures m[pos] == '(' && Find(m, ")", pos + 1) == -1 ==> NextScheme(m, pos) == Err(ApnxException)
    ensures m[pos] == '(' && Find(m, ")", pos + 1) != -1
            ==> var end := Find(m, ")", pos + 1);
                && (ParseScheme(m[pos + 1..end]).Err? ==> NextScheme(m, pos) == Err(ParseScheme(m[pos + 1..end]).error))
                && (ParseScheme(m[pos + 1..end]).Ok?
                    ==> NextScheme(m, pos) == Ok((ParseScheme(m[pos + 1..end]).value, SkipComma(m, end + 1))))
  {
    hide ParseScheme, Find;
  }

  /** A loop turn that fails ends the loop with its exception. */
  lemma ParseFromStops(m: string, pos: nat, acc: seq<Scheme>)
    requires pos < |m|
    ensures NextScheme(m, pos).Err? ==> ParseFrom(m, pos, acc) == Err(NextScheme(m, pos).error)
    ensures NextScheme(m, pos).Ok? && CloseLast(acc, NextScheme(m, pos).value.0.first - 1).Err?
            ==> ParseFrom(m, pos, acc) == Err(CloseLast(acc, NextScheme(m, pos).value.0.first - 1).error)
  {
    hide NextScheme;
  }

  lemma ParseFromDone(m: string, acc: seq<Scheme>)
    ensures ParseFrom(m, |m|, acc) == Ok(acc)
  {
  }

  lemma EmptyPrefix(a: seq<Scheme>)
    ensures [] + a == a
  {
  }

  lemma {:induction false} ParseFromOpen(m: string, pos: nat, acc: seq<Scheme>)
    requires pos <= |m| && Open(acc) && Numbered(acc) && ParseFrom(m, pos, acc).Ok?
    ensures var r := ParseFrom(m, pos, acc).value;
            Open(r) && Numbered(r) && |r| >= |acc| && (pos < |m| ==> |r| > |acc|)
    decreases |m| - pos
  {
    hide ParseScheme, NextScheme, ParseFrom;
    if pos == |m| {
      ParseFromDone(m, acc);
    } else {
      ParseFromStep(m, pos, acc);
      var (s, next) := NextScheme(m, pos).value;
      var closed := CloseLast(acc, s.first - 1).value;
      OpenStep(acc, s, closed);
      ParseFromOpen(m, next, closed + [s]);
    }
  }

  lemma ChainSorted(ss: seq<Scheme>)
    requires Chain(ss)
    ensures Sorting.SortedBy(ss, FirstLe)
  {
  }

  /** A constructed index tiles its pages: the definitions must come in
      ascending order (a later one starting at or before an earlier one is
      refused), each scheme ends the page before the next one starts, and
      the last ends at `total`; so the constructor's sort keeps their order. */
  lemma IndexTiled(m: string, total: int)
    requires ParseIndex(m, total).Ok?
    ensures Tiled(ParseIndex(m, total).value, total)
    ensures ParseIndex(m, total).value == CloseLast(ParseFrom(m, 0, []).value, total).value
  {
    hide ParseFrom, Strip, Tiled, Sorting.SortBy;
    var parsed := ParseFrom(m, 0, []).value;
    ParseFromOpen(m, 0, []);
    var closed := CloseLast(parsed, total).value;
    ClosedTiled(parsed, total);
    ChainSorted(closed);
    Sorting.SortByOfSorted(closed, FirstLe);
  }

  /** Closing the newest scheme of an open chain at `total` tiles the pages
      up to `total`. */
  lemma ClosedTiled(parsed: seq<Scheme>, total: int)
    requires parsed != [] && Open(parsed) && Numbered(parsed) && CloseLast(parsed, total).Ok?
    ensures Tiled(CloseLast(parsed, total).value, total)
  {
    var closed := CloseLast(parsed, total).value;
    var n := |parsed|;
    assert closed == parsed[n - 1 := parsed[n - 1].(last := total)];
    assert Chain(closed) by {
      forall i, j | 0 <= i < j < n
        ensures closed[i].last < closed[j].first
      {
        assert parsed[i].last < parsed[j].first;
      }
    }
  }

  // ------------------------------------------------- the page-map format

  /** One definition of a page map, in its parentheses. */
  function Piece(s: Scheme): (r: string) {
    "(" + Render(s) + ")"
  }

  /** The page map listing `ss`: `(def),(def),...`. */
  function RenderMap(ss: seq<Scheme>): (r: string) {
    if ss == [] then ""
    else Piece(ss[0]) + (if |ss| == 1 then "" else "," + RenderMap(ss[1..]))
  }

  predicate Ascending(ss: seq<Scheme>) {
    forall i, j :: 0 <= i < j < |ss| ==> ss[i].first < ss[j].first
  }

  /** Each scheme closed at the page before the next one starts; the last
      keeps its one page. */
  function Chained(ss: seq<Scheme>): (r: seq<Scheme>)
    ensures |r| == |ss|
    ensures ss != [] ==> r[|r| - 1] == ss[|ss| - 1]
  {
    if |ss| <= 1 then ss
    else [ss[0].(last := ss[1].first - 1)] + Chained(ss[1..])
  }

  /** The newest scheme of `acc`, if any, ends at `last`. */
  function Shut(acc: seq<Scheme>, last: int): (r: seq<Scheme>) {
    if acc == [] then [] else acc[|acc| - 1 := acc[|acc| - 1].(last := last)]
  }

  /** A loop turn at a written-out definition reads that definition: it
      ends at the first ')' after it, since a definable scheme's text holds
      none. */
  lemma NextSchemeAt(m: string, pos: nat, s: Scheme, tail: string)
    requires Definable(s) && pos <= |m| && m[pos..] == Piece(s) + tail
    ensures NextScheme(m, pos) == Ok((s, SkipComma(m, pos + |Piece(s)|)))
  {
    hide ParseScheme, Render;
    var d := Render(s);
    RenderNoParen(s);
    assert m[pos] == m[pos..][0] == '(';
    forall k | pos + 1 <= k < pos + 1 + |d|
      ensures m[k] != ')'
    {
      assert m[k] == m[pos..][k - pos] == d[k - pos - 1];
    }
    assert m[pos + 1 + |d|] == m[pos..][1 + |d|] == ')';
    FindAt(m, ')', pos + 1, pos + 1 + |d|);
    assert m[pos + 1..pos + 1 + |d|] == d;
    SchemeRoundTrip(s);
  }

  /** Where the page map of `ss` sits in `m` at `pos`: its first piece,
      then either the end of `m` or a ',' and the map of the rest. */
  lemma MapAt(m: string, pos: nat, ss: seq<Scheme>)
    requires pos <= |m| && m[pos..] == RenderMap(ss) && ss != []
    ensures m[pos..] == Piece(ss[0]) + (if |ss| == 1 then "" else "," + RenderMap(ss[1..]))
    ensures |ss| == 1 ==> pos + |Piece(ss[0])| == |m|
    ensures |ss| > 1 ==> pos + |Piece(ss[0])| < |m| && m[pos + |Piece(ss[0])|] == ','
                         && m[pos + |Piece(ss[0])| + 1..] == RenderMap(ss[1..])
  {
    hide Piece;
    var p := Piece(ss[0]);
    if |ss| > 1 {
      assert m[pos + |p|] == m[pos..][|p|];
      assert m[pos + |p| + 1..] == m[pos..][|p| + 1..];
    }
  }

  lemma {:induction false} RenderedFrom(m: string, pos: nat, ss: seq<Scheme>, acc: seq<Scheme>)
    requires pos <= |m| && m[pos..] == RenderMap(ss) && ss != []
    requires forall i :: 0 <= i < |ss| ==> Definable(ss[i])
    requires Ascending(ss)
    requires acc != [] ==> acc[|acc| - 1].first < ss[0].first
    ensures ParseFrom(m, pos, acc) == Ok(Shut(acc, ss[0].first - 1) + Chained(ss))
    decreases |ss|
  {
    hide ParseScheme, NextScheme, ParseFrom, Render, RenderMap, Piece, Chained;
    MapAt(m, pos, ss);
    var p := Piece(ss[0]);
    var after := SkipComma(m, pos + |p|);
    var shut := Shut(acc, ss[0].first - 1);
    assert CloseLast(acc, ss[0].first - 1) == Ok(shut);
    NextSchemeAt(m, pos, ss[0], if |ss| == 1 then "" else "," + RenderMap(ss[1..]));
    ParseFromNext(m, pos, acc, ss[0], after, shut);
    if |ss| > 1 {
      RenderedFrom(m, after, ss[1..], shut + [ss[0]]);
      ChainedStep(shut, ss);
    } else {
      ParseFromDone(m, shut + [ss[0]]);
      ChainedOne(shut, ss);
    }
  }

  lemma ChainedOne(shut: seq<Scheme>, ss: seq<Scheme>)
    requires |ss| == 1
    ensures shut + [ss[0]] == shut + Chained(ss)
  {
    assert Chained(ss) == ss == [ss[0]];
  }

  /** Closing the scheme just appended, then chaining the rest, chains the
      whole. */
  lemma ChainedStep(shut: seq<Scheme>, ss: seq<Scheme>)
    requires |ss| > 1
    ensures Shut(shut + [ss[0]], ss[1].first - 1) + Chained(ss[1..]) == shut + Chained(ss)
  {
    var head := ss[0].(last := ss[1].first - 1);
    assert Shut(shut + [ss[0]], ss[1].first - 1) == shut + [head];
    assert Chained(ss) == [head] + Chained(ss[1..]);
    Associative(shut, [head], Chained(ss[1..]));
  }

  lemma MapParses(ss: seq<Scheme>)
    requires ss != [] && Ascending(ss) && forall i :: 0 <= i < |ss| ==> Definable(ss[i])
    ensures RenderMap(ss) != [] && RenderMap(ss)[0] == '('
    ensures ParseFrom(RenderMap(ss), 0, []) == Ok(Chained(ss))
  {
    hide ParseFrom, Chained;
    var m := RenderMap(ss);
    assert m[0..] == m;
    RenderedFrom(m, 0, ss, []);
    var none: seq<Scheme> := [];
    assert Shut(none, ss[0].first - 1) == none;
    EmptyPrefix(Chained(ss));
  }

  /** Constructing an index from the page map that lists ascending,
      definable schemes gives those schemes, each closed at the page before
      the next one starts and the last at `total`. */
  lemma MapRoundTrip(ss: seq<Scheme>, total: int)
    requires ss != [] && Ascending(ss) && forall i :: 0 <= i < |ss| ==> Definable(ss[i])
    requires 0 <= total && ss[|ss| - 1].first <= total
    ensures ParseIndex(RenderMap(ss), total) == Ok(Shut(Chained(ss), total))
  {
    hide ParseFrom, Strip, Sorting.SortBy, RenderMap, Chained;
    MapParses(ss);
    var m := RenderMap(ss);
    var chain := Chained(ss);
    assert CloseLast(chain, total) == Ok(Shut(chain, total));
    NotBlank(m);
    assert ParseIndex(m, total).Ok?;
    IndexTiled(m, total);
  }

  // ---------------------------------------------------------- lookups

  /** The last scheme whose first ordinal page is at most `pageno`. */
  function LastStartingBy(ss: seq<Scheme>, pageno: int): (r: Option<nat>)
    ensures r.Some? ==> r.value < |ss| && ss[r.value].first <= pageno
    ensures r.Some? ==> forall j :: r.value < j < |ss| ==> pageno < ss[j].first
    ensures r.None? ==> forall j :: 0 <= j < |ss| ==> pageno < ss[j].first
  {
    if ss == [] then None
    else if ss[|ss| - 1].first <= pageno then Some(|ss| - 1)
    else LastStartingBy(ss[..|ss| - 1], pageno)
  }

  /** `GetSchemeForPage(pageno)`: None off the book's pages and before the
      first scheme, else the scheme with the greatest first page at most
      `pageno`. */
  function SchemeFor(ss: seq<Scheme>, total: int, pageno: int): (r: Option<Scheme>) {
    if pageno < 1 || pageno > total then None
    else
      match LastStartingBy(ss, pageno)
      case None => None
      case Some(i) => Some(ss[i])
  }

  /** In a constructed index, a page has a scheme exactly when it is one of
      the book's pages at or after the first scheme's first page, and that
      scheme is the one whose range holds the page. */
  lemma SchemeCovers(ss: seq<Scheme>, total: int, pageno: int)
    requires Tiled(ss, total)
    ensures SchemeFor(ss, total, pageno).Some? <==> 1 <= pageno <= total && ss[0].first <= pageno
    ensures forall i :: (0 <= i < |ss| && ss[i].first <= pageno <= ss[i].last && 1 <= pageno <= total
                         ==> SchemeFor(ss, total, pageno) == Some(ss[i]))
  {
    var r := LastStartingBy(ss, pageno);
    if r.Some? {
      var k := r.value;
      if k + 1 < |ss| {
        assert ss[k].last + 1 == ss[k + 1].first;
      }
      forall i | 0 <= i < k
        ensures ss[i].last < pageno
      {
        assert ss[i].last < ss[k].first;
      }
    }
  }

  /** `GetLabelForPage(page)` without its cache, for the ordinal page
      `pageno` (one more than the zero-based `page` it is given). */
  function LabelOfPage(ss: seq<Scheme>, total: int, pageno: int): (r: Result<Label>) {
    match SchemeFor(ss, total, pageno)
    case None => Ok(Text(""))
    case Some(s) => LabelAtOffset(s, pageno - s.first)
  }

  /** In a constructed index every page has a label, and a page covered by
      an Arabic scheme is labelled with the scheme's first label plus the
      page's distance from the scheme's first page. */
  lemma PageLabels(ss: seq<Scheme>, total: int, pageno: int)
    requires Tiled(ss, total)
    ensures LabelOfPage(ss, total, pageno).Ok?
    ensures forall i :: (0 <= i < |ss| && ss[i].kind == Arabic && ss[i].first <= pageno <= ss[i].last && 1 <= pageno
                         ==> LabelOfPage(ss, total, pageno) == Ok(Number(ss[i].firstLabel + pageno - ss[i].first)))
  {
    SchemeCovers(ss, total, pageno);
    forall i | 0 <= i < |ss| && ss[i].first <= pageno <= ss[i].last
      ensures pageno <= total
    {
      if i < |ss| - 1 {
        assert ss[i].last < ss[|ss| - 1].first;
      }
    }
  }

  /** `_FindLastPageOfType(label_type)`: 0, or the largest last ordinal page
      among the schemes of that type. */
  function LastPageOfType(ss: seq<Scheme>, t: LabelType): (r: int)
    ensures r >= 0
    ensures forall i :: 0 <= i < |ss| && ss[i].kind == t ==> ss[i].last <= r
    ensures r == 0 || exists i :: 0 <= i < |ss| && ss[i].kind == t && ss[i].last == r
  {
    if ss == [] then 0
    else
      var r := LastPageOfType(ss[..|ss| - 1], t);
      var s := ss[|ss| - 1];
      if s.kind == t && s.last > r then s.last else r
  }

  /** The last page `largest_page_label` looks at: the last Arabic page, or
      failing that the last Roman one. */
  function LargestPage(ss: seq<Scheme>): (r: int) {
    var arabic := LastPageOfType(ss, Arabic);
    if arabic != 0 then arabic else LastPageOfType(ss, Roman)
  }

  /** `largest_page_label` as written: it hands the ordinal page to
      GetLabelForPage, which takes a zero-based page and adds one. */
  function LargestLabelAsWritten(ss: seq<Scheme>, total: int): (r: Result<Label>) {
    var last := LargestPage(ss);
    if last != 0 then LabelOfPage(ss, total, last + 1) else Ok(Text(""))
  }

  /** `largest_page_label` as intended: the label of that page itself. */
  function LargestLabel(ss: seq<Scheme>, total: int): (r: Result<Label>) {
    var last := LargestPage(ss);
    if last != 0 then LabelOfPage(ss, total, last) else Ok(Text(""))
  }

  /** The intended largest label of a book with Arabic pages is the last
      label of the Arabic scheme that ends last. */
  lemma LargestLabelIsLast(ss: seq<Scheme>, total: int, i: nat)
    requires Tiled(ss, total) && i < |ss| && ss[i].kind == Arabic
    requires ss[i].last == LastPageOfType(ss, Arabic) && ss[i].last > 0
    ensures LargestLabel(ss, total) == Ok(Number(LastPageLabel(ss[i])))
  {
    hide SchemeFor, LastPageOfType, LabelOfPage;
    PageLabels(ss, total, ss[i].last);
  }

  /** As written, `largest_page_label` reads the page after the last Arabic
      one: for the page map `(1,a,1)` of a ten-page book it gives '' where
      the book's last label is 10. */
  lemma LargestLabelOffByOne()
    ensures ParseIndex("(1,a,1)", 10) == Ok([Scheme(1, 10, Arabic, 1, [])])
    ensures LargestLabelAsWritten([Scheme(1, 10, Arabic, 1, [])], 10) == Ok(Text(""))
    ensures LargestLabel([Scheme(1, 10, Arabic, 1, [])], 10) == Ok(Number(10))
  {
    hide ParseIndex, ParseFrom, NextScheme, ParseScheme;
    var s := Scheme(1, 1, Arabic, 1, []);
    assert IntToDecimal(1) == "1";
    assert Render(s) == "1,a,1";
    assert RenderMap([s]) == "(1,a,1)";
    MapRoundTrip([s], 10);
    var ss := [Scheme(1, 10, Arabic, 1, [])];
    assert Chained([s]) == [s];
    assert Shut([s], 10) == ss;
    assert LastPageOfType(ss, Arabic) == 10;
    LargestLabelIsLast(ss, 10, 0);
  }

  /** When a scheme follows the last Arabic page, the page after it lies in
      that scheme: for the page map `(1,a,1),(5,r,1)` of a ten-page book,
      `largest_page_label` as written gives the first Roman label where the
      last Arabic label is 4. */
  lemma LargestLabelNextScheme()
    ensures ParseIndex("(1,a,1),(5,r,1)", 10)
              == Ok([Scheme(1, 4, Arabic, 1, []), Scheme(5, 10, Roman, 1, [])])
    ensures LargestLabelAsWritten([Scheme(1, 4, Arabic, 1, []), Scheme(5, 10, Roman, 1, [])], 10)
              == Ok(Text("Roman(1)"))
    ensures LargestLabel([Scheme(1, 4, Arabic, 1, []), Scheme(5, 10, Roman, 1, [])], 10)
              == Ok(Number(4))
  {
    hide ParseIndex, ParseFrom, NextScheme, ParseScheme;
    TwoSchemeMapParses();
    var ss := [Scheme(1, 4, Arabic, 1, []), Scheme(5, 10, Roman, 1, [])];
    assert LastPageOfType(ss, Arabic) == 4;
    LargestLabelIsLast(ss, 10, 0);
    SchemeCovers(ss, 10, 5);
    assert "Roman(" + IntToDecimal(1) + ")" == "Roman(1)";
  }

  /** The page map `(1,a,1),(5,r,1)` of a ten-page book parses to an Arabic
      scheme over pages 1-4 and a Roman one over pages 5-10. */
  lemma TwoSchemeMapParses()
    ensures ParseIndex("(1,a,1),(5,r,1)", 10)
              == Ok([Scheme(1, 4, Arabic, 1, []), Scheme(5, 10, Roman, 1, [])])
  {
    hide ParseIndex, ParseFrom, NextScheme, ParseScheme;
    var a := Scheme(1, 1, Arabic, 1, []);
    var b := Scheme(5, 5, Roman, 1, []);
    assert IntToDecimal(1) == "1" && IntToDecimal(5) == "5";
    assert Render(a) == "1,a,1" && Render(b) == "5,r,1";
    assert RenderMap([a, b]) == "(1,a,1),(5,r,1)";
    MapRoundTrip([a, b], 10);
    assert Chained([a, b]) == [a.(last := 4), b];
    assert Shut([a.(last := 4), b], 10) == [Scheme(1, 4, Arabic, 1, []), Scheme(5, 10, Roman, 1, [])];
  }

  // ------------------------------------------------------------- bisect

  /** `bisect.bisect_right(a, x)` on a sorted list: the insertion point
      after every element not above `x`. */
  method BisectRight(a: seq<int>, x: int) returns (lo: nat)
    requires forall i, j :: 0 <= i < j < |a| ==> a[i] <= a[j]
    ensures lo <= |a|
    ensures forall i :: 0 <= i < lo ==> a[i] <= x
    ensures forall i :: lo <= i < |a| ==> x < a[i]
  {
    lo := 0;
    var hi := |a|;
    while lo < hi
      invariant 0 <= lo <= hi <= |a|
      invariant forall i :: 0 <= i < lo ==> a[i] <= x
      invariant forall i :: hi <= i < |a| ==> x < a[i]
    {
      var mid := (lo + hi) / 2;
      if x < a[mid] {
        hi := mid;
      } else {
        lo := mid + 1;
      }
    }
  }

  // ---------------------------------------------------------- the class

  /** `PageLabelIndex`: the page map, the page count, the schemes sorted by
      first page with the first pages alongside for bisection, and a cache
      of the labels computed so far, keyed by ordinal page. */
  class PageLabelIndex {
    const pageMap: string
    const totalPages: int
    const schemes: seq<Scheme>
    const firstPages: seq<int>
    var labelCache: map<int, Label>

    /** The schemes tile the pages, `firstPages` lists their first pages,
        and every cached label is the one the page has. */
    predicate Valid()
      reads this
    {
      && Tiled(schemes, totalPages)
      && |firstPages| == |schemes|
      && (forall i :: 0 <= i < |schemes| ==> firstPages[i] == schemes[i].first)
      && (forall p :: p in labelCache ==> LabelOfPage(schemes, totalPages, p) == Ok(labelCache[p]))
    }

    /** The end of the constructor: sort the schemes and list their first
        pages. */
    constructor (pageMap: string, totalPages: int, parsed: seq<Scheme>)
      requires Tiled(parsed, totalPages)
      ensures this.pageMap == pageMap && this.totalPages == totalPages
      ensures schemes == Sorting.SortBy(parsed, FirstLe) && labelCache == map[]
      ensures schemes == parsed
      ensures Valid()
    {
      hide Sorting.SortBy, Sorting.Insert, LabelOfPage;
      this.pageMap := pageMap;
      this.totalPages := totalPages;
      ChainSorted(parsed);
      Sorting.SortByOfSorted(parsed, FirstLe);
      var sorted := Sorting.SortBy(parsed, FirstLe);
      var firsts: seq<int> := [];
      for i := 0 to |sorted|
        invariant |firsts| == i
        invariant forall k :: 0 <= k < i ==> firsts[k] == sorted[k].first
      {
        firsts := firsts + [sorted[i].first];
      }
      schemes := sorted;
      firstPages := firsts;
      labelCache := map[];
    }

    /** `GetSchemeForPage(pageno)`, by bisection over the first pages. */
    method GetSchemeForPage(pageno: int) returns (r: Option<Scheme>)
      requires Valid()
      ensures r == SchemeFor(schemes, totalPages, pageno)
    {
      if pageno < 1 || pageno > totalPages {
        return None;
      }
      var i := BisectRight(firstPages, pageno);
      if i == 0 {
        return None;
      }
      r := Some(schemes[i - 1]);
    }

    /** `GetLabelForPage(page)`: the label of ordinal page `page + 1`,
        from the cache when it is there, else computed and cached when the
        page has a scheme. */
    method GetLabelForPage(page: int) returns (shown: Label)
      requires Valid()
      modifies this`labelCache
      ensures Valid()
      ensures LabelOfPage(schemes, totalPages, page + 1) == Ok(shown)
      ensures labelCache == if page + 1 in old(labelCache) || SchemeFor(schemes, totalPages, page + 1).None?
                            then old(labelCache) else old(labelCache)[page + 1 := shown]
    {
      var pageno := page + 1;
      if pageno in labelCache {
        return labelCache[pageno];
      }
      var scheme := GetSchemeForPage(pageno);
      if scheme.None? {
        return Text("");
      }
      PageLabels(schemes, totalPages, pageno);
      var found := LabelAtOffset(scheme.value, pageno - scheme.value.first);
      shown := found.value;
      labelCache := labelCache[pageno := shown];
    }

    /** `_FindLastPageOfType(label_type)`. */
    method FindLastPageOfType(t: LabelType) returns (last: int)
      ensures last == LastPageOfType(schemes, t)
    {
      last := 0;
      for i := 0 to |schemes|
        invariant last == LastPageOfType(schemes[..i], t)
      {
        assert schemes[..i + 1][..i] == schemes[..i];
        if schemes[i].kind != t {
          continue;
        }
        if schemes[i].last > last {
          last := schemes[i].last;
        }
      }
      assert schemes[..|schemes|] == schemes;
    }

    /** `arabic_only`: whether every scheme is Arabic. */
    method ArabicOnly() returns (r: bool)
      ensures r <==> forall i :: 0 <= i < |schemes| ==> schemes[i].kind == Arabic
    {
      for i := 0 to |schemes|
        invariant forall k :: 0 <= k < i ==> schemes[k].kind == Arabic
      {
        if schemes[i].kind != Arabic {
          return false;
        }
      }
      return true;
    }

    /** `largest_page_label`, as written. */
    method LargestPageLabel() returns (shown: Label)
      requires Valid()
      modifies this`labelCache
      ensures Valid()
      ensures LargestLabelAsWritten(schemes, totalPages) == Ok(shown)
      ensures var last := LargestPage(schemes);
              labelCache == if last == 0 || last + 1 in old(labelCache) || SchemeFor(schemes, totalPages, last + 1).None?
                            then old(labelCache) else old(labelCache)[last + 1 := shown]
    {
      hide LabelOfPage, LastPageOfType, SchemeFor, Tiled;
      var last := FindLastPageOfType(Arabic);
      if last == 0 {
        last := FindLastPageOfType(Roman);
      }
      if last != 0 {
        shown := GetLabelForPage(last);
      } else {
        shown := Text("");
      }
    }
  }

  /** The loop of the PageLabelIndex constructor: one definition per turn,
      each closing the one before it at the page before its own first. */
  method ReadSchemes(pageMap: string) returns (r: Result<seq<Scheme>>)
    ensures r == ParseFrom(pageMap, 0, [])
  {
    hide ParseScheme, ParseFrom, NextScheme;
    var schemes: seq<Scheme> := [];
    var pos := 0;
    while pos < |pageMap|
      invariant pos <= |pageMap|
      invariant ParseFrom(pageMap, 0, []) == ParseFrom(pageMap, pos, schemes)
      decreases |pageMap| - pos
    {
      ParseFromStops(pageMap, pos, schemes);
      NextSchemeCases(pageMap, pos);
      if pageMap[pos] != '(' {
        return Err(ApnxException);
      }
      var end := Find(pageMap, ")", pos + 1);
      if end == -1 {
        return Err(ApnxException);
      }
      var scheme := ParseScheme(pageMap[pos + 1..end]);
      if scheme.Err? {
        return Err(scheme.error);
      }
      var next := SkipComma(pageMap, end + 1);
      var before := schemes;
      if schemes != [] {
        var closed := SetLast(schemes[|schemes| - 1], scheme.value.first - 1);
        if closed.Err? {
          return Err(closed.error);
        }
        schemes := schemes[|schemes| - 1 := closed.value];
      }
      ParseFromNext(pageMap, pos, before, scheme.value, next, schemes);
      schemes := schemes + [scheme.value];
      pos := end + 1;
      if pos < |pageMap| && pageMap[pos] == ',' {
        pos := pos + 1;
      }
      assert pos == next;
    }
    ParseFromDone(pageMap, schemes);
    r := Ok(schemes);
  }

  /** `PageLabelIndex(page_map, total_pages)`: the blank-map and negative
      count checks, the loop over the definitions, and the last scheme
      closed at the page count. */
  method NewPageLabelIndex(pageMap: string, totalPages: int) returns (r: Result<PageLabelIndex>)
    ensures r.Ok? <==> ParseIndex(pageMap, totalPages).Ok?
    ensures r.Err? ==> r.error == ParseIndex(pageMap, totalPages).error
    ensures r.Ok? ==> fresh(r.value) && r.value.Valid() && r.value.labelCache == map[]
    ensures r.Ok? ==> r.value.schemes == ParseIndex(pageMap, totalPages).value
    ensures r.Ok? ==> r.value.pageMap == pageMap && r.value.totalPages == totalPages
  {
    hide ParseFrom, ParseIndex, Sorting.SortBy;
    ParseIndexCases(pageMap, totalPages);
    if pageMap == [] || Strip(pageMap) == [] {
      return Err(ApnxException);
    }
    if totalPages < 0 {
      return Err(ApnxException);
    }
    var parsed := ReadSchemes(pageMap);
    if parsed.Err? {
      return Err(parsed.error);
    }
    var schemes := parsed.value;
    if schemes == [] {
      return Err(AttributeError);
    }
    var closed := SetLast(schemes[|schemes| - 1], totalPages);
    if closed.Err? {
      return Err(closed.error);
    }
    schemes := schemes[|schemes| - 1 := closed.value];
    assert CloseLast(parsed.value, totalPages) == Ok(schemes);
    IndexTiled(pageMap, totalPages);
    var index := new PageLabelIndex(pageMap, totalPages, schemes);
    r := Ok(index);
  }
}

=== FILE: apnx_file.dfy ===
/** The binary page-number sidecar (.apnx) reader: BinaryFile's big-endian
    cursor reads and ApnxFile's lazily decoded header and editions
    (apnx_parser.py:243-413, repeated as apnx-parser.py:18-175).

    A sidecar starts with a header (u16 version 1, u16 edition count, one u32
    offset per edition, a u32 metadata length and the metadata bytes). At
    each edition's offset there is a u16 pagination format (1), a u16 JSON
    length, a u16 page count, a u16 position width in bits, the JSON bytes
    and then one position per page, each `width / 8` bytes, big-endian. */
module ApnxSidecar {
  import opened PyText

  /** `ApnxFile.MAX_IN_MEMORY_POSITION`. */
  const MaxInMemoryPosition := 2147483647

  /** What a run of reads produced, and where the cursor stands after it
      (also after a read that raised). */
  datatype Parsed<T> = Parsed(result: Result<T>, pos: nat)

  // -------------------------------------------------------- cursor reads

  /** `data[start:start + n]`: Python clamps both ends to the data. */
  function Slice(data: seq<Byte>, start: nat, n: nat): (r: seq<Byte>)
    ensures |r| == if start >= |data| then 0 else if start + n <= |data| then n else |data| - start
    ensures forall i :: 0 <= i < |r| ==> r[i] == data[start + i]
  {
    if start >= |data| then []
    else if start + n <= |data| then data[start..start + n]
    else data[start..]
  }

  /** `_Unpack`: struct.unpack of the `n` bytes at `pos` ('B', '>H', '>I').
      The cursor moves on by `n` before unpacking, so it moves on also when
      fewer than `n` bytes are left and struct raises. */
  function Unpacked(data: seq<Byte>, pos: nat, n: nat): (r: Parsed<nat>)
    ensures r.pos == pos + n
    ensures r.result.Ok? <==> pos + n <= |data|
    ensures r.result.Err? ==> r.result.error == StructError
    ensures r.result.Ok? ==> r.result.value < Pow256(n)
  {
    Parsed(if pos + n <= |data| then Ok(BigEndian(data[pos..pos + n])) else Err(StructError), pos + n)
  }

  /** A successful read of a sequence: `acc` followed by what `r` read. */
  function Joined<T>(acc: seq<T>, r: Parsed<seq<T>>): (j: Parsed<seq<T>>)
    ensures j.pos == r.pos && (j.result.Ok? <==> r.result.Ok?)
    ensures r.result.Err? ==> j.result == r.result
    ensures r.result.Ok? ==> j.result.value == acc + r.result.value
  {
    match r.result
    case Ok(v) => Parsed(Ok(acc + v), r.pos)
    case Err(e) => Parsed(Err(e), r.pos)
  }

  /** `count` u32 values in a row (the header's edition offsets). */
  function UInts(data: seq<Byte>, pos: nat, count: nat): (r: Parsed<seq<nat>>)
    ensures r.result.Ok? <==> count == 0 || pos + 4 * count <= |data|
    ensures r.result.Ok? ==> r.pos == pos + 4 * count && |r.result.value| == count
    ensures r.result.Err? ==> r.result.error == StructError && |data| < r.pos <= pos + 4 * count
    decreases count
  {
    if count == 0 then Parsed(Ok([]), pos)
    else
      var u := Unpacked(data, pos, 4);
      if u.result.Err? then Parsed(Err(StructError), u.pos)
      else Joined([u.result.value], UInts(data, u.pos, count - 1))
  }

  /** `_ReadPosition(w)`: `w` single-byte reads, each shifted into place.
      The first read past the end raises, one byte beyond where it began. */
  function PositionAt(data: seq<Byte>, pos: nat, w: nat): (r: Parsed<nat>)
    ensures r.result.Err? ==> r.result.error == StructError
  {
    if w == 0 then Parsed(Ok(0), pos)
    else if pos + w <= |data| then Parsed(Ok(BigEndian(data[pos..pos + w])), pos + w)
    else Parsed(Err(StructError), (if pos < |data| then |data| else pos) + 1)
  }

  /** A position is the same number, and leaves the cursor at the same place,
      as one struct read of `w` bytes whenever the bytes are there; both
      raise when they are not. */
  lemma PositionIsUnpack(data: seq<Byte>, pos: nat, w: nat)
    requires w > 0
    ensures PositionAt(data, pos, w).result == Unpacked(data, pos, w).result
    ensures pos + w <= |data| ==> PositionAt(data, pos, w).pos == Unpacked(data, pos, w).pos
  {
  }

  /** `_CheckPagePosition`. */
  function CheckPagePosition(position: nat): (o: Outcome)
    ensures o.Fail? <==> position > MaxInMemoryPosition
    ensures o.Fail? ==> o.error == ApnxException
  {
    if position > MaxInMemoryPosition then Fail(ApnxException) else Pass
  }

  /** The loop of `_ReadEditionPositions`: `count` positions of `w` bytes,
      each checked against the in-memory maximum. */
  function Positions(data: seq<Byte>, pos: nat, count: nat, w: nat): (r: Parsed<seq<nat>>)
    ensures r.result.Ok? ==> |r.result.value| == count && r.pos == pos + w * count
    ensures r.result.Err? ==> r.result.error in {StructError, ApnxException}
    decreases count
  {
    if count == 0 then Parsed(Ok([]), pos)
    else
      var p := PositionAt(data, pos, w);
      if p.result.Err? then Parsed(Err(p.result.error), p.pos)
      else if CheckPagePosition(p.result.value).Fail? then Parsed(Err(ApnxException), p.pos)
      else Joined([p.result.value], Positions(data, p.pos, count - 1, w))
  }

  // ------------------------------------------------------- header, edition

  datatype Header = Header(version: nat, numEditions: nat, offsets: seq<nat>, metadata: seq<Byte>)

  /** `_ReadHeader` from offset 0: a version other than 1 is refused, and
      any read past the end raises struct.error. */
  function HeaderAt(data: seq<Byte>): (r: Parsed<Header>)
    ensures r.result.Ok? ==> r.result.value.version == 1
    ensures r.result.Ok? ==> |r.result.value.offsets| == r.result.value.numEditions
    ensures r.result.Err? ==> r.result.error in {StructError, ApnxException}
  {
    var v := Unpacked(data, 0, 2);
    if v.result.Err? then Parsed(Err(StructError), v.pos)
    else if v.result.value != 1 then Parsed(Err(ApnxException), v.pos)
    else
      var n := Unpacked(data, v.pos, 2);
      if n.result.Err? then Parsed(Err(StructError), n.pos)
      else
        var offsets := UInts(data, n.pos, n.result.value);
        if offsets.result.Err? then Parsed(Err(StructError), offsets.pos)
        else
          var len := Unpacked(data, offsets.pos, 4);
          if len.result.Err? then Parsed(Err(StructError), len.pos)
          else
            var metadata := Slice(data, len.pos, len.result.value);
            Parsed(Ok(Header(1, n.result.value, offsets.result.value, metadata)), len.pos + len.result.value)
  }

  /** What `_ReadEdition` records for an edition: where its positions start,
      its page count, its position width in bits and its JSON text. */
  datatype Edition = Edition(dataOffset: nat, pageCount: nat, width: nat, json: seq<Byte>)

  /** The part of `_ReadEdition` after the format check: the JSON length,
      page count and width, a width over 32 refused, then the JSON. */
  function EditionBody(data: seq<Byte>, pos: nat): (r: Parsed<Edition>)
    ensures r.result.Ok? ==> r.result.value.width <= 32 && r.pos == r.result.value.dataOffset
    ensures r.result.Err? ==> r.result.error in {StructError, ApnxException}
  {
    var jsonLength := Unpacked(data, pos, 2);
    if jsonLength.result.Err? then Parsed(Err(StructError), jsonLength.pos)
    else
      var pageCount := Unpacked(data, jsonLength.pos, 2);
      if pageCount.result.Err? then Parsed(Err(StructError), pageCount.pos)
      else
        var width := Unpacked(data, pageCount.pos, 2);
        if width.result.Err? then Parsed(Err(StructError), width.pos)
        else if width.result.value > 32 then Parsed(Err(ApnxException), width.pos)
        else
          var n := jsonLength.result.value;
          var json := if n != 0 then Slice(data, width.pos, n) else [];
          Parsed(Ok(Edition(width.pos + n, pageCount.result.value, width.result.value, json)), width.pos + n)
  }

  /** An edition at `offset`: its u16 format must be 1. */
  function EditionAt(data: seq<Byte>, offset: nat): (r: Parsed<Edition>)
    ensures r.result.Err? ==> r.result.error in {StructError, ApnxException}
  {
    var format := Unpacked(data, offset, 2);
    if format.result.Err? then Parsed(Err(StructError), format.pos)
    else if format.result.value != 1 then Parsed(Err(ApnxException), format.pos)
    else EditionBody(data, format.pos)
  }

  // --------------------------------------------------------- the object

  /** One edition's entries in the per-edition lists `_ReadHeader` sets up:
      `_edition_read`, `_edition_pagination_format`, `_edition_data_offset`,
      `_edition_page_count`, `_edition_position_width`, `_edition_json` and
      `_edition_positions` (the positions dict as a list indexed by page). */
  datatype Slot = Slot(read: bool, format: nat, dataOffset: nat, pageCount: nat, width: nat,
                       json: seq<Byte>, positions: Option<seq<nat>>)

  /** The lists' entries right after `_ReadHeader`. */
  const Unread := Slot(false, 0, 0, 0, 0, [], None)

  /** An ApnxFile: the cursor, `_metadataRead`, the header fields and the
      per-edition entries (which exist only once the header has been read). */
  datatype FileState = FileState(pos: nat, metadataRead: bool, header: Header, editions: seq<Slot>)

  /** What a slot holds agrees with the bytes: a read edition holds what
      EditionAt decodes there, an unread one at most the format a
      `GetEditionPaginationFormat` read, and decoded positions are those of
      the edition's data. */
  predicate SlotAgrees(data: seq<Byte>, offset: nat, s: Slot) {
    && (s.read ==> s.format == 1 && EditionAt(data, offset).result == Ok(Edition(s.dataOffset, s.pageCount, s.width, s.json)))
    && (!s.read ==> s.dataOffset == 0 && s.pageCount == 0 && s.width == 0 && s.json == []
                    && (s.format == 0 || Unpacked(data, offset, 2).result == Ok(s.format)))
    && (s.positions.Some? ==> s.read && Positions(data, s.dataOffset, s.pageCount, s.width / 8).result == Ok(s.positions.value))
  }

  /** Once the header is read, the header fields are what the bytes hold and
      there is one agreeing slot per edition. */
  predicate Consistent(data: seq<Byte>, st: FileState) {
    st.metadataRead ==>
      && HeaderAt(data).result == Ok(st.header)
      && |st.editions| == st.header.numEditions
      && forall i :: 0 <= i < |st.editions| ==> SlotAgrees(data, st.header.offsets[i], st.editions[i])
  }

  /** A Python list index: `-n <= i < 0` counts from the end, anything else
      outside the list raises IndexError. */
  function PyIndex(n: nat, i: int): (r: Option<nat>)
    ensures r.Some? <==> -(n as int) <= i < n
    ensures r.Some? ==> r.value < n && (r.value == i || r.value == n + i)
  {
    if 0 <= i < n then Some(i) else if -(n as int) <= i < 0 then Some(n + i) else None
  }

  /** `_CheckEditionIndex`. */
  function CheckEditionIndex(numEditions: nat, idx: int): (o: Outcome)
    ensures o.Pass? <==> 0 <= idx < numEditions
    ensures o.Fail? ==> o.error == ApnxException
  {
    if idx >= numEditions || idx <= -1 then Fail(ApnxException) else Pass
  }

  /** `_ReadHeader()`: nothing once `_metadataRead`; otherwise the header
      from offset 0 and fresh per-edition entries. (What it assigns before a
      read raises is left as it was: every reader of those fields reads the
      header again first.) */
  function ReadHeader(data: seq<Byte>, st: FileState): (r: (FileState, Outcome))
    requires Consistent(data, st)
    ensures Consistent(data, r.0) && (r.1.Pass? <==> r.0.metadataRead)
    ensures st.metadataRead ==> r == (st, Pass)
  {
    if st.metadataRead then (st, Pass)
    else
      var h := HeaderAt(data);
      match h.result
      case Err(e) => (st.(pos := h.pos), Fail(e))
      case Ok(header) => (FileState(h.pos, true, header, seq(header.numEditions, _ => Unread)), Pass)
  }

  /** `_ReadEditionFormatVersion(idx)`: the header, the index check, and for
      an edition not read yet its u16 format at the edition's offset. */
  function ReadFormatVersion(data: seq<Byte>, st: FileState, idx: int): (r: (FileState, Outcome))
    requires Consistent(data, st)
    ensures Consistent(data, r.0)
    ensures r.1.Pass? ==> r.0.metadataRead && 0 <= idx < |r.0.editions|
    ensures st.metadataRead ==> r.0.metadataRead && r.0.header == st.header && |r.0.editions| == |st.editions|
  {
    var (s, o) := ReadHeader(data, st);
    if o.Fail? then (s, o)
    else if CheckEditionIndex(|s.editions|, idx).Fail? then (s, Fail(ApnxException))
    else if s.editions[idx].read then (s, Pass)
    else
      var f := Unpacked(data, s.header.offsets[idx], 2);
      match f.result
      case Err(e) => (s.(pos := f.pos), Fail(e))
      case Ok(format) => (s.(pos := f.pos, editions := s.editions[idx := s.editions[idx].(format := format)]), Pass)
  }

  /** The rest of `_ReadEdition` once the format is in the slot: a format
      other than 1 is refused; otherwise the body is decoded at the cursor
      and the slot filled in. */
  function FinishEdition(data: seq<Byte>, st: FileState, idx: nat): (r: (FileState, Outcome))
    requires Consistent(data, st) && st.metadataRead && idx < |st.editions| && !st.editions[idx].read
    requires st.editions[idx].format != 0 ==> st.pos == st.header.offsets[idx] + 2
    ensures Consistent(data, r.0)
    ensures r.0.metadataRead && r.0.header == st.header && |r.0.editions| == |st.editions|
    ensures r.1.Pass? ==> r.0.editions[idx].read
  {
    if st.editions[idx].format != 1 then (st, Fail(ApnxException))
    else
      var b := EditionBody(data, st.pos);
      match b.result
      case Err(e) => (st.(pos := b.pos), Fail(e))
      case Ok(e) =>
        var slot := st.editions[idx].(read := true, dataOffset := e.dataOffset, pageCount := e.pageCount,
                                      width := e.width, json := e.json);
        (st.(pos := b.pos, editions := st.editions[idx := slot]), Pass)
  }

  /** `_ReadEdition(idx)` as written: it looks `_edition_read[idx]` up before
      anything reads the header or checks the index. */
  function ReadEdition(data: seq<Byte>, st: FileState, idx: int): (r: (FileState, Outcome))
    requires Consistent(data, st)
    ensures Consistent(data, r.0)
    ensures r.1.Pass? ==> r.0.metadataRead && PyIndex(|r.0.editions|, idx).Some?
                          && r.0.editions[PyIndex(|r.0.editions|, idx).value].read
    ensures st.metadataRead ==> r.0.metadataRead && r.0.header == st.header && |r.0.editions| == |st.editions|
  {
    if !st.metadataRead then (st, Fail(AttributeError))
    else match PyIndex(|st.editions|, idx)
      case None => (st, Fail(IndexError))
      case Some(j) =>
        if st.editions[j].read then (st, Pass)
        else
          var (s, o) := ReadFormatVersion(data, st, idx);
          if o.Fail? then (s, o) else FinishEdition(data, s, idx)
  }

  /** `_ReadEdition(idx)` as `_ReadEditionFormatVersion` evidently means it:
      the header read and the index checked before any per-edition entry is
      looked at. */
  function ReadEditionIntended(data: seq<Byte>, st: FileState, idx: int): (r: (FileState, Outcome))
    requires Consistent(data, st)
    ensures Consistent(data, r.0)
    ensures r.1.Pass? ==> r.0.metadataRead && 0 <= idx < |r.0.editions| && r.0.editions[idx].read
  {
    var (s, o) := ReadFormatVersion(data, st, idx);
    if o.Fail? then (s, o)
    else if s.editions[idx].read then (s, Pass)
    else FinishEdition(data, s, idx)
  }

  /** Python's truth value of `_edition_positions[idx]`: None and the empty
      dict are false. */
  predicate Decoded(s: Slot) {
    s.positions.Some? && s.positions.value != []
  }

  /** `_ReadEditionPositions(idx)`: unless the positions are already there,
      the edition, then one position per page from its data offset. */
  function ReadEditionPositions(data: seq<Byte>, st: FileState, idx: int): (r: (FileState, Outcome))
    requires Consistent(data, st)
    ensures Consistent(data, r.0)
    ensures r.1.Pass? ==> r.0.metadataRead && PyIndex(|r.0.editions|, idx).Some?
                          && r.0.editions[PyIndex(|r.0.editions|, idx).value].positions.Some?
  {
    if !st.metadataRead then (st, Fail(AttributeError))
    else match PyIndex(|st.editions|, idx)
      case None => (st, Fail(IndexError))
      case Some(j) =>
        if Decoded(st.editions[j]) then (st, Pass)
        else
          var (s, o) := ReadEdition(data, st, idx);
          if o.Fail? then (s, o)
          else
            var e := s.editions[j];
            var p := Positions(data, e.dataOffset, e.pageCount, e.width / 8);
            match p.result
            case Err(err) => (s.(pos := p.pos), Fail(err))
            case Ok(ps) => (s.(pos := p.pos, editions := s.editions[j := e.(positions := Some(ps))]), Pass)
  }

  /** What `ApnxFile.__init__` leaves: the cursor at 0 and no header read. */
  const Fresh := FileState(0, false, Header(0, 0, [], []), [])

  // -------------------------------------------------------------- lemmas

  /** Read as intended, an edition is there exactly when the header decodes,
      the index is in range and the edition decodes at its offset; it then
      holds what the bytes say, and otherwise the exception is the first of
      those that went wrong. */
  lemma IntendedEdition(data: seq<Byte>, st: FileState, idx: int)
    requires Consistent(data, st)
    ensures var r := ReadEditionIntended(data, st, idx);
            var h := HeaderAt(data).result;
            && (r.1.Pass? <==> h.Ok? && 0 <= idx < h.value.numEditions
                               && EditionAt(data, h.value.offsets[idx]).result.Ok?)
            && (r.1.Pass? ==> EditionAt(data, h.value.offsets[idx]).result
                              == Ok(Edition(r.0.editions[idx].dataOffset, r.0.editions[idx].pageCount,
                                            r.0.editions[idx].width, r.0.editions[idx].json)))
            && (r.1.Fail? && h.Err? ==> r.1.error == h.error)
            && (r.1.Fail? && h.Ok? && !(0 <= idx < h.value.numEditions) ==> r.1.error == ApnxException)
            && (r.1.Fail? && h.Ok? && 0 <= idx < h.value.numEditions
                ==> EditionAt(data, h.value.offsets[idx]).result == Err(r.1.error))
  {
    var (s, o) := ReadHeader(data, st);
    if o.Pass? && 0 <= idx < |s.editions| && !s.editions[idx].read {
      var f := Unpacked(data, s.header.offsets[idx], 2);
      if f.result.Ok? {
        assert ReadFormatVersion(data, st, idx).0.pos == s.header.offsets[idx] + 2;
      }
    }
  }

  /** `_ReadEdition` runs at most once per edition: once it has passed, it
      passes again and changes nothing. */
  lemma EditionReadOnce(data: seq<Byte>, st: FileState, idx: int)
    requires Consistent(data, st) && ReadEdition(data, st, idx).1.Pass?
    ensures ReadEdition(data, ReadEdition(data, st, idx).0, idx) == (ReadEdition(data, st, idx).0, Pass)
  {
  }

  /** On a fresh object `_ReadEdition` raises AttributeError, for any
      sidecar, where the intended order reads a good edition. */
  lemma EditionBeforeHeader(data: seq<Byte>, idx: int)
    requires HeaderAt(data).result.Ok? && 0 <= idx < HeaderAt(data).result.value.numEditions
    requires EditionAt(data, HeaderAt(data).result.value.offsets[idx]).result.Ok?
    ensures ReadEdition(data, Fresh, idx).1 == Fail(AttributeError)
    ensures ReadEditionIntended(data, Fresh, idx).1 == Pass
  {
    IntendedEdition(data, Fresh, idx);
  }

  /** An index past the last edition raises IndexError, from the list lookup,
      instead of the ApnxException `_CheckEditionIndex` has for it. */
  lemma IndexBeyondEditions(data: seq<Byte>, st: FileState, idx: int)
    requires Consistent(data, st) && st.metadataRead && idx >= |st.editions|
    ensures ReadEdition(data, st, idx) == (st, Fail(IndexError))
    ensures ReadEditionIntended(data, st, idx) == (st, Fail(ApnxException))
  {
  }

  /** Index -1 once the last edition is read passes, and the getters then
      answer for the last edition, where `_CheckEditionIndex` refuses it. */
  lemma MinusOneIsLastEdition(data: seq<Byte>, st: FileState)
    requires Consistent(data, st) && st.metadataRead && |st.editions| > 0
    requires st.editions[|st.editions| - 1].read
    ensures ReadEdition(data, st, -1) == (st, Pass)
    ensures PyIndex(|st.editions|, -1) == Some(|st.editions| - 1)
    ensures ReadEditionIntended(data, st, -1) == (st, Fail(ApnxException))
  {
  }

  // ------------------------------------------------------------ encoding

  lemma MulSucc(w: nat, n: nat)
    ensures w * (n + 1) == w + w * n
  {
  }

  /** Values of `w` bytes each, one after the other: the edition offsets
      (w = 4) and the page positions (w = position width / 8). */
  function EncodeAll(vs: seq<nat>, w: nat): (r: seq<Byte>)
    requires forall i :: 0 <= i < |vs| ==> vs[i] < Pow256(w)
    ensures |r| == w * |vs|
  {
    if vs == [] then []
    else
      MulSucc(w, |vs| - 1);
      BigEndianBytes(vs[0], w) + EncodeAll(vs[1..], w)
  }

  /** A header with version 1, the given edition offsets and metadata. */
  function EncodeHeader(offsets: seq<nat>, metadata: seq<Byte>): (r: seq<Byte>)
    requires |offsets| < Pow256(2) && |metadata| < Pow256(4)
    requires forall i :: 0 <= i < |offsets| ==> offsets[i] < Pow256(4)
    ensures |r| == 8 + 4 * |offsets| + |metadata|
  {
    BigEndianBytes(1, 2) + (BigEndianBytes(|offsets|, 2) + (EncodeAll(offsets, 4)
      + (BigEndianBytes(|metadata|, 4) + metadata)))
  }

  /** An edition record of format 1, up to its JSON text. */
  function EncodeEdition(pageCount: nat, width: nat, json: seq<Byte>): (r: seq<Byte>)
    requires pageCount < Pow256(2) && width < Pow256(2) && |json| < Pow256(2)
    ensures |r| == 8 + |json|
  {
    BigEndianBytes(1, 2) + (BigEndianBytes(|json|, 2) + (BigEndianBytes(pageCount, 2)
      + (BigEndianBytes(width, 2) + json)))
  }

  /** Encoded bytes unpack to the value encoded. */
  lemma UnpackEncoded(data: seq<Byte>, pos: nat, n: nat, w: nat)
    requires n < Pow256(w) && pos + w <= |data| && data[pos..pos + w] == BigEndianBytes(n, w)
    ensures Unpacked(data, pos, w) == Parsed(Ok(n), pos + w)
  {
  }

  lemma {:induction false} UIntsEncoded(data: seq<Byte>, pos: nat, vs: seq<nat>)
    requires forall i :: 0 <= i < |vs| ==> vs[i] < Pow256(4)
    requires pos + 4 * |vs| <= |data| && data[pos..pos + 4 * |vs|] == EncodeAll(vs, 4)
    ensures UInts(data, pos, |vs|) == Parsed(Ok(vs), pos + 4 * |vs|)
    decreases |vs|
  {
    hide BigEndianBytes;
    if vs != [] {
      SliceSplits(data, pos, BigEndianBytes(vs[0], 4), EncodeAll(vs[1..], 4));
      UnpackEncoded(data, pos, vs[0], 4);
      UIntsEncoded(data, pos + 4, vs[1..]);
      assert [vs[0]] + vs[1..] == vs;
    }
  }

  /** Positions written `w` bytes each decode to themselves when none is
      over the in-memory maximum. */
  lemma {:induction false} PositionsEncoded(data: seq<Byte>, pos: nat, ps: seq<nat>, w: nat)
    requires forall i :: 0 <= i < |ps| ==> ps[i] < Pow256(w) && ps[i] <= MaxInMemoryPosition
    requires pos + w * |ps| <= |data| && data[pos..pos + w * |ps|] == EncodeAll(ps, w)
    ensures Positions(data, pos, |ps|, w) == Parsed(Ok(ps), pos + w * |ps|)
    decreases |ps|
  {
    hide BigEndianBytes, EncodeAll, Pow256, BigEndian, PositionAt;
    if ps != [] {
      EncodedFirst(data, pos, ps, w);
      hide Positions, Joined;
      PositionsEncoded(data, pos + w, ps[1..], w);
      PositionsStep(data, pos, |ps|, w);
      var j := Joined([ps[0]], Positions(data, pos + w, |ps| - 1, w));
      assert j.result.value == ps by {
        assert [ps[0]] + ps[1..] == ps;
      }
      assert j == Parsed(Ok(ps), pos + w * |ps|);
    }
  }

  /** The first of several encoded positions reads back as itself, and the
      others follow it. */
  lemma EncodedFirst(data: seq<Byte>, pos: nat, ps: seq<nat>, w: nat)
    requires ps != []
    requires forall i :: 0 <= i < |ps| ==> ps[i] < Pow256(w)
    requires pos + w * |ps| <= |data| && data[pos..pos + w * |ps|] == EncodeAll(ps, w)
    ensures PositionAt(data, pos, w) == Parsed(Ok(ps[0]), pos + w)
    ensures w * |ps| == w + w * (|ps| - 1)
    ensures data[pos + w..pos + w + w * (|ps| - 1)] == EncodeAll(ps[1..], w)
  {
    assert EncodeAll(ps, w) == BigEndianBytes(ps[0], w) + EncodeAll(ps[1..], w);
    hide BigEndianBytes, EncodeAll, Pow256, BigEndian, PositionAt;
    MulSucc(w, |ps| - 1);
    FirstPosition(data, pos, ps[0], w, EncodeAll(ps[1..], w));
  }

  /** An encoded position followed by other bytes reads back as itself. */
  lemma FirstPosition(data: seq<Byte>, pos: nat, v: nat, w: nat, rest: seq<Byte>)
    requires v < Pow256(w)
    requires pos + w + |rest| <= |data| && data[pos..pos + w + |rest|] == BigEndianBytes(v, w) + rest
    ensures PositionAt(data, pos, w) == Parsed(Ok(v), pos + w)
    ensures data[pos + w..pos + w + |rest|] == rest
  {
    var bytes := BigEndianBytes(v, w);
    SliceSplits(data, pos, bytes, rest);
    hide BigEndianBytes, BigEndian;
    if w != 0 {
      assert BigEndian(data[pos..pos + w]) == v;
    }
  }

  /** The fields of an encoded header, each where `_ReadHeader` reads it. */
  lemma HeaderFields(data: seq<Byte>, offsets: seq<nat>, metadata: seq<Byte>)
    requires |offsets| < Pow256(2) && |metadata| < Pow256(4)
    requires forall i :: 0 <= i < |offsets| ==> offsets[i] < Pow256(4)
    requires |EncodeHeader(offsets, metadata)| <= |data|
    requires data[..|EncodeHeader(offsets, metadata)|] == EncodeHeader(offsets, metadata)
    ensures Unpacked(data, 0, 2) == Parsed(Ok(1), 2)
    ensures Unpacked(data, 2, 2) == Parsed(Ok(|offsets|), 4)
    ensures UInts(data, 4, |offsets|) == Parsed(Ok(offsets), 4 + 4 * |offsets|)
    ensures Unpacked(data, 4 + 4 * |offsets|, 4) == Parsed(Ok(|metadata|), 8 + 4 * |offsets|)
    ensures Slice(data, 8 + 4 * |offsets|, |metadata|) == metadata
  {
    hide BigEndianBytes, EncodeAll, Unpacked, UInts, Slice;
    var n := |offsets|;
    var d := BigEndianBytes(|metadata|, 4) + metadata;
    var c := EncodeAll(offsets, 4) + d;
    var b := BigEndianBytes(n, 2) + c;
    assert EncodeHeader(offsets, metadata) == BigEndianBytes(1, 2) + b;
    hide EncodeHeader, Pow256, BigEndian;
    assert data[0..2 + |b|] == BigEndianBytes(1, 2) + b;
    SliceSplits(data, 0, BigEndianBytes(1, 2), b);
    SliceSplits(data, 2, BigEndianBytes(n, 2), c);
    SliceSplits(data, 4, EncodeAll(offsets, 4), d);
    SliceSplits(data, 4 + 4 * n, BigEndianBytes(|metadata|, 4), metadata);
    UnpackEncoded(data, 0, 1, 2);
    UnpackEncoded(data, 2, n, 2);
    UIntsEncoded(data, 4, offsets);
    UnpackEncoded(data, 4 + 4 * n, |metadata|, 4);
  }

  /** One good position, then the rest. */
  lemma PositionsStep(data: seq<Byte>, pos: nat, count: nat, w: nat)
    requires count > 0 && PositionAt(data, pos, w).result.Ok?
    requires PositionAt(data, pos, w).result.value <= MaxInMemoryPosition
    ensures Positions(data, pos, count, w)
            == Joined([PositionAt(data, pos, w).result.value], Positions(data, PositionAt(data, pos, w).pos, count - 1, w))
  {
  }

  /** `_ReadHeader` decodes an encoded header, whatever follows it, and
      leaves the cursor at its end. */
  lemma HeaderRoundTrip(offsets: seq<nat>, metadata: seq<Byte>, rest: seq<Byte>)
    requires |offsets| < Pow256(2) && |metadata| < Pow256(4)
    requires forall i :: 0 <= i < |offsets| ==> offsets[i] < Pow256(4)
    ensures HeaderAt(EncodeHeader(offsets, metadata) + rest)
            == Parsed(Ok(Header(1, |offsets|, offsets, metadata)), |EncodeHeader(offsets, metadata)|)
  {
    var data := EncodeHeader(offsets, metadata) + rest;
    assert data[..|EncodeHeader(offsets, metadata)|] == EncodeHeader(offsets, metadata);
    hide Unpacked, UInts, Slice, EncodeAll, BigEndianBytes;
    HeaderFields(data, offsets, metadata);
  }

  /** The fields of an encoded edition, each where `_ReadEdition` reads it. */
  lemma EditionFields(data: seq<Byte>, at: nat, pageCount: nat, width: nat, json: seq<Byte>)
    requires pageCount < Pow256(2) && width < Pow256(2) && |json| < Pow256(2)
    requires at + 8 + |json| <= |data| && data[at..at + 8 + |json|] == EncodeEdition(pageCount, width, json)
    ensures Unpacked(data, at, 2) == Parsed(Ok(1), at + 2)
    ensures Unpacked(data, at + 2, 2) == Parsed(Ok(|json|), at + 4)
    ensures Unpacked(data, at + 4, 2) == Parsed(Ok(pageCount), at + 6)
    ensures Unpacked(data, at + 6, 2) == Parsed(Ok(width), at + 8)
    ensures Slice(data, at + 8, |json|) == json
  {
    hide BigEndianBytes, Unpacked, Slice;
    var c := BigEndianBytes(width, 2) + json;
    var b := BigEndianBytes(pageCount, 2) + c;
    var a := BigEndianBytes(|json|, 2) + b;
    SliceSplits(data, at, BigEndianBytes(1, 2), a);
    SliceSplits(data, at + 2, BigEndianBytes(|json|, 2), b);
    SliceSplits(data, at + 4, BigEndianBytes(pageCount, 2), c);
    SliceSplits(data, at + 6, BigEndianBytes(width, 2), json);
    UnpackEncoded(data, at, 1, 2);
    UnpackEncoded(data, at + 2, |json|, 2);
    UnpackEncoded(data, at + 4, pageCount, 2);
    UnpackEncoded(data, at + 6, width, 2);
  }

  /** An encoded edition decodes to its page count, width and JSON, with
      its positions starting right after the JSON. */
  lemma EditionRoundTrip(data: seq<Byte>, at: nat, pageCount: nat, width: nat, json: seq<Byte>)
    requires pageCount < Pow256(2) && width <= 32 && |json| < Pow256(2)
    requires at + 8 + |json| <= |data| && data[at..at + 8 + |json|] == EncodeEdition(pageCount, width, json)
    ensures EditionAt(data, at) == Parsed(Ok(Edition(at + 8 + |json|, pageCount, width, json)), at + 8 + |json|)
  {
    hide Unpacked, Slice, EncodeEdition, BigEndianBytes;
    EditionFields(data, at, pageCount, width, json);
  }

  lemma Distributes(x: int, b: int, p: int)
    ensures (x * 256 + b) * p == x * (256 * p) + b * p
  {
  }

  /** One more byte shifted in below the ones read so far. */
  lemma ShiftIn(prefix: seq<Byte>, b: Byte, k: nat)
    ensures BigEndian(prefix) * Pow256(k + 1) + b * Pow256(k) == BigEndian(prefix + [b]) * Pow256(k)
  {
    BigEndianSnoc(prefix, b);
    assert Pow256(k + 1) == 256 * Pow256(k);
    hide BigEndian, Pow256;
    Distributes(BigEndian(prefix), b, Pow256(k));
  }

  /** A loop turn of `_ReadPosition`: byte `i` read and shifted into place. */
  lemma ShiftedIn(data: seq<Byte>, start: nat, i: nat, w: nat)
    requires i < w && start + i < |data|
    ensures BigEndian(data[start..start + i]) * Pow256(w - i) + Unpacked(data, start + i, 1).result.value * Pow256(w - i - 1)
            == BigEndian(data[start..start + i + 1]) * Pow256(w - i - 1)
  {
    var byte := data[start + i];
    assert data[start + i..start + i + 1] == [byte];
    BigEndianOne(byte);
    assert data[start..start + i + 1] == data[start..start + i] + [byte];
    ShiftIn(data[start..start + i], byte, w - i - 1);
  }

  /** `_ReadPosition` raises at the first byte past the end. */
  lemma PositionRunsOut(data: seq<Byte>, start: nat, i: nat, w: nat)
    requires i < w && (i == 0 || start + i <= |data|) && start + i + 1 > |data|
    ensures PositionAt(data, start, w) == Parsed(Err(StructError), start + i + 1)
  {
  }

  /** Nothing read before `r` changes nothing. */
  lemma JoinedEmpty<T>(r: Parsed<seq<T>>)
    ensures Joined([], r) == r
  {
    if r.result.Ok? {
      assert [] + r.result.value == r.result.value;
    }
  }

  /** Nothing read after `acc`. */
  lemma JoinedDone<T>(acc: seq<T>, pos: nat)
    ensures Joined(acc, Parsed(Ok([]), pos)) == Parsed(Ok(acc), pos)
  {
    assert acc + [] == acc;
  }

  /** Reading `v` and then what `r` read is reading `[v]` and then `r`,
      after `acc`. */
  lemma JoinedStep<T>(acc: seq<T>, v: T, r: Parsed<seq<T>>)
    ensures Joined(acc, Joined([v], r)) == Joined(acc + [v], r)
  {
    if r.result.Ok? {
      assert acc + ([v] + r.result.value) == (acc + [v]) + r.result.value;
    }
  }
}

/** BinaryFile and ApnxFile as objects: each method changes the cursor and
    the lists as the source does, proved against ApnxSidecar. */
module ApnxFiles {
  import opened PyText
  import opened ApnxSidecar

  // ------------------------------------------------------------- classes

  /** `BinaryFile`: the file's bytes and a cursor every read advances. */
  class BinaryFile {
    const data: seq<Byte>
    /** `self.end`: the length of the data. */
    const end: nat
    var pos: nat

    constructor (data: seq<Byte>)
      ensures this.data == data && end == |data| && pos == 0
    {
      this.data := data;
      end := |data|;
      pos := 0;
    }

    /** `_Unpack`: the cursor moves on first, then the bytes are unpacked. */
    method Unpack(size: nat) returns (r: Result<nat>)
      modifies this
      ensures Parsed(r, pos) == Unpacked(data, old(pos), size)
    {
      var start := pos;
      pos := pos + size;
      if pos <= |data| {
        r := Ok(BigEndian(data[start..pos]));
      } else {
        r := Err(StructError);
      }
    }

    method ReadByte() returns (r: Result<nat>)
      modifies this
      ensures Parsed(r, pos) == Unpacked(data, old(pos), 1)
    {
      r := Unpack(1);
    }

    method ReadUShort() returns (r: Result<nat>)
      modifies this
      ensures Parsed(r, pos) == Unpacked(data, old(pos), 2)
    {
      r := Unpack(2);
    }

    method ReadUInt() returns (r: Result<nat>)
      modifies this
      ensures Parsed(r, pos) == Unpacked(data, old(pos), 4)
    {
      r := Unpack(4);
    }

    /** `ReadBytes(n)`: the next `n` bytes, fewer at the end of the data. */
    method ReadBytes(n: nat) returns (r: seq<Byte>)
      modifies this
      ensures r == Slice(data, old(pos), n) && pos == old(pos) + n
    {
      var start := pos;
      pos := pos + n;
      r := Slice(data, start, n);
    }
  }

  /** `ApnxFile`: the header and each edition are decoded on first use. The
      per-edition lists are kept as one list of slots. */
  class ApnxFile {
    const file: BinaryFile
    var metadataRead: bool
    var headerVersion: nat
    var numEditions: nat
    var editionOffset: seq<nat>
    var headerMetadata: seq<Byte>
    var editions: seq<Slot>

    function State(): (r: FileState)
      reads this, file
    {
      FileState(file.pos, metadataRead, Header(headerVersion, numEditions, editionOffset, headerMetadata), editions)
    }

    predicate Valid()
      reads this, file
    {
      Consistent(file.data, State())
    }

    constructor (data: seq<Byte>)
      ensures Valid() && State() == Fresh && file.data == data && fresh(file)
    {
      file := new BinaryFile(data);
      metadataRead := false;
      headerVersion := 0;
      numEditions := 0;
      editionOffset := [];
      headerMetadata := [];
      editions := [];
    }

    /** `_ReadHeader()`. */
    method ReadHeader() returns (outcome: Outcome)
      requires Valid()
      modifies this, file
      ensures (State(), outcome) == ApnxSidecar.ReadHeader(file.data, old(State()))
      ensures Valid()
    {
      hide Consistent, Unpacked, UInts, Slice;
      if metadataRead {
        return Pass;
      }
      file.pos := 0;
      var version := file.ReadUShort();
      if version.Err? {
        return Fail(version.error);
      }
      if version.value != 1 {
        return Fail(ApnxException);
      }
      var count := file.ReadUShort();
      if count.Err? {
        return Fail(count.error);
      }
      var offsets := ReadOffsets(count.value);
      if offsets.Err? {
        return Fail(offsets.error);
      }
      var metadataLen := file.ReadUInt();
      if metadataLen.Err? {
        return Fail(metadataLen.error);
      }
      var metadata := file.ReadBytes(metadataLen.value);
      headerVersion, numEditions, editionOffset, headerMetadata := 1, count.value, offsets.value, metadata;
      editions := seq(count.value, _ => Unread);
      metadataRead := true;
      outcome := Pass;
    }

    /** The loop of `_ReadHeader` over the edition offsets. */
    method ReadOffsets(count: nat) returns (r: Result<seq<nat>>)
      modifies file
      ensures Parsed(r, file.pos) == UInts(file.data, old(file.pos), count)
    {
      var offsets := [];
      var i := 0;
      JoinedEmpty(UInts(file.data, file.pos, count));
      while i < count
        invariant 0 <= i <= count
        invariant UInts(file.data, old(file.pos), count) == Joined(offsets, UInts(file.data, file.pos, count - i))
      {
        var offset := file.ReadUInt();
        if offset.Err? {
          return Err(offset.error);
        }
        JoinedStep(offsets, offset.value, UInts(file.data, file.pos, count - i - 1));
        offsets := offsets + [offset.value];
        i := i + 1;
      }
      JoinedDone(offsets, file.pos);
      r := Ok(offsets);
    }

    /** `_ReadEditionFormatVersion(idx)`. */
    method ReadEditionFormatVersion(idx: int) returns (outcome: Outcome)
      requires Valid()
      modifies this, file
      ensures (State(), outcome) == ReadFormatVersion(file.data, old(State()), idx)
      ensures Valid()
    {
      outcome := ReadHeader();
      if outcome.Fail? {
        return;
      }
      outcome := CheckEditionIndex(numEditions, idx);
      if outcome.Fail? {
        return;
      }
      if editions[idx].read {
        return;
      }
      file.pos := editionOffset[idx];
      var format := file.ReadUShort();
      if format.Err? {
        return Fail(format.error);
      }
      editions := editions[idx := editions[idx].(format := format.value)];
    }

    /** `_ReadEdition(idx)`, as written. */
    method ReadEdition(idx: int) returns (outcome: Outcome)
      requires Valid()
      modifies this, file
      ensures (State(), outcome) == ApnxSidecar.ReadEdition(file.data, old(State()), idx)
      ensures Valid()
    {
      if !metadataRead {
        return Fail(AttributeError);
      }
      var j := PyIndex(|editions|, idx);
      if j.None? {
        return Fail(IndexError);
      }
      if editions[j.value].read {
        return Pass;
      }
      outcome := ReadEditionFormatVersion(idx);
      if outcome.Fail? {
        return;
      }
      outcome := FinishReadEdition(idx);
    }

    /** The rest of `_ReadEdition` once the format is in its slot. */
    method FinishReadEdition(idx: nat) returns (outcome: Outcome)
      requires Valid() && metadataRead && idx < |editions| && !editions[idx].read
      requires editions[idx].format != 0 ==> file.pos == editionOffset[idx] + 2
      modifies this, file
      ensures (State(), outcome) == FinishEdition(file.data, old(State()), idx)
      ensures Valid()
    {
      hide Consistent, Unpacked, Slice;
      if editions[idx].format != 1 {
        return Fail(ApnxException);
      }
      var jsonLength := file.ReadUShort();
      if jsonLength.Err? {
        return Fail(jsonLength.error);
      }
      var pageCount := file.ReadUShort();
      if pageCount.Err? {
        return Fail(pageCount.error);
      }
      var width := file.ReadUShort();
      if width.Err? {
        return Fail(width.error);
      }
      if width.value > 32 {
        return Fail(ApnxException);
      }
      var json := [];
      if jsonLength.value != 0 {
        json := file.ReadBytes(jsonLength.value);
      }
      editions := editions[idx := editions[idx].(read := true, dataOffset := file.pos, pageCount := pageCount.value,
                                                 width := width.value, json := json)];
      outcome := Pass;
    }

    /** `_ReadEditionPositions(idx)`. */
    method ReadEditionPositions(idx: int) returns (outcome: Outcome)
      requires Valid()
      modifies this, file
      ensures (State(), outcome) == ApnxSidecar.ReadEditionPositions(file.data, old(State()), idx)
      ensures Valid()
    {
      if !metadataRead {
        return Fail(AttributeError);
      }
      var j := PyIndex(|editions|, idx);
      if j.None? {
        return Fail(IndexError);
      }
      if Decoded(editions[j.value]) {
        return Pass;
      }
      outcome := ReadEdition(idx);
      if outcome.Fail? {
        return;
      }
      var e := editions[j.value];
      file.pos := e.dataOffset;
      var positions := ReadPositions(e.pageCount, e.width / 8);
      if positions.Err? {
        return Fail(positions.error);
      }
      editions := editions[j.value := e.(positions := Some(positions.value))];
    }

    /** The loop of `_ReadEditionPositions`: one checked position per page. */
    method ReadPositions(count: nat, w: nat) returns (r: Result<seq<nat>>)
      modifies file
      ensures Parsed(r, file.pos) == Positions(file.data, old(file.pos), count, w)
    {
      var positions := [];
      var page := 0;
      JoinedEmpty(Positions(file.data, file.pos, count, w));
      while page < count
        invariant 0 <= page <= count
        invariant Positions(file.data, old(file.pos), count, w) == Joined(positions, Positions(file.data, file.pos, count - page, w))
      {
        var position := ReadPosition(w);
        if position.Err? {
          return Err(position.error);
        }
        var checked := CheckPagePosition(position.value);
        if checked.Fail? {
          return Err(checked.error);
        }
        JoinedStep(positions, position.value, Positions(file.data, file.pos, count - page - 1, w));
        positions := positions + [position.value];
        page := page + 1;
      }
      JoinedDone(positions, file.pos);
      r := Ok(positions);
    }

    /** `_ReadPosition(w)`: `w` bytes, each shifted left by the bits still
        to come (`byte_pos` is eight times `w - i - 1`). */
    method ReadPosition(w: nat) returns (r: Result<nat>)
      modifies file
      ensures Parsed(r, file.pos) == PositionAt(file.data, old(file.pos), w)
    {
      assert Pow256(0) == 1;
      hide BigEndian, Pow256, Unpacked, PositionAt;
      var start := file.pos;
      var rv := 0;
      var i := 0;
      while i < w
        invariant 0 <= i <= w && file.pos == start + i
        invariant i == 0 || start + i <= |file.data|
        invariant i == 0 ==> rv == 0
        invariant i > 0 ==> rv == BigEndian(file.data[start..start + i]) * Pow256(w - i)
      {
        var b := file.ReadByte();
        if b.Err? {
          PositionRunsOut(file.data, start, i, w);
          return Err(b.error);
        }
        ShiftedIn(file.data, start, i, w);
        rv := rv + b.value * Pow256(w - i - 1);
        i := i + 1;
      }
      r := Ok(rv);
    }

    /** `GetEditionPaginationFormat(idx)`. */
    method GetEditionPaginationFormat(idx: int) returns (r: Result<nat>)
      requires Valid()
      modifies this, file
      ensures var (s, o) := ReadFormatVersion(file.data, old(State()), idx);
              State() == s && r == (if o.Fail? then Err(o.error) else Ok(s.editions[idx].format))
      ensures Valid()
    {
      var o := ReadEditionFormatVersion(idx);
      if o.Fail? {
        return Err(o.error);
      }
      r := Ok(editions[idx].format);
    }

    /** `GetEditionPageCount(idx)`. */
    method GetEditionPageCount(idx: int) returns (r: Result<nat>)
      requires Valid()
      modifies this, file
      ensures var (s, o) := ApnxSidecar.ReadEdition(file.data, old(State()), idx);
              State() == s
              && r == (if o.Fail? then Err(o.error) else Ok(s.editions[PyIndex(|s.editions|, idx).value].pageCount))
      ensures Valid()
    {
      var o := ReadEdition(idx);
      if o.Fail? {
        return Err(o.error);
      }
      r := Ok(editions[PyIndex(|editions|, idx).value].pageCount);
    }

    /** `GetEditionJSON(idx)`. */
    method GetEditionJSON(idx: int) returns (r: Result<seq<Byte>>)
      requires Valid()
      modifies this, file
      ensures var (s, o) := ApnxSidecar.ReadEdition(file.data, old(State()), idx);
              State() == s
              && r == (if o.Fail? then Err(o.error) else Ok(s.editions[PyIndex(|s.editions|, idx).value].json))
      ensures Valid()
    {
      var o := ReadEdition(idx);
      if o.Fail? {
        return Err(o.error);
      }
      r := Ok(editions[PyIndex(|editions|, idx).value].json);
    }

    /** `GetPagePositions(idx)`: position of page `i` at index `i`. */
    method GetPagePositions(idx: int) returns (r: Result<seq<nat>>)
      requires Valid()
      modifies this, file
      ensures var (s, o) := ApnxSidecar.ReadEditionPositions(file.data, old(State()), idx);
              State() == s
              && r == (if o.Fail? then Err(o.error) else Ok(s.editions[PyIndex(|s.editions|, idx).value].positions.value))
      ensures Valid()
    {
      var o := ReadEditionPositions(idx);
      if o.Fail? {
        return Err(o.error);
      }
      r := Ok(editions[PyIndex(|editions|, idx).value].positions.value);
    }

    /** The `header_version`, `header_metadata` and `num_editions`
        properties: the header is read first. */
    method HeaderVersion() returns (r: Result<nat>)
      requires Valid()
      modifies this, file
      ensures var (s, o) := ApnxSidecar.ReadHeader(file.data, old(State()));
              State() == s && r == (if o.Fail? then Err(o.error) else Ok(s.header.version))
      ensures Valid()
    {
      var o := ReadHeader();
      if o.Fail? {
        return Err(o.error);
      }
      r := Ok(headerVersion);
    }

    method HeaderMetadata() returns (r: Result<seq<Byte>>)
      requires Valid()
      modifies this, file
      ensures var (s, o) := ApnxSidecar.ReadHeader(file.data, old(State()));
              State() == s && r == (if o.Fail? then Err(o.error) else Ok(s.header.metadata))
      ensures Valid()
    {
      var o := ReadHeader();
      if o.Fail? {
        return Err(o.error);
      }
      r := Ok(headerMetadata);
    }

    method NumEditions() returns (r: Result<nat>)
      requires Valid()
      modifies this, file
      ensures var (s, o) := ApnxSidecar.ReadHeader(file.data, old(State()));
              State() == s && r == (if o.Fail? then Err(o.error) else Ok(s.header.numEditions))
      ensures Valid()
    {
      var o := ReadHeader();
      if o.Fail? {
        return Err(o.error);
      }
      r := Ok(numEditions);
    }
  }
}

=== FILE: common.dfy ===
/** Python-level values the Kindle utilities rely on: optional values, the
    exceptions that escape a routine, bytes, and the handful of `str`
    operations (`strip`, `split`, `find`, `int()`, `%d`) the parsers use. */
module PyText {

  datatype Option<T> = None | Some(value: T)

  /** The exceptions the modelled code raises or lets escape. */
  datatype PyError =
    | ValueError      // int()/float()/strptime rejected a string, or "No valid lines"
    | TypeError       // arithmetic on None
    | IndexError      // list index out of range
    | AttributeError  // attribute lookup failed
    | StructError     // struct.unpack given the wrong number of bytes
    | ApnxException   // apnx_parser.ApnxException
    | MobiException   // mobibook.MobiException
    | SystemExit      // KindleLog._fatal calls sys.exit(1)

  datatype Result<T> = Ok(value: T) | Err(error: PyError) {
    predicate IsFailure() {
      Err?
    }

    function PropagateFailure<U>(): (r: Result<U>)
      requires Err?
    {
      Err(error)
    }

    function Extract(): (r: T)
      requires Ok?
    {
      value
    }
  }

  /** A call that returns nothing, or raises. */
  datatype Outcome = Pass | Fail(error: PyError)

  type Byte = b: int | 0 <= b < 256

  function Pow256(n: nat): (r: nat)
    ensures r >= 1
  {
    if n == 0 then 1 else 256 * Pow256(n - 1)
  }

  /** The unsigned big-endian value of a byte string (struct's '>H', '>I', ...). */
  function BigEndian(s: seq<Byte>): (r: nat)
    ensures r < Pow256(|s|)
  {
    if s == [] then 0
    else
      var hi := BigEndian(s[..|s| - 1]);
      assert hi <= Pow256(|s| - 1) - 1;
      assert hi * 256 <= (Pow256(|s| - 1) - 1) * 256;
      hi * 256 + s[|s| - 1]
  }

  lemma BigEndianOne(a: Byte)
    ensures BigEndian([a]) == a
  {
    assert [a][..0] == [];
  }

  lemma BigEndianTwo(a: Byte, b: Byte)
    ensures BigEndian([a, b]) == a * 256 + b
  {
    assert [a, b][..1] == [a];
    assert [a][..0] == [];
  }

  lemma BigEndianFour(a: Byte, b: Byte, c: Byte, d: Byte)
    ensures BigEndian([a, b, c, d]) == ((a * 256 + b) * 256 + c) * 256 + d
  {
    assert [a, b, c, d][..3] == [a, b, c];
    assert [a, b, c][..2] == [a, b];
    BigEndianTwo(a, b);
  }

  /** Appending one byte shifts the value left by eight bits. */
  lemma BigEndianSnoc(s: seq<Byte>, b: Byte)
    ensures BigEndian(s + [b]) == BigEndian(s) * 256 + b
  {
    assert (s + [b])[..|s|] == s;
  }

  /** The `w` bytes struct packs `n` into, most significant first: the
      inverse of BigEndian. */
  function BigEndianBytes(n: nat, w: nat): (r: seq<Byte>)
    requires n < Pow256(w)
    ensures |r| == w && BigEndian(r) == n
  {
    if w == 0 then []
    else
      var hi := BigEndianBytes(n / 256, w - 1);
      BigEndianSnoc(hi, n % 256);
      hi + [n % 256]
  }

  /** The two halves of a slice that holds `a + b`. */
  lemma SliceSplits<T>(data: seq<T>, pos: nat, a: seq<T>, b: seq<T>)
    requires pos + |a| + |b| <= |data| && data[pos..pos + |a| + |b|] == a + b
    ensures data[pos..pos + |a|] == a && data[pos + |a|..pos + |a| + |b|] == b
  {
    assert data[pos..pos + |a|] == (a + b)[..|a|];
    assert data[pos + |a|..pos + |a| + |b|] == (a + b)[|a|..];
  }

  // ---------------------------------------------------------------- text

  predicate IsWhitespace(c: char) {
    c == ' ' || c == '\t' || c == '\n' || c == '\r' || c == 11 as char || c == 12 as char
  }

  function StripLeft(s: string): (r: string)
    ensures |r| <= |s| && r == s[|s| - |r|..]
    ensures r == [] || !IsWhitespace(r[0])
    ensures forall i :: 0 <= i < |s| - |r| ==> IsWhitespace(s[i])
  {
    if s != [] && IsWhitespace(s[0]) then StripLeft(s[1..]) else s
  }

  function StripRight(s: string): (r: string)
    ensures |r| <= |s| && r == s[..|r|]
    ensures r == [] || !IsWhitespace(r[|r| - 1])
    ensures forall i :: |r| <= i < |s| ==> IsWhitespace(s[i])
  {
    if s != [] && IsWhitespace(s[|s| - 1]) then StripRight(s[..|s| - 1]) else s
  }

  /** Python's `str.strip()` with no argument. */
  function Strip(s: string): (r: string) {
    StripRight(StripLeft(s))
  }

  /** `sep` occurs in `s` at index k. */
  predicate OccursAt(s: string, sep: string, k: int) {
    0 <= k && k + |sep| <= |s| && s[k..k + |sep|] == sep
  }

  /** Python's `s.find(sep, from)`: the first index i >= from where sep occurs, or -1. */
  function Find(s: string, sep: string, from: nat): (r: int)
    requires |sep| > 0
    ensures r == -1 || (from <= r && OccursAt(s, sep, r))
    ensures r == -1 ==> forall k :: from <= k ==> !OccursAt(s, sep, k)
    ensures r != -1 ==> forall k :: from <= k < r ==> !OccursAt(s, sep, k)
    decreases |s| - from
  {
    if from + |sep| > |s| then -1
    else if s[from..from + |sep|] == sep then from
    else Find(s, sep, from + 1)
  }

  predicate Contains(s: string, sep: string)
    requires |sep| > 0
  {
    Find(s, sep, 0) != -1
  }

  /** Python's `s.split(sep, maxsplit)` for a non-empty separator; a negative
      maxsplit means "no limit". */
  function Split(s: string, sep: string, maxsplit: int): (r: seq<string>)
    requires |sep| > 0
    ensures |r| >= 1
    ensures maxsplit >= 0 ==> |r| <= maxsplit + 1
    decreases |s|
  {
    var i := Find(s, sep, 0);
    if i == -1 || maxsplit == 0 then [s]
    else [s[..i]] + Split(s[i + |sep|..], sep, if maxsplit > 0 then maxsplit - 1 else maxsplit)
  }

  /** A separator-free string is not split. */
  lemma SplitNoSeparator(s: string, sep: string, maxsplit: int)
    requires |sep| > 0 && !Contains(s, sep)
    ensures Split(s, sep, maxsplit) == [s]
  {
  }

  /** The first occurrence of `c` at or after `from` is at `at`. */
  lemma FindAt(s: string, c: char, from: nat, at: nat)
    requires from <= at < |s| && s[at] == c
    requires forall k :: from <= k < at ==> s[k] != c
    ensures Find(s, [c], from) == at
  {
    assert OccursAt(s, [c], at) by {
      assert s[at..at + 1] == [c];
    }
    forall k | from <= k < at
      ensures !OccursAt(s, [c], k)
    {
      assert s[k] == s[k..k + 1][0];
    }
  }

  /** A string whose first character is not whitespace is not blank. */
  lemma NotBlank(s: string)
    requires s != [] && !IsWhitespace(s[0])
    ensures Strip(s) != []
  {
    assert StripLeft(s) == s;
  }

  /** No occurrence of `sep` starts at a character other than its first. */
  lemma NotAt(s: string, sep: string, k: int)
    requires |sep| > 0 && 0 <= k < |s| && s[k] != sep[0]
    ensures !OccursAt(s, sep, k)
  {
    if k + |sep| <= |s| {
      assert s[k..k + |sep|][0] == s[k];
    }
  }

  /** Splitting on a separator whose first character the string lacks
      leaves it whole. */
  lemma SplitAbsent(s: string, sep: string, maxsplit: int)
    requires |sep| > 0 && sep[0] !in s
    ensures Split(s, sep, maxsplit) == [s] && !Contains(s, sep)
  {
    forall k | 0 <= k < |s|
      ensures !OccursAt(s, sep, k)
    {
      NotAt(s, sep, k);
    }
    assert Find(s, sep, 0) == -1;
  }

  /** Splitting `a + sep + rest`, with the separator's first character absent
      from `a`, cuts right after `a`. */
  lemma SplitAtSeparator(a: string, sep: string, rest: string, maxsplit: int)
    requires |sep| > 0 && sep[0] !in a && maxsplit != 0
    ensures Split(a + sep + rest, sep, maxsplit)
            == [a] + Split(rest, sep, if maxsplit > 0 then maxsplit - 1 else maxsplit)
    ensures Contains(a + sep + rest, sep)
  {
    var s := a + sep + rest;
    assert OccursAt(s, sep, |a|) by {
      assert s[|a|..|a| + |sep|] == sep;
    }
    forall k | 0 <= k < |a|
      ensures !OccursAt(s, sep, k)
    {
      assert s[k] == a[k];
      NotAt(s, sep, k);
    }
    assert Find(s, sep, 0) == |a|;
    assert s[..|a|] == a;
    assert s[|a| + |sep|..] == rest;
  }

  /** The first piece of a split starts with the string's first character
      when that character is not the separator. */
  lemma SplitHead(t: string, c: char, maxsplit: int)
    requires t != [] && t[0] != c
    ensures Split(t, [c], maxsplit)[0] != [] && Split(t, [c], maxsplit)[0][0] == t[0]
  {
  }

  /** The first piece of a split on `c` is the prefix of `s` that ends just
      before the first `c`, or all of `s` when there is none. */
  lemma SplitFirst(s: string, c: char, maxsplit: int)
    requires maxsplit != 0
    ensures Split(s, [c], maxsplit)[0] <= s && c !in Split(s, [c], maxsplit)[0]
    ensures |Split(s, [c], maxsplit)[0]| < |s| ==> s[|Split(s, [c], maxsplit)[0]|] == c
  {
    var i := Find(s, [c], 0);
    var p := Split(s, [c], maxsplit)[0];
    var n := if i == -1 then |s| else i;
    assert p == s[..n];
    forall k | 0 <= k < n
      ensures s[k] != c
    {
      assert !OccursAt(s, [c], k);
      assert s[k..k + 1] == [s[k]];
    }
    if i != -1 {
      assert s[i..i + 1] == [c];
    }
  }

  // ------------------------------------------------------------- numbers

  predicate IsDigit(c: char) {
    '0' <= c <= '9'
  }

  function DigitValue(c: char): (r: nat)
    requires IsDigit(c)
  {
    (c as int) - ('0' as int)
  }

  function DigitChar(d: nat): (c: char)
    requires d < 10
    ensures IsDigit(c) && DigitValue(c) == d
  {
    (('0' as int) + d) as char
  }

  predicate AllDigits(s: string) {
    forall i :: 0 <= i < |s| ==> IsDigit(s[i])
  }

  /** The value of a run of decimal digits, leading zeros allowed. */
  function DigitsValue(s: string): (r: nat)
    requires AllDigits(s)
  {
    if s == [] then 0 else DigitsValue(s[..|s| - 1]) * 10 + DigitValue(s[|s| - 1])
  }

  /** Python's `'%d' % n` for n >= 0. */
  function NatToDecimal(n: nat): (r: string)
    ensures |r| >= 1 && AllDigits(r)
  {
    if n < 10 then [DigitChar(n)] else NatToDecimal(n / 10) + [DigitChar(n % 10)]
  }

  /** Python's `'%d' % i` and `str(i)`. */
  function IntToDecimal(i: int): (r: string) {
    if i < 0 then "-" + NatToDecimal(-i) else NatToDecimal(i)
  }

  /** `str(i)` holds digits and at most a minus sign. */
  lemma DecimalChars(i: int, c: char)
    requires !IsDigit(c) && c != '-'
    ensures c !in IntToDecimal(i)
  {
    var d := NatToDecimal(if i < 0 then -i else i);
    assert forall k :: 0 <= k < |d| ==> IsDigit(d[k]);
  }

  /** A signed run of decimal digits within surrounding whitespace, with no
      blank after the sign: the integers `float()` reads. */
  function ParseDecimal(s: string): (r: Option<int>) {
    var t := Strip(s);
    if t != [] && (t[0] == '-' || t[0] == '+') then
      var digits := t[1..];
      if digits != [] && AllDigits(digits) then
        var v: int := DigitsValue(digits);
        Some(if t[0] == '-' then -v else v)
      else None
    else if t != [] && AllDigits(t) then Some(DigitsValue(t))
    else None
  }

  /** Python 2's `int(s)` on a str: surrounding whitespace, an optional sign,
      blanks after the sign, then at least one decimal digit; anything else
      is a ValueError. It reads everything ParseDecimal reads, the same way. */
  function ParseInt(s: string): (r: Option<int>) {
    var t := Strip(s);
    if t != [] && (t[0] == '-' || t[0] == '+') then
      var digits := StripLeft(t[1..]);
      if digits != [] && AllDigits(digits) then
        var v: int := DigitsValue(digits);
        Some(if t[0] == '-' then -v else v)
      else None
    else if t != [] && AllDigits(t) then Some(DigitsValue(t))
    else None
  }

  /** `int()` reads every text the stricter reading accepts, to the same
      value. */
  lemma ParseIntExtendsDecimal(s: string)
    ensures ParseDecimal(s).Some? ==> ParseInt(s) == ParseDecimal(s)
  {
    hide Strip, StripLeft, StripRight;
    var t := Strip(s);
    if t != [] && (t[0] == '-' || t[0] == '+') && t[1..] != [] && AllDigits(t[1..]) {
      assert IsDigit(t[1..][0]);
      StripLeftKeeps(t[1..]);
    }
  }

  /** `int('- 5') == -5`, where `float('- 5')` raises. */
  lemma BlankAfterSign()
    ensures ParseInt("- 5") == Some(-5)
    ensures ParseDecimal("- 5") == None
  {
    hide Strip, StripLeft, StripRight, AllDigits, DigitsValue;
    var s := "- 5";
    MinusFiveText();
    assert s[1..] == " 5";
  }

  /** The pieces of `"- 5"` the two readers look at. */
  lemma MinusFiveText()
    ensures Strip("- 5") == "- 5"
    ensures StripLeft(" 5") == "5" && !AllDigits(" 5")
    ensures AllDigits("5") && DigitsValue("5") == 5
  {
    hide Strip, StripLeft, StripRight, AllDigits, DigitsValue, ParseInt, ParseDecimal;
    StripKeeps("- 5");
    LeadingBlank("5");
    assert " " + "5" == " 5";
    OneDigit('5');
    assert ['5'] == "5";
  }

  /** One blank, then text that does not start with whitespace. */
  lemma LeadingBlank(s: string)
    requires s != [] && !IsWhitespace(s[0])
    ensures StripLeft(" " + s) == s && !AllDigits(" " + s)
  {
    assert (" " + s)[1..] == s;
    assert !IsDigit((" " + s)[0]);
    StripLeftKeeps(s);
  }

  /** A single digit is a run of digits with its own value. */
  lemma OneDigit(c: char)
    requires IsDigit(c)
    ensures AllDigits([c]) && DigitsValue([c]) == DigitValue(c)
  {
    assert [c][..0] == [];
  }

  /** Text that does not start with whitespace is its own left strip. */
  lemma StripLeftKeeps(s: string)
    requires s == [] || !IsWhitespace(s[0])
    ensures StripLeft(s) == s
  {
  }

  /** Text that starts and ends with something other than whitespace is its
      own strip. */
  lemma StripKeeps(s: string)
    requires s != [] && !IsWhitespace(s[0]) && !IsWhitespace(s[|s| - 1])
    ensures Strip(s) == s
  {
    StripLeftKeeps(s);
    assert StripRight(s) == s;
  }

  lemma {:induction false} DigitsRoundTrip(n: nat)
    ensures DigitsValue(NatToDecimal(n)) == n
  {
    if n >= 10 {
      DigitsRoundTrip(n / 10);
      var r := NatToDecimal(n);
      assert r[..|r| - 1] == NatToDecimal(n / 10);
    }
  }

  lemma DigitsNoWhitespace(s: string)
    requires AllDigits(s)
    ensures Strip(s) == s
  {
    if s != [] {
      assert IsDigit(s[0]) && IsDigit(s[|s| - 1]);
      StripKeeps(s);
    }
  }

  /** `int` reads a run of digits, with no sign, as its value. */
  lemma UnsignedDigits(d: string)
    requires d != [] && AllDigits(d)
    ensures ParseDecimal(d) == Some(DigitsValue(d))
    ensures ParseInt(d) == Some(DigitsValue(d))
  {
    DigitsNoWhitespace(d);
    ParseIntExtendsDecimal(d);
  }

  /** `int` reads a minus sign and a run of digits as minus their value. */
  lemma SignedDigits(d: string)
    requires d != [] && AllDigits(d)
    ensures ParseDecimal("-" + d) == Some(-(DigitsValue(d) as int))
    ensures ParseInt("-" + d) == Some(-(DigitsValue(d) as int))
  {
    hide Strip, StripLeft, StripRight, ParseInt;
    var s := "-" + d;
    assert s[1..] == d && s[0] == '-';
    assert IsDigit(d[|d| - 1]) && s[|s| - 1] == d[|d| - 1];
    StripKeeps(s);
    ParseIntExtendsDecimal(s);
  }

  /** `int('%d' % i) == i`: rendering then parsing an integer is the identity,
      and `float` reads the text back too. */
  lemma DecimalRoundTrip(i: int)
    ensures ParseInt(IntToDecimal(i)) == Some(i)
    ensures ParseDecimal(IntToDecimal(i)) == Some(i)
  {
    hide ParseInt, ParseDecimal;
    if i < 0 {
      SignedDigits(NatToDecimal(-i));
      DigitsRoundTrip(-i);
    } else {
      UnsignedDigits(NatToDecimal(i));
      DigitsRoundTrip(i);
    }
  }

  // ----------------------------------------------------------- ordering

  /** Python 2 ordering of byte strings: lexicographic, a proper prefix first. */
  predicate LexLe(a: string, b: string)
    decreases |a|
  {
    if a == [] then true
    else if b == [] then false
    else if a[0] != b[0] then a[0] < b[0]
    else LexLe(a[1..], b[1..])
  }

  lemma {:induction false} LexLeTotal(a: string, b: string)
    ensures LexLe(a, b) || LexLe(b, a)
    decreases |a|
  {
    if a != [] && b != [] && a[0] == b[0] {
      LexLeTotal(a[1..], b[1..]);
    }
  }

  lemma {:induction false} LexLeTransitive(a: string, b: string, c: string)
    requires LexLe(a, b) && LexLe(b, c)
    ensures LexLe(a, c)
    decreases |a|
  {
    if a != [] && b != [] && c != [] && a[0] == b[0] && b[0] == c[0] {
      LexLeTransitive(a[1..], b[1..], c[1..]);
    }
  }

  lemma {:induction false} LexLeAntisymmetric(a: string, b: string)
    requires LexLe(a, b) && LexLe(b, a)
    ensures a == b
    decreases |a|
  {
    if a != [] && b != [] {
      LexLeAntisymmetric(a[1..], b[1..]);
      assert a == [a[0]] + a[1..];
      assert b == [b[0]] + b[1..];
    }
  }
}

=== FILE: corpus.dfy ===
/** The corpus layer as values: what KindleLogs does with its list of logs
    (log_parser.py:809-905). Each log is a record of its name, its lines and
    its fields; KindleLogs in LogCorpus is proved against these functions. */
module Corpus {
  import opened PyText
  import opened LogStates
  import opened BookEvents
  import opened LogLines
  import Sorting
  import Sessions

  /** A log file to read: its base name and its lines. */
  datatype LogFile = LogFile(name: string, lines: seq<Line>)

  /** A KindleLog as a value. */
  datatype LogRec = LogRec(name: string, lines: seq<Line>, v: LogValue)

  /** The fields of KindleLogs: the logs, and the state handed to the next. */
  datatype Logs = Logs(files: seq<LogRec>, state: Option<LogState>)

  /** The corpus after an operation, and whether the operation raised. */
  datatype Processed = Processed(c: Logs, outcome: Outcome)

  predicate LogsOk(c: Logs) {
    && (forall i :: 0 <= i < |c.files| ==> Tracking(c.files[i].v.t))
    && (c.state.Some? ==> StateOk(c.state.value))
  }

  /** `KindleLog(filename, self.state)`. */
  function OpenLog(f: LogFile, state: Option<LogState>): (r: LogRec)
    ensures r.name == f.name && r.lines == f.lines && r.v == NewLog(state)
  {
    LogRec(f.name, f.lines, NewLog(state))
  }

  /** Reading `start`, `end` or `state` of a log. */
  function DemandLog(clock: Clock, r: LogRec): (d: (LogRec, Outcome))
    requires Tracking(r.v.t)
    ensures Tracking(d.0.v.t) && d.0.name == r.name && d.0.lines == r.lines
    ensures r.v.parsed ==> d == (r, Pass)
    ensures d.1.Pass? ==> d.0.v.parsed
    ensures d.1.Fail? ==> d.1.error in {ValueError, SystemExit}
  {
    var s := Demanded(clock, r.name, r.lines, r.v);
    (r.(v := s.v), s.outcome)
  }

  // -------------------------------------------------------------- sorting

  /** `cmp(self.start, other.start)` on the start each log holds. */
  predicate StartLe(a: LogRec, b: LogRec) {
    OptLe(a.v.t.start, b.v.t.start)
  }

  lemma StartLeIsTotalPreorder()
    ensures Sorting.TotalPreorder(StartLe)
  {
  }

  /** `self.files.sort()`: by start, a log without one first, and stable. */
  function SortByStart(files: seq<LogRec>): (r: seq<LogRec>)
    ensures Sorting.SortedBy(r, StartLe) && multiset(r) == multiset(files)
  {
    StartLeIsTotalPreorder();
    Sorting.SortBySorted(files, StartLe);
    Sorting.SortByPermutes(files, StartLe);
    Sorting.SortBy(files, StartLe)
  }

  lemma SortByStartOk(c: Logs)
    requires LogsOk(c)
    ensures LogsOk(c.(files := SortByStart(c.files)))
  {
    var r := SortByStart(c.files);
    forall i | 0 <= i < |r| ensures Tracking(r[i].v.t) {
      assert r[i] in multiset(c.files);
    }
  }

  /** Every log from the i-th on read through its lazy `start`, left to
      right, stopping at the first that raises: the comparisons of
      `self.files.sort()` do this to every log when there are two or more,
      and the summary line does it to the one log otherwise. */
  function DemandFrom(clock: Clock, files: seq<LogRec>, i: nat): (r: (seq<LogRec>, Outcome))
    requires i <= |files| && forall k :: 0 <= k < |files| ==> Tracking(files[k].v.t)
    ensures |r.0| == |files|
    ensures forall k :: 0 <= k < |files| ==>
              Tracking(r.0[k].v.t) && r.0[k].name == files[k].name && r.0[k].lines == files[k].lines
    ensures r.1.Pass? && (forall k :: 0 <= k < i ==> files[k].v.parsed) ==> AllParsed(r.0)
    ensures r.1.Fail? ==> r.1.error in {ValueError, SystemExit}
    ensures (forall k :: i <= k < |files| ==> files[k].v.parsed) ==> r == (files, Pass)
    decreases |files| - i
  {
    if i == |files| then (files, Pass)
    else
      var d := DemandLog(clock, files[i]);
      if d.1.Fail? then (files[i := d.0], d.1)
      else
        assert files[i].v.parsed ==> files[i := d.0] == files;
        DemandFrom(clock, files[i := d.0], i + 1)
  }

  function DemandAll(clock: Clock, files: seq<LogRec>): (r: (seq<LogRec>, Outcome))
    requires forall k :: 0 <= k < |files| ==> Tracking(files[k].v.t)
    ensures |r.0| == |files|
    ensures forall k :: 0 <= k < |files| ==> Tracking(r.0[k].v.t)
    ensures r.1.Pass? ==> AllParsed(r.0)
    ensures r.1.Fail? ==> r.1.error in {ValueError, SystemExit}
    ensures AllParsed(files) ==> r == (files, Pass)
  {
    DemandFrom(clock, files, 0)
  }

  /** The end of ProcessFiles and ProcessDirectory: the logs are sorted by
      start, which parses every log not yet parsed, and the first log's
      start and the last log's end are read for the summary line, which
      raises IndexError on an empty list. */
  function Report(clock: Clock, c: Logs): (p: Processed)
    requires LogsOk(c)
    ensures LogsOk(p.c) && p.c.state == c.state && |p.c.files| == |c.files|
    ensures p.outcome.Pass? ==> c.files != [] && AllParsed(p.c.files) && Sorting.SortedBy(p.c.files, StartLe)
    ensures p.outcome.Fail? ==> p.outcome.error in {IndexError, ValueError, SystemExit}
    ensures c.files == [] <==> p.outcome == Fail(IndexError)
  {
    var d := DemandAll(clock, c.files);
    if d.1.Fail? then Processed(Logs(d.0, c.state), d.1)
    else
      var c1 := Logs(d.0, c.state);
      SortByStartOk(c1);
      var files := SortByStart(d.0);
      forall i | 0 <= i < |files| ensures files[i].v.parsed {
        assert files[i] in multiset(d.0);
      }
      Processed(Logs(files, c.state), if files == [] then Fail(IndexError) else Pass)
  }

  predicate AllParsed(files: seq<LogRec>) {
    forall i :: 0 <= i < |files| ==> files[i].v.parsed
  }

  // --------------------------------------------------------- ProcessFiles

  /** The loop of `ProcessFiles` as written: each log is appended to `files`
      before it is parsed, a ValueError is reported and the loop goes on,
      and the state moves on only after a successful parse. */
  function ProcessFilesLoop(clock: Clock, c: Logs, inputs: seq<LogFile>): (p: Processed)
    requires LogsOk(c)
    ensures LogsOk(p.c)
    ensures p.outcome.Fail? ==> p.outcome.error == SystemExit
    ensures |p.c.files| <= |c.files| + |inputs|
    decreases |inputs|
  {
    if inputs == [] then Processed(c, Pass)
    else
      var p := Take(clock, c, inputs[0]);
      if p.outcome.Fail? && p.outcome.error != ValueError then p
      else ProcessFilesLoop(clock, p.c, inputs[1..])
  }

  /** `log = KindleLog(logfile, self.state); self.files.append(log);
      self.state = log.state`: the log is appended before it is read, and
      the state moves on only when the read succeeds. */
  function Take(clock: Clock, c: Logs, f: LogFile): (p: Processed)
    requires LogsOk(c)
    ensures LogsOk(p.c) && |p.c.files| == |c.files| + 1 && p.c.files[..|c.files|] == c.files
    ensures p.c.files[|c.files|].name == f.name && p.c.files[|c.files|].lines == f.lines
    ensures p.outcome.Pass? <==> p.c.state != c.state || p.c.files[|c.files|].v.parsed
    ensures p.outcome.Fail? ==> p.c.state == c.state && p.outcome.error in {ValueError, SystemExit}
  {
    var d := DemandLog(clock, OpenLog(f, c.state));
    Processed(Logs(c.files + [d.0], if d.1.Pass? then Some(d.0.v.t.state) else c.state), d.1)
  }

  function ProcessFiles(clock: Clock, c: Logs, inputs: seq<LogFile>): (p: Processed)
    requires LogsOk(c)
    ensures LogsOk(p.c)
    ensures p.outcome.Pass? ==> p.c.files != [] && AllParsed(p.c.files) && Sorting.SortedBy(p.c.files, StartLe)
    ensures p.outcome.Fail? ==> p.outcome.error in {IndexError, ValueError, SystemExit}
  {
    var p := ProcessFilesLoop(clock, c, inputs);
    if p.outcome.Fail? then p else Report(clock, p.c)
  }

  /** The loop as the `except ValueError` clause intends it: a log that
      could not be parsed is dropped. */
  function ProcessFilesIntendedLoop(clock: Clock, c: Logs, inputs: seq<LogFile>): (p: Processed)
    requires LogsOk(c)
    ensures LogsOk(p.c)
    ensures p.outcome.Fail? ==> p.outcome.error == SystemExit
    decreases |inputs|
  {
    if inputs == [] then Processed(c, Pass)
    else
      var d := DemandLog(clock, OpenLog(inputs[0], c.state));
      if d.1.Pass? then ProcessFilesIntendedLoop(clock, Logs(c.files + [d.0], Some(d.0.v.t.state)), inputs[1..])
      else if d.1.error != ValueError then Processed(c, d.1)
      else ProcessFilesIntendedLoop(clock, c, inputs[1..])
  }

  function ProcessFilesIntended(clock: Clock, c: Logs, inputs: seq<LogFile>): (p: Processed)
    requires LogsOk(c)
    ensures LogsOk(p.c)
    ensures p.outcome.Pass? ==> p.c.files != [] && AllParsed(p.c.files) && Sorting.SortedBy(p.c.files, StartLe)
    ensures p.outcome.Fail? ==> p.outcome.error in {IndexError, ValueError, SystemExit}
  {
    var p := ProcessFilesIntendedLoop(clock, c, inputs);
    if p.outcome.Fail? then p else Report(clock, p.c)
  }

  /** With failed logs dropped, every log kept is parsed, so the summary
      never re-parses and only an empty list can make it raise. */
  lemma {:induction false} IntendedKeepsOnlyParsed(clock: Clock, c: Logs, inputs: seq<LogFile>)
    requires LogsOk(c) && AllParsed(c.files)
    ensures AllParsed(ProcessFilesIntendedLoop(clock, c, inputs).c.files)
    ensures var p := ProcessFilesIntended(clock, c, inputs);
            AllParsed(p.c.files) && (p.outcome.Fail? ==> p.outcome.error in {SystemExit, IndexError})
    decreases |inputs|
  {
    if inputs != [] {
      var d := DemandLog(clock, OpenLog(inputs[0], c.state));
      if d.1.Pass? {
        IntendedKeepsOnlyParsed(clock, Logs(c.files + [d.0], Some(d.0.v.t.state)), inputs[1..]);
      } else if d.1.error == ValueError {
        IntendedKeepsOnlyParsed(clock, c, inputs[1..]);
      }
    }
    var p := ProcessFilesIntendedLoop(clock, c, inputs);
    if p.outcome.Pass? && p.c.files != [] {
      ReportOfParsed(clock, p.c);
    }
  }

  lemma ReportOfParsed(clock: Clock, c: Logs)
    requires LogsOk(c) && AllParsed(c.files) && c.files != []
    ensures Report(clock, c) == Processed(c.(files := SortByStart(c.files)), Pass)
  {
  }

  /** A file that has no line with a timestamp, read with no state carried
      in, raises "No valid lines" whenever it is parsed. */
  lemma EmptyFileFails(clock: Clock, f: LogFile)
    requires f.lines == []
    ensures DemandLog(clock, OpenLog(f, None)).1 == Fail(ValueError)
    ensures !DemandLog(clock, OpenLog(f, None)).0.v.parsed
    ensures DemandLog(clock, OpenLog(f, None)).0.v.t.start.None?
  {
  }

  /** One plain line with a timestamp parses. */
  lemma OneLineFileParses(clock: Clock, f: LogFile, wall: int)
    requires f.lines == [Line(Local(wall), None, false, false, false, None, None, None, None)]
    ensures DemandLog(clock, OpenLog(f, None)).1 == Pass
  {
    var v := NewLog(None);
    var l := f.lines[0];
    assert Admit(clock, v.t, l).Proceed?;
    assert StepLine(clock, v, l).outcome == Pass;
    assert ParseLines(clock, v, f.lines) == ParseLines(clock, StepLine(clock, v, l).v, []);
  }

  /** As written, a log that failed to parse stays in `files`; sorting reads
      its lazy start, which parses it again, so the ValueError that the loop
      meant to swallow escapes. Dropping it instead lets the good log
      through. */
  lemma FailedLogEscapes(clock: Clock, bad: LogFile, good: LogFile, wall: int)
    requires bad.lines == []
    requires good.lines == [Line(Local(wall), None, false, false, false, None, None, None, None)]
    ensures ProcessFiles(clock, Logs([], None), [bad, good]).outcome == Fail(ValueError)
    ensures ProcessFilesIntended(clock, Logs([], None), [bad, good]).outcome == Pass
  {
    EmptyFileFails(clock, bad);
    OneLineFileParses(clock, good, wall);
    var b := DemandLog(clock, OpenLog(bad, None));
    var g := DemandLog(clock, OpenLog(good, None));
    var c1 := Logs([b.0], None);
    assert [bad, good][0] == bad;
    assert [bad, good][1..] == [good];
    assert [] + [b.0] == [b.0];
    assert ProcessFilesLoop(clock, Logs([], None), [bad, good])
           == ProcessFilesLoop(clock, c1, [good]);
    assert [bad, good][1..] == [good];
    assert [good][1..] == [];
    var c2 := Logs([b.0, g.0], Some(g.0.v.t.state));
    assert ProcessFilesLoop(clock, c1, [good]) == Processed(c2, Pass);
    assert DemandLog(clock, b.0).1 == Fail(ValueError);
    assert Report(clock, c2).outcome == Fail(ValueError);
    var c3 := Logs([g.0], Some(g.0.v.t.state));
    assert ProcessFilesIntendedLoop(clock, Logs([], None), [bad, good])
           == ProcessFilesIntendedLoop(clock, Logs([], None), [good]);
    assert ProcessFilesIntendedLoop(clock, Logs([], None), [good]) == Processed(c3, Pass);
    ReportOfParsed(clock, c3);
  }

  // ----------------------------------------------------- ProcessDirectory

  predicate StartsWith(s: string, prefix: string) {
    |prefix| <= |s| && s[..|prefix|] == prefix
  }

  /** `a <= b` for a file name against the last file name handed on, which
      may be None; a str is never below None in Python 2. */
  predicate NameAtMost(name: string, last: Option<string>) {
    last.Some? && LexLe(name, last.value)
  }

  predicate NameLe(a: LogFile, b: LogFile) {
    LexLe(a.name, b.name)
  }

  lemma NameLeIsTotalPreorder()
    ensures Sorting.TotalPreorder(NameLe)
  {
    forall a: LogFile, b: LogFile ensures NameLe(a, b) || NameLe(b, a) {
      LexLeTotal(a.name, b.name);
    }
    forall a: LogFile, b: LogFile, c: LogFile | NameLe(a, b) && NameLe(b, c) ensures NameLe(a, c) {
      LexLeTransitive(a.name, b.name, c.name);
    }
  }

  /** `sorted(os.listdir(directory))`. */
  function SortByName(listing: seq<LogFile>): (r: seq<LogFile>)
    ensures Sorting.SortedBy(r, NameLe) && multiset(r) == multiset(listing)
  {
    NameLeIsTotalPreorder();
    Sorting.SortBySorted(listing, NameLe);
    Sorting.SortByPermutes(listing, NameLe);
    Sorting.SortBy(listing, NameLe)
  }

  /** The loop state of ProcessDirectory besides the corpus: the sequence
      number and date of the last log taken. */
  datatype Seen = Seen(number: string, date: string)

  /** What the loop of `ProcessDirectory` does with one directory entry. */
  datatype EntryStep = Next(c: Logs, seen: Seen) | Stop(p: Processed)

  /** One entry, in the order the loop tests: not a log; a name without two
      '_' (the unpacking raises, uncaught); already handed on (skipped, but
      remembered); a newer copy of the last log taken (that log is dropped
      and the state goes back to the log before it); then the log is taken,
      and only a successful parse is remembered. */
  function DirectoryEntry(clock: Clock, c: Logs, seen: Seen, f: LogFile): (r: EntryStep)
    requires LogsOk(c)
    ensures r.Next? ==> LogsOk(r.c)
    ensures r.Stop? ==> LogsOk(r.p.c) && r.p.outcome.Fail?
  {
    if !StartsWith(f.name, "messages_") then Next(c, seen)
    else
      var parts := Split(f.name, "_", 2);
      if |parts| != 3 then Stop(Processed(c, Fail(ValueError)))
      else
        var number, date := parts[1], parts[2];
        if c.state.Some? && NameAtMost(f.name, c.state.value.lastFilename) then Next(c, Seen(number, date))
        else
          var retracted := if seen.number == number && !LexLe(date, seen.date) then DropLast(clock, c) else Processed(c, Pass);
          if retracted.outcome.Fail? then Stop(retracted)
          else
            var p := Take(clock, retracted.c, f);
            if p.outcome.Pass? then Next(p.c, Seen(number, date))
            else if p.outcome.error == ValueError then Next(p.c, seen)
            else Stop(p)
  }

  /** `old = self.files.pop(-1)`, then `old.state` (read for the message,
      which may parse the dropped log) and `self.state = self.files[-1].state`
      (which may parse the log before it); either list may be empty. */
  function DropLast(clock: Clock, c: Logs): (p: Processed)
    requires LogsOk(c)
    ensures LogsOk(p.c)
    ensures p.outcome.Pass? ==> |c.files| >= 2 && |p.c.files| == |c.files| - 1
    ensures p.outcome.Fail? ==> p.outcome.error in {IndexError, ValueError, SystemExit}
    ensures c.files == [] ==> p == Processed(c, Fail(IndexError))
  {
    if c.files == [] then Processed(c, Fail(IndexError))
    else
      var dropped := DemandLog(clock, c.files[|c.files| - 1]);
      var rest := c.files[..|c.files| - 1];
      if dropped.1.Fail? then Processed(Logs(rest, c.state), dropped.1)
      else if rest == [] then Processed(Logs(rest, c.state), Fail(IndexError))
      else
        var previous := DemandLog(clock, rest[|rest| - 1]);
        var files := rest[|rest| - 1 := previous.0];
        Processed(Logs(files, if previous.1.Pass? then Some(previous.0.v.t.state) else c.state), previous.1)
  }

  function DirectoryLoop(clock: Clock, c: Logs, seen: Seen, entries: seq<LogFile>): (p: Processed)
    requires LogsOk(c)
    ensures LogsOk(p.c)
    decreases |entries|
  {
    if entries == [] then Processed(c, Pass)
    else
      match DirectoryEntry(clock, c, seen, entries[0])
      case Stop(p) => p
      case Next(c1, seen1) => DirectoryLoop(clock, c1, seen1, entries[1..])
  }

  /** `ProcessDirectory` over the directory's entries. */
  function ProcessDirectory(clock: Clock, c: Logs, listing: seq<LogFile>): (p: Processed)
    requires LogsOk(c)
    ensures LogsOk(p.c)
    ensures p.outcome.Pass? ==> p.c.files != [] && AllParsed(p.c.files) && Sorting.SortedBy(p.c.files, StartLe)
  {
    var p := DirectoryLoop(clock, c, Seen("", ""), SortByName(listing));
    if p.outcome.Fail? then p else Report(clock, p.c)
  }

  /** A log already handed on (its name is not after the last file name of
      the carried state) is skipped without being parsed. */
  lemma AlreadyProcessedSkipped(clock: Clock, c: Logs, seen: Seen, f: LogFile)
    requires LogsOk(c) && StartsWith(f.name, "messages_") && |Split(f.name, "_", 2)| == 3
    requires c.state.Some? && NameAtMost(f.name, c.state.value.lastFilename)
    ensures DirectoryEntry(clock, c, seen, f) == Next(c, Seen(Split(f.name, "_", 2)[1], Split(f.name, "_", 2)[2]))
  {
  }

  /** Entries that are not logs are ignored. */
  lemma NonLogIgnored(clock: Clock, c: Logs, seen: Seen, f: LogFile)
    requires LogsOk(c) && !StartsWith(f.name, "messages_")
    ensures DirectoryEntry(clock, c, seen, f) == Next(c, seen)
  {
  }

  /** A newer copy of the last log replaces it: the log is dropped and the
      state handed to the new copy is that of the log before it. */
  lemma NewerCopyRetracts(clock: Clock, c: Logs)
    requires LogsOk(c) && |c.files| >= 2 && AllParsed(c.files)
    ensures DropLast(clock, c)
            == Processed(Logs(c.files[..|c.files| - 1], Some(c.files[|c.files| - 2].v.t.state)), Pass)
  {
    var rest := c.files[..|c.files| - 1];
    assert rest[|rest| - 1] == c.files[|c.files| - 2];
    assert rest[|rest| - 1 := rest[|rest| - 1]] == rest;
  }

  // ------------------------------------------------------------- GetStates

  /** `GetStates()`: the per-file state durations added up, state by state. */
  function TotalDurations(files: seq<LogRec>): (r: map<string, int>)
    decreases |files|
  {
    if files == [] then map[]
    else Plus(TotalDurations(files[..|files| - 1]), files[|files| - 1].v.t.durations)
  }

  ghost function SumOfSums(files: seq<LogRec>): (r: int)
    decreases |files|
  {
    if files == [] then 0
    else SumOfSums(files[..|files| - 1]) + SumValues(files[|files| - 1].v.t.durations)
  }

  /** The grand total of GetStates is the sum of each file's total. */
  lemma {:induction false} TotalDurationsSum(files: seq<LogRec>)
    ensures SumValues(TotalDurations(files)) == SumOfSums(files)
    decreases |files|
  {
    if files != [] {
      TotalDurationsSum(files[..|files| - 1]);
      SumValuesPlus(TotalDurations(files[..|files| - 1]), files[|files| - 1].v.t.durations);
    } else {
      assert TotalDurations(files) == map[];
    }
  }

  /** A state appears in GetStates iff some file spent time in it. */
  lemma {:induction false} TotalDurationsKeys(files: seq<LogRec>, k: string)
    ensures k in TotalDurations(files) <==> exists i :: 0 <= i < |files| && k in files[i].v.t.durations
    decreases |files|
  {
    if files != [] {
      var init := files[..|files| - 1];
      TotalDurationsKeys(init, k);
      if k in TotalDurations(init) {
        var i :| 0 <= i < |init| && k in init[i].v.t.durations;
        assert files[i] == init[i];
      }
      if exists i :: 0 <= i < |files| && k in files[i].v.t.durations {
        var i :| 0 <= i < |files| && k in files[i].v.t.durations;
        if i < |init| {
          assert init[i] == files[i];
        }
      }
    }
  }

  // ----------------------------------------------------------------- books

  /** The events of every copy of book `a` in the first n files merged the
      way `books` merges them: the first copy as it is, then each later copy
      sorted and appended; None when no file has the book. */
  function Merged(files: seq<LogRec>, a: string, n: nat): (r: Option<seq<Event>>)
    requires n <= |files|
  {
    if n == 0 then None
    else
      var m := Merged(files, a, n - 1);
      if a !in files[n - 1].v.books then m
      else if m.None? then Some(files[n - 1].v.books[a].events)
      else Some(m.value + SortEvents(files[n - 1].v.books[a].events))
  }

  /** The first of the first n files holding book `a`: its copy is the one
      `books` keeps and extends. */
  function Owner(files: seq<LogRec>, a: string, n: nat): (r: Option<nat>)
    requires n <= |files|
    ensures r.None? <==> Merged(files, a, n).None?
    ensures r.Some? ==> r.value < n && a in files[r.value].v.books
  {
    if n == 0 then None
    else
      var o := Owner(files, a, n - 1);
      if o.Some? then o
      else if a in files[n - 1].v.books then Some(n - 1)
      else None
  }

  /** A book is merged over the first n files iff one of them holds it. */
  lemma {:induction false} MergedNone(files: seq<LogRec>, a: string, n: nat)
    requires n <= |files|
    ensures Merged(files, a, n).None? <==> forall j :: 0 <= j < n ==> a !in files[j].v.books
    decreases n
  {
    if n > 0 {
      MergedNone(files, a, n - 1);
    }
  }

  /** The merged events of a book hold every event of every copy, and
      nothing else. */
  lemma {:induction false} MergedIsUnion(files: seq<LogRec>, a: string, n: nat)
    requires n <= |files| && Merged(files, a, n).Some?
    ensures multiset(Merged(files, a, n).value) == MergedEvents(files, a, n)
    decreases n
  {
    var m := Merged(files, a, n - 1);
    if a in files[n - 1].v.books && m.Some? {
      MergedIsUnion(files, a, n - 1);
    } else if a !in files[n - 1].v.books {
      MergedIsUnion(files, a, n - 1);
    } else {
      NoCopiesNoEvents(files, a, n - 1);
    }
  }

  /** All events of all copies of book `a` in the first n files. */
  function MergedEvents(files: seq<LogRec>, a: string, n: nat): (r: multiset<Event>)
    requires n <= |files|
  {
    if n == 0 then multiset{}
    else MergedEvents(files, a, n - 1)
         + (if a in files[n - 1].v.books then multiset(files[n - 1].v.books[a].events) else multiset{})
  }

  lemma {:induction false} NoCopiesNoEvents(files: seq<LogRec>, a: string, n: nat)
    requires n <= |files| && Merged(files, a, n).None?
    ensures MergedEvents(files, a, n) == multiset{}
    decreases n
  {
    if n > 0 {
      NoCopiesNoEvents(files, a, n - 1);
    }
  }

  /** Every ASIN some log holds. */
  function Asins(files: seq<LogRec>): (r: set<string>)
  {
    set j, a | 0 <= j < |files| && a in files[j].v.books :: a
  }

  lemma AsinsMerged(files: seq<LogRec>)
    ensures forall a :: a in Asins(files) <==> Merged(files, a, |files|).Some?
  {
    forall a ensures a in Asins(files) <==> Merged(files, a, |files|).Some? {
      MergedNone(files, a, |files|);
    }
  }

  /** Copy `a` held by the k-th log once `books` has merged book `a` over
      the first n logs: as it was if the k-th log is not among them, with
      the merged events if it is the first copy, else sorted in place. */
  function MergedCopy(files: seq<LogRec>, k: nat, a: string, n: nat): (b: BookValue)
    requires k < |files| && a in files[k].v.books && n <= |files|
    ensures b.length == files[k].v.books[a].length
    ensures n <= k ==> b == files[k].v.books[a]
  {
    var b := files[k].v.books[a];
    if n <= k then b
    else if Owner(files, a, n) == Some(k) then b.(events := Merged(files, a, n).value)
    else b.(events := SortEvents(b.events))
  }

  /** A log with one of its books replaced. */
  function SetBook(r: LogRec, a: string, b: BookValue): (r': LogRec)
    ensures r'.name == r.name && r'.lines == r.lines && r'.v.t == r.v.t && r'.v.books == r.v.books[a := b]
  {
    r.(v := r.v.(books := r.v.books[a := b]))
  }

  /** How far book `a` has been merged part way through the merge loop of
      `books`: over the first j logs, or j + 1 once the j-th log's copy is
      done. */
  function Level(j: nat, done: set<string>, a: string): (r: nat) {
    if a in done then j + 1 else j
  }

  /** The books of the k-th log part way through the merge loop. */
  function BooksAt(files: seq<LogRec>, j: nat, done: set<string>, k: nat): (m: map<string, BookValue>)
    requires k < |files| && (j < |files| || (j == |files| && done == {}))
    ensures m.Keys == files[k].v.books.Keys
    ensures forall a :: a in m ==> m[a] == MergedCopy(files, k, a, Level(j, done, a))
  {
    map a | a in files[k].v.books :: MergedCopy(files, k, a, Level(j, done, a))
  }

  /** The logs part way through the merge loop of `books`: the first j logs
      are done, and of the j-th log the books in `done`. */
  function MergedUpTo(files: seq<LogRec>, j: nat, done: set<string>): (r: seq<LogRec>)
    requires j < |files| || (j == |files| && done == {})
    ensures |r| == |files|
  {
    seq(|files|, k requires 0 <= k < |files| => files[k].(v := files[k].v.(books := BooksAt(files, j, done, k))))
  }

  /** Before the loop nothing is merged. */
  lemma MergedUpToStart(files: seq<LogRec>)
    ensures MergedUpTo(files, 0, {}) == files
  {
    var r := MergedUpTo(files, 0, {});
    forall k | 0 <= k < |files| ensures r[k] == files[k] {
      assert BooksAt(files, 0, {}, k) == files[k].v.books;
    }
  }

  /** Once every book of the j-th log is done, the (j+1)-th log is next. */
  lemma MergedUpToNext(files: seq<LogRec>, j: nat)
    requires j < |files|
    ensures MergedUpTo(files, j, files[j].v.books.Keys) == MergedUpTo(files, j + 1, {})
  {
    forall k | 0 <= k < |files| ensures BooksAt(files, j, files[j].v.books.Keys, k) == BooksAt(files, j + 1, {}, k) {
      NextSameCopies(files, j, k);
    }
  }

  lemma NextSameCopies(files: seq<LogRec>, j: nat, k: nat)
    requires j < |files| && k < |files|
    ensures BooksAt(files, j, files[j].v.books.Keys, k) == BooksAt(files, j + 1, {}, k)
  {
    var m, m' := BooksAt(files, j, files[j].v.books.Keys, k), BooksAt(files, j + 1, {}, k);
    forall a | a in m ensures m[a] == m'[a] {
      if a in files[j].v.books {
        assert Level(j, files[j].v.books.Keys, a) == j + 1 == Level(j + 1, {}, a);
      } else if k < j {
        SameCopyPastLog(files, j, k, a);
      } else {
        assert j < k;
      }
    }
  }

  /** A log without book `a` changes nothing about it. */
  lemma SameCopyPastLog(files: seq<LogRec>, j: nat, k: nat, a: string)
    requires j < |files| && k < j && a in files[k].v.books && a !in files[j].v.books
    ensures MergedCopy(files, k, a, j) == MergedCopy(files, k, a, j + 1)
  {
    assert Merged(files, a, j + 1) == Merged(files, a, j);
    assert Owner(files, a, j + 1) == Owner(files, a, j);
  }

  /** Marking book `a` of the j-th log done changes copy `a` in each log
      that holds it, and nothing else. */
  lemma BooksAtAdd(files: seq<LogRec>, j: nat, done: set<string>, a: string, k: nat)
    requires j < |files| && a !in done && k < |files| && a in files[k].v.books
    ensures BooksAt(files, j, done + {a}, k) == BooksAt(files, j, done, k)[a := MergedCopy(files, k, a, j + 1)]
  {
    var m, m' := BooksAt(files, j, done + {a}, k), BooksAt(files, j, done, k);
    assert Level(j, done + {a}, a) == j + 1;
    BooksAtOthers(files, j, done, a, k);
    UpdatedEntry(m, m', a, MergedCopy(files, k, a, j + 1));
  }

  /** Marking book `a` done leaves the other copies of the k-th log. */
  lemma BooksAtOthers(files: seq<LogRec>, j: nat, done: set<string>, a: string, k: nat)
    requires j < |files| && a !in done && k < |files|
    ensures var m, m' := BooksAt(files, j, done + {a}, k), BooksAt(files, j, done, k);
            forall b :: b in m && b != a ==> m[b] == m'[b]
  {
    var m, m' := BooksAt(files, j, done + {a}, k), BooksAt(files, j, done, k);
    forall b | b in m && b != a ensures m[b] == m'[b] {
      assert Level(j, done + {a}, b) == Level(j, done, b);
    }
  }

  lemma BooksAtAddElsewhere(files: seq<LogRec>, j: nat, done: set<string>, a: string, k: nat)
    requires j < |files| && a !in done && k < |files| && a !in files[k].v.books
    ensures BooksAt(files, j, done + {a}, k) == BooksAt(files, j, done, k)
  {
    BooksAtOthers(files, j, done, a, k);
    SameEntries(BooksAt(files, j, done + {a}, k), BooksAt(files, j, done, k));
  }

  /** An earlier copy that is not the first is already sorted. */
  lemma CopyEarlierNotOwner(files: seq<LogRec>, j: nat, a: string, k: nat)
    requires j < |files| && k < j && a in files[k].v.books && a in files[j].v.books
    requires Owner(files, a, j) != Some(k)
    ensures MergedCopy(files, k, a, j + 1) == MergedCopy(files, k, a, j)
  {
    MergedNone(files, a, j);
    assert Owner(files, a, j + 1) == Owner(files, a, j);
  }

  /** The first copy takes in the j-th log's copy, sorted. */
  lemma CopyOwnerGrows(files: seq<LogRec>, j: nat, a: string, o: nat)
    requires j < |files| && a in files[j].v.books && Owner(files, a, j) == Some(o)
    ensures o < j && a in files[o].v.books
    ensures MergedCopy(files, o, a, j).events == Merged(files, a, j).value
    ensures MergedCopy(files, o, a, j + 1)
            == MergedCopy(files, o, a, j).(events := Merged(files, a, j).value + SortEvents(files[j].v.books[a].events))
  {
    assert Owner(files, a, j + 1) == Some(o);
  }

  /** A later copy is sorted in place. */
  lemma CopyLaterSorted(files: seq<LogRec>, j: nat, a: string)
    requires j < |files| && a in files[j].v.books && Owner(files, a, j).Some?
    ensures MergedCopy(files, j, a, j + 1) == files[j].v.books[a].(events := SortEvents(files[j].v.books[a].events))
  {
    assert Owner(files, a, j + 1) == Owner(files, a, j);
  }

  /** One step of the merge loop of `books` for a book already listed by
      the o-th log: that first copy takes in the j-th log's events, sorted,
      and the j-th log's copy is sorted in place. */
  function MergeStep(r: seq<LogRec>, o: nat, j: nat, a: string): (r': seq<LogRec>)
    requires o < |r| && j < |r| && o != j && a in r[o].v.books && a in r[j].v.books
    ensures |r'| == |r|
    ensures forall k :: 0 <= k < |r| && k != o && k != j ==> r'[k] == r[k]
    ensures a in r'[o].v.books && a in r'[j].v.books
    ensures r'[o] == SetBook(r[o], a, r'[o].v.books[a]) && r'[j] == SetBook(r[j], a, r'[j].v.books[a])
    ensures Sorting.SortedBy(r'[j].v.books[a].events, EventLe)
    ensures |r'[o].v.books[a].events| == |r[o].v.books[a].events| + |r[j].v.books[a].events|
    ensures multiset(r'[o].v.books[a].events) == multiset(r[o].v.books[a].events) + multiset(r[j].v.books[a].events)
    ensures r'[o].v.books[a].events[..|r[o].v.books[a].events|] == r[o].v.books[a].events
  {
    var first, later := r[o].v.books[a], r[j].v.books[a];
    r[o := SetBook(r[o], a, first.(events := first.events + SortEvents(later.events)))]
     [j := SetBook(r[j], a, later.(events := SortEvents(later.events)))]
  }

  /** A later copy of a book already listed: the first copy is the o-th
      log's, it holds the events merged so far, and marking the book done
      is one MergeStep. */
  lemma MergeIntoFirst(files: seq<LogRec>, j: nat, done: set<string>, a: string, o: nat)
    requires j < |files| && a in files[j].v.books && a !in done
    requires Owner(files, a, j) == Some(o)
    ensures o < j
    ensures var r := MergedUpTo(files, j, done);
            && a in r[o].v.books && a in r[j].v.books
            && MergedUpTo(files, j, done + {a}) == MergeStep(r, o, j, a)
  {
    FirstAndLater(files, j, done, a, o);
    MergeIntoFirstAll(files, j, done, a, o);
    SameElements(MergedUpTo(files, j, done + {a}), MergeStep(MergedUpTo(files, j, done), o, j, a));
  }

  lemma FirstAndLater(files: seq<LogRec>, j: nat, done: set<string>, a: string, o: nat)
    requires j < |files| && a in files[j].v.books && a !in done
    requires Owner(files, a, j) == Some(o)
    ensures o < j && Owner(files, a, j + 1) == Some(o)
    ensures var r := MergedUpTo(files, j, done);
            && a in r[o].v.books && a in r[j].v.books
            && r[o].v.books[a].events == Merged(files, a, j).value
            && r[j].v.books[a] == files[j].v.books[a]
  {
    CopyOwnerGrows(files, j, a, o);
    var r := MergedUpTo(files, j, done);
    assert r[o].v.books == BooksAt(files, j, done, o);
    assert r[j].v.books == BooksAt(files, j, done, j);
  }

  lemma MergeIntoFirstAll(files: seq<LogRec>, j: nat, done: set<string>, a: string, o: nat)
    requires j < |files| && a in files[j].v.books && a !in done
    requires Owner(files, a, j) == Some(o)
    ensures o < j
    ensures var r := MergedUpTo(files, j, done);
            forall k :: 0 <= k < |files| ==> MergedUpTo(files, j, done + {a})[k] == MergeStep(r, o, j, a)[k]
  {
    CopyOwnerGrows(files, j, a, o);
    var r, r' := MergedUpTo(files, j, done), MergedUpTo(files, j, done + {a});
    var u := MergeStep(r, o, j, a);
    forall k | 0 <= k < |files| ensures r'[k] == u[k] {
      MergeIntoFirstAt(files, j, done, a, o, k);
    }
  }

  /** Two sequences with the same elements are equal. */
  lemma SameElements<T>(s: seq<T>, t: seq<T>)
    requires |s| == |t| && forall k :: 0 <= k < |s| ==> s[k] == t[k]
    ensures s == t
  {
  }

  lemma MergeIntoFirstAt(files: seq<LogRec>, j: nat, done: set<string>, a: string, o: nat, k: nat)
    requires j < |files| && a in files[j].v.books && a !in done && k < |files|
    requires Owner(files, a, j) == Some(o)
    ensures o < j
    ensures var r := MergedUpTo(files, j, done);
            var first := r[o].v.books[a];
            var later := r[j].v.books[a];
            MergedUpTo(files, j, done + {a})[k]
            == if k == j then SetBook(r[j], a, later.(events := SortEvents(later.events)))
               else if k == o then SetBook(r[o], a, first.(events := first.events + SortEvents(later.events)))
               else r[k]
  {
    CopyOwnerGrows(files, j, a, o);
    var r, r' := MergedUpTo(files, j, done), MergedUpTo(files, j, done + {a});
    var first, later := r[o].v.books[a], r[j].v.books[a];
    if k == j {
      BooksAtAdd(files, j, done, a, k);
      CopyLaterSorted(files, j, a);
      assert later == files[j].v.books[a];
    } else if k == o {
      BooksAtAdd(files, j, done, a, k);
      assert first == MergedCopy(files, o, a, j);
    } else {
      BooksUntouched(files, j, done, a, k);
    }
  }

  /** The logs other than the first copy's and the j-th keep their books. */
  lemma BooksUntouched(files: seq<LogRec>, j: nat, done: set<string>, a: string, k: nat)
    requires j < |files| && a in files[j].v.books && a !in done && k < |files| && k != j
    requires Owner(files, a, j) != Some(k)
    ensures BooksAt(files, j, done + {a}, k) == BooksAt(files, j, done, k)
  {
    if a in files[k].v.books {
      var m := BooksAt(files, j, done, k);
      BooksAtAdd(files, j, done, a, k);
      if k < j {
        CopyEarlierNotOwner(files, j, a, k);
      }
      UpdateSame(m, a, MergedCopy(files, k, a, j + 1));
    } else {
      BooksAtAddElsewhere(files, j, done, a, k);
    }
  }

  /** A map that agrees with n everywhere except at k, where it holds v,
      is n updated at k. */
  lemma UpdatedEntry<K, V>(m: map<K, V>, n: map<K, V>, k: K, v: V)
    requires m.Keys == n.Keys && k in m && m[k] == v
    requires forall b :: b in m && b != k ==> m[b] == n[b]
    ensures m == n[k := v]
  {
  }

  /** Two maps with the same keys and the same value at each key are equal. */
  lemma SameEntries<K, V>(m: map<K, V>, n: map<K, V>)
    requires m.Keys == n.Keys && forall k :: k in m ==> m[k] == n[k]
    ensures m == n
  {
  }

  /** Writing a map entry's own value back leaves the map as it was. */
  lemma UpdateSame<K, V>(m: map<K, V>, k: K, v: V)
    requires k in m && m[k] == v
    ensures m[k := v] == m
  {
  }

  /** The first copy of a book: it is kept as it is. */
  lemma MergeFirstCopy(files: seq<LogRec>, j: nat, done: set<string>, a: string)
    requires j < |files| && a in files[j].v.books && a !in done
    requires Owner(files, a, j).None?
    ensures Owner(files, a, j + 1) == Some(j)
    ensures MergedUpTo(files, j, done + {a}) == MergedUpTo(files, j, done)
  {
    var r, r' := MergedUpTo(files, j, done), MergedUpTo(files, j, done + {a});
    forall k | 0 <= k < |files| ensures r'[k] == r[k] {
      FirstCopyKept(files, j, done, a, k);
    }
    SameElements(r', r);
  }

  lemma FirstCopyKept(files: seq<LogRec>, j: nat, done: set<string>, a: string, k: nat)
    requires j < |files| && a in files[j].v.books && a !in done && k < |files|
    requires Owner(files, a, j).None?
    ensures BooksAt(files, j, done + {a}, k) == BooksAt(files, j, done, k)
  {
    if a in files[k].v.books {
      if k < j {
        MergedNone(files, a, j);
        assert false;
      }
      FirstCopyUnchanged(files, j, done, a, k);
      BooksAtAdd(files, j, done, a, k);
      UpdateSame(BooksAt(files, j, done, k), a, MergedCopy(files, k, a, j + 1));
    } else {
      BooksAtAddElsewhere(files, j, done, a, k);
    }
  }

  /** The first copy of a book, in the j-th log or a later one, is as it was. */
  lemma FirstCopyUnchanged(files: seq<LogRec>, j: nat, done: set<string>, a: string, k: nat)
    requires j <= k < |files| && a in files[j].v.books && a !in done && a in files[k].v.books
    requires Owner(files, a, j).None?
    ensures MergedCopy(files, k, a, j + 1) == BooksAt(files, j, done, k)[a]
  {
    assert Level(j, done, a) == j;
    if k == j {
      assert Owner(files, a, j + 1) == Some(j);
    }
  }

  /** Each book listed by `books` before any is removed: the first copy,
      with the events of all copies. */
  function MergedBooks(files: seq<LogRec>): (m: map<string, BookValue>)
    ensures m.Keys == Asins(files)
    ensures forall a :: a in m ==> Merged(files, a, |files|) == Some(m[a].events)
  {
    AsinsMerged(files);
    map a | a in Asins(files) :: MergedCopy(files, Owner(files, a, |files|).value, a, |files|)
  }

  /** `KindleLogs.books`: the merged books, less those without a single
      read; computing the reads raises TypeError for some event lists. */
  function BooksOf(files: seq<LogRec>): (r: Result<map<string, BookValue>>)
  {
    var m := MergedBooks(files);
    if exists a :: a in m && Sessions.ReadsOf(m[a].events).Err? then Err(TypeError)
    else Ok(map a | a in m && |Sessions.ReadsOf(m[a].events).value| > 0 :: m[a])
  }

  /** The logs after `books` has run: the first copy of each book has taken
      in the later copies, and each later copy has been sorted in place. */
  function BooksAfter(files: seq<LogRec>): (r: seq<LogRec>)
    ensures |r| == |files|
  {
    MergedUpTo(files, |files|, {})
  }

  /** `books` raises TypeError iff the merged events of some book held by
      some log make computing its reads raise. */
  lemma BooksFail(files: seq<LogRec>)
    ensures BooksOf(files).Err? <==>
              exists b :: Merged(files, b, |files|).Some? && Sessions.ReadsOf(Merged(files, b, |files|).value).Err?
  {
    if exists b :: Merged(files, b, |files|).Some? && Sessions.ReadsOf(Merged(files, b, |files|).value).Err? {
      var b :| Merged(files, b, |files|).Some? && Sessions.ReadsOf(Merged(files, b, |files|).value).Err?;
      BookFails(files, b);
    }
  }

  lemma BookFails(files: seq<LogRec>, b: string)
    requires Merged(files, b, |files|).Some? && Sessions.ReadsOf(Merged(files, b, |files|).value).Err?
    ensures BooksOf(files).Err?
  {
    var m := MergedBooks(files);
    AsinsMerged(files);
    assert b in m && Sessions.ReadsOf(m[b].events).Err?;
  }

  /** A book is listed iff some log holds it and its merged events give at
      least one read. */
  lemma BooksListed(files: seq<LogRec>, a: string)
    requires BooksOf(files).Ok?
    ensures a in BooksOf(files).value <==>
              Merged(files, a, |files|).Some? && Sessions.ReadsOf(Merged(files, a, |files|).value).Ok?
              && |Sessions.ReadsOf(Merged(files, a, |files|).value).value| > 0
  {
    AsinsMerged(files);
  }

  /** The book listed is the first copy as `books` leaves it, and it holds
      the events of all copies and nothing else. */
  lemma BookListedIsFirstCopy(files: seq<LogRec>, a: string)
    requires BooksOf(files).Ok? && a in BooksOf(files).value
    ensures Merged(files, a, |files|).Some? && Owner(files, a, |files|).Some?
    ensures multiset(BooksOf(files).value[a].events) == MergedEvents(files, a, |files|)
    ensures BooksOf(files).value[a] == BooksAfter(files)[Owner(files, a, |files|).value].v.books[a]
  {
    AsinsMerged(files);
    MergedIsUnion(files, a, |files|);
  }

  /** The reading sessions of a merged book do not depend on the order in
      which its copies were merged. */
  lemma MergedReadsOrderFree(files: seq<LogRec>, a: string, n: nat, events: seq<Event>)
    requires n <= |files| && Merged(files, a, n).Some?
    requires multiset(events) == MergedEvents(files, a, n)
    ensures Sessions.ReadsOf(Merged(files, a, n).value) == Sessions.ReadsOf(events)
  {
    MergedIsUnion(files, a, n);
    Sessions.ReadsOrderIndependent(Merged(files, a, n).value, events);
  }
}

=== FILE: events.dfy ===
/** The events of a book's life and how a new one is folded into the list
    (log_parser.py:142-213). */
module BookEvents {
  import opened PyText
  import Fuzz
  import Sorting

  /** KindleBook.PICK_UP = 1, PUT_DOWN = 2, OPEN = 3, CLOSE = 4. */
  datatype EventKind = PickUp | PutDown | Open | Close

  function Code(k: EventKind): (r: int) {
    match k
    case PickUp => 1
    case PutDown => 2
    case Open => 3
    case Close => 4
  }

  /** One `[ts, event, position]` entry of KindleBook.events; the position is
      None until some line supplies one. */
  datatype Event = Event(ts: int, kind: EventKind, pos: Option<int>)

  /** Python 2 orders None before every int. */
  predicate OptLe(a: Option<int>, b: Option<int>) {
    a.None? || (b.Some? && a.value <= b.value)
  }

  /** The order `sorted(self.events)` uses: lists compare item by item. */
  predicate EventLe(a: Event, b: Event) {
    a.ts < b.ts
    || (a.ts == b.ts && Code(a.kind) < Code(b.kind))
    || (a.ts == b.ts && a.kind == b.kind && OptLe(a.pos, b.pos))
  }

  lemma EventLeIsTotalPreorder()
    ensures Sorting.TotalPreorder(EventLe)
  {
  }

  /** Two events the order cannot tell apart are the same event. */
  lemma EventLeIsAntisymmetric()
    ensures Sorting.Antisymmetric(EventLe)
  {
  }

  /** `sorted(events)` depends only on which events there are, not on the
      order they were recorded or merged in. */
  lemma SortEventsOrderIndependent(a: seq<Event>, b: seq<Event>)
    requires multiset(a) == multiset(b)
    ensures SortEvents(a) == SortEvents(b)
  {
    EventLeIsAntisymmetric();
    Sorting.SortedUnique(SortEvents(a), SortEvents(b), EventLe);
  }

  function SortEvents(events: seq<Event>): (r: seq<Event>)
    ensures Sorting.SortedBy(r, EventLe) && multiset(r) == multiset(events)
  {
    EventLeIsTotalPreorder();
    Sorting.SortBySorted(events, EventLe);
    Sorting.SortByPermutes(events, EventLe);
    Sorting.SortBy(events, EventLe)
  }

  function Min(a: int, b: int): (r: int) {
    if a <= b then a else b
  }

  /** The condition under which _CoalesceLast overwrites the last event instead
      of appending: the same second, or (for PutDown) a CLOSE less than
      `oldFuzz` seconds earlier. */
  predicate Merges(last: Event, ts: int, matchOld: Option<EventKind>, oldFuzz: int) {
    Fuzz.EqualWithFuzz(last.ts, ts, 1)
    || (matchOld == Some(last.kind) && Fuzz.EqualWithFuzz(last.ts, ts, oldFuzz))
  }

  /** KindleBook._CoalesceLast on the event list. */
  function Coalesced(events: seq<Event>, ts: int, kind: EventKind,
                     matchOld: Option<EventKind>, oldFuzz: int): (r: seq<Event>)
    ensures r != [] && r[|r| - 1].kind == kind
  {
    if events == [] then [Event(ts, kind, None)]
    else
      var last := events[|events| - 1];
      if Merges(last, ts, matchOld, oldFuzz) then
        events[..|events| - 1] + [Event(Min(last.ts, ts), kind, last.pos)]
      else events + [Event(ts, kind, last.pos)]
  }

  /** A merge keeps the number of events, leaves every earlier event alone,
      and rewrites the last one in place with the earlier time, the new kind
      and its old position. */
  lemma CoalesceMerge(events: seq<Event>, ts: int, kind: EventKind,
                      matchOld: Option<EventKind>, oldFuzz: int)
    requires events != [] && Merges(events[|events| - 1], ts, matchOld, oldFuzz)
    ensures var r := Coalesced(events, ts, kind, matchOld, oldFuzz);
            && |r| == |events|
            && r[..|r| - 1] == events[..|events| - 1]
            && r[|r| - 1].ts == Min(events[|events| - 1].ts, ts)
            && r[|r| - 1].ts <= ts
            && r[|r| - 1].pos == events[|events| - 1].pos
  {
  }

  /** Otherwise exactly one event is appended, carrying the position of the
      previous last event (None for the first event of a book). */
  lemma CoalesceAppend(events: seq<Event>, ts: int, kind: EventKind,
                       matchOld: Option<EventKind>, oldFuzz: int)
    requires events == [] || !Merges(events[|events| - 1], ts, matchOld, oldFuzz)
    ensures var r := Coalesced(events, ts, kind, matchOld, oldFuzz);
            && |r| == |events| + 1
            && r[..|events|] == events
            && r[|events|] == Event(ts, kind, if events == [] then None else events[|events| - 1].pos)
  {
  }

  /** With integer timestamps the one-second fuzz only merges equal times:
      PickUp/Open/Close merge exactly when the last event has the same ts. */
  lemma CoalesceOneSecond(events: seq<Event>, ts: int, kind: EventKind)
    requires events != []
    ensures Merges(events[|events| - 1], ts, None, 1) <==> events[|events| - 1].ts == ts
  {
  }

  /** PutDown's extra rule: it also absorbs a CLOSE from less than 15 s before. */
  lemma PutDownMergesIntoRecentClose(events: seq<Event>, ts: int)
    requires events != []
    ensures Merges(events[|events| - 1], ts, Some(Close), 15)
            <==> (events[|events| - 1].ts == ts
                  || (events[|events| - 1].kind == Close && Fuzz.Abs(events[|events| - 1].ts - ts) < 15))
  {
  }

  // ----------------------------------------------------------- positions

  /** KindleBook._FixPosition with `int(float(x))` read as integer parsing:
      a position containing a blank keeps its last blank-separated word and a
      bad number there raises ValueError; any other unparsable text is 0. */
  function FixPosition(position: string): (r: Result<int>)
    ensures r.Err? ==> Contains(position, " ") && r.error == ValueError
    ensures !Contains(position, " ") ==> r.Ok?
  {
    if Contains(position, " ") then
      var parts := Split(position, " ", -1);
      match ParseDecimal(parts[|parts| - 1])
      case Some(n) => Ok(n)
      case None => Err(ValueError)
    else
      match ParseDecimal(position)
      case Some(n) => Ok(n)
      case None => Ok(0)
  }

  lemma NoBlankInDecimal(i: int)
    ensures !Contains(IntToDecimal(i), " ")
  {
    var s := IntToDecimal(i);
    if i < 0 {
      assert s == "-" + NatToDecimal(-i);
    }
    assert forall k :: 0 <= k < |s| ==> s[k] != ' ';
    forall k | 0 <= k ensures !OccursAt(s, " ", k) {
      if k + 1 <= |s| {
        assert s[k..k + 1] == [s[k]];
      }
    }
  }

  /** A position written by `'%d'` reads back as itself. */
  lemma {:induction false} FixPositionOfDecimal(i: int)
    ensures FixPosition(IntToDecimal(i)) == Ok(i)
  {
    NoBlankInDecimal(i);
    DecimalRoundTrip(i);
  }

  /** Non-numeric text without blanks is position 0, never an error. */
  lemma FixPositionFallback(position: string)
    requires !Contains(position, " ") && ParseDecimal(position).None?
    ensures FixPosition(position) == Ok(0)
  {
  }

  /** The `if position: self.events[-1][2] = self._FixPosition(position)` step
      of PickUp, Open and Close; an empty position changes nothing. */
  function WithLastPosition(events: seq<Event>, position: string): (r: Result<seq<Event>>)
    requires events != []
    ensures r.Ok? ==> |r.value| == |events| && r.value[..|events| - 1] == events[..|events| - 1]
    ensures position == "" ==> r == Ok(events)
    ensures position != "" && FixPosition(position).Ok? ==>
              r.Ok? && r.value[|events| - 1] == events[|events| - 1].(pos := Some(FixPosition(position).value))
    ensures r.Err? <==> position != "" && FixPosition(position).Err?
  {
    if position == "" then Ok(events)
    else
      match FixPosition(position)
      case Ok(p) => Ok(events[|events| - 1 := events[|events| - 1].(pos := Some(p))])
      case Err(e) => Err(e)
  }

  // ------------------------------------------------------------ recording

  /** The events after one of PickUp/Open/Close, and whether it raised; when
      `_FixPosition` raises, the coalesced event has already been stored. */
  datatype Recorded = Recorded(events: seq<Event>, outcome: Outcome)

  /** PickUp, Open or Close: coalesce with fuzz 1, then set the position of
      the last event when one is supplied. */
  function Record(events: seq<Event>, ts: int, kind: EventKind, position: string): (r: Recorded)
    ensures r.events != [] && r.events[|r.events| - 1].kind == kind
    ensures r.outcome.Fail? <==> position != "" && FixPosition(position).Err?
    ensures |r.events| == |Coalesced(events, ts, kind, None, 1)|
    ensures var c := Coalesced(events, ts, kind, None, 1);
            r.events[..|c| - 1] == c[..|c| - 1]
    ensures position == "" ==> r == Recorded(Coalesced(events, ts, kind, None, 1), Pass)
    ensures position != "" && FixPosition(position).Ok? ==>
              r.outcome == Pass && r.events[|r.events| - 1].pos == Some(FixPosition(position).value)
    ensures position != "" && FixPosition(position).Err? ==> r.events == Coalesced(events, ts, kind, None, 1)
  {
    var c := Coalesced(events, ts, kind, None, 1);
    match WithLastPosition(c, position)
    case Ok(es) => Recorded(es, Pass)
    case Err(e) => Recorded(c, Fail(e))
  }

  /** PutDown: also absorbs a CLOSE from less than 15 seconds earlier. */
  function PutDownEvents(events: seq<Event>, ts: int): (r: seq<Event>) {
    Coalesced(events, ts, PutDown, Some(Close), 15)
  }

  /** The length recorded for a book: `_FixPosition(length)` when the text is
      non-empty, else 0. */
  function BookLength(text: string): (r: Result<int>)
    ensures text == "" ==> r == Ok(0)
    ensures r.Err? ==> Contains(text, " ")
  {
    if text == "" then Ok(0) else FixPosition(text)
  }
}

=== FILE: fuzz.dfy ===
/** Tolerant comparison of timestamps and time deltas (log_parser.py:24-42). */
module Fuzz {
  import opened PyText

  function Abs(x: int): (r: nat) {
    if x < 0 then -x else x
  }

  /** EqualWithFuzz: a and b count as equal when they are less than `fuzz`
      seconds apart; identical values are equal whatever the fuzz. */
  function EqualWithFuzz(a: int, b: int, fuzz: int): (r: bool)
    ensures r <==> (a == b || (a - fuzz < b && b < a + fuzz))
  {
    a == b || Abs(a - b) < fuzz
  }

  lemma EqualWithFuzzSymmetric(a: int, b: int, fuzz: int)
    ensures EqualWithFuzz(a, b, fuzz) == EqualWithFuzz(b, a, fuzz)
  {
  }

  /** On integer timestamps a fuzz of one second is plain equality. */
  lemma EqualWithFuzzOneIsEquality(a: int, b: int)
    ensures EqualWithFuzz(a, b, 1) <==> a == b
  {
  }

  const HOUR := 3600
  const DEFAULT_FUZZ := 300

  /** The values MatchWithFuzzByHour may return for `ref`: ref itself, an hour
      less (only when ref exceeds an hour) and an hour more. */
  predicate HourCandidate(ref: int, c: int) {
    c == ref || (ref > HOUR && c == ref - HOUR) || c == ref + HOUR
  }

  /** MatchWithFuzzByHour: the first of ref, ref - 1h (when ref > 1h) and
      ref + 1h that lies within 300 s of value. */
  function MatchWithFuzzByHour(ref: int, value: int): (r: Option<int>)
    ensures r.Some? ==> HourCandidate(ref, r.value) && EqualWithFuzz(r.value, value, DEFAULT_FUZZ)
    ensures r.None? <==> forall c :: HourCandidate(ref, c) ==> !EqualWithFuzz(c, value, DEFAULT_FUZZ)
    ensures EqualWithFuzz(ref, value, DEFAULT_FUZZ) ==> r == Some(ref)
  {
    if EqualWithFuzz(ref, value, DEFAULT_FUZZ) then Some(ref)
    else if ref > HOUR && EqualWithFuzz(ref - HOUR, value, DEFAULT_FUZZ) then Some(ref - HOUR)
    else if EqualWithFuzz(ref + HOUR, value, DEFAULT_FUZZ) then Some(ref + HOUR)
    else None
  }

  /** The candidates are an hour apart and the fuzz is 300 s, so at most one of
      them matches: the search order never decides the answer. */
  lemma MatchIsUnique(ref: int, value: int, c: int)
    requires HourCandidate(ref, c) && EqualWithFuzz(c, value, DEFAULT_FUZZ)
    ensures MatchWithFuzzByHour(ref, value) == Some(c)
  {
  }

  /** The examples of the docstring (log_parser.py:33-37). */
  lemma MatchExamples()
    ensures MatchWithFuzzByHour(3600, 3600) == Some(3600)
    ensures MatchWithFuzzByHour(3600, 3601) == Some(3600)
    ensures MatchWithFuzzByHour(3600, 3901) == None
    ensures MatchWithFuzzByHour(3600, 7200) == Some(7200)
  {
  }
}

=== FILE: kindle_book.dfy ===
/** KindleBook: one book's event list, updated in place (log_parser.py:140-314). */
module KindleBooks {
  import opened PyText
  import opened BookEvents
  import opened Sessions

  class KindleBook {
    const asin: string
    const length: int
    var events: seq<Event>

    /** `KindleBook(asin, length)` once the length text has been read by
        `BookLength`; a new book has no events. */
    constructor (asin: string, length: int)
      ensures this.asin == asin && this.length == length && events == []
    {
      this.asin := asin;
      this.length := length;
      events := [];
    }

    /** `_CoalesceLast`: merge into the last event or append one. */
    method CoalesceLast(ts: int, kind: EventKind, matchOld: Option<EventKind>, oldFuzz: int)
      modifies this
      ensures events == Coalesced(old(events), ts, kind, matchOld, oldFuzz)
    {
      if events != [] {
        var last := events[|events| - 1];
        if Merges(last, ts, matchOld, oldFuzz) {
          events := events[|events| - 1 := Event(Min(last.ts, ts), kind, last.pos)];
          return;
        }
        events := events + [Event(ts, kind, last.pos)];
      } else {
        events := events + [Event(ts, kind, None)];
      }
    }

    /** `if position: self.events[-1][2] = self._FixPosition(position)`. */
    method SetLastPosition(position: string) returns (outcome: Outcome)
      requires events != []
      modifies this
      ensures match WithLastPosition(old(events), position)
              case Ok(es) => events == es && outcome == Pass
              case Err(e) => events == old(events) && outcome == Fail(e)
    {
      outcome := Pass;
      if position != "" {
        var p := FixPosition(position);
        if p.Err? {
          return Fail(p.error);
        }
        events := events[|events| - 1 := events[|events| - 1].(pos := Some(p.value))];
      }
    }

    method PickUp(ts: int, position: string) returns (outcome: Outcome)
      modifies this
      ensures Recorded(events, outcome) == Record(old(events), ts, EventKind.PickUp, position)
    {
      CoalesceLast(ts, EventKind.PickUp, None, 1);
      outcome := SetLastPosition(position);
    }

    method PutDown(ts: int)
      modifies this
      ensures events == PutDownEvents(old(events), ts)
    {
      CoalesceLast(ts, EventKind.PutDown, Some(EventKind.Close), 15);
    }

    method Open(ts: int, position: string) returns (outcome: Outcome)
      modifies this
      ensures Recorded(events, outcome) == Record(old(events), ts, EventKind.Open, position)
    {
      CoalesceLast(ts, EventKind.Open, None, 1);
      outcome := SetLastPosition(position);
    }

    method Close(ts: int, position: string) returns (outcome: Outcome)
      modifies this
      ensures Recorded(events, outcome) == Record(old(events), ts, EventKind.Close, position)
    {
      CoalesceLast(ts, EventKind.Close, None, 1);
      outcome := SetLastPosition(position);
    }

    /** `UpdateEvents(other.events)`: sorts the other book's list in place and
        appends it; a list that starts before this book's last event is only
        reported, never refused. Passing the book itself doubles its events. */
    method UpdateEvents(other: KindleBook)
      modifies this, other
      ensures other != this ==> other.events == SortEvents(old(other.events))
      ensures other != this ==> events == old(events) + SortEvents(old(other.events))
      ensures other == this ==> events == SortEvents(old(events)) + SortEvents(old(events))
      ensures other != this ==> ReadsOf(events) == ReadsOf(old(events) + old(other.events))
    {
      var sorted := SortEvents(other.events);
      other.events := sorted;
      if sorted != [] {
        events := events + sorted;
      }
      if other != this {
        assert multiset(events) == multiset(old(events) + old(other.events));
        ReadsOrderIndependent(events, old(events) + old(other.events));
      }
    }

    /** The `reads` property: the loop over the sorted events, then the
        session still in hand. */
    method Reads() returns (r: Result<seq<Read>>)
      ensures r == ReadsOf(events)
    {
      var sorted := SortEvents(events);
      var acc := Initial;
      var i := 0;
      while i < |sorted|
        invariant 0 <= i <= |sorted|
        invariant Fold(Initial, sorted) == Fold(acc, sorted[i..])
      {
        FoldAt(acc, sorted, i);
        var next := ReadStep(acc, sorted[i]);
        if next.Err? {
          return Err(next.error);
        }
        acc := next.value;
        i := i + 1;
      }
      if Truthy(acc.first) {
        r := AppendRead(acc.rv, Read(acc.first, acc.firstPos, None, acc.latestPos, acc.readTime));
      } else {
        r := Ok(acc.rv);
      }
    }
  }

  /** The body of the loop of `reads` for one event, on the loop's locals
      (the sessions so far, `first`, `start`, `first_pos`, `latest_pos`,
      `read_time` and `last`); the subtraction from a `start` of None
      raises TypeError. */
  method ReadStep(acc: Acc, e: Event) returns (r: Result<Acc>)
    ensures r == Step(acc, e)
  {
    var rv, first, start, firstPos, latestPos, readTime, last :=
      acc.rv, acc.first, acc.start, acc.firstPos, acc.latestPos, acc.readTime, acc.last;
    match e.kind {
      case PickUp =>
        start, first := Some(e.ts), Some(e.ts);
        firstPos := e.pos;
        latestPos := None;
        readTime := 0;
      case Open =>
        if !Truthy(first) {
          first := start;
        }
        if !Truthy(firstPos) && Truthy(e.pos) {
          firstPos := e.pos;
          latestPos := e.pos;
        }
        start := Some(e.ts);
      case Close =>
        if last == Some(EventKind.PickUp) || last == Some(EventKind.Open) {
          if start.None? {
            return Err(TypeError);
          }
          readTime := readTime + (e.ts - start.value);
        }
        if Truthy(e.pos) {
          latestPos := e.pos;
        }
      case PutDown =>
        if last == Some(EventKind.PickUp) || last == Some(EventKind.Open) {
          if start.None? {
            return Err(TypeError);
          }
          readTime := readTime + (e.ts - start.value);
        }
        if Truthy(e.pos) {
          latestPos := e.pos;
        }
        var appended := AppendRead(rv, Read(first, firstPos, Some(e.ts), latestPos, readTime));
        if appended.Err? {
          return Err(appended.error);
        }
        rv := appended.value;
        first := None;
        start := None;
        readTime := 0;
    }
    last := Some(e.kind);
    r := Ok(Acc(rv, first, start, firstPos, latestPos, readTime, last));
  }

  /** `KindleBook(asin, length)`: the constructor raises when the length text
      holds a blank and its last word is not a number. */
  method NewBook(asin: string, lengthText: string) returns (r: Result<KindleBook>)
    ensures BookLength(lengthText).Err? <==> r.Err?
    ensures r.Err? ==> r.error == ValueError
    ensures r.Ok? ==> fresh(r.value) && r.value.asin == asin && r.value.events == []
                      && r.value.length == BookLength(lengthText).value
  {
    var length := BookLength(lengthText);
    if length.Err? {
      return Err(length.error);
    }
    var book := new KindleBook(asin, length.value);
    return Ok(book);
  }
}

=== FILE: kindle_log.dfy ===
/** KindleLog: one log file, parsed on first use (log_parser.py:318-806).
    Its fields are the tracked state and a dictionary of KindleBook objects
    that the book hand-off updates in place; every method is proved against
    the value-level description in LogLines. */
module LogFiles {
  import opened PyText
  import opened LogStates
  import opened BookEvents
  import opened LogLines
  import opened KindleBooks
  import PowerStates
  import TimeNormalizer

  class KindleLog {
    /** The file's base name, its lines, and the timezone library. */
    const name: string
    const lines: seq<Line>
    const clock: Clock

    var parsed: bool
    var start: Option<int>
    var end: Option<int>
    var state: LogState
    var ts: int
    var states: seq<Transition>
    var durations: map<string, int>
    var books: map<string, KindleBook>

    /** The fields the clock corrector and the power-state machine work on. */
    function Tracked(): (r: Tracker)
      reads this`state, this`ts, this`start, this`states, this`durations
    {
      Tracker(state, ts, start, states, durations)
    }

    /** The books as values. */
    function BookValues(): (r: map<string, BookValue>)
      reads this`books, books.Values
    {
      map a | a in books :: BookValue(books[a].length, books[a].events)
    }

    function Value(): (r: LogValue)
      reads this, books.Values
    {
      LogValue(parsed, end, Tracked(), BookValues())
    }

    /** Each book is filed under its own ASIN (so two ASINs never share a
        book object), and the tracked state is consistent. */
    predicate Valid()
      reads this, books.Values
    {
      (forall a :: a in books ==> books[a].asin == a) && Tracking(Tracked())
    }

    constructor (name: string, lines: seq<Line>, clock: Clock, initial: Option<LogState>)
      requires initial.Some? ==> StateOk(initial.value)
      ensures Valid() && Value() == NewLog(initial)
      ensures this.name == name && this.lines == lines && this.clock == clock && books == map[]
    {
      this.name := name;
      this.lines := lines;
      this.clock := clock;
      parsed := false;
      start := None;
      end := None;
      state := if initial.Some? then initial.value else InitialState;
      ts := 0;
      states := [];
      durations := map[];
      books := map[];
    }

    method SetTracked(t: Tracker)
      modifies this`state, this`ts, this`start, this`states, this`durations
      ensures Tracked() == t
    {
      state, ts, start, states, durations := t.state, t.ts, t.start, t.states, t.durations;
    }

    /** `_EnsureBook(asin, length)`. */
    method EnsureBook(asin: string, length: string) returns (r: Result<KindleBook>)
      requires Valid()
      modifies this`books
      ensures Valid()
      ensures r.Ok? <==> LogLines.EnsureBook(old(BookValues()), asin, length).Ok?
      ensures r.Ok? ==> Value() == old(Value()).(books := LogLines.EnsureBook(old(BookValues()), asin, length).value)
      ensures r.Ok? ==> asin in books && books[asin] == r.value
      ensures r.Err? ==> Value() == old(Value()) && r.error == ValueError
      ensures Tracked() == old(Tracked()) && parsed == old(parsed) && end == old(end)
      ensures forall a :: a in old(books) ==> a in books && books[a] == old(books)[a]
      ensures forall a :: a in books ==> (a in old(books) && books[a] == old(books)[a]) || fresh(books[a])
    {
      if asin in books {
        return Ok(books[asin]);
      }
      var book := NewBook(asin, length);
      if book.Err? {
        return Err(book.error);
      }
      books := books[asin := book.value];
      r := Ok(book.value);
      BookAdded(asin);
    }

    /** Filing a new book under `asin` adds its value and changes no other. */
    twostate lemma BookAdded(asin: string)
      requires asin !in old(books) && asin in books && books == old(books)[asin := books[asin]]
      requires forall a :: a in old(books) ==> unchanged(old(books)[a])
      ensures BookValues() == old(BookValues())[asin := BookValue(books[asin].length, books[asin].events)]
    {
    }

    /** PickUp, Open or Close on the book filed under `asin`. */
    method RecordOnBook(asin: string, kind: EventKind, position: string) returns (outcome: Outcome)
      requires Valid() && asin in books && kind != PutDown
      modifies books[asin]
      ensures Valid() && books == old(books) && Tracked() == old(Tracked())
      ensures (BookValues(), outcome) == RecordOn(old(BookValues()), asin, ts, kind, position)
      ensures parsed == old(parsed) && end == old(end)
    {
      var book := books[asin];
      if kind == PickUp {
        outcome := book.PickUp(ts, position);
      } else if kind == Open {
        outcome := book.Open(ts, position);
      } else {
        outcome := book.Close(ts, position);
      }
      OneBookChanged(asin);
    }

    /** When only the book filed under `asin` has changed, only its value
        has. */
    twostate lemma OneBookChanged(asin: string)
      requires old(Valid()) && books == old(books) && asin in books
      requires forall a :: a in books && a != asin ==> unchanged(books[a])
      ensures BookValues() == old(BookValues())[asin := BookValue(books[asin].length, books[asin].events)]
    {
    }

    /** PutDown on the book filed under `asin`. */
    method PutDownBook(asin: string)
      requires Valid() && asin in books
      modifies books[asin]
      ensures Valid() && books == old(books) && Tracked() == old(Tracked())
      ensures BookValues() == PutDownOn(old(BookValues()), asin, ts)
      ensures parsed == old(parsed) && end == old(end)
    {
      var book := books[asin];
      book.PutDown(ts);
      OneBookChanged(asin);
    }

    /** `_BookletTransition(b_from, b_to)`. */
    method BookletTransition(from: string, to: string)
      requires Valid()
      modifies this, books.Values
      ensures Valid()
      ensures Value() == LogLines.BookletTransition(old(Value()), from, to)
      ensures forall a :: a in books ==> (a in old(books) && books[a] == old(books)[a]) || fresh(books[a])
    {
      if !Holding(state) {
        return;
      }
      var asin := state.book.value;
      var ensured := EnsureBook(asin, "");
      if to == "Bookworm" {
        var ignored := RecordOnBook(asin, Open, "");
      } else if from == "Bookworm" {
        var ignored := RecordOnBook(asin, Close, "");
      }
    }

    /** The held book becomes `asin`, which is picked up. */
    method PickUpBook(asin: string, position: string) returns (outcome: Outcome)
      requires Valid() && asin in books
      modifies this`state, books[asin]
      ensures Valid() && books == old(books) && parsed == old(parsed) && end == old(end)
      ensures Tracked() == old(Tracked()).(state := old(state).(book := Some(asin)))
      ensures (BookValues(), outcome) == RecordOn(old(BookValues()), asin, ts, PickUp, position)
    {
      state := state.(book := Some(asin));
      outcome := RecordOnBook(asin, PickUp, position);
    }

    /** Another book than the held one: the held book, filed if need be,
        is put down and `asin` is picked up. */
    method SwitchBook(asin: string, position: string) returns (outcome: Outcome)
      requires Valid() && asin in books && Holding(state) && state.book.value != asin
      modifies this, books.Values
      ensures Valid() && parsed == old(parsed) && end == old(end)
      ensures Tracked() == old(Tracked()).(state := old(state).(book := Some(asin)))
      ensures var held := old(state).book.value;
              (BookValues(), outcome)
              == RecordOn(PutDownOn(HeldBook(old(BookValues()), held), held, ts), asin, ts, PickUp, position)
      ensures forall a :: a in books ==> (a in old(books) && books[a] == old(books)[a]) || fresh(books[a])
    {
      var held := state.book.value;
      var heldEnsured := EnsureBook(held, "");
      assert BookValues() == HeldBook(old(BookValues()), held);
      PutDownBook(held);
      outcome := PickUpBook(asin, position);
    }

    /** `_BookTransition` for a line naming a book. */
    method BookInfo(asin: string, length: string, position: string) returns (outcome: Outcome)
      requires Valid() && asin != ""
      modifies this, books.Values
      ensures Valid()
      ensures Stepped(Value(), outcome) == LogLines.BookTransition(old(Value()), asin, length, position)
      ensures forall a :: a in books ==> (a in old(books) && books[a] == old(books)[a]) || fresh(books[a])
    {
      var ensured := EnsureBook(asin, length);
      if ensured.Err? {
        return Fail(ensured.error);
      }
      if !Holding(state) {
        outcome := PickUpBook(asin, position);
      } else if state.book.value != asin {
        outcome := SwitchBook(asin, position);
      } else {
        outcome := RecordOnBook(asin, Open, position);
      }
    }

    /** `_BookTransition(asin, length, position)`. */
    method BookTransition(asin: string, length: string, position: string) returns (outcome: Outcome)
      requires Valid()
      modifies this, books.Values
      ensures Valid()
      ensures Stepped(Value(), outcome) == LogLines.BookTransition(old(Value()), asin, length, position)
      ensures forall a :: a in books ==> (a in old(books) && books[a] == old(books)[a]) || fresh(books[a])
    {
      if asin != "" {
        outcome := BookInfo(asin, length, position);
      } else if Holding(state) {
        var held := state.book.value;
        var ensured := EnsureBook(held, "");
        assert BookValues() == HeldBook(old(BookValues()), held);
        outcome := RecordOnBook(held, Close, position);
      } else {
        outcome := Pass;
      }
    }

    /** `_TrackBook(line)`. */
    method TrackBook(line: Line) returns (outcome: Outcome)
      requires Valid()
      modifies this, books.Values
      ensures Valid()
      ensures Stepped(Value(), outcome) == LogLines.TrackBook(old(Value()), line)
      ensures forall a :: a in books ==> (a in old(books) && books[a] == old(books)[a]) || fresh(books[a])
    {
      if line.booklet.Some? {
        BookletTransition(line.booklet.value.0, line.booklet.value.1);
        outcome := Pass;
      } else if line.bookInfo.Some? {
        outcome := BookTransition(line.bookInfo.value.0, line.bookInfo.value.1, line.bookInfo.value.2);
      } else if line.lpr.Some? {
        outcome := BookTransition("", "", line.lpr.value);
      } else {
        outcome := Pass;
      }
    }

    /** The trackers in the order `_ParseFile` tries them. */
    method Dispatch(line: Line) returns (outcome: Outcome)
      requires Valid() && state.power.Some?
      modifies this, books.Values
      ensures Valid()
      ensures Stepped(Value(), outcome) == LogLines.Dispatch(old(Value()), line)
      ensures forall a :: a in books ==> (a in old(books) && books[a] == old(books)[a]) || fresh(books[a])
    {
      var consumed;
      consumed, outcome := TrackStates(line);
      if outcome.Pass? && !consumed {
        outcome := TrackBook(line);
      }
    }

    /** The power-state, reboot and timezone trackers; a timezone change the
        library cannot work out raises and leaves the tracked state alone. */
    method TrackStates(line: Line) returns (consumed: bool, outcome: Outcome)
      requires state.power.Some?
      modifies this`state, this`ts, this`start, this`states, this`durations
      ensures var r := LogLines.TrackStates(old(Tracked()), line);
              && (r.Ok? ==> outcome == Pass && (consumed, Tracked()) == r.value)
              && (r.Err? ==> outcome == Fail(r.error) && Tracked() == old(Tracked()))
      ensures books == old(books) && parsed == old(parsed) && end == old(end) && BookValues() == old(BookValues())
    {
      hide PowerStates.TrackPowerState, PowerStates.TrackReboot;
      consumed := false;
      outcome := Pass;
      if line.stateChange.Some? {
        var tracked := PowerStates.TrackPowerState(Tracked(), line.stateChange.value.0, line.stateChange.value.1);
        consumed := tracked.0;
        SetTracked(tracked.1);
      }
      if !consumed {
        var tracked := PowerStates.TrackReboot(Tracked(), line.kernelBanner, line.initBoot, line.bootFinished);
        consumed := tracked.0;
        SetTracked(tracked.1);
      }
      if !consumed && line.tzChange.Some? {
        match line.tzChange.value
        case TzRejected =>
          outcome := Fail(ValueError);
        case TzKnown(jump) =>
          state := state.(pending := Some(jump));
          consumed := true;
      }
    }

    /** The first part of a loop iteration in `_ParseFile`: the timestamp,
        the clock correction and the file start. */
    method Admit(line: Line) returns (outcome: Outcome, proceed: bool)
      requires Tracking(Tracked())
      modifies this`state, this`ts, this`start, this`states, this`durations
      ensures var a := LogLines.Admit(clock, old(Tracked()), line);
              && Tracked() == a.t
              && proceed == a.Proceed?
              && outcome == (if a.Raise? then Fail(a.error) else Pass)
      ensures books == old(books) && parsed == old(parsed) && end == old(end)
    {
      hide ParseTimestamp, TimeNormalizer.CheckJump;
      proceed := false;
      outcome := Pass;
      var stamp := ParseTimestamp(clock, state.timezone, line.stamp);
      if stamp.Err? {
        return Fail(stamp.error), false;
      }
      ts := stamp.value;
      if ts < 0 {
        return;
      }
      if state.lastTs > -1 {
        var checked := TimeNormalizer.CheckJump(Tracked());
        if checked.Err? {
          return Fail(checked.error), false;
        }
        SetTracked(checked.value);
      }
      if !Truthy(start) {
        start := Some(ts);
        if state.power.None? || state.power.value.since == 0 {
          state := state.(power := Some(PowerState(ts, "NO_DATA")));
        }
      } else if ts < start.value {
        return;
      }
      proceed := true;
    }

    /** One iteration of the loop in `_ParseFile`. */
    method ProcessLine(line: Line) returns (outcome: Outcome)
      requires Valid()
      modifies this, books.Values
      ensures Valid()
      ensures Stepped(Value(), outcome) == StepLine(clock, old(Value()), line)
      ensures forall a :: a in books ==> (a in old(books) && books[a] == old(books)[a]) || fresh(books[a])
    {
      hide LogLines.Admit, LogLines.Handle;
      var proceed;
      outcome, proceed := Admit(line);
      if proceed {
        outcome := Handle(line);
      }
    }

    /** The rest of the iteration once the line is admitted: the trackers,
        then `self.state.lastTs = self.ts` unless they raised. */
    method Handle(line: Line) returns (outcome: Outcome)
      requires Valid() && state.power.Some?
      modifies this, books.Values
      ensures Valid()
      ensures Stepped(Value(), outcome) == LogLines.Handle(old(Value()), line)
      ensures forall a :: a in books ==> (a in old(books) && books[a] == old(books)[a]) || fresh(books[a])
    {
      hide LogLines.Dispatch;
      outcome := Dispatch(line);
      if outcome.Fail? {
        return;
      }
      state := state.(lastTs := ts);
    }

    /** The end of `_ParseFile`. */
    method FinishParse() returns (outcome: Outcome)
      requires Valid()
      modifies this`parsed, this`end, this`state, this`ts, this`start, this`states, this`durations
      ensures Valid()
      ensures Stepped(Value(), outcome) == LogLines.FinishParse(old(Value()), name)
    {
      hide PowerStates.StateTransition;
      if state.lastTs < 0 {
        return Fail(ValueError);
      }
      ghost var bookValues := BookValues();
      var last := state.lastTs;
      end := Some(last);
      var t := PowerStates.StateTransition(Tracked(), last, "");
      SetTracked(t.(state := t.state.(lastFilename := Some(name))));
      parsed := true;
      outcome := Pass;
      assert BookValues() == bookValues;
    }

    /** `_ParseFile()`: every line in turn, then the closing transition. */
    method ParseFile() returns (outcome: Outcome)
      requires Valid()
      modifies this, books.Values
      ensures Valid()
      ensures Stepped(Value(), outcome) == LogLines.ParseFile(clock, name, lines, old(Value()))
      ensures forall a :: a in books ==> (a in old(books) && books[a] == old(books)[a]) || fresh(books[a])
    {
      hide StepLine, LogLines.FinishParse;
      var i := 0;
      while i < |lines|
        invariant 0 <= i <= |lines|
        invariant Valid()
        invariant ParseLines(clock, old(Value()), lines) == ParseLines(clock, Value(), lines[i..])
        invariant forall a :: a in books ==> (a in old(books) && books[a] == old(books)[a]) || fresh(books[a])
      {
        assert lines[i..] == [lines[i]] + lines[i + 1..];
        outcome := ProcessLine(lines[i]);
        if outcome.Fail? {
          return;
        }
        i := i + 1;
      }
      outcome := FinishParse();
    }

    /** The `start`, `end` and `state` properties: each parses the file first
        when it has not been parsed. */
    method Demand() returns (outcome: Outcome)
      requires Valid()
      modifies this, books.Values
      ensures Valid()
      ensures Stepped(Value(), outcome) == Demanded(clock, name, lines, old(Value()))
      ensures forall a :: a in books ==> (a in old(books) && books[a] == old(books)[a]) || fresh(books[a])
    {
      if parsed {
        return Pass;
      }
      outcome := ParseFile();
    }

    method Start() returns (r: Result<Option<int>>)
      requires Valid()
      modifies this, books.Values
      ensures Valid()
      ensures var d := Demanded(clock, name, lines, old(Value()));
              Value() == d.v && r == (if d.outcome.Pass? then Ok(d.v.t.start) else Err(d.outcome.error))
      ensures forall a :: a in books ==> (a in old(books) && books[a] == old(books)[a]) || fresh(books[a])
    {
      var outcome := Demand();
      r := if outcome.Pass? then Ok(start) else Err(outcome.error);
    }

    method End() returns (r: Result<Option<int>>)
      requires Valid()
      modifies this, books.Values
      ensures Valid()
      ensures var d := Demanded(clock, name, lines, old(Value()));
              Value() == d.v && r == (if d.outcome.Pass? then Ok(d.v.end) else Err(d.outcome.error))
      ensures forall a :: a in books ==> (a in old(books) && books[a] == old(books)[a]) || fresh(books[a])
    {
      var outcome := Demand();
      r := if outcome.Pass? then Ok(end) else Err(outcome.error);
    }

    method State() returns (r: Result<LogState>)
      requires Valid()
      modifies this, books.Values
      ensures Valid()
      ensures var d := Demanded(clock, name, lines, old(Value()));
              Value() == d.v && r == (if d.outcome.Pass? then Ok(d.v.t.state) else Err(d.outcome.error))
      ensures r.Ok? ==> StateOk(r.value)
      ensures forall a :: a in books ==> (a in old(books) && books[a] == old(books)[a]) || fresh(books[a])
    {
      var outcome := Demand();
      r := if outcome.Pass? then Ok(state) else Err(outcome.error);
    }
  }
}

=== FILE: kindle_logs.dfy ===
/** KindleLogs: the list of logs read so far and the state handed from one
    log to the next (log_parser.py:809-905). The logs are held as values
    (Corpus.LogRec), and every method is proved against the functions of
    Corpus. */
module LogCorpus {
  import opened PyText
  import opened LogStates
  import opened BookEvents
  import opened LogLines
  import opened Corpus
  import Sessions

  class KindleLogs {
    var files: seq<LogRec>
    var state: Option<LogState>
    /** The timezone library every log is read with. */
    const clock: Clock

    function Value(): (r: Logs)
      reads this
    {
      Logs(files, state)
    }

    /** Every log holds a consistent tracked state, and so does the state
        handed on. */
    predicate Valid()
      reads this
    {
      LogsOk(Value())
    }

    constructor (clock: Clock)
      ensures Valid() && files == [] && state == None && this.clock == clock
    {
      files := [];
      state := None;
      this.clock := clock;
    }

    /** Reading `start`, `end` or `state` of the i-th log: the log is parsed
        if it has not been. */
    method DemandFile(i: nat) returns (outcome: Outcome)
      requires Valid() && i < |files|
      modifies this`files
      ensures Valid() && |files| == |old(files)|
      ensures (files[i], outcome) == DemandLog(clock, old(files)[i])
      ensures files == old(files)[i := files[i]]
    {
      var d := DemandLog(clock, files[i]);
      files := files[i := d.0];
      outcome := d.1;
    }

    /** `log = KindleLog(logfile, self.state); self.files.append(log);
        self.state = log.state`. */
    method Take(f: LogFile) returns (outcome: Outcome)
      requires Valid()
      modifies this
      ensures Valid()
      ensures Processed(Value(), outcome) == Corpus.Take(clock, old(Value()), f)
    {
      files := files + [OpenLog(f, state)];
      outcome := DemandFile(|files| - 1);
      if outcome.Pass? {
        state := Some(files[|files| - 1].v.t.state);
      }
    }

    /** `ProcessFiles(files)`. */
    method ProcessFiles(inputs: seq<LogFile>) returns (outcome: Outcome)
      requires Valid()
      modifies this
      ensures Valid()
      ensures Processed(Value(), outcome) == Corpus.ProcessFiles(clock, old(Value()), inputs)
    {
      var k := 0;
      while k < |inputs|
        invariant k <= |inputs| && Valid()
        invariant ProcessFilesLoop(clock, old(Value()), inputs) == ProcessFilesLoop(clock, Value(), inputs[k..])
      {
        outcome := Take(inputs[k]);
        if outcome.Fail? && outcome.error != ValueError {
          return;
        }
        k := k + 1;
      }
      outcome := Report();
    }

    /** The end of `ProcessFiles` and `ProcessDirectory`: every log is read
        (the sort's comparisons do it), the logs are sorted by start, and
        an empty list raises IndexError. */
    method Report() returns (outcome: Outcome)
      requires Valid()
      modifies this`files
      ensures Valid()
      ensures Processed(Value(), outcome) == Corpus.Report(clock, old(Value()))
    {
      outcome := ReadAll();
      if outcome.Pass? {
        SortByStartOk(Value());
        files := SortByStart(files);
        outcome := if files == [] then Fail(IndexError) else Pass;
      }
    }

    /** Every log read in turn, stopping at the first that raises. */
    method ReadAll() returns (outcome: Outcome)
      requires Valid()
      modifies this`files
      ensures Valid()
      ensures (files, outcome) == DemandAll(clock, old(files))
    {
      var i := 0;
      while i < |files|
        invariant i <= |files| && Valid()
        invariant DemandAll(clock, old(files)) == DemandFrom(clock, files, i)
      {
        DemandFromStep(clock, files, i);
        outcome := DemandFile(i);
        if outcome.Fail? {
          return;
        }
        i := i + 1;
      }
      outcome := Pass;
    }

    /** `ProcessDirectory(directory)` over the directory's entries. */
    method ProcessDirectory(listing: seq<LogFile>) returns (outcome: Outcome)
      requires Valid()
      modifies this
      ensures Valid()
      ensures Processed(Value(), outcome) == Corpus.ProcessDirectory(clock, old(Value()), listing)
    {
      var entries := SortByName(listing);
      var seen := Seen("", "");
      var k := 0;
      while k < |entries|
        invariant k <= |entries| && Valid()
        invariant DirectoryLoop(clock, old(Value()), Seen("", ""), entries)
                  == DirectoryLoop(clock, Value(), seen, entries[k..])
      {
        var step;
        outcome, step := Entry(seen, entries[k]);
        if step.None? {
          return;
        }
        seen := step.value;
        k := k + 1;
      }
      outcome := Report();
    }

    /** One iteration of the loop of `ProcessDirectory`: the entry's outcome,
        and the sequence number and date to remember, or None when the loop
        stops. */
    method Entry(seen: Seen, f: LogFile) returns (outcome: Outcome, next: Option<Seen>)
      requires Valid()
      modifies this
      ensures Valid()
      ensures match DirectoryEntry(clock, old(Value()), seen, f)
              case Next(c, seen') => Value() == c && next == Some(seen')
              case Stop(p) => Processed(Value(), outcome) == p && next.None?
    {
      outcome := Pass;
      if !StartsWith(f.name, "messages_") {
        return Pass, Some(seen);
      }
      var parts := Split(f.name, "_", 2);
      if |parts| != 3 {
        return Fail(ValueError), None;
      }
      var number, date := parts[1], parts[2];
      if state.Some? && NameAtMost(f.name, state.value.lastFilename) {
        return Pass, Some(Seen(number, date));
      }
      if seen.number == number && !LexLe(date, seen.date) {
        outcome := DropLast();
        if outcome.Fail? {
          return outcome, None;
        }
      }
      outcome := Take(f);
      if outcome.Pass? {
        next := Some(Seen(number, date));
      } else if outcome.error == ValueError {
        next := Some(seen);
      } else {
        next := None;
      }
    }

    /** `old = self.files.pop(-1)`, the dropped log's state read for the
        message, then `self.state = self.files[-1].state`. */
    method DropLast() returns (outcome: Outcome)
      requires Valid()
      modifies this`files, this`state
      ensures Valid()
      ensures Processed(Value(), outcome) == Corpus.DropLast(clock, old(Value()))
    {
      if files == [] {
        return Fail(IndexError);
      }
      var dropped := files[|files| - 1];
      files := files[..|files| - 1];
      var d := DemandLog(clock, dropped);
      if d.1.Fail? {
        return d.1;
      }
      if files == [] {
        return Fail(IndexError);
      }
      var previous := DemandLog(clock, files[|files| - 1]);
      files := files[|files| - 1 := previous.0];
      outcome := previous.1;
      if outcome.Pass? {
        state := Some(previous.0.v.t.state);
      }
    }

    /** `GetStates()`: the time spent in each power state, over all logs. */
    method GetStates() returns (totals: map<string, int>)
      ensures totals == TotalDurations(files)
    {
      totals := map[];
      var i := 0;
      while i < |files|
        invariant i <= |files| && totals == TotalDurations(files[..i])
      {
        totals := AddDurations(totals, files[i].v.t.durations);
        assert files[..i + 1][..i] == files[..i];
        i := i + 1;
      }
      assert files[..|files|] == files;
    }

    /** The `books` property. The dictionary it builds holds each log's book
        objects, so extending the first copy of a book extends the copy in
        that log; here the dictionary is `holder`, the index of the log whose
        copy it holds, and the logs are updated in `files`. Books without a
        single read are then removed. */
    method Books() returns (r: Result<map<string, BookValue>>)
      requires Valid()
      modifies this`files
      ensures Valid()
      ensures files == BooksAfter(old(files)) && r == BooksOf(old(files))
    {
      ghost var r0 := files;
      var holder := MergeAll();
      BooksAfterOk(Value(), r0);
      HeldAreMerged(r0);
      var books := map a | a in holder :: files[holder[a]].v.books[a];
      r := Prune(r0, books);
    }

    /** The loop over the logs and their books: a book not yet in the
        dictionary is added, and one already there takes in the new copy's
        events through `UpdateEvents`. */
    method MergeAll() returns (holder: map<string, nat>)
      requires Valid()
      modifies this`files
      ensures files == MergedUpTo(old(files), |old(files)|, {})
      ensures holder == Held(old(files), |old(files)|, {})
    {
      hide MergedUpTo, Held;
      ghost var r0 := files;
      holder := map[];
      MergedUpToStart(r0);
      HeldStart(r0);
      var j := 0;
      while j < |files|
        invariant |files| == |r0| && j <= |r0|
        invariant files == MergedUpTo(r0, j, {})
        invariant holder == Held(r0, j, {})
      {
        holder := MergeLog(r0, j, holder);
        MergedUpToNext(r0, j);
        HeldNextLog(r0, j);
        j := j + 1;
      }
      assert j == |r0|;
    }

    /** The books of the j-th log, one at a time. */
    method MergeLog(ghost r0: seq<LogRec>, j: nat, holder0: map<string, nat>) returns (holder: map<string, nat>)
      requires j < |r0| && files == MergedUpTo(r0, j, {}) && holder0 == Held(r0, j, {})
      modifies this`files
      ensures files == MergedUpTo(r0, j, r0[j].v.books.Keys) && holder == Held(r0, j, r0[j].v.books.Keys)
    {
      holder := holder0;
      ghost var keys := r0[j].v.books.Keys;
      var pending := BookKeys(j);
      ghost var done: set<string> := {};
      while pending != {}
        invariant pending <= keys && done == keys - pending
        invariant files == MergedUpTo(r0, j, done) && holder == Held(r0, j, done)
        decreases pending
      {
        var a :| a in pending;
        holder := MergeBook(r0, j, done, holder, a);
        TakeOne(keys, pending, done, a);
        pending := pending - {a};
        done := done + {a};
      }
      assert done == keys;
    }
    /** The asins of the j-th log's books. */
    method BookKeys(j: nat) returns (keys: set<string>)
      requires j < |files|
      ensures keys == files[j].v.books.Keys
    {
      keys := files[j].v.books.Keys;
    }

    /** `if book.asin in books: books[book.asin].UpdateEvents(book.events)
        else: books[book.asin] = book`. */
    method MergeBook(ghost r0: seq<LogRec>, j: nat, ghost done: set<string>, holder0: map<string, nat>, a: string)
      returns (holder: map<string, nat>)
      requires j < |r0| && a in r0[j].v.books && a !in done
      requires files == MergedUpTo(r0, j, done) && holder0 == Held(r0, j, done)
      modifies this`files
      ensures files == MergedUpTo(r0, j, done + {a}) && holder == Held(r0, j, done + {a})
    {
      holder := holder0;
      HeldStep(r0, j, done, a);
      if a in holder {
        var o := holder[a];
        MergeIntoFirst(r0, j, done, a, o);
        UpdateEvents(o, j, a);
      } else {
        MergeFirstCopy(r0, j, done, a);
        holder := holder[a := j];
      }
    }

    /** `first.UpdateEvents(later.events)` for the copies of book `a` in the
        o-th and j-th logs: the later copy's list is sorted in place, then
        appended to the first copy's list. The check that the lists do not
        go backwards in time only logs. */
    method UpdateEvents(o: nat, j: nat, a: string)
      requires o < |files| && j < |files| && o != j && a in files[o].v.books && a in files[j].v.books
      modifies this`files
      ensures files == MergeStep(old(files), o, j, a)
    {
      var later := files[j].v.books[a];
      var sorted := SortEvents(later.events);
      files := files[j := SetBook(files[j], a, later.(events := sorted))];
      var first := files[o].v.books[a];
      files := files[o := SetBook(files[o], a, first.(events := first.events + sorted))];
    }

    /** `for asin in books.keys(): if len(books[asin].reads) <= 0: del
        books[asin]`; computing the reads raises for some event lists. */
    method Prune(ghost r0: seq<LogRec>, books0: map<string, BookValue>) returns (r: Result<map<string, BookValue>>)
      requires books0 == MergedBooks(r0)
      ensures r == BooksOf(r0)
    {
      var books := books0;
      var pending := books.Keys;
      ghost var done: set<string> := {};
      while pending != {}
        invariant pending <= books0.Keys && done == books0.Keys - pending
        invariant forall a :: a in done ==> Sessions.ReadsOf(books0[a].events).Ok?
        invariant books == Kept(books0, pending)
        decreases pending
      {
        var a :| a in pending;
        var sessions := Sessions.ReadsOf(books[a].events);
        if sessions.Err? {
          PruneFails(r0, a);
          return Err(sessions.error);
        }
        KeptStep(books0, pending, a);
        if |sessions.value| <= 0 {
          books := books - {a};
        }
        TakeOne(books0.Keys, pending, done, a);
        pending := pending - {a};
        done := done + {a};
      }
      assert done == books0.Keys;
      PruneKeeps(r0);
      r := Ok(books);
    }
  }

  /** The dictionary part way through the pruning loop: the books still
      pending, and those done that have at least one read. */
  function Kept(books: map<string, BookValue>, pending: set<string>): (m: map<string, BookValue>)
    ensures m.Keys <= books.Keys
  {
    map a | a in books && (a in pending || (Sessions.ReadsOf(books[a].events).Ok? && |Sessions.ReadsOf(books[a].events).value| > 0))
      :: books[a]
  }

  /** One pending book decided: dropped when it has no read. */
  lemma KeptStep(books: map<string, BookValue>, pending: set<string>, a: string)
    requires a in pending && a in books && Sessions.ReadsOf(books[a].events).Ok?
    ensures var k := Kept(books, pending);
            && a in k && k[a] == books[a]
            && Kept(books, pending - {a})
               == if |Sessions.ReadsOf(books[a].events).value| <= 0 then k - {a} else k
  {
    var k, k' := Kept(books, pending), Kept(books, pending - {a});
    var e := if |Sessions.ReadsOf(books[a].events).value| <= 0 then k - {a} else k;
    SameEntries(k', e);
  }

  /** A merged book whose reads raise makes `books` raise TypeError. */
  lemma PruneFails(r0: seq<LogRec>, a: string)
    requires a in MergedBooks(r0) && Sessions.ReadsOf(MergedBooks(r0)[a].events).Err?
    ensures Sessions.ReadsOf(MergedBooks(r0)[a].events).error == TypeError
    ensures BooksOf(r0) == Err(TypeError)
  {
  }

  /** When no merged book raises, `books` is the merged books with at
      least one read. */
  lemma PruneKeeps(r0: seq<LogRec>)
    requires forall a :: a in MergedBooks(r0) ==> Sessions.ReadsOf(MergedBooks(r0)[a].events).Ok?
    ensures BooksOf(r0) == Ok(Kept(MergedBooks(r0), {}))
  {
    var m := MergedBooks(r0);
    SameEntries(Kept(m, {}), map a | a in m && |Sessions.ReadsOf(m[a].events).value| > 0 :: m[a]);
  }

  /** Part way through the merge loop of `books`, the dictionary maps
      each book merged so far to the index of the log holding its first
      copy. */
  function Held(r0: seq<LogRec>, j: nat, done: set<string>): (h: map<string, nat>)
    requires j < |r0| || (j == |r0| && done == {})
  {
    map b | b in Asins(r0) && Owner(r0, b, Level(j, done, b)).Some? :: Owner(r0, b, Level(j, done, b)).value
  }

  /** Before the loop the dictionary is empty. */
  lemma HeldStart(r0: seq<LogRec>)
    ensures Held(r0, 0, {}) == map[]
  {
  }

  /** One book of the j-th log: it is added with index j unless an earlier
      log holds it, in which case its first holder is kept. */
  lemma HeldStep(r0: seq<LogRec>, j: nat, done: set<string>, a: string)
    requires j < |r0| && a in r0[j].v.books && a !in done
    ensures var h := Held(r0, j, done);
            && (a in h <==> Owner(r0, a, j).Some?)
            && (a in h ==> Owner(r0, a, j) == Some(h[a]))
            && Held(r0, j, done + {a}) == if a in h then h else h[a := j]
  {
    HeldAt(r0, j, done, a);
    if Owner(r0, a, j).Some? {
      HeldKept(r0, j, done, a);
    } else {
      HeldAdded(r0, j, done, a);
    }
  }

  /** A book an earlier log holds keeps its entry. */
  lemma HeldKept(r0: seq<LogRec>, j: nat, done: set<string>, a: string)
    requires j < |r0| && a in r0[j].v.books && a !in done && Owner(r0, a, j).Some?
    ensures Held(r0, j, done + {a}) == Held(r0, j, done)
  {
    forall b ensures Owner(r0, b, Level(j, done + {a}, b)) == Owner(r0, b, Level(j, done, b)) {
      if b == a {
        assert Owner(r0, a, j + 1) == Owner(r0, a, j);
      } else {
        assert Level(j, done + {a}, b) == Level(j, done, b);
      }
    }
    HeldSame(r0, j, done + {a}, j, done);
  }

  /** Two points of the loop where every book has the same first holder
      have the same dictionary. */
  lemma HeldSame(r0: seq<LogRec>, j: nat, done: set<string>, j': nat, done': set<string>)
    requires j < |r0| || (j == |r0| && done == {})
    requires j' < |r0| || (j' == |r0| && done' == {})
    requires forall b :: Owner(r0, b, Level(j, done, b)) == Owner(r0, b, Level(j', done', b))
    ensures Held(r0, j, done) == Held(r0, j', done')
  {
    var h, h' := Held(r0, j, done), Held(r0, j', done');
    forall b ensures (b in h <==> b in h') && (b in h ==> h[b] == h'[b]) {
      HeldAt(r0, j, done, b);
      HeldAt(r0, j', done', b);
    }
    SameEntries(h, h');
  }

  /** A book no earlier log holds enters with the index of the j-th log. */
  lemma HeldAdded(r0: seq<LogRec>, j: nat, done: set<string>, a: string)
    requires j < |r0| && a in r0[j].v.books && a !in done && Owner(r0, a, j).None?
    ensures Held(r0, j, done + {a}) == Held(r0, j, done)[a := j]
  {
    var h, h' := Held(r0, j, done), Held(r0, j, done + {a});
    HeldAt(r0, j, done + {a}, a);
    assert Owner(r0, a, j + 1) == Some(j);
    forall b | b != a ensures (b in h' <==> b in h) && (b in h ==> h'[b] == h[b]) {
      HeldOther(r0, j, done, a, b);
    }
    SameEntries(h', h[a := j]);
  }

  /** Merging book `a` leaves the dictionary's entry for any other book. */
  lemma HeldOther(r0: seq<LogRec>, j: nat, done: set<string>, a: string, b: string)
    requires j < |r0| && b != a
    ensures var h, h' := Held(r0, j, done), Held(r0, j, done + {a});
            (b in h' <==> b in h) && (b in h ==> h'[b] == h[b])
  {
    assert Level(j, done + {a}, b) == Level(j, done, b);
    HeldAt(r0, j, done, b);
    HeldAt(r0, j, done + {a}, b);
  }

  /** Book `b` is in the dictionary iff one of the logs merged so far holds
      it, and maps to the first of them. */
  lemma HeldAt(r0: seq<LogRec>, j: nat, done: set<string>, b: string)
    requires j < |r0| || (j == |r0| && done == {})
    ensures var o := Owner(r0, b, Level(j, done, b));
            && (b in Held(r0, j, done) <==> o.Some?)
            && (b in Held(r0, j, done) ==> o == Some(Held(r0, j, done)[b]))
  {
    var o := Owner(r0, b, Level(j, done, b));
    if o.Some? {
      assert b in Asins(r0) by {
        assert 0 <= o.value < |r0| && b in r0[o.value].v.books;
      }
    }
  }

  /** Once every book of the j-th log is done, the dictionary is the one
      the next log starts from. */
  lemma HeldNextLog(r0: seq<LogRec>, j: nat)
    requires j < |r0|
    ensures Held(r0, j, r0[j].v.books.Keys) == Held(r0, j + 1, {})
  {
    forall b ensures Owner(r0, b, Level(j, r0[j].v.books.Keys, b)) == Owner(r0, b, Level(j + 1, {}, b)) {
      if b !in r0[j].v.books {
        assert Owner(r0, b, j + 1) == Owner(r0, b, j);
      }
    }
  }

  /** The dictionary built by the merge loop holds the merged books. */
  lemma HeldAreMerged(r0: seq<LogRec>)
    ensures var h := Held(r0, |r0|, {});
            forall a :: a in h ==> h[a] < |BooksAfter(r0)| && a in BooksAfter(r0)[h[a]].v.books
    ensures var h := Held(r0, |r0|, {});
            (map a | a in h :: BooksAfter(r0)[h[a]].v.books[a]) == MergedBooks(r0)
  {
    var h, after := Held(r0, |r0|, {}), BooksAfter(r0);
    forall a | a in h ensures h[a] < |after| && a in after[h[a]].v.books {
      HeldCopy(r0, a);
    }
    var m := map a | a in h :: after[h[a]].v.books[a];
    HeldKeys(r0);
    forall a | a in m ensures m[a] == MergedBooks(r0)[a] {
      HeldCopy(r0, a);
    }
    SameEntries(m, MergedBooks(r0));
  }

  /** At the end of the loop the dictionary holds every asin of the logs. */
  lemma HeldKeys(r0: seq<LogRec>)
    ensures Held(r0, |r0|, {}).Keys == MergedBooks(r0).Keys
  {
    AsinsMerged(r0);
    forall a | a in Asins(r0) ensures Owner(r0, a, Level(|r0|, {}, a)).Some? {
    }
  }

  /** The copy the dictionary points at for book `a` is its merged copy. */
  lemma HeldCopy(r0: seq<LogRec>, a: string)
    requires a in Held(r0, |r0|, {})
    ensures var o := Held(r0, |r0|, {})[a];
            && o < |BooksAfter(r0)| && a in BooksAfter(r0)[o].v.books
            && a in MergedBooks(r0) && BooksAfter(r0)[o].v.books[a] == MergedBooks(r0)[a]
  {
    var o := Held(r0, |r0|, {})[a];
    assert Owner(r0, a, |r0|) == Some(o);
    assert BooksAfter(r0)[o].v.books == BooksAt(r0, |r0|, {}, o);
    AsinsMerged(r0);
  }

  /** Moving one key from the pending set to the done set keeps them a
      partition of the keys. */
  lemma TakeOne<T>(keys: set<T>, pending: set<T>, done: set<T>, a: T)
    requires pending <= keys && done == keys - pending && a in pending
    ensures pending - {a} <= keys && done + {a} == keys - (pending - {a})
  {
  }

  /** One log read by DemandFrom. */
  lemma DemandFromStep(clock: Clock, files: seq<LogRec>, i: nat)
    requires i < |files| && forall k :: 0 <= k < |files| ==> Tracking(files[k].v.t)
    ensures var d := DemandLog(clock, files[i]);
            DemandFrom(clock, files, i)
            == if d.1.Fail? then (files[i := d.0], d.1) else DemandFrom(clock, files[i := d.0], i + 1)
  {
  }

  /** Merging the books changes no tracked state. */
  lemma BooksAfterOk(c: Logs, r0: seq<LogRec>)
    requires LogsOk(Logs(r0, c.state)) && c.files == BooksAfter(r0)
    ensures LogsOk(c)
  {
  }

  /** The inner loop of `GetStates`: each state's time added to the total
      with `setdefault` and `+=`. */
  method AddDurations(totals: map<string, int>, durations: map<string, int>) returns (r: map<string, int>)
    ensures r == Plus(totals, durations)
  {
    r := totals;
    var pending := durations.Keys;
    assert durations - pending == map[];
    assert Plus(totals, map[]) == totals;
    while pending != {}
      invariant pending <= durations.Keys
      invariant r == Plus(totals, durations - pending)
      decreases pending
    {
      var k :| k in pending;
      AddDurationStep(totals, durations, pending, k);
      r := AddTo(r, k, durations[k]);
      pending := pending - {k};
    }
    assert durations - {} == durations;
  }

  lemma AddDurationStep(totals: map<string, int>, durations: map<string, int>, pending: set<string>, k: string)
    requires k in pending && pending <= durations.Keys
    ensures AddTo(Plus(totals, durations - pending), k, durations[k]) == Plus(totals, durations - (pending - {k}))
  {
    PlusSplit(totals, durations - (pending - {k}), k);
    assert durations - (pending - {k}) - {k} == durations - pending;
  }
}

=== FILE: kindle_stats.dfy ===
/** The reading statistics of `kindle_stats.py`: the duration pretty-printer
    (`FormatHMS`, `PrintHMS`) and what `PrintBooks` computes before it
    prints: the books in order of their most recent read, and the total
    reading time. */
module KindleStats {
  import opened PyText
  import opened Sorting
  import opened Sessions

  // ------------------------------------------------------------ FormatHMS

  /** The minute count `FormatHMS` shows: one more when more than 30
      seconds are left over. It never carries into the hours. */
  function RoundedMinutes(mins: int, secs: int): (r: int) {
    if secs > 30 then mins + 1 else mins
  }

  /** The 's' `FormatHMS` appends: only for more than one. */
  function Plural(n: int): (r: string) {
    if n > 1 then "s" else ""
  }

  /** `FormatHMS` once the hours, minutes and seconds are read: an hour
      segment for a positive hour, then the (rounded) minutes. */
  function FormatParts(hour: int, mins: int, secs: int): (r: string) {
    var m := RoundedMinutes(mins, secs);
    (if hour > 0 then IntToDecimal(hour) + " hour" + Plural(hour) + ", " else "")
    + IntToDecimal(m) + " min" + Plural(m)
  }

  /** `FormatHMS(hms_str)`: `map(int, hms_str.split(':', 2))` must give
      exactly three integers, or Python raises ValueError. */
  function FormatHMS(hms: string): (r: Result<string>)
    ensures r.Err? ==> r.error == ValueError
    ensures r.Ok? <==> |Split(hms, ":", 2)| == 3 && ParseInt(Split(hms, ":", 2)[0]).Some?
                       && ParseInt(Split(hms, ":", 2)[1]).Some? && ParseInt(Split(hms, ":", 2)[2]).Some?
  {
    var parts := Split(hms, ":", 2);
    if |parts| != 3 then Err(ValueError)
    else
      match (ParseInt(parts[0]), ParseInt(parts[1]), ParseInt(parts[2]))
      case (Some(hour), Some(mins), Some(secs)) => Ok(FormatParts(hour, mins, secs))
      case _ => Err(ValueError)
  }

  // ------------------------------------------------ reading a duration back

  /** The words of "[<h> hour[s], ]<m> min[s]" read back as (h, m); only a
      positive hour has a segment, and each plural must agree with its
      number. */
  function ReadHourMin(w: seq<string>): (r: Option<(int, int)>) {
    if |w| == 2 then
      match ParseInt(w[0])
      case Some(m) => if w[1] == "min" + Plural(m) then Some((0, m)) else None
      case None => None
    else if |w| == 4 then
      match (ParseInt(w[0]), ParseInt(w[2]))
      case (Some(h), Some(m)) =>
        if h > 0 && w[1] == "hour" + Plural(h) + "," && w[3] == "min" + Plural(m) then Some((h, m)) else None
      case _ => None
    else None
  }

  /** `str(i)` holds no space. */
  lemma NoSpace(i: int)
    ensures ' ' !in IntToDecimal(i)
  {
    DecimalChars(i, ' ');
  }

  /** The text `FormatHMS` builds reads back as the hour and the rounded
      minutes: the segments, their order and their plurals are as the
      source writes them. */
  lemma FormatReadBack(hour: int, mins: int, secs: int)
    requires hour >= 0
    ensures ReadHourMin(Split(FormatParts(hour, mins, secs), " ", -1)) == Some((hour, RoundedMinutes(mins, secs)))
  {
    hide Split, Find, ParseInt, ParseDecimal, IntToDecimal, FormatParts, ReadHourMin, RoundedMinutes;
    if hour > 0 {
      HourReadBack(hour, mins, secs);
    } else {
      MinuteReadBack(mins, secs);
    }
  }

  lemma HourReadBack(hour: int, mins: int, secs: int)
    requires hour > 0
    ensures ReadHourMin(Split(FormatParts(hour, mins, secs), " ", -1)) == Some((hour, RoundedMinutes(mins, secs)))
  {
    var m := RoundedMinutes(mins, secs);
    HourSplit(hour, mins, secs);
    hide Split, FormatParts, Find, ParseInt, ParseDecimal, IntToDecimal, RoundedMinutes;
    MinuteWords(m);
    DecimalRoundTrip(hour);
  }

  lemma MinuteReadBack(mins: int, secs: int)
    ensures ReadHourMin(Split(FormatParts(0, mins, secs), " ", -1)) == Some((0, RoundedMinutes(mins, secs)))
  {
    var m := RoundedMinutes(mins, secs);
    MinuteSplit(mins, secs);
    hide Split, FormatParts, Find, ParseInt, ParseDecimal, IntToDecimal, RoundedMinutes;
    MinuteWords(m);
  }

  /** With an hour segment the text has four words. */
  lemma HourSplit(hour: int, mins: int, secs: int)
    requires hour > 0
    ensures var m := RoundedMinutes(mins, secs);
            Split(FormatParts(hour, mins, secs), " ", -1)
            == [IntToDecimal(hour), "hour" + Plural(hour) + ",", IntToDecimal(m), "min" + Plural(m)]
  {
    var m := RoundedMinutes(mins, secs);
    var md, mw := IntToDecimal(m), "min" + Plural(m);
    var hd, hw := IntToDecimal(hour), "hour" + Plural(hour) + ",";
    HourWords(hd, Plural(hour), md, Plural(m));
    hide Split, Find, ParseInt, ParseDecimal, IntToDecimal;
    assert FormatParts(hour, mins, secs) == hd + " " + (hw + " " + (md + " " + mw));
    hide FormatParts, Plural, RoundedMinutes;
    MinuteWords(m);
    NoSpace(hour);
    SplitAtSeparator(hd, " ", hw + " " + (md + " " + mw), -1);
    SplitAtSeparator(hw, " ", md + " " + mw, -1);
  }

  /** Without an hour segment the text has two words. */
  lemma MinuteSplit(mins: int, secs: int)
    ensures var m := RoundedMinutes(mins, secs);
            Split(FormatParts(0, mins, secs), " ", -1) == [IntToDecimal(m), "min" + Plural(m)]
  {
    var m := RoundedMinutes(mins, secs);
    assert " min" == " " + "min";
    hide Split, Find, ParseInt, ParseDecimal, IntToDecimal;
    assert FormatParts(0, mins, secs) == IntToDecimal(m) + " " + ("min" + Plural(m));
    hide FormatParts, Plural, RoundedMinutes;
    MinuteWords(m);
  }

  /** The text with an hour segment, cut at its spaces. */
  lemma HourWords(hd: string, hp: string, md: string, mp: string)
    ensures hd + " hour" + hp + ", " + md + " min" + mp
            == hd + " " + (("hour" + hp + ",") + " " + (md + " " + ("min" + mp)))
  {
    assert " hour" == " " + "hour" && ", " == "," + " " && " min" == " " + "min";
  }

  /** The minute segment splits into the number and the unit. */
  lemma MinuteWords(m: int)
    ensures Split(IntToDecimal(m) + " " + ("min" + Plural(m)), " ", -1) == [IntToDecimal(m), "min" + Plural(m)]
    ensures ParseInt(IntToDecimal(m)) == Some(m)
  {
    hide Split, Find, ParseInt, ParseDecimal, IntToDecimal;
    NoSpace(m);
    SplitAtSeparator(IntToDecimal(m), " ", "min" + Plural(m), -1);
    SplitAbsent("min" + Plural(m), " ", -1);
    DecimalRoundTrip(m);
  }

  // ------------------------------------------------------------- PrintHMS

  const SecondsPerDay := 86400

  /** `'%02d' % n` for 0 <= n < 100. */
  function TwoDigits(n: nat): (r: string)
    requires n < 100
    ensures |r| == 2 && AllDigits(r) && DigitsValue(r) == n
  {
    if n < 10 then
      var r := ['0', DigitChar(n)];
      assert DigitsValue(r) == n by {
        assert r[..1] == ['0'] && ['0'][..0] == [];
      }
      r
    else
      DigitsRoundTrip(n);
      NatToDecimal(n)
  }

  /** `'%d:%02d:%02d' % (hh, mm, ss)`, the clock part of a timedelta. */
  function ClockText(hh: nat, mm: nat, ss: nat): (r: string)
    requires mm < 60 && ss < 60
  {
    IntToDecimal(hh) + ":" + TwoDigits(mm) + ":" + TwoDigits(ss)
  }

  /** The day prefix of a timedelta: "<d> day" with an 's' unless d is 1
      or -1. */
  function DayText(days: int): (r: string) {
    IntToDecimal(days) + " day" + (if days != 1 && days != -1 then "s" else "")
  }

  /** Python's `str(timedelta(seconds=seconds))` for a whole number of
      seconds: the days are floored, the clock part is the non-negative
      remainder, and the day prefix appears only for a non-zero day count. */
  function TimedeltaText(seconds: int): (r: string) {
    var days := seconds / SecondsPerDay;
    var rem := seconds % SecondsPerDay;
    var clock := ClockText(rem / 3600, rem % 3600 / 60, rem % 60);
    if days != 0 then DayText(days) + ", " + clock else clock
  }

  /** `PrintHMS(seconds)`: `FormatHMS` of the timedelta text, after the
      day prefix when there is one. */
  function PrintHMS(seconds: int): (r: Result<string>)
    ensures r.Err? ==> r.error == ValueError
  {
    var ds := TimedeltaText(seconds);
    if !Contains(ds, ", ") then FormatHMS(ds)
    else
      var parts := Split(ds, ", ", -1);
      if |parts| != 2 then Err(ValueError)
      else
        var hms :- FormatHMS(parts[1]);
        Ok(parts[0] + ", " + hms)
  }

  /** A duration text read back as (days, hours, minutes). */
  function ReadDuration(t: string): (r: Option<(int, int, int)>) {
    var w := Split(t, " ", -1);
    if |w| >= 2 && ParseInt(w[0]).Some? && w[1] == "day" + (if ParseInt(w[0]).value != 1 && ParseInt(w[0]).value != -1 then "s" else "") + "," then
      match ReadHourMin(w[2..])
      case Some((h, m)) => if ParseInt(w[0]).value != 0 then Some((ParseInt(w[0]).value, h, m)) else None
      case None => None
    else
      match ReadHourMin(w)
      case Some((h, m)) => Some((0, h, m))
      case None => None
  }

  /** `FormatHMS` reads every clock text. */
  lemma FormatClock(hh: nat, mm: nat, ss: nat)
    requires mm < 60 && ss < 60
    ensures FormatHMS(ClockText(hh, mm, ss)) == Ok(FormatParts(hh, mm, ss))
  {
    ClockSplit(hh, mm, ss);
    hide Split, ParseInt, ParseDecimal, ClockText, FormatParts;
    DecimalRoundTrip(hh);
    UnsignedDigits(TwoDigits(mm));
    UnsignedDigits(TwoDigits(ss));
  }

  /** The clock text cut at its colons. */
  lemma ClockSplit(hh: nat, mm: nat, ss: nat)
    requires mm < 60 && ss < 60
    ensures Split(ClockText(hh, mm, ss), ":", 2) == [IntToDecimal(hh), TwoDigits(mm), TwoDigits(ss)]
  {
    hide Split, Find, ParseInt, ParseDecimal;
    var h, m, s := IntToDecimal(hh), TwoDigits(mm), TwoDigits(ss);
    assert ClockText(hh, mm, ss) == h + ":" + (m + ":" + s);
    hide IntToDecimal, TwoDigits, ClockText;
    DecimalChars(hh, ':');
    assert ':' !in m && ':' !in s by {
      assert forall i :: 0 <= i < |m| ==> IsDigit(m[i]);
      assert forall i :: 0 <= i < |s| ==> IsDigit(s[i]);
    }
    SplitAtSeparator(h, ":", m + ":" + s, 2);
    SplitAtSeparator(m, ":", s, 1);
    SplitAbsent(s, ":", 0);
  }

  /** The clock part splits back into hours, minutes and seconds that
      make up the remainder. */
  lemma ClockParts(rem: nat)
    requires rem < SecondsPerDay
    ensures rem == rem / 3600 * 3600 + rem % 3600 / 60 * 60 + rem % 60
    ensures rem / 3600 < 24
  {
  }

  /** What `PrintHMS` prints is the duration to the nearest minute (exactly
      half a minute rounds down): read back, its days, hours and minutes
      come within 30 seconds of the input, the hours below a day. */
  lemma PrintHmsNearest(seconds: int)
    ensures PrintHMS(seconds).Ok?
    ensures ReadDuration(PrintHMS(seconds).value).Some?
    ensures var (d, h, m) := ReadDuration(PrintHMS(seconds).value).value;
            0 <= h < 24 && seconds - 30 <= d * SecondsPerDay + h * 3600 + m * 60 < seconds + 30
  {
    var days := seconds / SecondsPerDay;
    var rem := seconds % SecondsPerDay;
    var hh, mm, ss := rem / 3600, rem % 3600 / 60, rem % 60;
    ClockParts(rem);
    if days == 0 {
      PrintSameDay(seconds);
      hide PrintHMS;
      ReadSameDay(hh, mm, ss);
    } else {
      PrintWithDays(seconds);
      hide PrintHMS;
      ReadWithDays(days, hh, mm, ss);
    }
  }

  /** A clock text holds no comma. */
  lemma ClockNoComma(hh: nat, mm: nat, ss: nat)
    requires mm < 60 && ss < 60
    ensures ',' !in ClockText(hh, mm, ss)
  {
    var a, b := TwoDigits(mm), TwoDigits(ss);
    assert ClockText(hh, mm, ss) == IntToDecimal(hh) + ":" + a + ":" + b;
    hide ClockText, TwoDigits, IntToDecimal;
    DecimalChars(hh, ',');
    assert forall i :: 0 <= i < |a| ==> IsDigit(a[i]);
    assert forall i :: 0 <= i < |b| ==> IsDigit(b[i]);
  }

  /** Under a day, `PrintHMS` formats the clock text alone. */
  lemma PrintSameDay(seconds: int)
    requires seconds / SecondsPerDay == 0
    ensures var rem := seconds % SecondsPerDay;
            PrintHMS(seconds) == Ok(FormatParts(rem / 3600, rem % 3600 / 60, rem % 60))
  {
    hide Split, Find, ParseInt, ParseDecimal;
    var rem := seconds % SecondsPerDay;
    var hh, mm, ss := rem / 3600, rem % 3600 / 60, rem % 60;
    var clock := ClockText(hh, mm, ss);
    assert TimedeltaText(seconds) == clock;
    hide IntToDecimal, TwoDigits, ClockText, FormatParts, TimedeltaText;
    ClockNoComma(hh, mm, ss);
    FormatClock(hh, mm, ss);
    SplitAbsent(clock, ", ", -1);
  }

  /** With a day count, `PrintHMS` keeps the day prefix and formats the
      clock text after it. */
  lemma PrintWithDays(seconds: int)
    requires seconds / SecondsPerDay != 0
    ensures var rem := seconds % SecondsPerDay;
            PrintHMS(seconds)
            == Ok(DayText(seconds / SecondsPerDay) + ", " + FormatParts(rem / 3600, rem % 3600 / 60, rem % 60))
  {
    hide Split, Find, ParseInt, ParseDecimal;
    var days := seconds / SecondsPerDay;
    var rem := seconds % SecondsPerDay;
    var hh, mm, ss := rem / 3600, rem % 3600 / 60, rem % 60;
    var clock := ClockText(hh, mm, ss);
    var dt := DayText(days);
    assert TimedeltaText(seconds) == dt + ", " + clock;
    assert ',' !in dt by {
      DecimalChars(days, ',');
    }
    hide IntToDecimal, TwoDigits, ClockText, FormatParts, TimedeltaText, DayText, FormatHMS;
    ClockNoComma(hh, mm, ss);
    FormatClock(hh, mm, ss);
    SplitAtSeparator(dt, ", ", clock, -1);
    SplitAbsent(clock, ", ", -1);
    assert Split(TimedeltaText(seconds), ", ", -1) == [dt, clock];
  }

  /** A text without days reads back as zero days and its hours and
      rounded minutes. */
  lemma ReadSameDay(hh: int, mm: int, ss: int)
    requires hh >= 0
    ensures ReadDuration(FormatParts(hh, mm, ss)) == Some((0, hh, RoundedMinutes(mm, ss)))
  {
    hide Split, Find, ParseInt, ParseDecimal;
    var w := Split(FormatParts(hh, mm, ss), " ", -1);
    if hh > 0 {
      HourSplit(hh, mm, ss);
    } else {
      MinuteSplit(mm, ss);
    }
    assert w[1][0] != 'd';
    hide FormatParts, RoundedMinutes, IntToDecimal, ReadHourMin;
    FormatReadBack(hh, mm, ss);
  }

  /** A text with a day prefix reads back as that day count and the
      hours and rounded minutes after it. */
  lemma ReadWithDays(days: int, hh: int, mm: int, ss: int)
    requires days != 0 && hh >= 0
    ensures ReadDuration(DayText(days) + ", " + FormatParts(hh, mm, ss))
            == Some((days, hh, RoundedMinutes(mm, ss)))
  {
    var f := FormatParts(hh, mm, ss);
    DayWords(days, f);
    hide Find, ParseInt, ParseDecimal, IntToDecimal, FormatParts, DayText, RoundedMinutes, ReadHourMin, Split;
    DecimalRoundTrip(days);
    FormatReadBack(hh, mm, ss);
    var w := Split(DayText(days) + ", " + f, " ", -1);
    assert w[2..] == Split(f, " ", -1);
  }

  /** The day-prefixed text regrouped around its first two spaces. */
  lemma DayRegroup(dd: string, ds: string, f: string)
    ensures dd + " day" + ds + ", " + f == dd + " " + (("day" + ds + ",") + " " + f)
  {
    assert " day" == " " + "day" && ", " == "," + " ";
  }

  /** The day prefix splits into the day count and its unit. */
  lemma DayWords(days: int, f: string)
    ensures Split(DayText(days) + ", " + f, " ", -1)
            == [IntToDecimal(days), "day" + (if days != 1 && days != -1 then "s" else "") + ","] + Split(f, " ", -1)
  {
    hide Find, ParseInt, ParseDecimal, Split;
    var dd := IntToDecimal(days);
    var ds := if days != 1 && days != -1 then "s" else "";
    var dw := "day" + ds + ",";
    assert DayText(days) == dd + " day" + ds;
    DayRegroup(dd, ds, f);
    hide IntToDecimal, DayText;
    NoSpace(days);
    SplitAtSeparator(dd, " ", dw + " " + f, -1);
    SplitAtSeparator(dw, " ", f, -1);
    assert [dd] + ([dw] + Split(f, " ", -1)) == [dd, dw] + Split(f, " ", -1);
  }

  // ----------------------------------------------------------- PrintBooks

  /** A book of the `books` map with its `rs` property evaluated. */
  datatype BookReads = BookReads(asin: string, readings: seq<Read>)

  /** An entry of `rv`: `(newest, asin, book)`. */
  datatype Listed = Listed(newest: int, asin: string, readings: seq<Read>)

  /** `t[2] is None and now or t[2]`: a read's end, or `now` while it is
      still in progress. */
  function EndOrNow(r: Read, now: int): (res: int)
    requires now != 0
  {
    if r.end.None? then now else r.end.value
  }

  /** Python's `max` over the ends of the reads. */
  function MaxEnd(rs: seq<Read>, now: int): (m: int)
    requires rs != [] && now != 0
    ensures forall i :: 0 <= i < |rs| ==> EndOrNow(rs[i], now) <= m
    ensures exists i :: 0 <= i < |rs| && EndOrNow(rs[i], now) == m
    decreases |rs|
  {
    var e := EndOrNow(rs[0], now);
    if |rs| == 1 then e
    else
      var rest := MaxEnd(rs[1..], now);
      assert forall i :: 1 <= i < |rs| ==> rs[i] == rs[1..][i - 1];
      if e >= rest then e else rest
  }

  /** The key a book is listed by: 0 without reads, else the latest end. */
  function Newest(rs: seq<Read>, now: int): (r: int)
    requires now != 0
  {
    if rs == [] then 0 else MaxEnd(rs, now)
  }

  /** `if only_book: ...`: an empty or absent `only_book` selects every book. */
  predicate Selected(asin: string, onlyBook: string) {
    onlyBook == "" || asin == onlyBook
  }

  /** `rv` after the first loop of `PrintBooks`, over `books` in order. */
  function Entries(books: seq<BookReads>, onlyBook: string, now: int): (r: seq<Listed>)
    requires now != 0
    ensures |r| <= |books| && (onlyBook == "" ==> |r| == |books|)
    ensures forall i :: 0 <= i < |r| ==> Selected(r[i].asin, onlyBook) && r[i].newest == Newest(r[i].readings, now)
  {
    if books == [] then []
    else
      var b := books[|books| - 1];
      Entries(books[..|books| - 1], onlyBook, now)
      + (if Selected(b.asin, onlyBook) then [Listed(Newest(b.readings, now), b.asin, b.readings)] else [])
  }

  /** `sorted(rv, reverse=True)` puts `a` no later than `b`: a later key
      first, and on equal keys the larger ASIN first. */
  predicate Before(a: Listed, b: Listed) {
    a.newest > b.newest || (a.newest == b.newest && LexLe(b.asin, a.asin))
  }

  lemma BeforeTotal()
    ensures TotalPreorder(Before)
  {
    forall a: Listed, b: Listed
      ensures Before(a, b) || Before(b, a)
    {
      LexLeTotal(a.asin, b.asin);
    }
    forall a: Listed, b: Listed, c: Listed | Before(a, b) && Before(b, c)
      ensures Before(a, c)
    {
      if a.newest == b.newest == c.newest {
        LexLeTransitive(c.asin, b.asin, a.asin);
      }
    }
  }

  /** The reading time of one book's reads. */
  function ReadTime(rs: seq<Read>): (r: int) {
    if rs == [] then 0 else ReadTime(rs[..|rs| - 1]) + rs[|rs| - 1].time
  }

  /** The reading time of the listed books. */
  function TotalTime(listing: seq<Listed>): (r: int) {
    if listing == [] then 0 else TotalTime(listing[..|listing| - 1]) + ReadTime(listing[|listing| - 1].readings)
  }

  lemma {:induction false} TotalTimeAppend(a: seq<Listed>, b: seq<Listed>)
    ensures TotalTime(a + b) == TotalTime(a) + TotalTime(b)
    decreases |b|
  {
    if b == [] {
      assert a + b == a;
    } else {
      TotalTimeAppend(a, b[..|b| - 1]);
      assert (a + b)[..|a + b| - 1] == a + b[..|b| - 1];
      assert (a + b)[|a + b| - 1] == b[|b| - 1];
    }
  }

  /** The total does not depend on the order of the books. */
  lemma {:induction false} TotalTimePermutation(a: seq<Listed>, b: seq<Listed>)
    requires multiset(a) == multiset(b)
    ensures TotalTime(a) == TotalTime(b)
    decreases |a|
  {
    if a == [] {
      assert |b| == |multiset(b)| == 0;
    } else {
      var x := a[|a| - 1];
      var init := a[..|a| - 1];
      assert a == init + [x];
      assert x in multiset(b);
      var k :| 0 <= k < |b| && b[k] == x;
      var rest := b[..k] + b[k + 1..];
      assert b == b[..k] + [x] + b[k + 1..];
      assert multiset(init) + multiset{x} == multiset(rest) + multiset{x};
      MultisetCancel(multiset(init), multiset(rest), x);
      TotalTimePermutation(init, rest);
      TotalTimeMiddle(b[..k], x, b[k + 1..]);
    }
  }

  /** One element less on both sides of a multiset equation. */
  lemma MultisetCancel<T>(p: multiset<T>, q: multiset<T>, x: T)
    requires p + multiset{x} == q + multiset{x}
    ensures p == q
  {
    forall y
      ensures p[y] == q[y]
    {
      assert (p + multiset{x})[y] == (q + multiset{x})[y];
    }
  }

  /** Taking one book out of the listing takes its reading time off the
      total. */
  lemma TotalTimeMiddle(p: seq<Listed>, x: Listed, q: seq<Listed>)
    ensures TotalTime(p + [x] + q) == TotalTime(p + q) + ReadTime(x.readings)
  {
    assert TotalTime([x]) == ReadTime(x.readings) by {
      assert [x][..0] == [];
    }
    TotalTimeAppend(p + [x], q);
    TotalTimeAppend(p, [x]);
    TotalTimeAppend(p, q);
  }

  /** `PrintBooks` without the printing: the books `only_book` selects,
      each with its key, in the order they are printed, and the total
      reading time it prints. */
  method PrintBooks(books: seq<BookReads>, onlyBook: string, now: int) returns (listing: seq<Listed>, total: int)
    requires now != 0
    ensures multiset(listing) == multiset(Entries(books, onlyBook, now))
    ensures SortedBy(listing, Before)
    ensures forall i, j :: 0 <= i < j < |listing| ==> listing[i].newest >= listing[j].newest
    ensures total == TotalTime(Entries(books, onlyBook, now))
  {
    var rv := ListBooks(books, onlyBook, now);
    listing := SortBy(rv, Before);
    SortByPermutes(rv, Before);
    BeforeTotal();
    SortBySorted(rv, Before);
    total := SumReadingTime(listing);
    TotalTimePermutation(listing, rv);
  }

  /** The first loop of `PrintBooks`: `rv`, one entry per selected book. */
  method ListBooks(books: seq<BookReads>, onlyBook: string, now: int) returns (rv: seq<Listed>)
    requires now != 0
    ensures rv == Entries(books, onlyBook, now)
  {
    rv := [];
    for i := 0 to |books|
      invariant rv == Entries(books[..i], onlyBook, now)
    {
      assert books[..i + 1][..i] == books[..i];
      var book := books[i];
      if !Selected(book.asin, onlyBook) {
        continue;
      }
      var newest := if book.readings == [] then 0 else MaxEnd(book.readings, now);
      rv := rv + [Listed(newest, book.asin, book.readings)];
    }
    assert books[..|books|] == books;
  }

  /** `total_duration` as the second loop of `PrintBooks` accumulates it,
      read by read. */
  method SumReadingTime(listing: seq<Listed>) returns (total: int)
    ensures total == TotalTime(listing)
  {
    total := 0;
    for j := 0 to |listing|
      invariant total == TotalTime(listing[..j])
    {
      assert listing[..j + 1][..j] == listing[..j];
      var rs := listing[j].readings;
      for k := 0 to |rs|
        invariant total == TotalTime(listing[..j]) + ReadTime(rs[..k])
      {
        assert rs[..k + 1][..k] == rs[..k];
        total := total + rs[k].time;
      }
      assert rs[..|rs|] == rs;
    }
    assert listing[..|listing|] == listing;
  }
}

=== FILE: log_lines.dfy ===
/** What one line of a Kindle log does to a KindleLog: the per-line part of
    `_ParseFile` (log_parser.py:383-423) with its dispatch to the power-state,
    reboot, timezone and book trackers, and the book hand-off of `_TrackBook`,
    `_EnsureBook`, `_BookletTransition` and `_BookTransition`
    (log_parser.py:685-753). Everything here works on values; the KindleLog
    class applies it to its fields and book objects. */
module LogLines {
  import opened PyText
  import opened LogStates
  import opened BookEvents
  import PowerStates
  import TimeNormalizer

  // ---------------------------------------------------------------- lines

  /** The timestamp prefix of a line: absent, present but not a date
      (strptime raises), or a local date-time counted in seconds. */
  datatype Stamp = NoStamp | BadDate | Local(wall: int)

  /** A line matching TZ_CHANGE, as `_TrackTimezone` reads it: the jump from
      the current zone to the announced one, worked out by the timezone
      library, or a change it cannot work out. That last case raises
      ValueError. It covers an unknown zone whose offset `int()` refuses, an
      offset `pytz.FixedOffset` refuses, and a time `datetime.fromtimestamp`
      refuses. */
  datatype TzLine = TzKnown(jump: TzJump) | TzRejected

  /** One log line, as each pattern of KindleLog sees it: the groups of
      STATE_CHANGE_RE, whether the three reboot patterns match, the timezone
      change as the timezone library reads it, the groups of
      BOOKLET_CHANGE_RE and BOOK_CHANGE_RE (asin, length, position), and the
      position of LPR_RE. */
  datatype Line = Line(
    stamp: Stamp,
    stateChange: Option<(string, string)>,
    kernelBanner: bool,
    initBoot: bool,
    bootFinished: bool,
    tzChange: Option<TzLine>,
    booklet: Option<(string, string)>,
    bookInfo: Option<(string, string, string)>,
    lpr: Option<string>)

  /** The timezone library: a local wall-clock time in a zone, as seconds
      since the epoch. */
  type Clock = (Zone, int) -> int

  /** `_ParseTimestamp`: -1 for a line without a timestamp, and times before
      the epoch read as 0. */
  function ParseTimestamp(clock: Clock, zone: Zone, stamp: Stamp): (r: Result<int>)
    ensures stamp.NoStamp? <==> r == Ok(-1)
    ensures stamp.BadDate? <==> r.Err?
    ensures r.Err? ==> r.error == ValueError
    ensures stamp.Local? ==> r.Ok? && r.value >= 0
    ensures stamp.Local? && clock(zone, stamp.wall) >= 0 ==> r == Ok(clock(zone, stamp.wall))
  {
    match stamp
    case NoStamp => Ok(-1)
    case BadDate => Err(ValueError)
    case Local(wall) =>
      var ts := clock(zone, wall);
      if ts < 0 then Ok(0) else Ok(ts)
  }

  // ---------------------------------------------------------------- books

  /** A KindleBook as a value; its ASIN is the key it is filed under. */
  datatype BookValue = BookValue(length: int, events: seq<Event>)

  /** The fields of a KindleLog: whether it has been parsed, its end, the
      tracked state and its books by ASIN. */
  datatype LogValue = LogValue(parsed: bool, end: Option<int>, t: Tracker,
                               books: map<string, BookValue>)

  /** A log after some processing, and whether that processing raised; on an
      exception the fields keep what was done before it. */
  datatype Stepped = Stepped(v: LogValue, outcome: Outcome)

  /** `KindleLog(filename, initial_state)`: nothing parsed yet, working on a
      copy of the state handed over (or a fresh one). */
  function NewLog(initial: Option<LogState>): (v: LogValue)
    ensures !v.parsed && v.end.None? && v.t.start.None? && v.books == map[]
    ensures v.t.states == [] && v.t.durations == map[]
    ensures initial.None? ==> v.t.state == InitialState
    ensures initial.Some? ==> v.t.state == initial.value
  {
    LogValue(false, None,
             Tracker(if initial.Some? then initial.value else InitialState, 0, None, [], map[]),
             map[])
  }

  /** Python truth value of the held book. */
  predicate Holding(s: LogState) {
    s.book.Some? && s.book.value != ""
  }

  /** `_EnsureBook(asin, length)`: an existing book is kept as it is; a new
      one is created, which reads its length and may raise. */
  function EnsureBook(books: map<string, BookValue>, asin: string, length: string): (r: Result<map<string, BookValue>>)
    ensures asin in books ==> r == Ok(books)
    ensures r.Ok? ==> asin in r.value && r.value[asin].events == (if asin in books then books[asin].events else [])
    ensures r.Ok? ==> forall a :: a in books ==> a in r.value && r.value[a] == books[a]
    ensures r.Ok? ==> r.value.Keys == books.Keys + {asin}
    ensures r.Err? <==> asin !in books && BookLength(length).Err?
  {
    if asin in books then Ok(books)
    else
      match BookLength(length)
      case Err(e) => Err(e)
      case Ok(n) => Ok(books[asin := BookValue(n, [])])
  }

  /** `_EnsureBook(asin, None)`, which cannot raise. */
  function HeldBook(books: map<string, BookValue>, asin: string): (r: map<string, BookValue>)
    ensures EnsureBook(books, asin, "") == Ok(r)
  {
    if asin in books then books else books[asin := BookValue(0, [])]
  }

  /** PickUp, Open or Close on the book filed under `asin`. */
  function RecordOn(books: map<string, BookValue>, asin: string, ts: int, kind: EventKind,
                    position: string): (r: (map<string, BookValue>, Outcome))
    requires asin in books
    ensures r.0 == books[asin := books[asin].(events := Record(books[asin].events, ts, kind, position).events)]
    ensures r.1 == Record(books[asin].events, ts, kind, position).outcome
  {
    var rec := Record(books[asin].events, ts, kind, position);
    (books[asin := books[asin].(events := rec.events)], rec.outcome)
  }

  /** PutDown on the book filed under `asin`. */
  function PutDownOn(books: map<string, BookValue>, asin: string, ts: int): (r: map<string, BookValue>)
    requires asin in books
    ensures r == books[asin := books[asin].(events := PutDownEvents(books[asin].events, ts))]
  {
    books[asin := books[asin].(events := PutDownEvents(books[asin].events, ts))]
  }

  /** `_BookletTransition(b_from, b_to)` at the line's time: switching to the
      reader opens the held book, switching away from it closes it; neither
      carries a position, so neither can raise. */
  function BookletTransition(v: LogValue, from: string, to: string): (r: LogValue)
    ensures r.t == v.t && r.parsed == v.parsed && r.end == v.end
  {
    if !Holding(v.t.state) then v
    else
      var asin := v.t.state.book.value;
      var books := HeldBook(v.books, asin);
      if to == "Bookworm" then v.(books := RecordOn(books, asin, v.t.ts, Open, "").0)
      else if from == "Bookworm" then v.(books := RecordOn(books, asin, v.t.ts, Close, "").0)
      else v.(books := books)
  }

  /** `_BookTransition(asin, length, position)`; a position-sync line passes
      no ASIN. */
  function BookTransition(v: LogValue, asin: string, length: string, position: string): (r: Stepped)
    ensures r.v.parsed == v.parsed && r.v.end == v.end
    ensures r.v.t == v.t || r.v.t == v.t.(state := v.t.state.(book := Some(asin)))
    ensures r.outcome.Fail? ==> r.outcome.error == ValueError
  {
    var ts := v.t.ts;
    if asin != "" then
      match EnsureBook(v.books, asin, length)
      case Err(e) => Stepped(v, Fail(e))
      case Ok(books) =>
        var t := v.t.(state := v.t.state.(book := Some(asin)));
        if !Holding(v.t.state) then
          var r := RecordOn(books, asin, ts, PickUp, position);
          Stepped(v.(t := t, books := r.0), r.1)
        else if v.t.state.book.value != asin then
          var held := v.t.state.book.value;
          var put := PutDownOn(HeldBook(books, held), held, ts);
          var r := RecordOn(put, asin, ts, PickUp, position);
          Stepped(v.(t := t, books := r.0), r.1)
        else
          var r := RecordOn(books, asin, ts, Open, position);
          Stepped(v.(books := r.0), r.1)
    else if Holding(v.t.state) then
      var held := v.t.state.book.value;
      var r := RecordOn(HeldBook(v.books, held), held, ts, Close, position);
      Stepped(v.(books := r.0), r.1)
    else Stepped(v, Pass)
  }

  /** `_TrackBook`: a booklet switch, else book info, else a position sync. */
  function TrackBook(v: LogValue, line: Line): (r: Stepped)
    ensures r.v.parsed == v.parsed && r.v.end == v.end
    ensures r.v.t == v.t || r.v.t == v.t.(state := v.t.state.(book := r.v.t.state.book))
    ensures r.outcome.Fail? ==> r.outcome.error == ValueError
  {
    if line.booklet.Some? then Stepped(BookletTransition(v, line.booklet.value.0, line.booklet.value.1), Pass)
    else if line.bookInfo.Some? then
      BookTransition(v, line.bookInfo.value.0, line.bookInfo.value.1, line.bookInfo.value.2)
    else if line.lpr.Some? then BookTransition(v, "", "", line.lpr.value)
    else Stepped(v, Pass)
  }

  // ------------------------------------------------------------- dispatch

  /** The trackers in the order `_ParseFile` tries them; the first that
      consumes the line wins. */
  function Dispatch(v: LogValue, line: Line): (r: Stepped)
    requires v.t.state.power.Some?
    ensures r.v.t.state.power.Some?
    ensures r.v.t.ts == v.t.ts && r.v.t.start == v.t.start
    ensures r.v.t.state.lastTs == v.t.state.lastTs
    ensures r.v.parsed == v.parsed && r.v.end == v.end
    ensures r.outcome.Fail? ==> r.outcome.error == ValueError
    ensures TrackStates(v.t, line).Err? ==> r == Stepped(v, Fail(ValueError))
  {
    match TrackStates(v.t, line)
    case Err(e) => Stepped(v, Fail(e))
    case Ok(tracked) =>
      if tracked.0 then Stepped(v.(t := tracked.1), Pass)
      else TrackBook(v, line)
  }

  /** The trackers that work on the tracked state alone: power states,
      reboots and timezone changes. The flag says whether one of them
      consumed the line; if none did, nothing changes. A timezone change the
      library cannot work out raises ValueError before anything is set. */
  function TrackStates(t: Tracker, line: Line): (r: Result<(bool, Tracker)>)
    requires t.state.power.Some?
    ensures r.Err? <==> (line.stateChange.None? && !PowerStates.TrackReboot(t, line.kernelBanner, line.initBoot, line.bootFinished).0
                         && line.tzChange == Some(TzRejected))
    ensures r.Err? ==> r.error == ValueError
    ensures r.Ok? && !r.value.0 ==> r.value.1 == t
    ensures r.Ok? ==> r.value.1.state.power.Some? && r.value.1.ts == t.ts && r.value.1.start == t.start
    ensures r.Ok? ==> r.value.1.state.lastTs == t.state.lastTs
    ensures r.Ok? ==> (r.value.0 <==> (line.stateChange.Some? || PowerStates.TrackReboot(t, line.kernelBanner, line.initBoot, line.bootFinished).0
                                      || line.tzChange.Some?))
    ensures (r.Ok? && line.stateChange.None? && !PowerStates.TrackReboot(t, line.kernelBanner, line.initBoot, line.bootFinished).0
             && line.tzChange.Some?)
            ==> r.value.1 == t.(state := t.state.(pending := Some(line.tzChange.value.jump)))
  {
    var power := if line.stateChange.Some?
                 then PowerStates.TrackPowerState(t, line.stateChange.value.0, line.stateChange.value.1)
                 else (false, t);
    if power.0 then Ok(power)
    else
      var reboot := PowerStates.TrackReboot(t, line.kernelBanner, line.initBoot, line.bootFinished);
      if reboot.0 then Ok(reboot)
      else
        match line.tzChange
        case Some(TzRejected) => Err(ValueError)
        case Some(TzKnown(jump)) => Ok((true, t.(state := t.state.(pending := Some(jump)))))
        case None => Ok((false, t))
  }

  /** What holds between lines: a processed line leaves a power state, and so
      does setting the file start. */
  predicate Tracking(t: Tracker) {
    StateOk(t.state) && (Truthy(t.start) ==> t.state.power.Some?)
  }

  /** The file start and the assumed NO_DATA state set by the first line. */
  function Started(t: Tracker): (r: Tracker)
    ensures r.start == Some(t.ts) && r.state.power.Some? && r.ts == t.ts
  {
    var state := if t.state.power.None? || t.state.power.value.since == 0
                 then t.state.(power := Some(PowerState(t.ts, "NO_DATA")))
                 else t.state;
    t.(start := Some(t.ts), state := state)
  }

  /** How the first part of a loop iteration ends: the line raised, was
      skipped, or goes on to the trackers; with the fields as they are then. */
  datatype Admission = Raise(t: Tracker, error: PyError) | Skip(t: Tracker) | Proceed(t: Tracker)

  /** The timestamp of the line, the clock correction once a line has been
      processed, and the file start: a line without a timestamp is skipped,
      and so is one whose corrected time is before the file start. */
  function Admit(clock: Clock, t: Tracker, line: Line): (r: Admission)
    requires Tracking(t)
    ensures Tracking(r.t)
    ensures r.Raise? ==> r.error in {ValueError, SystemExit}
    ensures r.Proceed? ==> r.t.state.power.Some? && r.t.start.Some? && r.t.ts >= r.t.start.value
    ensures r.Proceed? && !Truthy(t.start) ==> r.t.start == Some(r.t.ts)
    ensures r.Proceed? && Truthy(t.start) ==> r.t.start == t.start
  {
    match ParseTimestamp(clock, t.state.timezone, line.stamp)
    case Err(e) => Raise(t, e)
    case Ok(ts) =>
      var t0 := t.(ts := ts);
      if ts < 0 then Skip(t0)
      else
        var checked := if t0.state.lastTs > -1 then TimeNormalizer.CheckJump(t0) else Ok(t0);
        match checked
        case Err(e) => Raise(t0, e)
        case Ok(t1) =>
          if Truthy(t1.start) && t1.ts < t1.start.value then Skip(t1)
          else if !Truthy(t1.start) then Proceed(Started(t1))
          else Proceed(t1)
  }

  /** One iteration of the loop in `_ParseFile`; a line that reaches the
      trackers without raising becomes the last line processed. */
  function StepLine(clock: Clock, v: LogValue, line: Line): (r: Stepped)
    requires Tracking(v.t)
    ensures Tracking(r.v.t)
    ensures r.v.parsed == v.parsed && r.v.end == v.end
    ensures r.outcome.Fail? ==> r.outcome.error in {ValueError, SystemExit}
  {
    match Admit(clock, v.t, line)
    case Raise(t, e) => Stepped(v.(t := t), Fail(e))
    case Skip(t) => Stepped(v.(t := t), Pass)
    case Proceed(t) => Handle(v.(t := t), line)
  }

  /** An admitted line: the trackers, and the line's time becomes the last
      one processed unless they raise. */
  function Handle(v: LogValue, line: Line): (r: Stepped)
    requires v.t.state.power.Some?
    ensures r.v.parsed == v.parsed && r.v.end == v.end
    ensures r.outcome.Pass? ==> r.v.t.state.lastTs == v.t.ts
  {
    var d := Dispatch(v, line);
    if d.outcome.Fail? then d
    else Stepped(d.v.(t := d.v.t.(state := d.v.t.state.(lastTs := v.t.ts))), Pass)
  }

  /** The loop of `_ParseFile`, up to the first line that raises. */
  function ParseLines(clock: Clock, v: LogValue, lines: seq<Line>): (r: Stepped)
    requires Tracking(v.t)
    ensures Tracking(r.v.t)
    ensures r.v.parsed == v.parsed && r.v.end == v.end
    ensures r.outcome.Fail? ==> r.outcome.error in {ValueError, SystemExit}
    decreases |lines|
  {
    if lines == [] then Stepped(v, Pass)
    else
      var s := StepLine(clock, v, lines[0]);
      if s.outcome.Fail? then s else ParseLines(clock, s.v, lines[1..])
  }

  /** The end of `_ParseFile`: a file that leaves no line processed at all
      raises; otherwise the current state is closed at the last line's time
      and the file is marked parsed under its base name. */
  function FinishParse(v: LogValue, name: string): (r: Stepped)
    requires Tracking(v.t)
    ensures Tracking(r.v.t)
    ensures r.outcome.Fail? <==> v.t.state.lastTs < 0
    ensures r.outcome.Fail? ==> r == Stepped(v, Fail(ValueError))
    ensures r.outcome.Pass? ==> r.v.parsed && r.v.end == Some(v.t.state.lastTs)
                                && r.v.t.state.lastFilename == Some(name) && r.v.books == v.books
  {
    if v.t.state.lastTs < 0 then Stepped(v, Fail(ValueError))
    else
      var end := v.t.state.lastTs;
      var t := PowerStates.StateTransition(v.t, end, "");
      Stepped(LogValue(true, Some(end), t.(state := t.state.(lastFilename := Some(name))), v.books), Pass)
  }

  /** `_ParseFile` from the fields the log has now. (`_reset()` at its top
      only resets a log that is already parsed, and a log is only parsed when
      it is not, so a parse continues from whatever an earlier, failed parse
      left behind.) */
  function ParseFile(clock: Clock, name: string, lines: seq<Line>, v: LogValue): (r: Stepped)
    requires Tracking(v.t)
    ensures Tracking(r.v.t)
    ensures r.outcome.Fail? ==> r.outcome.error in {ValueError, SystemExit}
    ensures r.outcome.Pass? ==> r.v.parsed
  {
    var s := ParseLines(clock, v, lines);
    if s.outcome.Fail? then s else FinishParse(s.v, name)
  }

  /** What reading `start`, `end` or `state` does to a log: a log that is
      not parsed is parsed first. */
  function Demanded(clock: Clock, name: string, lines: seq<Line>, v: LogValue): (r: Stepped)
    requires Tracking(v.t)
    ensures Tracking(r.v.t)
    ensures v.parsed ==> r == Stepped(v, Pass)
    ensures r.outcome.Pass? ==> r.v.parsed
    ensures r.outcome.Fail? ==> r.outcome.error in {ValueError, SystemExit}
  {
    if v.parsed then Stepped(v, Pass) else ParseFile(clock, name, lines, v)
  }

  // ----------------------------------------------------------- properties

  /** A line with both a state change and a kernel banner is taken by the
      power-state tracker: it is tried first. */
  lemma PowerStateBeforeReboot(v: LogValue, line: Line, from: string, to: string)
    requires v.t.state.power.Some? && line.stateChange == Some((from, to)) && line.kernelBanner
    ensures Dispatch(v, line) == Stepped(v.(t := PowerStates.TrackPowerState(v.t, from, to).1), Pass)
    ensures to != "" ==> Dispatch(v, line).v.t.state.power.value.name == to
  {
  }

  /** A line whose corrected time is before the file start is dropped, but
      only after the clock corrector has seen it: whatever it changed in the
      carried state stays, while the last line time does not move. */
  lemma EarlyLineKeepsCorrection(clock: Clock, v: LogValue, line: Line, t1: Tracker)
    requires Tracking(v.t) && v.t.state.lastTs > -1 && Truthy(v.t.start)
    requires ParseTimestamp(clock, v.t.state.timezone, line.stamp).Ok?
    requires var ts := ParseTimestamp(clock, v.t.state.timezone, line.stamp).value;
             ts >= 0 && TimeNormalizer.CheckJump(v.t.(ts := ts)) == Ok(t1)
    requires t1.ts < v.t.start.value
    ensures StepLine(clock, v, line) == Stepped(v.(t := t1), Pass)
    ensures StepLine(clock, v, line).v.t.state.lastTs == v.t.state.lastTs
  {
  }

  /** A line without a timestamp changes nothing but the current time. */
  lemma UnstampedLineSkipped(clock: Clock, v: LogValue, line: Line)
    requires Tracking(v.t) && line.stamp.NoStamp?
    ensures StepLine(clock, v, line) == Stepped(v.(t := v.t.(ts := -1)), Pass)
  {
  }

  /** A timezone change the library cannot work out, on a line no earlier
      tracker takes, raises ValueError out of the loop with nothing changed
      but the current time; the rest of the file is not read. */
  lemma RejectedTimezoneAborts(clock: Clock, name: string, v: LogValue, line: Line, rest: seq<Line>)
    requires Tracking(v.t) && Admit(clock, v.t, line).Proceed?
    requires line.stateChange.None? && !line.kernelBanner && !line.initBoot && !line.bootFinished
    requires line.tzChange == Some(TzRejected)
    ensures var t := Admit(clock, v.t, line).t;
            StepLine(clock, v, line) == Stepped(v.(t := t), Fail(ValueError))
    ensures ParseFile(clock, name, [line] + rest, v).outcome == Fail(ValueError)
  {
    assert ([line] + rest)[1..] == rest;
  }

  /** A file whose lines all lack timestamps raises "No valid lines" exactly
      when no line was processed before it; with a state carried over from an
      earlier file it parses, and its start stays unset. */
  lemma {:induction false} NoValidLines(clock: Clock, name: string, lines: seq<Line>, v: LogValue)
    requires Tracking(v.t)
    requires forall i :: 0 <= i < |lines| ==> lines[i].stamp.NoStamp?
    ensures ParseFile(clock, name, lines, v).outcome.Fail? <==> v.t.state.lastTs < 0
    ensures ParseFile(clock, name, lines, v).v.t.start == v.t.start
    ensures ParseLines(clock, v, lines).v.t.state == v.t.state
    ensures ParseLines(clock, v, lines).v.books == v.books
    decreases |lines|
  {
    if lines != [] {
      UnstampedLineSkipped(clock, v, lines[0]);
      var s := StepLine(clock, v, lines[0]);
      NoValidLines(clock, name, lines[1..], s.v);
    }
  }

  /** A book-info line while no book is held picks that book up. */
  lemma BookInfoPicksUp(v: LogValue, asin: string, length: string, position: string)
    requires asin != "" && !Holding(v.t.state) && EnsureBook(v.books, asin, length).Ok?
    ensures var r := BookTransition(v, asin, length, position);
            var books := EnsureBook(v.books, asin, length).value;
            && r.v.t.state.book == Some(asin)
            && r.v.books == books[asin := books[asin].(events := Record(books[asin].events, v.t.ts, PickUp, position).events)]
  {
  }

  /** Another ASIN puts the held book down and picks the new one up, both at
      the line's time. */
  lemma BookInfoSwitchesBooks(v: LogValue, asin: string, length: string, position: string)
    requires asin != "" && Holding(v.t.state) && v.t.state.book.value != asin
    requires EnsureBook(v.books, asin, length).Ok?
    ensures var held := v.t.state.book.value;
            var r := BookTransition(v, asin, length, position);
            var books := HeldBook(EnsureBook(v.books, asin, length).value, held);
            && r.v.t.state.book == Some(asin)
            && held in r.v.books && asin in r.v.books
            && r.v.books[held].events == PutDownEvents(books[held].events, v.t.ts)
            && r.v.books[asin].events == Record(books[asin].events, v.t.ts, PickUp, position).events
            && r.outcome == Record(books[asin].events, v.t.ts, PickUp, position).outcome
  {
  }

  /** The same ASIN again opens it at the new position. */
  lemma BookInfoReopens(v: LogValue, length: string, position: string)
    requires Holding(v.t.state) && v.t.state.book.value in v.books
    ensures var asin := v.t.state.book.value;
            var r := BookTransition(v, asin, length, position);
            && r.v.t == v.t
            && r.v.books == v.books[asin := v.books[asin].(events := Record(v.books[asin].events, v.t.ts, Open, position).events)]
  {
  }

  /** A position sync closes the held book at that position, and does
      nothing when no book is held. */
  lemma PositionSync(v: LogValue, position: string)
    ensures !Holding(v.t.state) ==> BookTransition(v, "", "", position) == Stepped(v, Pass)
    ensures Holding(v.t.state) && v.t.state.book.value in v.books ==>
              var asin := v.t.state.book.value;
              BookTransition(v, "", "", position).v
                == v.(books := v.books[asin := v.books[asin].(events := Record(v.books[asin].events, v.t.ts, Close, position).events)])
  {
  }

  /** A booklet switch does nothing without a held book; otherwise switching
      to the reader opens it and switching away from the reader closes it. */
  lemma BookletSwitch(v: LogValue, from: string, to: string)
    ensures !Holding(v.t.state) ==> BookletTransition(v, from, to) == v
    ensures Holding(v.t.state) && v.t.state.book.value in v.books ==>
              var asin := v.t.state.book.value;
              var events := v.books[asin].events;
              var r := BookletTransition(v, from, to).books;
              && r.Keys == v.books.Keys
              && (to == "Bookworm" ==> r[asin].events == Coalesced(events, v.t.ts, Open, None, 1))
              && (to != "Bookworm" && from == "Bookworm" ==> r[asin].events == Coalesced(events, v.t.ts, Close, None, 1))
              && (to != "Bookworm" && from != "Bookworm" ==> r == v.books)
  {
  }

  /** While the power state is not re-initialised (the file has started, or
      the carried state has a time), a line keeps the durations telescoping:
      whatever it adds to a state's duration is the time that state was held. */
  lemma StepLineConserves(clock: Clock, v: LogValue, line: Line)
    requires Tracking(v.t) && v.t.state.power.Some?
    requires Truthy(v.t.start) || v.t.state.power.value.since != 0
    ensures StepLine(clock, v, line).v.t.state.power.Some?
    ensures PowerStates.Conserved(StepLine(clock, v, line).v.t) == PowerStates.Conserved(v.t)
  {
    var a := Admit(clock, v.t, line);
    AdmitConserves(clock, v.t, line);
    if a.Proceed? {
      TrackingConservesDispatch(v.(t := a.t), line);
    }
  }

  /** Admitting a line moves time forward but does not touch the durations
      or the time the current state was entered, unless the file starts and
      the state carried over had no time yet. */
  lemma AdmitConserves(clock: Clock, t: Tracker, line: Line)
    requires Tracking(t) && t.state.power.Some?
    requires Truthy(t.start) || t.state.power.value.since != 0
    ensures Admit(clock, t, line).t.state.power.Some?
    ensures PowerStates.Conserved(Admit(clock, t, line).t) == PowerStates.Conserved(t)
  {
    match ParseTimestamp(clock, t.state.timezone, line.stamp)
    case Err(_) =>
    case Ok(ts) =>
      var t0 := t.(ts := ts);
      if ts >= 0 && t0.state.lastTs > -1 {
        var checked := TimeNormalizer.CheckJump(t0);
        if checked.Ok? {
          CheckJumpConserves(t0);
        }
      }
  }

  lemma CheckJumpConserves(t: Tracker)
    requires t.state.power.Some? && TimeNormalizer.CheckJump(t).Ok?
    ensures PowerStates.Conserved(TimeNormalizer.CheckJump(t).value) == PowerStates.Conserved(t)
  {
  }

  lemma TrackingConservesDispatch(v: LogValue, line: Line)
    requires v.t.state.power.Some?
    ensures PowerStates.Conserved(Dispatch(v, line).v.t) == PowerStates.Conserved(v.t)
  {
    if line.stateChange.Some? {
      PowerStates.TrackingConserves(v.t, line.stateChange.value.0, line.stateChange.value.1,
                                    line.kernelBanner, line.initBoot, line.bootFinished);
    } else {
      PowerStates.TrackingConserves(v.t, "", "", line.kernelBanner, line.initBoot, line.bootFinished);
    }
  }

  /** Once a file has started, every further line and the closing transition
      keep the durations telescoping: the durations recorded grow by exactly
      the time that passes in the current power state. */
  lemma {:induction false} ParseConserves(clock: Clock, name: string, lines: seq<Line>, v: LogValue)
    requires Tracking(v.t) && Truthy(v.t.start)
    ensures ParseLines(clock, v, lines).v.t.state.power.Some?
    ensures PowerStates.Conserved(ParseLines(clock, v, lines).v.t) == PowerStates.Conserved(v.t)
    ensures ParseFile(clock, name, lines, v).v.t.state.power.Some?
    ensures PowerStates.Conserved(ParseFile(clock, name, lines, v).v.t) == PowerStates.Conserved(v.t)
    decreases |lines|
  {
    if lines != [] {
      StepLineConserves(clock, v, lines[0]);
      var s := StepLine(clock, v, lines[0]);
      if s.outcome.Pass? {
        assert Truthy(s.v.t.start);
        ParseConserves(clock, name, lines[1..], s.v);
      }
    }
  }
}

=== FILE: log_state.dfy ===
/** The state one log file hands to the next (KindleLogState,
    log_parser.py:48-96) and the per-file tracking data that KindleLog keeps
    beside it; plus the arithmetic on state-duration maps. */
module LogStates {
  import opened PyText

  /** A timezone name; converting local times through it is done by a function
      supplied from outside. */
  type Zone = string

  /** KindleLogState.DEFAULT_TZ. */
  const DEFAULT_TZ: Zone := "Europe/Dublin"

  /** `power_state`: the device state and the time it was entered. */
  datatype PowerState = PowerState(since: int, name: string)

  /** `base_realtime` and `base_badtime`, which are always set and cleared
      together. */
  datatype Baseline = Baseline(realtime: int, badtime: int)

  /** A timezone jump and its zone: `next_tz_jump`/`next_tz` while it is
      expected, `old_tz_jump`/`old_tz` after it happened. */
  datatype TzJump = TzJump(jump: int, zone: Zone)

  datatype LogState = LogState(
    lastFilename: Option<string>,
    lastTs: int,
    pending: Option<TzJump>,
    previous: Option<TzJump>,
    timezone: Zone,
    power: Option<PowerState>,
    baseline: Option<Baseline>,
    book: Option<string>)

  /** `KindleLogState(None)`. */
  const InitialState := LogState(None, -1, None, None, DEFAULT_TZ, None, None, None)

  /** What every state the parser hands on satisfies: once a line has been
      processed there is a power state. */
  predicate StateOk(s: LogState) {
    s.lastTs > -1 ==> s.power.Some?
  }

  /** An entry of `KindleLog.states`: a transition and the state entered. */
  datatype Transition = Transition(ts: int, name: string)

  /** The fields of KindleLog that the clock corrector and the power-state
      machine update: the carried state, the current line's timestamp, the
      file start, and the transitions and durations recorded so far. */
  datatype Tracker = Tracker(state: LogState, ts: int, start: Option<int>,
                             states: seq<Transition>, durations: map<string, int>)

  /** Python truth value of an optional integer. */
  predicate Truthy(o: Option<int>) {
    o.Some? && o.value != 0
  }

  // ------------------------------------------------------ duration maps

  /** `d.get(k, 0)`. */
  function Get(m: map<string, int>, k: string): (r: int) {
    if k in m then m[k] else 0
  }

  /** `d.setdefault(k, 0); d[k] += amount`. */
  function AddTo(m: map<string, int>, k: string, amount: int): (r: map<string, int>)
    ensures r.Keys == m.Keys + {k}
    ensures r[k] == Get(m, k) + amount
    ensures forall j :: j in m && j != k ==> r[j] == m[j]
  {
    m[k := Get(m, k) + amount]
  }

  ghost function SumValues(m: map<string, int>): (r: int)
    decreases |m.Keys|
  {
    if m.Keys == {} then 0
    else
      var k :| k in m.Keys;
      m[k] + SumValues(m - {k})
  }

  lemma {:induction false} SumValuesRemove(m: map<string, int>, k: string)
    requires k in m
    ensures SumValues(m) == m[k] + SumValues(m - {k})
    decreases |m.Keys|
  {
    var j :| j in m.Keys && SumValues(m) == m[j] + SumValues(m - {j});
    if j != k {
      assert (m - {j}) - {k} == (m - {k}) - {j};
      SumValuesRemove(m - {j}, k);
      SumValuesRemove(m - {k}, j);
    }
  }

  /** Adding an amount to one entry adds it to the total. */
  lemma SumValuesAddTo(m: map<string, int>, k: string, amount: int)
    ensures SumValues(AddTo(m, k, amount)) == SumValues(m) + amount
  {
    var r := AddTo(m, k, amount);
    SumValuesRemove(r, k);
    assert r - {k} == m - {k};
    if k in m {
      SumValuesRemove(m, k);
    } else {
      assert m - {k} == m;
    }
  }

  /** Entry-wise sum of two duration maps: what folding one map into another
      with setdefault/`+=` produces. */
  function Plus(a: map<string, int>, b: map<string, int>): (r: map<string, int>)
    ensures r.Keys == a.Keys + b.Keys
    ensures forall k :: k in r ==> r[k] == Get(a, k) + Get(b, k)
  {
    map k | k in a.Keys + b.Keys :: Get(a, k) + Get(b, k)
  }

  lemma PlusSplit(a: map<string, int>, b: map<string, int>, k: string)
    requires k in b
    ensures Plus(a, b) == AddTo(Plus(a, b - {k}), k, b[k])
  {
    var l := Plus(a, b);
    var r := AddTo(Plus(a, b - {k}), k, b[k]);
    assert l.Keys == r.Keys;
    forall j | j in l ensures l[j] == r[j] {
      if j != k {
        assert Get(b, j) == Get(b - {k}, j);
      }
    }
  }

  lemma {:induction false} SumValuesPlus(a: map<string, int>, b: map<string, int>)
    ensures SumValues(Plus(a, b)) == SumValues(a) + SumValues(b)
    decreases |b.Keys|
  {
    if b.Keys == {} {
      assert Plus(a, b).Keys == a.Keys;
      assert Plus(a, b) == a;
      assert SumValues(b) == 0;
    } else {
      var k :| k in b.Keys;
      var rest := b - {k};
      SumValuesPlus(a, rest);
      PlusSplit(a, b, k);
      SumValuesAddTo(Plus(a, rest), k, b[k]);
      SumValuesRemove(b, k);
    }
  }
}

=== FILE: mobibook.dfy ===
/** The Mobipocket metadata reader (mobibook.py): the PalmDB header and
    section table, record 0's MOBI header, the EXTH metadata records, and
    the attribute lookups and title built on them.

    A book is a PalmDB file. Its 78-byte header holds the type/creator
    magic at bytes 0x3C..0x44 and the section count, a u16, at bytes 76..78.
    Then comes one 8-byte entry per section: a u32 offset, a flags byte and
    a 24-bit unique id. Section 0 ("record 0") starts with the PalmDOC
    header; in a 'BOOKMOBI' book the MOBI header follows it, and after that
    an optional EXTH block of typed (type, size, content) records. */
module MobiFormat {
  import opened PyText

  /** Python's `s[lo:hi]` for non-negative bounds: both ends are clamped,
      and a range that is empty or starts past the end gives nothing. */
  function Range<T>(s: seq<T>, lo: nat, hi: nat): (r: seq<T>)
    ensures |r| == if lo < hi && lo < |s| then (if hi <= |s| then hi else |s|) - lo else 0
    ensures forall i :: 0 <= i < |r| ==> r[i] == s[lo + i]
  {
    if lo < hi && lo < |s| then s[lo..if hi <= |s| then hi else |s|] else []
  }

  /** `struct.unpack` of the slice `b[at:at + n]` as one unsigned
      big-endian number ('B', '>H', '>L', '>I'): struct raises unless the
      slice holds exactly `n` bytes. */
  function Field(b: seq<Byte>, at: nat, n: nat): (r: Result<nat>)
    ensures r.Ok? <==> at + n <= |b|
    ensures r.Err? ==> r.error == StructError
    ensures r.Ok? ==> r.value < Pow256(n)
  {
    if at + n <= |b| then Ok(BigEndian(b[at..at + n])) else Err(StructError)
  }

  /** `struct.unpack` of a whole byte string as one `n`-byte number. */
  function Unpack(content: seq<Byte>, n: nat): (r: Result<nat>)
    ensures r.Ok? <==> |content| == n
    ensures r.Err? ==> r.error == StructError
  {
    if |content| == n then Ok(BigEndian(content)) else Err(StructError)
  }

  /** A Python 2 `str` read from the file: one character per byte. */
  function Chars(b: seq<Byte>): (r: string)
    ensures |r| == |b| && forall i :: 0 <= i < |b| ==> r[i] as int == b[i]
  {
    seq(|b|, i requires 0 <= i < |b| => b[i] as char)
  }

  // ------------------------------------------------------- PalmDB header

  const HeaderSize := 78

  predicate IsBookMobi(magic: seq<Byte>) {
    Chars(magic) == "BOOKMOBI"
  }

  predicate IsTextRead(magic: seq<Byte>) {
    Chars(magic) == "TEXtREAd"
  }

  /** `self.magic`: the eight bytes at 0x3C of the first 78. */
  function Magic(data: seq<Byte>): (r: seq<Byte>) {
    Range(Range(data, 0, HeaderSize), 0x3C, 0x3C + 8)
  }

  /** One section-table entry: `(offset, flags, uniqueID)`. */
  datatype Section = Section(offset: nat, flags: Byte, uniqueId: nat)

  /** Entry `i` of the section table, unpacked as '>LBBBB' from the eight
      bytes at 78 + 8i; the last three bytes form the unique id
      `a2<<16|a3<<8|a4`, which is their big-endian value. */
  function SectionAt(data: seq<Byte>, i: nat): (r: Result<Section>)
    ensures r.Ok? <==> HeaderSize + 8 * i + 8 <= |data|
    ensures r.Err? ==> r.error == StructError
    ensures r.Ok? ==> r.value.offset < Pow256(4) && r.value.uniqueId < Pow256(3)
  {
    var at := HeaderSize + 8 * i;
    if at + 8 <= |data| then
      Ok(Section(BigEndian(data[at..at + 4]), data[at + 4], BigEndian(data[at + 5..at + 8])))
    else Err(StructError)
  }

  /** The first `n` section-table entries, appended in order. */
  function Sections(data: seq<Byte>, n: nat): (r: Result<seq<Section>>)
    ensures r.Ok? <==> n == 0 || HeaderSize + 8 * n <= |data|
    ensures r.Err? ==> r.error == StructError
    ensures r.Ok? ==> |r.value| == n && forall i :: 0 <= i < n ==> SectionAt(data, i) == Ok(r.value[i])
  {
    if n == 0 then Ok([])
    else
      var init :- Sections(data, n - 1);
      var last :- SectionAt(data, n - 1);
      Ok(init + [last])
  }

  /** `parseSections`: the section count is the u16 at bytes 76..78 of the
      header, and that many entries follow it. */
  function SectionTable(header: seq<Byte>, data: seq<Byte>): (r: Result<seq<Section>>)
    ensures r.Err? ==> r.error == StructError
    ensures r.Ok? ==> Field(header, 76, 2) == Ok(|r.value|) && Sections(data, |r.value|) == r
  {
    var count :- Field(header, 76, 2);
    Sections(data, count)
  }

  /** `loadSection(i)`: the bytes from section `i`'s offset up to the next
      section's offset, or up to the end of the file for the last section. */
  function LoadSection(data: seq<Byte>, sections: seq<Section>, i: nat): (r: Result<seq<Byte>>)
    ensures r.Ok? <==> i < |sections|
    ensures r.Err? ==> r.error == IndexError
  {
    var endOff: nat :- if i + 1 == |sections| then Ok(|data|)
                       else if i + 1 < |sections| then Ok(sections[i + 1].offset)
                       else Err(IndexError);
    if i < |sections| then Ok(Range(data, sections[i].offset, endOff)) else Err(IndexError)
  }

  /** The bytes of an entry, as a writer lays it out. */
  function EncodeSection(s: Section): (r: seq<Byte>)
    requires s.offset < Pow256(4) && s.uniqueId < Pow256(3)
    ensures |r| == 8
  {
    BigEndianBytes(s.offset, 4) + ([s.flags] + BigEndianBytes(s.uniqueId, 3))
  }

  /** An encoded entry is read back as itself. */
  lemma SectionEncoded(data: seq<Byte>, i: nat, s: Section)
    requires s.offset < Pow256(4) && s.uniqueId < Pow256(3)
    requires HeaderSize + 8 * i + 8 <= |data|
    requires data[HeaderSize + 8 * i..HeaderSize + 8 * i + 8] == EncodeSection(s)
    ensures SectionAt(data, i) == Ok(s)
  {
    var at := HeaderSize + 8 * i;
    var e := EncodeSection(s);
    assert data[at..at + 4] == e[..4] == BigEndianBytes(s.offset, 4);
    assert data[at + 5..at + 8] == e[5..] == BigEndianBytes(s.uniqueId, 3);
    assert data[at + 4] == e[4] == s.flags;
  }

  /** A table of encoded entries is read back entry for entry. */
  lemma {:induction false} SectionsEncoded(data: seq<Byte>, ss: seq<Section>)
    requires forall i :: 0 <= i < |ss| ==> ss[i].offset < Pow256(4) && ss[i].uniqueId < Pow256(3)
    requires HeaderSize + 8 * |ss| <= |data|
    requires forall i :: 0 <= i < |ss| ==>
               data[HeaderSize + 8 * i..HeaderSize + 8 * i + 8] == EncodeSection(ss[i])
    ensures Sections(data, |ss|) == Ok(ss)
  {
    hide Range, Field, Unpack, Chars, IsBookMobi, IsTextRead, Magic, LoadSection, SectionTable, ReadPalmDoc;
    hide PalmDb, Open, MobiHeader, ReadMobiFields, ExthMeta, ProcessExth, ExthRecords, ScanStore, Store;
    hide EncodeSection, BigEndianBytes, BigEndian, Pow256, Sections, SectionAt;
    if ss != [] {
      var n := |ss| - 1;
      SectionsEncoded(data, ss[..n]);
      SectionEncoded(data, n, ss[n]);
      SectionsSnoc(data, ss);
    }
  }

  /** One more entry read after the others. */
  lemma SectionsSnoc(data: seq<Byte>, ss: seq<Section>)
    requires ss != []
    requires Sections(data, |ss| - 1) == Ok(ss[..|ss| - 1])
    requires SectionAt(data, |ss| - 1) == Ok(ss[|ss| - 1])
    ensures Sections(data, |ss|) == Ok(ss)
  {
    hide SectionAt;
    assert ss[..|ss| - 1] + [ss[|ss| - 1]] == ss;
  }

  /** The section offsets never decrease and stay within the file. */
  ghost predicate Ascending(data: seq<Byte>, sections: seq<Section>) {
    forall i, j :: 0 <= i <= j < |sections| ==> sections[i].offset <= sections[j].offset <= |data|
  }

  /** Sections `k`, `k + 1`, ... loaded one after the other. */
  function LoadedFrom(data: seq<Byte>, sections: seq<Section>, k: nat): (r: seq<Byte>)
    requires k <= |sections|
    decreases |sections| - k
  {
    if k == |sections| then [] else LoadSection(data, sections, k).value + LoadedFrom(data, sections, k + 1)
  }

  /** With ascending offsets, the sections tile the file: loading them all
      from section `k` on gives back every byte from `k`'s offset to the end. */
  lemma {:induction false} SectionsTile(data: seq<Byte>, sections: seq<Section>, k: nat)
    requires Ascending(data, sections) && k < |sections|
    ensures LoadedFrom(data, sections, k) == data[sections[k].offset..]
    decreases |sections| - k
  {
    var lo := sections[k].offset;
    if k + 1 == |sections| {
      assert LoadedFrom(data, sections, k + 1) == [];
    } else {
      var hi := sections[k + 1].offset;
      SectionsTile(data, sections, k + 1);
      assert LoadSection(data, sections, k).value == data[lo..hi];
      assert data[lo..hi] + data[hi..] == data[lo..];
    }
  }

  // ---------------------------------------------------------- the book

  /** What a successfully constructed `MobiBook` holds. For a 'TEXtREAd'
      book the MOBI header fields keep their defaults (`exthOff` and the
      DRM fields 0). */
  datatype Book = Book(
    dataFile: seq<Byte>, header: seq<Byte>, magic: seq<Byte>,
    sections: seq<Section>, record0: seq<Byte>,
    compression: nat, txtRecords: nat, firstImg: nat, extraDataFlags: nat,
    meta: map<nat, seq<Byte>>,
    mobiLength: nat, mobiVersion: int, cryptoType: int, exthOff: nat,
    drmPtr: nat, drmCount: nat, drmSize: nat)

  /** The PalmDB part of two books is the same. */
  predicate SamePalmDb(a: Book, b: Book) {
    a.dataFile == b.dataFile && a.header == b.header && a.magic == b.magic
    && a.sections == b.sections && a.record0 == b.record0
    && a.compression == b.compression && a.txtRecords == b.txtRecords
  }

  /** Bit 0x40 of the MOBI header's EXTH flags. */
  predicate HasExth(flags: nat) {
    (flags / 0x40) % 2 == 1
  }

  /** A MOBI header long enough, and recent enough, to carry the
      extra-data flags. */
  predicate HasExtraFlags(mobiLength: nat, mobiVersion: int) {
    mobiLength >= 0xE4 && mobiVersion >= 5
  }

  /** The fields `parseMobiHeader` unpacks from record 0. */
  datatype MobiFields = MobiFields(
    mobiLength: nat, mobiVersion: nat, firstImg: nat, extraDataFlags: nat,
    cryptoType: nat, drmPtr: nat, drmCount: nat, drmSize: nat)

  /** The struct reads of `parseMobiHeader`, in order: the MOBI header
      length and version, the first image, the extra-data flags when the
      header carries them (else `extraDataFlags` stays), the crypto type and
      the DRM fields. Any field beyond the end of record 0 makes struct
      raise. */
  function ReadMobiFields(rec: seq<Byte>, extraDataFlags: nat): (r: Result<MobiFields>)
    ensures r.Err? ==> r.error == StructError
    ensures r.Ok? <==>
              0xA8 + 16 <= |rec|
              && (HasExtraFlags(BigEndian(rec[0x14..0x18]), BigEndian(rec[0x68..0x6C])) ==> 0xF4 <= |rec|)
    ensures r.Ok? ==> r.value.mobiLength == BigEndian(rec[0x14..0x18])
                      && r.value.mobiVersion == BigEndian(rec[0x68..0x6C])
                      && r.value.firstImg == BigEndian(rec[0x6C..0x70])
                      && r.value.cryptoType == BigEndian(rec[0xC..0xE])
    ensures r.Ok? && !HasExtraFlags(r.value.mobiLength, r.value.mobiVersion) ==>
              r.value.extraDataFlags == extraDataFlags
    ensures r.Ok? && HasExtraFlags(r.value.mobiLength, r.value.mobiVersion) ==>
              r.value.extraDataFlags == BigEndian(rec[0xF2..0xF4])
  {
    var mobiLength :- Field(rec, 0x14, 4);
    var mobiVersion :- Field(rec, 0x68, 4);
    var firstImg :- Field(rec, 0x6C, 4);
    var extra :- if HasExtraFlags(mobiLength, mobiVersion) then Field(rec, 0xF2, 2) else Ok(extraDataFlags);
    // The reads before this one already reach beyond 0xE: the crypto type
    // is there.
    var cryptoType := BigEndian(rec[0xC..0xE]);
    if |rec| < 0xA8 + 16 then Err(StructError)
    else
      Ok(MobiFields(mobiLength, mobiVersion, firstImg, extra, cryptoType,
                    BigEndian(rec[0xA8..0xAC]), BigEndian(rec[0xAC..0xB0]), BigEndian(rec[0xB0..0xB4])))
  }

  /** `parseMobiHeader`: the fields above, the EXTH block's offset right
      after the MOBI header, and the EXTH metadata when the flags announce
      a block. */
  function MobiHeader(b: Book): (r: Result<Book>)
    ensures r.Err? ==> r.error == StructError
    ensures r.Ok? <==> ReadMobiFields(b.record0, b.extraDataFlags).Ok?
    ensures r.Ok? ==> SamePalmDb(r.value, b) && r.value.exthOff == r.value.mobiLength + 16
    ensures r.Ok? && !HasExth(BigEndian(b.record0[0x80..0x84])) ==> r.value.meta == b.meta
  {
    var f :- ReadMobiFields(b.record0, b.extraDataFlags);
    // The DRM fields lie beyond the EXTH flags at 0x80.
    Ok(b.(mobiLength := f.mobiLength, mobiVersion := f.mobiVersion, exthOff := f.mobiLength + 16,
          firstImg := f.firstImg, extraDataFlags := f.extraDataFlags, cryptoType := f.cryptoType,
          drmPtr := f.drmPtr, drmCount := f.drmCount, drmSize := f.drmSize,
          meta := ExthMeta(b.record0, f.mobiLength + 16, b.meta)))
  }

  /** The book `MobiHeader` gives, once the fields are read. */
  lemma MobiHeaderIs(b: Book, f: MobiFields)
    requires ReadMobiFields(b.record0, b.extraDataFlags) == Ok(f)
    ensures MobiHeader(b)
            == Ok(Book(b.dataFile, b.header, b.magic, b.sections, b.record0, b.compression, b.txtRecords,
                       f.firstImg, f.extraDataFlags, ExthMeta(b.record0, f.mobiLength + 16, b.meta),
                       f.mobiLength, f.mobiVersion, f.cryptoType, f.mobiLength + 16,
                       f.drmPtr, f.drmCount, f.drmSize))
  {
    hide ReadMobiFields, ExthMeta;
  }

  /** The metadata after the MOBI header is parsed: unchanged unless the
      EXTH flags announce a block; then what `processEXTH` stored when it
      returned `True`, and nothing otherwise. */
  function ExthMeta(record0: seq<Byte>, exthOff: nat, meta: map<nat, seq<Byte>>): (r: map<nat, seq<Byte>>)
    requires 0x84 <= |record0|
  {
    if !HasExth(BigEndian(record0[0x80..0x84])) then meta
    else
      var (stored, found) := ProcessExth(record0, exthOff, meta);
      if found == Some(true) then stored else map[]
  }

  /** With the EXTH flag set, a parsed MOBI header keeps the records of a
      completely read EXTH block, or no metadata at all. */
  lemma MobiHeaderExth(b: Book)
    requires MobiHeader(b).Ok? && HasExth(BigEndian(b.record0[0x80..0x84]))
    ensures var r := MobiHeader(b).value;
            r.meta == map[] || ProcessExth(b.record0, r.exthOff, b.meta) == (r.meta, Some(true))
  {
    hide BigEndian, HasExth, ProcessExth;
  }

  /** The metadata after the MOBI header, case by case. */
  lemma ExthMetaCases(record0: seq<Byte>, exthOff: nat, meta: map<nat, seq<Byte>>)
    requires 0x84 <= |record0|
    ensures !HasExth(BigEndian(record0[0x80..0x84])) ==> ExthMeta(record0, exthOff, meta) == meta
    ensures HasExth(BigEndian(record0[0x80..0x84])) && ProcessExth(record0, exthOff, meta).1 == Some(true) ==>
              ExthMeta(record0, exthOff, meta) == ProcessExth(record0, exthOff, meta).0
    ensures HasExth(BigEndian(record0[0x80..0x84])) && ProcessExth(record0, exthOff, meta).1 != Some(true) ==>
              ExthMeta(record0, exthOff, meta) == map[]
  {
  }

  /** Record 0 with the PalmDOC fields `__init__` unpacks from it. */
  datatype PalmDoc = PalmDoc(record0: seq<Byte>, compression: nat, txtRecords: nat)

  /** `__init__` on record 0: `loadSection(0)`, then the compression type
      at 0x0 and the number of text records at 0x8. */
  function ReadPalmDoc(data: seq<Byte>, sections: seq<Section>): (r: Result<PalmDoc>)
    ensures r.Err? ==> r.error == IndexError || r.error == StructError
    ensures r.Ok? <==> LoadSection(data, sections, 0).Ok? && 0x8 + 2 <= |LoadSection(data, sections, 0).value|
    ensures r.Ok? ==> LoadSection(data, sections, 0) == Ok(r.value.record0)
                      && r.value.compression == BigEndian(r.value.record0[0x0..0x2])
                      && r.value.txtRecords == BigEndian(r.value.record0[0x8..0xA])
  {
    var record0 :- LoadSection(data, sections, 0);
    var compression :- Field(record0, 0x0, 2);
    var txtRecords :- Field(record0, 0x8, 2);
    Ok(PalmDoc(record0, compression, txtRecords))
  }

  /** `MobiBook.__init__` up to the MOBI header: the magic check, the
      section table, record 0 and its PalmDOC fields. */
  function PalmDb(data: seq<Byte>): (r: Result<Book>)
    ensures r.Err? ==> r.error == MobiException || r.error == StructError || r.error == IndexError
    ensures r.Err? && r.error == MobiException <==> !IsBookMobi(Magic(data)) && !IsTextRead(Magic(data))
    ensures r.Ok? ==> r.value.dataFile == data && r.value.magic == Magic(data)
    ensures r.Ok? ==> SectionTable(r.value.header, data) == Ok(r.value.sections)
    ensures r.Ok? ==> LoadSection(data, r.value.sections, 0) == Ok(r.value.record0)
    ensures r.Ok? ==> r.value.meta == map[] && r.value.mobiVersion == -1 && r.value.extraDataFlags == 0
                      && r.value.firstImg == r.value.txtRecords + 1
  {
    var header := Range(data, 0, HeaderSize);
    var magic := Range(header, 0x3C, 0x3C + 8);
    if !IsBookMobi(magic) && !IsTextRead(magic) then Err(MobiException)
    else
      var sections :- SectionTable(header, data);
      var doc :- ReadPalmDoc(data, sections);
      Ok(Book(data, header, magic, sections, doc.record0, doc.compression, doc.txtRecords,
              doc.txtRecords + 1, 0, map[], 0, -1, -1, 0, 0, 0, 0))
  }

  /** `MobiBook.__init__` after the file is read: the PalmDB part, and for
      'BOOKMOBI' the MOBI header. */
  function Open(data: seq<Byte>): (r: Result<Book>)
    ensures r.Err? ==> r.error == MobiException || r.error == StructError || r.error == IndexError
    ensures r.Ok? ==> PalmDb(data).Ok? && SamePalmDb(r.value, PalmDb(data).value)
    ensures r.Ok? && IsTextRead(r.value.magic) ==> r == PalmDb(data)
  {
    var book :- PalmDb(data);
    if IsTextRead(book.magic) then Ok(book) else MobiHeader(book)
  }

  /** `PalmDb` stage by stage. */
  lemma PalmDbSteps(data: seq<Byte>)
    ensures var header := Range(data, 0, HeaderSize);
            var magic := Range(header, 0x3C, 0x3C + 8);
            var table := SectionTable(header, data);
            var doc := if table.Ok? then ReadPalmDoc(data, table.value) else Err(StructError);
            PalmDb(data)
            == if !IsBookMobi(magic) && !IsTextRead(magic) then Err(MobiException)
               else if table.Err? || doc.Err? then Err(doc.error)
               else Ok(Book(data, header, magic, table.value, doc.value.record0, doc.value.compression,
                            doc.value.txtRecords, doc.value.txtRecords + 1, 0, map[], 0, -1, -1, 0, 0, 0, 0))
  {
    hide Range, Chars, IsBookMobi, IsTextRead, SectionTable, ReadPalmDoc;
  }

  /** `Open` case by case. */
  lemma OpenCases(data: seq<Byte>)
    ensures PalmDb(data).Err? ==> Open(data) == PalmDb(data)
    ensures PalmDb(data).Ok? && IsTextRead(PalmDb(data).value.magic) ==> Open(data) == PalmDb(data)
    ensures PalmDb(data).Ok? && !IsTextRead(PalmDb(data).value.magic) ==>
              Open(data) == MobiHeader(PalmDb(data).value)
  {
  }

  /** Only a file whose magic is neither 'BOOKMOBI' nor 'TEXtREAd' raises
      MobiException, and every such file does. */
  lemma MagicChecked(data: seq<Byte>)
    ensures Open(data) == Err(MobiException) <==> !IsBookMobi(Magic(data)) && !IsTextRead(Magic(data))
  {
  }

  /** A 'BOOKMOBI' book's EXTH metadata is empty unless the flags announce
      an EXTH block and the whole block was read. */
  lemma MetadataNeedsExth(data: seq<Byte>)
    requires Open(data).Ok? && IsBookMobi(Open(data).value.magic)
    requires Open(data).value.meta != map[]
    ensures var b := Open(data).value;
            HasExth(BigEndian(b.record0[0x80..0x84]))
            && ProcessExth(b.record0, b.exthOff, map[]) == (b.meta, Some(true))
  {
    var p := PalmDb(data).value;
    assert !IsTextRead(p.magic) by {
      assert Chars(p.magic)[0] == 'B';
    }
    hide MobiHeader, PalmDb, IsTextRead, IsBookMobi;
    assert Open(data) == MobiHeader(p);
    if HasExth(BigEndian(p.record0[0x80..0x84])) {
      MobiHeaderExth(p);
    }
  }

  // ---------------------------------------------------------------- EXTH

  datatype ExthRecord = ExthRecord(kind: nat, content: seq<Byte>)

  /** The records read from an EXTH block, and whether all of them were. */
  datatype Scan = Scan(records: seq<ExthRecord>, complete: bool)

  /** `n` records from `pos` on: each is a u32 type and a u32 size followed
      by `size - 8` content bytes, and the next record starts `size` bytes
      on. A record header cut short by the end of the block makes struct
      raise, which ends the scan. */
  function ExthRecords(exth: seq<Byte>, pos: nat, n: nat): (r: Scan)
    ensures |r.records| <= n
    ensures r.complete ==> |r.records| == n
    decreases n
  {
    if n == 0 then Scan([], true)
    else if pos + 8 > |exth| then Scan([], false)
    else
      var size := BigEndian(exth[pos + 4..pos + 8]);
      var rest := ExthRecords(exth, pos + size, n - 1);
      Scan([ExthRecord(BigEndian(exth[pos..pos + 4]), Range(exth, pos + 8, pos + size))] + rest.records,
           rest.complete)
  }

  /** `storeEXTH` called on each record in turn. */
  function Store(meta: map<nat, seq<Byte>>, records: seq<ExthRecord>): (r: map<nat, seq<Byte>>)
    decreases |records|
  {
    if records == [] then meta
    else Store(meta[records[0].kind := records[0].content], records[1..])
  }

  /** The loop of `processEXTH` on a map: `n` records from `pos` on are
      stored one after the other; the flag says whether the loop ran to
      the end. */
  function ScanStore(exth: seq<Byte>, pos: nat, n: nat, meta: map<nat, seq<Byte>>)
    : (r: (map<nat, seq<Byte>>, bool))
    decreases n
  {
    if n == 0 then (meta, true)
    else if pos + 8 > |exth| then (meta, false)
    else
      var size := BigEndian(exth[pos + 4..pos + 8]);
      ScanStore(exth, pos + size, n - 1, meta[BigEndian(exth[pos..pos + 4]) := Range(exth, pos + 8, pos + size)])
  }

  /** Storing while scanning is scanning first and storing afterwards. */
  lemma {:induction false} ScanStoreIsStore(exth: seq<Byte>, pos: nat, n: nat, meta: map<nat, seq<Byte>>)
    ensures ScanStore(exth, pos, n, meta)
            == (Store(meta, ExthRecords(exth, pos, n).records), ExthRecords(exth, pos, n).complete)
    decreases n
  {
    hide BigEndian, Pow256, Range;
    if n > 0 && pos + 8 <= |exth| {
      var size := BigEndian(exth[pos + 4..pos + 8]);
      var r := ExthRecord(BigEndian(exth[pos..pos + 4]), Range(exth, pos + 8, pos + size));
      var rest := ExthRecords(exth, pos + size, n - 1);
      ScanStoreIsStore(exth, pos + size, n - 1, meta[r.kind := r.content]);
      assert ExthRecords(exth, pos, n).records == [r] + rest.records;
      assert ([r] + rest.records)[1..] == rest.records;
    }
  }

  /** The EXTH block's magic, 'EXTH'. */
  predicate IsExthMagic(b: seq<Byte>) {
    Chars(b) == "EXTH"
  }

  /** `processEXTH(self.storeEXTH)`: the metadata afterwards, and what the
      call returns: `None` without the 'EXTH' magic, `True` when every
      record was read, `False` when struct raised. The records stored
      before a raise stay stored. */
  function ProcessExth(record0: seq<Byte>, exthOff: nat, meta: map<nat, seq<Byte>>)
    : (r: (map<nat, seq<Byte>>, Option<bool>))
    ensures r.1 == None <==> |record0| < exthOff + 4 || !IsExthMagic(record0[exthOff..exthOff + 4])
    ensures r.1 != Some(true) && r.1 != Some(false) ==> r.0 == meta
  {
    var exth := Range(record0, exthOff, |record0|);
    if |exth| < 4 || !IsExthMagic(exth[..4]) then (meta, None)
    else
      match Field(exth, 8, 4)
      case Err(_) => (meta, Some(false))
      case Ok(n) =>
        var scan := ExthRecords(exth, 12, n);
        (Store(meta, scan.records), Some(scan.complete))
  }

  /** The stored metadata holds exactly the old keys and the record types. */
  lemma {:induction false} StoreKeys(meta: map<nat, seq<Byte>>, records: seq<ExthRecord>, k: nat)
    ensures k in Store(meta, records) <==> k in meta || exists i :: 0 <= i < |records| && records[i].kind == k
    decreases |records|
  {
    if records != [] {
      StoreKeys(meta[records[0].kind := records[0].content], records[1..], k);
      if exists i :: 0 <= i < |records| && records[i].kind == k {
        var i :| 0 <= i < |records| && records[i].kind == k;
        if i > 0 {
          assert records[1..][i - 1].kind == k;
        }
      }
      if exists i :: 0 <= i < |records[1..]| && records[1..][i].kind == k {
        var i :| 0 <= i < |records[1..]| && records[1..][i].kind == k;
        assert records[i + 1].kind == k;
      }
    }
  }

  /** A later record of the same type overwrites an earlier one: the value
      stored for a type is the content of its last record. */
  lemma {:induction false} StoreLastWins(meta: map<nat, seq<Byte>>, records: seq<ExthRecord>, i: nat)
    requires i < |records|
    requires forall j :: i < j < |records| ==> records[j].kind != records[i].kind
    ensures records[i].kind in Store(meta, records)
    ensures Store(meta, records)[records[i].kind] == records[i].content
    decreases |records|
  {
    var rest := records[1..];
    var meta' := meta[records[0].kind := records[0].content];
    if i == 0 {
      StoreUntouched(meta', rest, records[0].kind);
    } else {
      forall j | i - 1 < j < |rest|
        ensures rest[j].kind != rest[i - 1].kind
      {
        assert rest[j] == records[j + 1];
      }
      StoreLastWins(meta', rest, i - 1);
    }
  }

  /** A type no record carries keeps its old value. */
  lemma {:induction false} StoreUntouched(meta: map<nat, seq<Byte>>, records: seq<ExthRecord>, k: nat)
    requires k in meta
    requires forall j :: 0 <= j < |records| ==> records[j].kind != k
    ensures k in Store(meta, records) && Store(meta, records)[k] == meta[k]
    decreases |records|
  {
    if records != [] {
      var rest := records[1..];
      forall j | 0 <= j < |rest|
        ensures rest[j].kind != k
      {
        assert rest[j] == records[j + 1];
      }
      StoreUntouched(meta[records[0].kind := records[0].content], rest, k);
    }
  }

  /** A record that can be written: its type and size fit in a u32. */
  predicate Encodable(r: ExthRecord) {
    r.kind < Pow256(4) && 8 + |r.content| < Pow256(4)
  }

  function EncodeRecord(r: ExthRecord): (e: seq<Byte>)
    requires Encodable(r)
    ensures |e| == 8 + |r.content|
  {
    BigEndianBytes(r.kind, 4) + (BigEndianBytes(8 + |r.content|, 4) + r.content)
  }

  function EncodeRecords(rs: seq<ExthRecord>): (r: seq<Byte>)
    requires forall i :: 0 <= i < |rs| ==> Encodable(rs[i])
  {
    if rs == [] then [] else EncodeRecord(rs[0]) + EncodeRecords(rs[1..])
  }

  /** One encoded record is read back as itself, and the next record starts
      right after it. */
  lemma RecordEncoded(exth: seq<Byte>, pos: nat, r: ExthRecord, rest: seq<Byte>)
    requires Encodable(r)
    requires pos + 8 + |r.content| + |rest| <= |exth|
    requires exth[pos..pos + 8 + |r.content| + |rest|] == EncodeRecord(r) + rest
    ensures pos + 8 <= |exth|
    ensures BigEndian(exth[pos..pos + 4]) == r.kind
    ensures BigEndian(exth[pos + 4..pos + 8]) == 8 + |r.content|
    ensures Range(exth, pos + 8, pos + 8 + |r.content|) == r.content
    ensures exth[pos + 8 + |r.content|..pos + 8 + |r.content| + |rest|] == rest
  {
    hide Field, Unpack, Chars, IsBookMobi, IsTextRead, Magic, LoadSection, SectionTable, ReadPalmDoc, Sections;
    hide PalmDb, Open, MobiHeader, ReadMobiFields, ExthMeta, ProcessExth, ExthRecords, ScanStore, Store;
    hide BigEndianBytes, BigEndian, Pow256, SectionAt;
    var n := 8 + |r.content|;
    var a, b := BigEndianBytes(r.kind, 4), BigEndianBytes(n, 4);
    assert EncodeRecord(r) == a + (b + r.content);
    hide EncodeRecord;
    SliceSplits(exth, pos, a + (b + r.content), rest);
    SliceSplits(exth, pos, a, b + r.content);
    SliceSplits(exth, pos + 4, b, r.content);
  }

  /** Encoded records are read back, all of them, in order. */
  lemma {:induction false} RecordsEncoded(exth: seq<Byte>, pos: nat, rs: seq<ExthRecord>)
    requires forall i :: 0 <= i < |rs| ==> Encodable(rs[i])
    requires pos + |EncodeRecords(rs)| <= |exth|
    requires exth[pos..pos + |EncodeRecords(rs)|] == EncodeRecords(rs)
    ensures ExthRecords(exth, pos, |rs|) == Scan(rs, true)
    decreases |rs|
  {
    hide Field, Unpack, Chars, IsBookMobi, IsTextRead, Magic, LoadSection, SectionTable, ReadPalmDoc, Sections;
    hide PalmDb, Open, MobiHeader, ReadMobiFields, ExthMeta, ProcessExth, ScanStore, Store;
    hide BigEndianBytes, BigEndian, Pow256, SectionAt, EncodeRecord, Range;
    if rs != [] {
      var tail := EncodeRecords(rs[1..]);
      assert EncodeRecords(rs) == EncodeRecord(rs[0]) + tail;
      hide EncodeRecords;
      RecordEncoded(exth, pos, rs[0], tail);
      RecordsEncoded(exth, pos + 8 + |rs[0].content|, rs[1..]);
      RecordsStep(exth, pos, rs);
    }
  }

  /** The records after a first encoded one complete the scan. */
  lemma RecordsStep(exth: seq<Byte>, pos: nat, rs: seq<ExthRecord>)
    requires rs != []
    requires pos + 8 <= |exth|
    requires BigEndian(exth[pos..pos + 4]) == rs[0].kind
    requires BigEndian(exth[pos + 4..pos + 8]) == 8 + |rs[0].content|
    requires Range(exth, pos + 8, pos + 8 + |rs[0].content|) == rs[0].content
    requires ExthRecords(exth, pos + 8 + |rs[0].content|, |rs| - 1) == Scan(rs[1..], true)
    ensures ExthRecords(exth, pos, |rs|) == Scan(rs, true)
  {
    hide BigEndian, Range;
    assert [rs[0]] + rs[1..] == rs;
  }

  /** The EXTH block as a writer lays it out: the magic, a u32 length (not
      read back), the record count and the records. */
  function EncodeExth(length: seq<Byte>, rs: seq<ExthRecord>): (r: seq<Byte>)
    requires |length| == 4 && |rs| < Pow256(4)
    requires forall i :: 0 <= i < |rs| ==> Encodable(rs[i])
  {
    [0x45, 0x58, 0x54, 0x48] + (length + (BigEndianBytes(|rs|, 4) + EncodeRecords(rs)))
  }

  /** An EXTH block at `exthOff` is read back completely: every record is
      stored, the last of each type winning, and `processEXTH` is `True`. */
  lemma ExthRoundTrip(record0: seq<Byte>, exthOff: nat, length: seq<Byte>, rs: seq<ExthRecord>,
                      meta: map<nat, seq<Byte>>)
    requires |length| == 4 && |rs| < Pow256(4)
    requires forall i :: 0 <= i < |rs| ==> Encodable(rs[i])
    requires exthOff + |EncodeExth(length, rs)| <= |record0|
    requires record0[exthOff..exthOff + |EncodeExth(length, rs)|] == EncodeExth(length, rs)
    ensures ProcessExth(record0, exthOff, meta) == (Store(meta, rs), Some(true))
  {
    hide Unpack, IsBookMobi, IsTextRead, Magic, LoadSection, SectionTable, ReadPalmDoc, Sections, SectionAt;
    hide PalmDb, Open, MobiHeader, ReadMobiFields, ExthMeta, ScanStore, Store, ExthRecords, Pow256;
    var e := EncodeExth(length, rs);
    var exth := Range(record0, exthOff, |record0|);
    assert exth == record0[exthOff..];
    hide BigEndianBytes, EncodeRecords;
    assert exth[..|e|] == e;
    assert exth[..4] == e[..4] == [0x45, 0x58, 0x54, 0x48];
    assert IsExthMagic(exth[..4]);
    assert exth[8..12] == e[8..12] == BigEndianBytes(|rs|, 4);
    assert Field(exth, 8, 4) == Ok(|rs|);
    assert exth[12..12 + |EncodeRecords(rs)|] == e[12..] == EncodeRecords(rs);
    RecordsEncoded(exth, 12, rs);
  }

  // ------------------------------------------------------------- lookups

  /** `EXTH_MAP_STRINGS`, keyed by the lower-cased names `__getattr__`
      accepts. */
  const ExthStrings: map<string, nat> := map[
    "creator" := 100, "publisher" := 101, "imprint" := 102, "description" := 103,
    "isbn" := 104, "subject" := 105, "published" := 106, "review" := 107,
    "contributor" := 108, "rights" := 109, "subjectcode" := 110, "type" := 111,
    "source" := 112, "asin" := 113, "price" := 118, "currency" := 119,
    "updatedtitle" := 503]

  /** `EXTH_MAP_VALUES`, keyed likewise. */
  const ExthValues: map<string, nat> := map["startoffset" := 116, "coveroffset" := 201]

  const UpdatedTitle := 503

  /** `meta_array.get(kind, '')`. */
  function Get(meta: map<nat, seq<Byte>>, kind: nat): (r: seq<Byte>) {
    if kind in meta then meta[kind] else []
  }

  /** `returnEXTHValue`, as written: '' for no content, the decimal value
      of four content bytes, and for content of 9, 10 or 12 bytes a
      single-number unpack ('B', '>H', '>L') of the whole content; any other
      size is an AttributeError. */
  function ExthValue(meta: map<nat, seq<Byte>>, kind: nat): (r: Result<string>)
    ensures r.Ok? <==> |Get(meta, kind)| == 0 || |Get(meta, kind)| == 4
    ensures r.Ok? && |Get(meta, kind)| == 4 ==> ParseInt(r.value) == Some(BigEndian(Get(meta, kind)))
    ensures r.Ok? && |Get(meta, kind)| == 0 ==> r.value == ""
    ensures r.Err? ==> (r.error == StructError <==> |Get(meta, kind)| in {9, 10, 12})
    ensures r.Err? ==> (r.error == AttributeError <==> |Get(meta, kind)| !in {0, 4, 9, 10, 12})
  {
    var content := Get(meta, kind);
    var size := |content|;
    if size == 0 then Ok("")
    else if size == 4 then
      var value := BigEndian(content);
      DecimalRoundTrip(value);
      Ok(IntToDecimal(value))
    // 'B', '>H' and '>L' each take fewer bytes than the content holds.
    else if size == 9 then Unpack(content, 1).PropagateFailure()
    else if size == 10 then Unpack(content, 2).PropagateFailure()
    else if size == 12 then Unpack(content, 4).PropagateFailure()
    else Err(AttributeError)
  }

  /** `returnEXTHValue` as its size tests evidently mean them: 9, 10 and 12
      are the sizes of whole records with one, two and four content bytes,
      and the content is what follows the 8-byte record header, so the
      content sizes decoded are 1, 2 and 4. */
  function ExthValueIntended(meta: map<nat, seq<Byte>>, kind: nat): (r: Result<string>)
    ensures r.Ok? <==> |Get(meta, kind)| in {0, 1, 2, 4}
    ensures r.Ok? && |Get(meta, kind)| > 0 ==> ParseInt(r.value) == Some(BigEndian(Get(meta, kind)))
    ensures r.Ok? && |Get(meta, kind)| == 0 ==> r.value == ""
    ensures r.Err? ==> r.error == AttributeError
  {
    var content := Get(meta, kind);
    var size := |content|;
    if size == 0 then Ok("")
    else if size == 1 || size == 2 || size == 4 then
      DecimalRoundTrip(BigEndian(content));
      Ok(IntToDecimal(BigEndian(content)))
    else Err(AttributeError)
  }

  /** A one-byte value, which the record-size branches were written for, is
      refused as written and decoded as intended. */
  lemma OneByteValue(meta: map<nat, seq<Byte>>, kind: nat, b: Byte)
    ensures ExthValue(meta[kind := [b]], kind) == Err(AttributeError)
    ensures ExthValueIntended(meta[kind := [b]], kind) == Ok(IntToDecimal(b))
  {
    BigEndianOne(b);
  }

  /** Every value of one, two or four bytes is decoded as intended. */
  lemma IntendedValueRoundTrip(meta: map<nat, seq<Byte>>, kind: nat, v: nat, w: nat)
    requires (w == 1 || w == 2 || w == 4) && v < Pow256(w)
    ensures ExthValueIntended(meta[kind := BigEndianBytes(v, w)], kind) == Ok(IntToDecimal(v))
  {
  }

  /** `__getattr__`: a string field is the stored content or ''; a value
      field goes through `returnEXTHValue`; any other name is an
      AttributeError. */
  function Attribute(meta: map<nat, seq<Byte>>, name: string): (r: Result<string>)
    ensures name in ExthStrings ==> r.Ok?
    ensures name in ExthStrings && ExthStrings[name] !in meta ==> r == Ok("")
    ensures name !in ExthStrings && name !in ExthValues ==> r == Err(AttributeError)
  {
    if name in ExthStrings then Ok(Chars(Get(meta, ExthStrings[name])))
    else if name in ExthValues then ExthValue(meta, ExthValues[name])
    else Err(AttributeError)
  }

  /** After an EXTH block is stored, a string field reads the content of
      the last record of its type. */
  lemma AttributeIsLastRecord(meta: map<nat, seq<Byte>>, records: seq<ExthRecord>, name: string, i: nat)
    requires name in ExthStrings && i < |records| && records[i].kind == ExthStrings[name]
    requires forall j :: i < j < |records| ==> records[j].kind != records[i].kind
    ensures Attribute(Store(meta, records), name) == Ok(Chars(records[i].content))
  {
    StoreLastWins(meta, records, i);
  }

  // --------------------------------------------------------------- title

  /** The title recorded in record 0: `toff` and `tlen` are the u32s at
      0x54 and 0x58, and the title is `record0[toff:toff + tlen]`. */
  function RecordTitle(record0: seq<Byte>): (r: Result<seq<Byte>>)
    ensures r.Ok? <==> 0x5C <= |record0|
    ensures r.Err? ==> r.error == StructError
  {
    var toff :- Field(record0, 0x54, 4);
    var tlen :- Field(record0, 0x58, 4);
    Ok(Range(record0, toff, toff + tlen))
  }

  /** The fall-back title: the PalmDB name (the first 32 header bytes),
      stripped and cut at the first NUL. */
  function HeaderTitle(header: seq<Byte>): (r: string)
    ensures r <= Strip(Chars(Range(header, 0, 32))) && 0 as char !in r
  {
    var name := Strip(Chars(Range(header, 0, 32)));
    SplitFirst(name, 0 as char, -1);
    Split(name, [0 as char], -1)[0]
  }

  /** `title`: the EXTH UpdatedTitle when it is non-empty, otherwise the
      title in record 0; stripped; and when that leaves nothing, the
      PalmDB name. */
  function Title(b: Book): (r: Result<string>)
    ensures r.Err? ==> r.error == StructError && Get(b.meta, UpdatedTitle) == [] && |b.record0| < 0x5C
  {
    var updated := Get(b.meta, UpdatedTitle);
    var raw :- if updated != [] then Ok(updated) else RecordTitle(b.record0);
    var title := Strip(Chars(raw));
    if title != [] then Ok(title) else Ok(HeaderTitle(b.header))
  }

  /** The title is one of the three candidates, in order of preference, and
      a chosen EXTH or record title is stripped and non-empty. */
  lemma TitleChoice(b: Book)
    requires Title(b).Ok?
    ensures var updated := Strip(Chars(Get(b.meta, UpdatedTitle)));
            if updated != [] then Title(b) == Ok(updated)
            else if Get(b.meta, UpdatedTitle) == [] && Strip(Chars(RecordTitle(b.record0).value)) != [] then
              Title(b) == Ok(Strip(Chars(RecordTitle(b.record0).value)))
            else Title(b) == Ok(HeaderTitle(b.header))
  {
    var u := Get(b.meta, UpdatedTitle);
    if u != [] && Strip(Chars(u)) == [] {
      assert Title(b) == Ok(HeaderTitle(b.header));
    }
  }

  /** An UpdatedTitle of only whitespace is not empty, so the record 0 title
      is never consulted: the PalmDB name is used even when record 0 has a
      title. */
  lemma BlankUpdatedTitle(b: Book)
    requires Get(b.meta, UpdatedTitle) != [] && Strip(Chars(Get(b.meta, UpdatedTitle))) == []
    ensures Title(b) == Ok(HeaderTitle(b.header))
  {
  }
}

/** The `MobiBook` object: its fields are set step by step as `__init__`
    parses the file, and `meta_array` is filled one EXTH record at a time. */
module MobiBooks {
  import opened PyText
  import opened MobiFormat

  class MobiBook {
    const dataFile: seq<Byte>
    var header: seq<Byte>
    var magic: seq<Byte>
    var cryptoType: int
    var numSections: nat
    var sections: seq<Section>
    var record0: seq<Byte>
    var compression: nat
    var txtRecords: nat
    var firstImg: nat
    var extraDataFlags: nat
    var metaArray: map<nat, seq<Byte>>
    var mobiLength: nat
    var mobiVersion: int
    var exthOff: nat
    var drmPtr: nat
    var drmCount: nat
    var drmSize: nat

    /** The object's fields as a value. */
    function Value(): (r: Book)
      reads this
    {
      Book(dataFile, header, magic, sections, record0, compression, txtRecords, firstImg,
           extraDataFlags, metaArray, mobiLength, mobiVersion, cryptoType, exthOff,
           drmPtr, drmCount, drmSize)
    }

    /** `self.data_file = infile.read()`; `Load` does the rest of `__init__`. */
    constructor (data: seq<Byte>)
      ensures dataFile == data && metaArray == map[] && sections == []
    {
      dataFile := data;
      metaArray := map[];
      sections := [];
    }

    /** `MobiBook(infile)`: a book, or the exception the constructor raises. */
    static method Open(data: seq<Byte>) returns (r: Result<MobiBook>)
      ensures r.Ok? <==> MobiFormat.Open(data).Ok?
      ensures r.Err? ==> r.error == MobiFormat.Open(data).error
      ensures r.Ok? ==> fresh(r.value) && r.value.Value() == MobiFormat.Open(data).value
      ensures r.Ok? ==> r.value.numSections == |r.value.sections|
    {
      var book := new MobiBook(data);
      var o := book.Load();
      if o.Fail? {
        return Err(o.error);
      }
      return Ok(book);
    }

    /** The body of `__init__` after the file is read. */
    method Load() returns (o: Outcome)
      modifies this
      ensures o.Pass? <==> MobiFormat.Open(dataFile).Ok?
      ensures o.Fail? ==> o.error == MobiFormat.Open(dataFile).error
      ensures o.Pass? ==> Value() == MobiFormat.Open(dataFile).value && numSections == |sections|
    {
      OpenCases(dataFile);
      hide MobiFormat.Open, Range, Chars, BigEndian, Pow256, Field, IsBookMobi, Magic, SectionAt, Sections;
      hide SectionTable, LoadSection, ReadPalmDoc, HasExth, HasExtraFlags, ExthMeta, MobiFormat.ProcessExth;
      hide ReadMobiFields, MobiHeader, SamePalmDb;
      o := ReadPalmDb();
      if o.Fail? {
        return;
      }
      ghost var b := Value();
      hide PalmDb;
      if IsTextRead(magic) {
        return;
      }
      hide IsTextRead;
      o := ParseMobiHeader();
      if o.Fail? {
        return;
      }
      MobiHeaderIs(b, ReadMobiFields(b.record0, b.extraDataFlags).value);
    }

    /** `__init__` up to `parseMobiHeader`. */
    method ReadPalmDb() returns (o: Outcome)
      modifies this
      ensures o.Pass? <==> PalmDb(dataFile).Ok?
      ensures o.Fail? ==> o.error == PalmDb(dataFile).error
      ensures o.Pass? ==> PalmDb(dataFile) == Ok(Value()) && numSections == |sections|
    {
      PalmDbSteps(dataFile);
      hide PalmDb, Range, Chars, Sections, BigEndian, Pow256, ReadPalmDoc, SectionTable, IsBookMobi, IsTextRead;
      hide Magic, SectionAt, LoadSection, Field, MobiFormat.Open, MobiHeader, ReadMobiFields, ExthMeta;
      hide MobiFormat.ProcessExth;
      o := ReadMagic();
      if o.Fail? {
        return;
      }
      cryptoType := -1;
      o := ParseSections();
      if o.Fail? {
        return;
      }
      o := ReadRecord0();
      if o.Pass? {
        ResetMobiHeader();
      }
    }

    /** `__init__` on the PalmDB header: the first 78 bytes, the magic at
        0x3C, and `MobiException` unless it is 'BOOKMOBI' or 'TEXtREAd'. */
    method ReadMagic() returns (o: Outcome)
      modifies this`header, this`magic
      ensures header == Range(dataFile, 0, HeaderSize) && magic == Magic(dataFile)
      ensures o.Pass? <==> IsBookMobi(magic) || IsTextRead(magic)
      ensures o.Fail? ==> o.error == MobiException
    {
      header := Range(dataFile, 0, HeaderSize);
      magic := Range(header, 0x3C, 0x3C + 8);
      if !IsBookMobi(magic) && !IsTextRead(magic) {
        return Fail(MobiException);
      }
      return Pass;
    }

    /** `__init__` on record 0: what `ReadPalmDoc` reads, and the first
        image record just after the text records. */
    method ReadRecord0() returns (o: Outcome)
      modifies this`record0, this`compression, this`txtRecords, this`firstImg
      ensures o.Pass? <==> ReadPalmDoc(dataFile, sections).Ok?
      ensures o.Fail? ==> o.error == ReadPalmDoc(dataFile, sections).error
      ensures o.Pass? ==>
                var doc := ReadPalmDoc(dataFile, sections).value;
                record0 == doc.record0 && compression == doc.compression && txtRecords == doc.txtRecords
                && firstImg == txtRecords + 1
    {
      hide Range, BigEndian, Pow256, Chars, IsBookMobi, IsTextRead, Magic, SectionAt, Sections, SectionTable;
      hide PalmDb, MobiFormat.Open, MobiHeader, ReadMobiFields, ExthMeta, MobiFormat.ProcessExth;
      var section0 := LoadSection(dataFile, sections, 0);
      if section0.Err? {
        return Fail(section0.error);
      }
      var compressionField := Field(section0.value, 0x0, 2);
      var txtField := Field(section0.value, 0x8, 2);
      if compressionField.Err? || txtField.Err? {
        return Fail(StructError);
      }
      record0, compression, txtRecords, firstImg :=
        section0.value, compressionField.value, txtField.value, txtField.value + 1;
      return Pass;
    }

    /** The defaults `__init__` sets before it parses the MOBI header. */
    method ResetMobiHeader()
      modifies this`extraDataFlags, this`metaArray, this`mobiLength, this`mobiVersion
      modifies this`exthOff, this`drmPtr, this`drmCount, this`drmSize
      ensures extraDataFlags == 0 && metaArray == map[] && mobiLength == 0 && mobiVersion == -1
      ensures exthOff == 0 && drmPtr == 0 && drmCount == 0 && drmSize == 0
    {
      extraDataFlags, metaArray, mobiLength, mobiVersion := 0, map[], 0, -1;
      exthOff, drmPtr, drmCount, drmSize := 0, 0, 0, 0;
    }

    /** `parseSections`. */
    method ParseSections() returns (o: Outcome)
      modifies this`numSections, this`sections
      ensures o.Pass? <==> SectionTable(header, dataFile).Ok?
      ensures o.Pass? ==> sections == SectionTable(header, dataFile).value && numSections == |sections|
      ensures o.Fail? ==> o.error == StructError
    {
      var count := Field(header, 76, 2);
      if count.Err? {
        return Fail(StructError);
      }
      numSections := count.value;
      sections := [];
      var i := 0;
      while i < numSections
        invariant i <= numSections == count.value
        invariant Sections(dataFile, i) == Ok(sections)
      {
        var at := HeaderSize + 8 * i;
        if at + 8 > |dataFile| {
          return Fail(StructError);
        }
        var offset := BigEndian(dataFile[at..at + 4]);
        var flags := dataFile[at + 4];
        var uniqueId := BigEndian(dataFile[at + 5..at + 8]);
        sections := sections + [Section(offset, flags, uniqueId)];
        i := i + 1;
      }
      return Pass;
    }

    /** `parseMobiHeader`: the fields `ReadMobiFields` unpacks, the EXTH
      offset after the MOBI header, and the EXTH metadata. */
    method ParseMobiHeader() returns (o: Outcome)
      modifies this`mobiLength, this`mobiVersion, this`exthOff, this`firstImg, this`extraDataFlags
      modifies this`cryptoType, this`drmPtr, this`drmCount, this`drmSize, this`metaArray
      ensures o.Pass? <==> ReadMobiFields(record0, old(extraDataFlags)).Ok?
      ensures o.Fail? ==> o.error == StructError
      ensures o.Pass? ==>
                var f := ReadMobiFields(record0, old(extraDataFlags)).value;
                mobiLength == f.mobiLength && mobiVersion == f.mobiVersion && exthOff == f.mobiLength + 16
                && firstImg == f.firstImg && extraDataFlags == f.extraDataFlags && cryptoType == f.cryptoType
                && drmPtr == f.drmPtr && drmCount == f.drmCount && drmSize == f.drmSize
                && metaArray == ExthMeta(record0, exthOff, old(metaArray))
    {
      hide BigEndian, Pow256, MobiFormat.ProcessExth, HasExth, ExthMeta, IsExthMagic, Chars, Range;
      hide Unpack, IsBookMobi, IsTextRead, Magic, LoadSection, SectionTable, ReadPalmDoc, Sections, SectionAt;
      hide PalmDb, MobiFormat.Open, MobiHeader, ScanStore, Store, ExthRecords;
      var fields := ReadMobiFields(record0, extraDataFlags);
      if fields.Err? {
        return Fail(StructError);
      }
      var f := fields.value;
      hide ReadMobiFields;
      mobiLength, mobiVersion, exthOff, firstImg, extraDataFlags, cryptoType, drmPtr, drmCount, drmSize :=
        f.mobiLength, f.mobiVersion, f.mobiLength + 16, f.firstImg, f.extraDataFlags, f.cryptoType,
        f.drmPtr, f.drmCount, f.drmSize;
      ExthMetaCases(record0, exthOff, metaArray);
      // The fields read above reach beyond the EXTH flags at 0x80.
      if HasExth(BigEndian(record0[0x80..0x84])) {
        var found := ProcessExth();
        if found != Some(true) {
          metaArray := map[];
        }
      }
      return Pass;
    }

    /** `processEXTH(self.storeEXTH)`. */
    method ProcessExth() returns (found: Option<bool>)
      modifies this`metaArray
      ensures (metaArray, found) == MobiFormat.ProcessExth(record0, exthOff, old(metaArray))
    {
      hide BigEndian, Pow256, Unpack, IsBookMobi, IsTextRead, Magic, LoadSection, SectionTable, ReadPalmDoc;
      hide Sections, SectionAt, PalmDb, MobiFormat.Open, MobiHeader, ReadMobiFields, ExthMeta, HasExth;
      var exth := Range(record0, exthOff, |record0|);
      if |exth| < 4 || !IsExthMagic(exth[..4]) {
        return None;
      }
      if |exth| < 12 {
        return Some(false);
      }
      var count := BigEndian(exth[8..12]);
      ScanStoreIsStore(exth, 12, count, metaArray);
      hide Store, ExthRecords, MobiFormat.ProcessExth, IsExthMagic, Chars;
      var complete := StoreRecords(exth, count);
      found := Some(complete);
    }

    /** The loop of `processEXTH`: `count` records from offset 12 on, each
        stored as it is read, until one is cut short. */
    method StoreRecords(exth: seq<Byte>, count: nat) returns (complete: bool)
      modifies this`metaArray
      ensures (metaArray, complete) == ScanStore(exth, 12, count, old(metaArray))
    {
      hide Pow256, Unpack, Range, BigEndian;
      var pos: nat := 12;
      var i := 0;
      while i < count
        invariant i <= count
        invariant ScanStore(exth, 12, count, old(metaArray)) == ScanStore(exth, pos, count - i, metaArray)
      {
        if pos + 8 > |exth| {
          return false;
        }
        var kind := BigEndian(exth[pos..pos + 4]);
        var size := BigEndian(exth[pos + 4..pos + 8]);
        var content := Range(exth, pos + 8, pos + size);
        StoreExth(kind, content);
        pos := pos + size;
        i := i + 1;
      }
      return true;
    }

    /** `storeEXTH`: the record's content under its type. */
    method StoreExth(kind: nat, content: seq<Byte>)
      modifies this`metaArray
      ensures metaArray == old(metaArray)[kind := content]
    {
      metaArray := metaArray[kind := content];
    }
  }
}

=== FILE: power_states.dfy ===
/** The device power-state machine and its duration accounting:
    `_StateTransition`, `_TrackPowerState` and `_TrackReboot`
    (log_parser.py:609-673). */
module PowerStates {
  import opened PyText
  import opened LogStates

  /** The name a transition moves to: an empty name keeps the current state. */
  function Entered(current: PowerState, newName: string): (r: string) {
    if newName == "" then current.name else newName
  }

  /** `_StateTransition(ts, new_state)`: the time since the current state was
      entered is added to that state's duration, the transition is recorded
      and the new state starts at ts. */
  function StateTransition(t: Tracker, ts: int, newName: string): (r: Tracker)
    requires t.state.power.Some?
    ensures r.state == t.state.(power := Some(PowerState(ts, Entered(t.state.power.value, newName))))
    ensures r.ts == t.ts && r.start == t.start
    ensures r.states == t.states + [Transition(ts, Entered(t.state.power.value, newName))]
    ensures r.durations.Keys == t.durations.Keys + {t.state.power.value.name}
    ensures forall k :: k in t.durations && k != t.state.power.value.name ==> r.durations[k] == t.durations[k]
    ensures r.durations[t.state.power.value.name]
            == Get(t.durations, t.state.power.value.name) + (ts - t.state.power.value.since)
    ensures SumValues(r.durations) - r.state.power.value.since
            == SumValues(t.durations) - t.state.power.value.since
  {
    var current := t.state.power.value;
    var entered := Entered(current, newName);
    SumValuesAddTo(t.durations, current.name, ts - current.since);
    Tracker(t.state.(power := Some(PowerState(ts, entered))), t.ts, t.start,
            t.states + [Transition(ts, entered)],
            AddTo(t.durations, current.name, ts - current.since))
  }

  /** The durations telescope: whatever the transitions, the total of the
      durations minus the start of the current state stays put. */
  ghost function Conserved(t: Tracker): (r: int)
    requires t.state.power.Some?
  {
    SumValues(t.durations) - t.state.power.value.since
  }

  /** Three transitions A -> B at t1, B -> C at t2 and the final one at t3,
      starting from A entered at t0, attribute exactly t1 - t0 to A, t2 - t1
      to B and t3 - t2 to C. */
  lemma DurationAccounting(t0: int, t1: int, t2: int, t3: int, s: LogState)
    requires s.power == Some(PowerState(t0, "A"))
    ensures var r := StateTransition(StateTransition(StateTransition(
                       Tracker(s, t3, None, [], map[]), t1, "B"), t2, "C"), t3, "");
            && r.durations == map["A" := t1 - t0, "B" := t2 - t1, "C" := t3 - t2]
            && r.states == [Transition(t1, "B"), Transition(t2, "C"), Transition(t3, "C")]
            && r.state.power == Some(PowerState(t3, "C"))
  {
  }

  /** `_TrackReboot`: a kernel banner always means KERNEL_BOOT; the init and
      boot-finished markers count only while booting. */
  function TrackReboot(t: Tracker, kernelBanner: bool, initBoot: bool, bootFinished: bool): (r: (bool, Tracker))
    requires t.state.power.Some?
    ensures !r.0 ==> r.1 == t
    ensures r.0 ==> r.1.state.power.Some? && r.1.state.power.value.since == t.ts
    ensures r.0 && !kernelBanner ==> t.state.power.value.name in {"KERNEL_BOOT", "INITSCRIPTS"}
    ensures r.0 <==> (kernelBanner || (t.state.power.value.name in {"KERNEL_BOOT", "INITSCRIPTS"} && (initBoot || bootFinished)))
  {
    if kernelBanner then (true, StateTransition(t, t.ts, "KERNEL_BOOT"))
    else if t.state.power.value.name !in {"KERNEL_BOOT", "INITSCRIPTS"} then (false, t)
    else if initBoot then (true, StateTransition(t, t.ts, "INITSCRIPTS"))
    else if bootFinished then (true, StateTransition(t, t.ts, "ACTIVE"))
    else (false, t)
  }

  /** `_TrackPowerState` for a `State change: from -> to` line. A state
      change seen before any power state is not consumed. A mismatched
      `from` relabels the state the file was assumed to start in, or else is
      inserted half way between the last transition and this line. */
  function TrackPowerState(t: Tracker, from: string, to: string): (r: (bool, Tracker))
    ensures t.state.power.None? <==> !r.0
    ensures !r.0 ==> r.1 == t
    ensures r.0 ==> r.1.state.power.Some? && r.1.state.power.value.since == t.ts
    ensures r.0 && to != "" ==> r.1.state.power.value.name == to
    ensures r.0 && from == t.state.power.value.name ==> r.1 == StateTransition(t, t.ts, to)
  {
    if t.state.power.None? then (false, t)
    else
      var current := t.state.power.value;
      var t1 :=
        if from == current.name then t
        else if Some(current.since) == t.start then t.(state := t.state.(power := Some(PowerState(current.since, from))))
        else StateTransition(t, current.since + (t.ts - current.since) / 2, from);
      (true, StateTransition(t1, t.ts, to))
  }

  /** Relabelling the assumed starting state adds no duration: the time is
      later charged to the state the device reported. */
  lemma MismatchAtStartRelabels(t: Tracker, from: string, to: string)
    requires t.state.power.Some? && from != t.state.power.value.name
    requires Some(t.state.power.value.since) == t.start
    ensures var r := TrackPowerState(t, from, to).1;
            && r.states == t.states + [Transition(t.ts, Entered(PowerState(0, from), to))]
            && r.durations == AddTo(t.durations, from, t.ts - t.state.power.value.since)
  {
  }

  /** Elsewhere a mismatch inserts a transition to `from` at the midpoint
      (Python 2 floor division), so two transitions are recorded. */
  lemma MismatchElsewhereSplits(t: Tracker, from: string, to: string)
    requires t.state.power.Some? && from != t.state.power.value.name
    requires Some(t.state.power.value.since) != t.start
    ensures var mid := t.state.power.value.since + (t.ts - t.state.power.value.since) / 2;
            var r := TrackPowerState(t, from, to).1;
            && |r.states| == |t.states| + 2
            && r.states[|t.states|] == Transition(mid, Entered(t.state.power.value, from))
  {
  }

  /** Every way the power-state machine moves keeps the durations
      telescoping. */
  lemma TrackingConserves(t: Tracker, from: string, to: string, kernelBanner: bool, initBoot: bool, bootFinished: bool)
    requires t.state.power.Some?
    ensures var r := TrackPowerState(t, from, to).1;
            r.state.power.Some? && Conserved(r) == Conserved(t)
    ensures var r := TrackReboot(t, kernelBanner, initBoot, bootFinished).1;
            r.state.power.Some? && Conserved(r) == Conserved(t)
  {
  }
}

=== FILE: sessions.dfy ===
/** Reading sessions derived from a book's events: the `reads` property of
    KindleBook and its `_AppendRead` acceptance and merge rule
    (log_parser.py:238-313). */
module Sessions {
  import opened PyText
  import opened BookEvents

  /** KindleBook.MIN_IN_HAND_SECS and MIN_IN_HAND_REVERSE_SECS. */
  const MIN_IN_HAND_SECS := 2 * 60
  const MIN_IN_HAND_REVERSE_SECS := 10 * 60

  /** `(pick_up_ts, pick_up_loc, put_down_ts, put_down_loc, cum_reading_time)`;
      `end` is None for a session still open when the events run out. */
  datatype Read = Read(start: Option<int>, startPos: Option<int>,
                       end: Option<int>, endPos: Option<int>, time: int)

  /** Python truth value of an optional integer: None and 0 are false. */
  predicate Truthy(o: Option<int>) {
    o.Some? && o.value != 0
  }

  /** `read[3] >= read[1]` in Python 2, where None is below every number. */
  predicate Forwards(r: Read) {
    OptLe(r.startPos, r.endPos)
  }

  /** Python's `min` on optional integers (None is the smallest). */
  function OptMin(a: Option<int>, b: Option<int>): (r: Option<int>)
    ensures OptLe(r, a) && OptLe(r, b) && (r == a || r == b)
  {
    if OptLe(a, b) then a else b
  }

  /** A session that survives the discard rule: at least two minutes in
      hand, and at least ten when the end position is before the start. */
  predicate Accepted(r: Read) {
    r.time >= MIN_IN_HAND_SECS && (Forwards(r) || r.time >= MIN_IN_HAND_REVERSE_SECS)
  }

  /** The earlier session followed by this one counts as one continued read:
      it resumes at the very position the last one stopped, or starts less
      than two minutes after it ended. None in the gap is a TypeError. */
  function Continues(last: Read, read: Read): (r: Result<bool>) {
    if last.endPos == read.startPos then Ok(true)
    else if read.start.None? || last.end.None? then Err(TypeError)
    else Ok(read.start.value - last.end.value < MIN_IN_HAND_SECS)
  }

  /** The merged session: the earlier start and lower start position, the
      later end, and the two reading times added. */
  function Merged(last: Read, read: Read): (r: Read) {
    Read(last.start, OptMin(last.startPos, read.startPos), read.end, read.endPos, last.time + read.time)
  }

  /** `_AppendRead`: discard a short candidate, merge a forward continuation
      into the last session, otherwise append it. */
  function AppendRead(rv: seq<Read>, read: Read): (r: Result<seq<Read>>)
    ensures !Accepted(read) ==> r == Ok(rv)
    ensures r.Ok? ==> |rv| <= |r.value| <= |rv| + 1
    ensures r.Ok? && rv != [] ==> r.value[..|rv| - 1] == rv[..|rv| - 1]
    ensures r.Ok? && |r.value| == |rv| + 1 ==> r.value == rv + [read]
    ensures r.Err? ==> r.error == TypeError && Accepted(read) && rv != []
  {
    if read.time < MIN_IN_HAND_SECS then Ok(rv)
    else if !Forwards(read) && read.time < MIN_IN_HAND_REVERSE_SECS then Ok(rv)
    else if rv == [] then Ok([read])
    else
      var last := rv[|rv| - 1];
      match Continues(last, read)
      case Err(e) => Err(e)
      case Ok(continuing) =>
        if continuing && Forwards(read) then Ok(rv[..|rv| - 1] + [Merged(last, read)])
        else Ok(rv + [read])
  }

  /** A merge of two accepted sessions is again accepted, and moves forwards. */
  lemma MergedAccepted(last: Read, read: Read)
    requires Accepted(last) && Accepted(read) && Forwards(read)
    ensures Accepted(Merged(last, read)) && Forwards(Merged(last, read))
  {
  }

  /** A continuation that reads forwards is merged into the previous session. */
  lemma ContinuationMerges(rv: seq<Read>, read: Read)
    requires rv != [] && Accepted(read) && Forwards(read)
    requires Continues(rv[|rv| - 1], read) == Ok(true)
    ensures AppendRead(rv, read) == Ok(rv[..|rv| - 1] + [Merged(rv[|rv| - 1], read)])
  {
  }

  /** Anything else that is accepted becomes a session of its own. */
  lemma NonContinuationAppends(rv: seq<Read>, read: Read)
    requires rv != [] && Accepted(read)
    requires Continues(rv[|rv| - 1], read) == Ok(false) || (Continues(rv[|rv| - 1], read).Ok? && !Forwards(read))
    ensures AppendRead(rv, read) == Ok(rv + [read])
  {
  }

  /** Every session in the list is accepted and closed by a PUT_DOWN. */
  predicate AllClosedAccepted(rv: seq<Read>) {
    forall i :: 0 <= i < |rv| ==> Accepted(rv[i]) && rv[i].end.Some?
  }

  /** `_AppendRead` keeps the list made of accepted sessions; closed ones if
      the candidate is closed. */
  lemma AppendReadKeepsAccepted(rv: seq<Read>, read: Read)
    requires forall i :: 0 <= i < |rv| ==> Accepted(rv[i])
    requires AppendRead(rv, read).Ok?
    ensures var r := AppendRead(rv, read).value;
            forall i :: 0 <= i < |r| ==> Accepted(r[i])
    ensures read.end.Some? && AllClosedAccepted(rv) ==> AllClosedAccepted(AppendRead(rv, read).value)
  {
    var r := AppendRead(rv, read).value;
    if Accepted(read) && rv != [] && |r| == |rv| {
      var last := rv[|rv| - 1];
      assert Continues(last, read) == Ok(true) && Forwards(read);
      MergedAccepted(last, read);
      assert r == rv[..|rv| - 1] + [Merged(last, read)];
      assert r[|r| - 1] == Merged(last, read);
    }
  }

  // ------------------------------------------------------------ the fold

  /** The local variables of the `reads` loop. */
  datatype Acc = Acc(rv: seq<Read>, first: Option<int>, start: Option<int>,
                     firstPos: Option<int>, latestPos: Option<int>,
                     readTime: int, last: Option<EventKind>)

  const Initial := Acc([], None, None, None, None, 0, None)

  /** `read_time += ts - start` when the previous event was PICK_UP or OPEN. */
  function Accrue(acc: Acc, ts: int): (r: Result<int>)
    ensures r.Err? ==> r.error == TypeError
  {
    if acc.last == Some(PickUp) || acc.last == Some(Open) then
      if acc.start.None? then Err(TypeError) else Ok(acc.readTime + (ts - acc.start.value))
    else Ok(acc.readTime)
  }

  /** One iteration of the loop over the sorted events. */
  function Step(acc: Acc, e: Event): (r: Result<Acc>)
    ensures r.Err? ==> r.error == TypeError
  {
    match e.kind
    case PickUp =>
      Ok(Acc(acc.rv, Some(e.ts), Some(e.ts), e.pos, None, 0, Some(PickUp)))
    case Open =>
      var first := if Truthy(acc.first) then acc.first else acc.start;
      var fill := !Truthy(acc.firstPos) && Truthy(e.pos);
      Ok(Acc(acc.rv, first, Some(e.ts),
             if fill then e.pos else acc.firstPos,
             if fill then e.pos else acc.latestPos,
             acc.readTime, Some(Open)))
    case Close =>
      (match Accrue(acc, e.ts)
       case Err(err) => Err(err)
       case Ok(t) =>
         Ok(acc.(readTime := t, latestPos := if Truthy(e.pos) then e.pos else acc.latestPos,
                 last := Some(Close))))
    case PutDown =>
      match Accrue(acc, e.ts)
      case Err(err) => Err(err)
      case Ok(t) =>
        var latest := if Truthy(e.pos) then e.pos else acc.latestPos;
        match AppendRead(acc.rv, Read(acc.first, acc.firstPos, Some(e.ts), latest, t))
        case Err(err) => Err(err)
        case Ok(rv) => Ok(Acc(rv, None, None, acc.firstPos, latest, 0, Some(PutDown)))
  }

  function Fold(acc: Acc, es: seq<Event>): (r: Result<Acc>)
    ensures r.Err? ==> r.error == TypeError
    decreases |es|
  {
    if es == [] then Ok(acc)
    else
      match Step(acc, es[0])
      case Err(err) => Err(err)
      case Ok(next) => Fold(next, es[1..])
  }

  /** After the loop: `if first:` the session still in hand is offered with
      no end. */
  function Finish(acc: Acc): (r: Result<seq<Read>>)
    ensures r.Err? ==> r.error == TypeError
  {
    if Truthy(acc.first) then
      AppendRead(acc.rv, Read(acc.first, acc.firstPos, None, acc.latestPos, acc.readTime))
    else Ok(acc.rv)
  }

  /** KindleBook.reads on an event list. */
  function ReadsOf(events: seq<Event>): (r: Result<seq<Read>>)
    ensures r.Err? ==> r.error == TypeError
  {
    match Fold(Initial, SortEvents(events))
    case Err(err) => Err(err)
    case Ok(acc) => Finish(acc)
  }

  /** The number of PUT_DOWN events. */
  function CountPutDowns(es: seq<Event>): (r: nat) {
    if es == [] then 0 else (if es[0].kind == PutDown then 1 else 0) + CountPutDowns(es[1..])
  }

  lemma {:induction false} CountPutDownsAppend(a: seq<Event>, b: seq<Event>)
    ensures CountPutDowns(a + b) == CountPutDowns(a) + CountPutDowns(b)
  {
    if a == [] {
      assert a + b == b;
    } else {
      assert (a + b)[0] == a[0];
      assert (a + b)[1..] == a[1..] + b;
      CountPutDownsAppend(a[1..], b);
    }
  }

  lemma {:induction false} CountPutDownsPermutation(a: seq<Event>, b: seq<Event>)
    requires multiset(a) == multiset(b)
    ensures CountPutDowns(a) == CountPutDowns(b)
    decreases |a|
  {
    if a == [] {
      assert |multiset(b)| == 0;
    } else {
      var x := a[0];
      assert x in multiset(b);
      var k :| 0 <= k < |b| && b[k] == x;
      var rest := b[..k] + b[k + 1..];
      RemoveOne(b, k);
      assert a == [x] + a[1..];
      assert multiset(a[1..]) == multiset(a) - multiset{x};
      CountPutDownsPermutation(a[1..], rest);
      CountPutDownsRemove(b, k);
    }
  }

  lemma RemoveOne<T>(b: seq<T>, k: int)
    requires 0 <= k < |b|
    ensures multiset(b[..k] + b[k + 1..]) == multiset(b) - multiset{b[k]}
  {
    assert b == b[..k] + [b[k]] + b[k + 1..];
  }

  lemma CountPutDownsRemove(b: seq<Event>, k: int)
    requires 0 <= k < |b|
    ensures CountPutDowns(b) == CountPutDowns(b[..k] + b[k + 1..]) + (if b[k].kind == PutDown then 1 else 0)
  {
    assert b == b[..k] + ([b[k]] + b[k + 1..]);
    CountPutDownsAppend(b[..k], [b[k]] + b[k + 1..]);
    CountPutDownsAppend(b[..k], b[k + 1..]);
    assert ([b[k]] + b[k + 1..])[1..] == b[k + 1..];
  }

  /** The loop keeps every stored session accepted and closed, and stores at
      most one session per PUT_DOWN. */
  lemma {:induction false} FoldKeepsSessions(acc: Acc, es: seq<Event>)
    requires AllClosedAccepted(acc.rv)
    ensures Fold(acc, es).Ok? ==>
              AllClosedAccepted(Fold(acc, es).value.rv)
              && |Fold(acc, es).value.rv| <= |acc.rv| + CountPutDowns(es)
    decreases |es|
  {
    if es != [] {
      var s := Step(acc, es[0]);
      if s.Ok? {
        if es[0].kind == PutDown {
          var t := Accrue(acc, es[0].ts).value;
          var latest := if Truthy(es[0].pos) then es[0].pos else acc.latestPos;
          AppendReadKeepsAccepted(acc.rv, Read(acc.first, acc.firstPos, Some(es[0].ts), latest, t));
        }
        FoldKeepsSessions(s.value, es[1..]);
      }
    }
  }

  /** What `reads` promises: every session lasted at least two minutes (ten
      when reading backwards), only the last may still be open, and there is
      at most one session per PUT_DOWN plus the one still in hand. */
  lemma ReadsAreAccepted(events: seq<Event>)
    requires ReadsOf(events).Ok?
    ensures var rs := ReadsOf(events).value;
            && (forall i :: 0 <= i < |rs| ==> Accepted(rs[i]))
            && (forall i :: 0 <= i < |rs| - 1 ==> rs[i].end.Some?)
            && |rs| <= CountPutDowns(events) + 1
  {
    var sorted := SortEvents(events);
    FoldKeepsSessions(Initial, sorted);
    CountPutDownsPermutation(sorted, events);
    FinishKeepsSessions(Fold(Initial, sorted).value);
  }

  /** The session still in hand, if offered, can only be the last one. */
  lemma FinishKeepsSessions(acc: Acc)
    requires AllClosedAccepted(acc.rv) && Finish(acc).Ok?
    ensures var rs := Finish(acc).value;
            && (forall i :: 0 <= i < |rs| ==> Accepted(rs[i]))
            && (forall i :: 0 <= i < |rs| - 1 ==> rs[i].end.Some?)
            && |rs| <= |acc.rv| + 1
  {
    if Truthy(acc.first) {
      var read := Read(acc.first, acc.firstPos, None, acc.latestPos, acc.readTime);
      AppendReadKeepsAccepted(acc.rv, read);
      var rs := Finish(acc).value;
      forall i | 0 <= i < |rs| - 1 ensures rs[i].end.Some? {
        if |rs| == |acc.rv| + 1 {
          assert rs[i] == acc.rv[i];
        } else {
          assert rs[i] == rs[..|acc.rv| - 1][i];
        }
      }
    }
  }

  /** The sessions depend only on the set of events, not on the order they
      were stored in (the merge of several logs relies on this). */
  lemma ReadsOrderIndependent(a: seq<Event>, b: seq<Event>)
    requires multiset(a) == multiset(b)
    ensures ReadsOf(a) == ReadsOf(b)
  {
    SortEventsOrderIndependent(a, b);
  }

  // ------------------------------------------------------------ examples

  lemma SortedEvents(events: seq<Event>)
    requires forall i :: 0 <= i < |events| - 1 ==> events[i].ts < events[i + 1].ts
    ensures SortEvents(events) == events
  {
    assert Sorting.SortedBy(events, EventLe) by {
      forall i, j | 0 <= i < j < |events| ensures EventLe(events[i], events[j]) {
        StrictlyIncreasing(events, i, j);
      }
    }
    EventLeIsAntisymmetric();
    Sorting.SortedUnique(SortEvents(events), events, EventLe);
  }

  lemma {:induction false} StrictlyIncreasing(events: seq<Event>, i: int, j: int)
    requires forall k :: 0 <= k < |events| - 1 ==> events[k].ts < events[k + 1].ts
    requires 0 <= i < j < |events|
    ensures events[i].ts < events[j].ts
    decreases j - i
  {
    if j > i + 1 {
      StrictlyIncreasing(events, i, j - 1);
    }
  }

  /** One iteration of the loop, at the i-th event. */
  lemma FoldAt(acc: Acc, es: seq<Event>, i: nat)
    requires i < |es|
    ensures Fold(acc, es[i..]) == match Step(acc, es[i])
                                  case Err(err) => Err(err)
                                  case Ok(next) => Fold(next, es[i + 1..])
  {
    assert es[i..][1..] == es[i + 1..];
  }

  lemma FoldCons(acc: Acc, es: seq<Event>, next: Acc)
    requires es != [] && Step(acc, es[0]) == Ok(next)
    ensures Fold(acc, es) == Fold(next, es[1..])
  {
  }

  /** Events already in time order are folded as they stand. */
  lemma ReadsOfSorted(es: seq<Event>)
    requires forall i :: 0 <= i < |es| - 1 ==> es[i].ts < es[i + 1].ts
    ensures ReadsOf(es) == (match Fold(Initial, es) case Err(e) => Err(e) case Ok(acc) => Finish(acc))
  {
    SortedEvents(es);
  }

  /** Picked up at t0 at position 100, closed at t0+300 at 150, picked up
      again at t0+310 at 150 and put down at t0+600 at 300: the second
      PICK_UP restarts the candidate, so the result is the single session
      (t0+310, 150, t0+600, 300) of 290 seconds. */
  lemma PickUpRestartsSession(t0: int)
    requires t0 > 0
    ensures ReadsOf([Event(t0, PickUp, Some(100)), Event(t0 + 300, Close, Some(150)),
                     Event(t0 + 310, PickUp, Some(150)), Event(t0 + 600, PutDown, Some(300))])
            == Ok([Read(Some(t0 + 310), Some(150), Some(t0 + 600), Some(300), 290)])
  {
    var es := [Event(t0, PickUp, Some(100)), Event(t0 + 300, Close, Some(150)),
               Event(t0 + 310, PickUp, Some(150)), Event(t0 + 600, PutDown, Some(300))];
    PickUpRestartsFold(t0, es);
    ReadsOfSorted(es);
  }

  lemma PickUpRestartsFold(t0: int, es: seq<Event>)
    requires t0 > 0
    requires es == [Event(t0, PickUp, Some(100)), Event(t0 + 300, Close, Some(150)),
                    Event(t0 + 310, PickUp, Some(150)), Event(t0 + 600, PutDown, Some(300))]
    ensures Fold(Initial, es)
            == Ok(Acc([Read(Some(t0 + 310), Some(150), Some(t0 + 600), Some(300), 290)],
                      None, None, Some(150), Some(300), 0, Some(PutDown)))
  {
    var read := Read(Some(t0 + 310), Some(150), Some(t0 + 600), Some(300), 290);
    var a1 := Acc([], Some(t0), Some(t0), Some(100), None, 0, Some(PickUp));
    var a2 := Acc([], Some(t0), Some(t0), Some(100), Some(150), 300, Some(Close));
    var a3 := Acc([], Some(t0 + 310), Some(t0 + 310), Some(150), None, 0, Some(PickUp));
    var a4 := Acc([read], None, None, Some(150), Some(300), 0, Some(PutDown));
    FoldCons(Initial, es, a1);
    FoldCons(a1, es[1..], a2);
    FoldCons(a2, es[2..], a3);
    assert AppendRead([], read) == Ok([read]);
    FoldCons(a3, es[3..], a4);
    assert es[1..][1..] == es[2..] && es[2..][1..] == es[3..] && es[3..][1..] == [];
  }

  /** Held for thirty seconds: no session. */
  lemma ShortReadDiscarded(t0: int)
    requires t0 > 0
    ensures ReadsOf([Event(t0, PickUp, Some(500)), Event(t0 + 30, PutDown, Some(500))]) == Ok([])
  {
    var es := [Event(t0, PickUp, Some(500)), Event(t0 + 30, PutDown, Some(500))];
    SortedEvents(es);
    var a1 := Acc([], Some(t0), Some(t0), Some(500), None, 0, Some(PickUp));
    var a2 := Acc([], None, None, Some(500), Some(500), 0, Some(PutDown));
    assert Fold(Initial, es) == Fold(a1, es[1..]);
    assert Fold(a1, es[1..]) == Ok(a2) by { assert es[1..][1..] == []; }
  }

  /** Reading backwards from 500 to 400: five minutes are discarded, eleven
      are kept. */
  lemma BackwardReadThreshold(t0: int)
    requires t0 > 0
    ensures ReadsOf([Event(t0, PickUp, Some(500)), Event(t0 + 300, PutDown, Some(400))]) == Ok([])
    ensures ReadsOf([Event(t0, PickUp, Some(500)), Event(t0 + 660, PutDown, Some(400))])
            == Ok([Read(Some(t0), Some(500), Some(t0 + 660), Some(400), 660)])
  {
    BackwardShortRead(t0);
    BackwardLongRead(t0);
  }

  lemma BackwardShortRead(t0: int)
    requires t0 > 0
    ensures ReadsOf([Event(t0, PickUp, Some(500)), Event(t0 + 300, PutDown, Some(400))]) == Ok([])
  {
    var a1 := Acc([], Some(t0), Some(t0), Some(500), None, 0, Some(PickUp));
    var es := [Event(t0, PickUp, Some(500)), Event(t0 + 300, PutDown, Some(400))];
    SortedEvents(es);
    assert Fold(Initial, es) == Fold(a1, es[1..]);
    assert Fold(a1, es[1..]) == Ok(Acc([], None, None, Some(500), Some(400), 0, Some(PutDown))) by {
      assert es[1..][1..] == [];
    }
  }

  lemma BackwardLongRead(t0: int)
    requires t0 > 0
    ensures ReadsOf([Event(t0, PickUp, Some(500)), Event(t0 + 660, PutDown, Some(400))])
            == Ok([Read(Some(t0), Some(500), Some(t0 + 660), Some(400), 660)])
  {
    var a1 := Acc([], Some(t0), Some(t0), Some(500), None, 0, Some(PickUp));
    var fs := [Event(t0, PickUp, Some(500)), Event(t0 + 660, PutDown, Some(400))];
    var read := Read(Some(t0), Some(500), Some(t0 + 660), Some(400), 660);
    SortedEvents(fs);
    assert Fold(Initial, fs) == Fold(a1, fs[1..]);
    assert AppendRead([], read) == Ok([read]);
    assert Fold(a1, fs[1..]) == Ok(Acc([read], None, None, Some(500), Some(400), 0, Some(PutDown))) by {
      assert fs[1..][1..] == [];
    }
  }

  /** Two sessions separated by a one-minute gap are reported as one. */
  lemma ShortGapMerges(t0: int)
    requires t0 > 0
    ensures ReadsOf([Event(t0, PickUp, Some(100)), Event(t0 + 300, PutDown, Some(200)),
                     Event(t0 + 360, PickUp, Some(210)), Event(t0 + 660, PutDown, Some(300))])
            == Ok([Read(Some(t0), Some(100), Some(t0 + 660), Some(300), 600)])
  {
    var es := [Event(t0, PickUp, Some(100)), Event(t0 + 300, PutDown, Some(200)),
               Event(t0 + 360, PickUp, Some(210)), Event(t0 + 660, PutDown, Some(300))];
    ShortGapFold(t0, es);
    ReadsOfSorted(es);
  }

  lemma ShortGapFold(t0: int, es: seq<Event>)
    requires t0 > 0
    requires es == [Event(t0, PickUp, Some(100)), Event(t0 + 300, PutDown, Some(200)),
                    Event(t0 + 360, PickUp, Some(210)), Event(t0 + 660, PutDown, Some(300))]
    ensures Fold(Initial, es)
            == Ok(Acc([Read(Some(t0), Some(100), Some(t0 + 660), Some(300), 600)],
                      None, None, Some(210), Some(300), 0, Some(PutDown)))
  {
    var r1 := Read(Some(t0), Some(100), Some(t0 + 300), Some(200), 300);
    var r2 := Read(Some(t0 + 360), Some(210), Some(t0 + 660), Some(300), 300);
    var merged := Read(Some(t0), Some(100), Some(t0 + 660), Some(300), 600);
    var a1 := Acc([], Some(t0), Some(t0), Some(100), None, 0, Some(PickUp));
    var a2 := Acc([r1], None, None, Some(100), Some(200), 0, Some(PutDown));
    var a3 := Acc([r1], Some(t0 + 360), Some(t0 + 360), Some(210), None, 0, Some(PickUp));
    var a4 := Acc([merged], None, None, Some(210), Some(300), 0, Some(PutDown));
    FoldCons(Initial, es, a1);
    assert AppendRead([], r1) == Ok([r1]);
    FoldCons(a1, es[1..], a2);
    FoldCons(a2, es[2..], a3);
    assert Continues(r1, r2) == Ok(true);
    assert Merged(r1, r2) == merged;
    assert AppendRead([r1], r2) == Ok([merged]);
    FoldCons(a3, es[3..], a4);
    assert es[1..][1..] == es[2..] && es[2..][1..] == es[3..] && es[3..][1..] == [];
  }
}

=== FILE: sorting.dfy ===
/** Python's `sorted(xs)` / `xs.sort()` for a total preorder `le`, written as
    an insertion sort. Every place the utilities sort (events, file names,
    books by recency, log files by start) instantiates it with its own order. */
module Sorting {

  ghost predicate TotalPreorder<T(!new)>(le: (T, T) -> bool) {
    && (forall a, b :: le(a, b) || le(b, a))
    && (forall a, b, c :: le(a, b) && le(b, c) ==> le(a, c))
  }

  predicate SortedBy<T>(s: seq<T>, le: (T, T) -> bool) {
    forall i, j :: 0 <= i < j < |s| ==> le(s[i], s[j])
  }

  /** Inserts x before the first element it does not exceed. */
  function Insert<T>(x: T, s: seq<T>, le: (T, T) -> bool): (r: seq<T>)
    ensures multiset(r) == multiset(s) + multiset{x}
    ensures |r| == |s| + 1
  {
    if s == [] then [x]
    else if le(x, s[0]) then [x] + s
    else
      assert s == [s[0]] + s[1..];
      [s[0]] + Insert(x, s[1..], le)
  }

  function SortBy<T>(s: seq<T>, le: (T, T) -> bool): (r: seq<T>)
    ensures |r| == |s|
  {
    if s == [] then [] else Insert(s[0], SortBy(s[1..], le), le)
  }

  /** Sorting only rearranges: the result is a permutation of the input. */
  lemma {:induction false} SortByPermutes<T>(s: seq<T>, le: (T, T) -> bool)
    ensures multiset(SortBy(s, le)) == multiset(s)
  {
    if s != [] {
      SortByPermutes(s[1..], le);
      assert s == [s[0]] + s[1..];
    }
  }

  lemma {:induction false} InsertSorted<T(!new)>(x: T, s: seq<T>, le: (T, T) -> bool)
    requires TotalPreorder(le) && SortedBy(s, le)
    ensures SortedBy(Insert(x, s, le), le)
  {
    if s != [] && !le(x, s[0]) {
      assert le(s[0], x);
      InsertSorted(x, s[1..], le);
      var t := Insert(x, s[1..], le);
      var r := [s[0]] + t;
      assert r == Insert(x, s, le);
      forall j | 0 < j < |r| ensures le(r[0], r[j]) {
        assert r[j] == t[j - 1];
        HeadBelowInsert(x, s, le, j - 1);
      }
      forall i, j | 0 <= i < j < |r| ensures le(r[i], r[j]) {
        if i > 0 {
          assert r[i] == t[i - 1] && r[j] == t[j - 1];
        }
      }
    }
  }

  /** Inserting x past the head of a sorted s: the head is below every
      element of the rest. */
  lemma HeadBelowInsert<T(!new)>(x: T, s: seq<T>, le: (T, T) -> bool, i: nat)
    requires TotalPreorder(le) && SortedBy(s, le) && s != [] && le(s[0], x)
    requires i < |Insert(x, s[1..], le)|
    ensures le(s[0], Insert(x, s[1..], le)[i])
  {
    var y := Insert(x, s[1..], le)[i];
    assert y in multiset(Insert(x, s[1..], le));
    if y != x {
      assert y in multiset(s[1..]);
      var k :| 0 <= k < |s[1..]| && s[1..][k] == y;
      assert s[k + 1] == y;
    }
  }

  /** For a total preorder, the result is in order. */
  lemma {:induction false} SortBySorted<T(!new)>(s: seq<T>, le: (T, T) -> bool)
    requires TotalPreorder(le)
    ensures SortedBy(SortBy(s, le), le)
  {
    if s != [] {
      SortBySorted(s[1..], le);
      InsertSorted(s[0], SortBy(s[1..], le), le);
    }
  }

  /** The elements of s that le cannot tell apart from x, in their order
      in s. */
  function Ties<T>(s: seq<T>, x: T, le: (T, T) -> bool): (r: seq<T>)
    ensures |r| <= |s|
  {
    if s == [] then []
    else (if le(s[0], x) && le(x, s[0]) then [s[0]] else []) + Ties(s[1..], x, le)
  }

  /** Insertion puts y before every element tied with it. */
  lemma {:induction false} InsertTies<T(!new)>(y: T, t: seq<T>, x: T, le: (T, T) -> bool)
    requires TotalPreorder(le)
    ensures Ties(Insert(y, t, le), x, le) == Ties([y], x, le) + Ties(t, x, le)
  {
    if t != [] && !le(y, t[0]) {
      var rest := Insert(y, t[1..], le);
      InsertTies(y, t[1..], x, le);
      assert ([t[0]] + rest)[1..] == rest;
      assert !(le(y, x) && le(x, y) && le(t[0], x) && le(x, t[0]));
    }
  }

  /** The sort is stable: elements with equal keys keep their input order. */
  lemma {:induction false} SortByStable<T(!new)>(s: seq<T>, x: T, le: (T, T) -> bool)
    requires TotalPreorder(le)
    ensures Ties(SortBy(s, le), x, le) == Ties(s, x, le)
  {
    if s != [] {
      SortByStable(s[1..], x, le);
      InsertTies(s[0], SortBy(s[1..], le), x, le);
    }
  }

  /** Input already in order is returned unchanged. */
  lemma {:induction false} SortByOfSorted<T(!new)>(s: seq<T>, le: (T, T) -> bool)
    requires SortedBy(s, le)
    ensures SortBy(s, le) == s
  {
    if s != [] {
      assert SortedBy(s[1..], le) by {
        forall i, j | 0 <= i < j < |s[1..]| ensures le(s[1..][i], s[1..][j]) {
          assert s[1..][i] == s[i + 1] && s[1..][j] == s[j + 1];
        }
      }
      SortByOfSorted(s[1..], le);
      if |s| > 1 {
        assert le(s[0], s[1]);
        assert s == [s[0]] + s[1..];
      }
    }
  }

  ghost predicate Antisymmetric<T(!new)>(le: (T, T) -> bool) {
    forall a, b :: le(a, b) && le(b, a) ==> a == b
  }

  /** Under an antisymmetric order there is only one sorted arrangement of a
      multiset: the result of sorting does not depend on the input order. */
  lemma {:induction false} SortedUnique<T(!new)>(a: seq<T>, b: seq<T>, le: (T, T) -> bool)
    requires Antisymmetric(le)
    requires SortedBy(a, le) && SortedBy(b, le) && multiset(a) == multiset(b)
    ensures a == b
  {
    if a == [] {
      assert |multiset(b)| == 0;
    } else {
      assert |b| == |multiset(b)| == |multiset(a)| == |a|;
      assert a[0] in multiset(b);
      var k :| 0 <= k < |b| && b[k] == a[0];
      assert b[0] in multiset(a);
      var j :| 0 <= j < |a| && a[j] == b[0];
      assert le(a[0], a[j]) || j == 0;
      assert le(b[0], b[k]) || k == 0;
      assert a[0] == b[0];
      assert a == [a[0]] + a[1..];
      assert b == [b[0]] + b[1..];
      assert multiset(a) == multiset{a[0]} + multiset(a[1..]);
      assert multiset(b) == multiset{b[0]} + multiset(b[1..]);
      assert multiset(a[1..]) == multiset(a) - multiset{a[0]};
      assert multiset(b[1..]) == multiset(b) - multiset{b[0]};
      assert SortedBy(a[1..], le) by {
        forall i, j | 0 <= i < j < |a[1..]| ensures le(a[1..][i], a[1..][j]) {
          assert a[1..][i] == a[i + 1] && a[1..][j] == a[j + 1];
        }
      }
      assert SortedBy(b[1..], le) by {
        forall i, j | 0 <= i < j < |b[1..]| ensures le(b[1..][i], b[1..][j]) {
          assert b[1..][i] == b[i + 1] && b[1..][j] == b[j + 1];
        }
      }
      SortedUnique(a[1..], b[1..], le);
    }
  }
}

=== FILE: time_normalizer.dfy ===
/** The clock-jump corrector of KindleLog: `_CheckJump`, `_HandleJump`,
    `_CalculateTime` and `_SwitchTimezone` (log_parser.py:425-577). Each
    works on the carried state and the timestamp of the current line;
    `_fatal` (sys.exit) is the SystemExit error. */
module TimeNormalizer {
  import opened PyText
  import opened LogStates
  import Fuzz
  import PowerStates

  /** KindleLog.MAX_BACKWARDS_JUMP, MAX_FORWARDS_JUMP and MAX_FILE_JUMP. */
  const MAX_BACKWARDS_JUMP := 3601
  const MAX_FORWARDS_JUMP := 3600 * 24 * 120
  const MAX_FILE_JUMP := 60 * 30

  /** `_CalculateTime(ts)`: under a baseline the raw time `at` (the line's own
      time when None) is moved by the baseline's offset; a result more than
      120 days past the last good time is fatal. */
  function CalculateTime(t: Tracker, at: Option<int>): (r: Result<Tracker>)
    ensures t.state.baseline.None? ==> r == Ok(t)
    ensures r.Err? ==> r.error == SystemExit
    ensures r.Ok? ==> r.value.state == t.state && r.value.start == t.start
                      && r.value.states == t.states && r.value.durations == t.durations
    ensures t.state.baseline.Some? ==>
              var b := t.state.baseline.value;
              var raw := if at.Some? then at.value else t.ts;
              && (r.Err? <==> raw - b.badtime > MAX_FORWARDS_JUMP)
              && (r.Ok? ==> r.value.ts - b.realtime == raw - b.badtime)
  {
    match t.state.baseline
    case None => Ok(t)
    case Some(b) =>
      var raw := if at.Some? then at.value else t.ts;
      var calculated := b.realtime + (raw - b.badtime);
      if calculated - b.realtime > MAX_FORWARDS_JUMP then Err(SystemExit)
      else Ok(t.(ts := calculated))
  }

  /** Two lines corrected under the same baseline stay as far apart as their
      raw times were. */
  lemma CalculateTimeKeepsDifferences(t: Tracker, u: Tracker)
    requires t.state.baseline.Some? && t.state.baseline == u.state.baseline
    requires CalculateTime(t, None).Ok? && CalculateTime(u, None).Ok?
    ensures CalculateTime(t, None).value.ts - CalculateTime(u, None).value.ts == t.ts - u.ts
  {
  }

  /** `_SwitchTimezone`: the expected jump happened; the new zone becomes
      current, the jump is remembered (negated) to catch stragglers, and the
      line's time is moved back by the jump. */
  function SwitchTimezone(t: Tracker): (r: Tracker)
    requires t.state.pending.Some?
    ensures r.state.timezone == t.state.pending.value.zone
    ensures r.state.pending.None?
    ensures r.state.previous == Some(TzJump(-t.state.pending.value.jump, t.state.timezone))
    ensures r.ts == t.ts - t.state.pending.value.jump
    ensures r.state.baseline == t.state.baseline && r.state.lastTs == t.state.lastTs && r.state.power == t.state.power
    ensures r.start == t.start && r.states == t.states && r.durations == t.durations
  {
    var jump := t.state.pending.value.jump;
    t.(state := t.state.(previous := Some(TzJump(-jump, t.state.timezone)),
                         timezone := t.state.pending.value.zone,
                         pending := None),
       ts := t.ts + (-1 * jump))
  }

  /** `_HandleJump(last_ts)` for an unexplained jump. Without a baseline the
      jump starts one, anchored so that the line lands on the last good
      time. With one, a raw time within [0, 120 days] of the baseline's good
      time ends it; otherwise the baseline is moved so that, again, the line
      lands on the last corrected time. */
  function HandleJump(t: Tracker, lastTs: int): (r: Result<Tracker>)
    ensures r.Err? ==> r.error == SystemExit
    ensures r.Ok? ==> r.value.start == t.start && r.value.states == t.states && r.value.durations == t.durations
    ensures t.state.baseline.None? ==>
              r == Ok(t.(ts := t.state.lastTs,
                         state := t.state.(baseline := Some(Baseline(t.state.lastTs, t.ts)))))
    ensures t.state.baseline.Some? && 0 <= t.ts - t.state.baseline.value.realtime <= MAX_FORWARDS_JUMP ==>
              r == Ok(t.(state := t.state.(baseline := None)))
  {
    match t.state.baseline
    case None =>
      CalculateTime(t.(state := t.state.(baseline := Some(Baseline(t.state.lastTs, t.ts)))), None)
    case Some(b) =>
      var jump := t.ts - b.realtime;
      if 0 <= jump <= MAX_FORWARDS_JUMP then
        CalculateTime(t.(state := t.state.(baseline := None)), None)
      else
        var raw := t.ts;
        match CalculateTime(t, Some(lastTs))
        case Err(e) => Err(e)
        case Ok(c) => Ok(c.(state := c.state.(baseline := Some(Baseline(c.ts, raw)))))
  }

  /** The time `_CheckJump` measures the jump from: the last line's time
      taken back to the device's (uncorrected) clock while a baseline is
      active. A last time before the baseline's good time is fatal. */
  function LastRawTime(s: LogState): (r: Result<int>)
    ensures s.baseline.None? ==> r == Ok(s.lastTs)
    ensures r.Err? ==> r.error == SystemExit
    ensures s.baseline.Some? && r.Ok? ==> r.value - s.baseline.value.badtime == s.lastTs - s.baseline.value.realtime
  {
    match s.baseline
    case None => Ok(s.lastTs)
    case Some(b) =>
      var diff := s.lastTs - b.realtime;
      if diff < 0 then Err(SystemExit) else Ok(b.badtime + diff)
  }

  /** Which case of `_CheckJump` applies, in the order the source tests them. */
  datatype JumpCase = TzSwitch | Straggler(offset: int) | FileGap | Unexplained | Steady

  function Classify(t: Tracker, jump: int): (c: JumpCase)
    ensures c.TzSwitch? ==> t.state.pending.Some?
    ensures c.Straggler? ==> t.state.previous.Some?
  {
    if t.state.pending.Some? && t.state.pending.value.jump != 0
       && Fuzz.MatchWithFuzzByHour(t.state.pending.value.jump, jump).Some? then TzSwitch
    else if t.state.previous.Some? && t.state.previous.value.jump != 0
       && Fuzz.MatchWithFuzzByHour(t.state.previous.value.jump, jump).Some? then
      Straggler(Fuzz.MatchWithFuzzByHour(t.state.previous.value.jump, jump).value)
    else if !Truthy(t.start) && jump > 0 && jump > MAX_FILE_JUMP then FileGap
    else if (jump < 0 && -jump > MAX_BACKWARDS_JUMP) || jump > MAX_FORWARDS_JUMP then Unexplained
    else Steady
  }

  /** `_CheckJump`: compare the line's time with the last one and correct it. */
  function CheckJump(t: Tracker): (r: Result<Tracker>)
    requires t.state.power.Some?
    ensures r.Err? ==> r.error == SystemExit
    ensures r.Ok? ==> r.value.state.power.Some? && r.value.start == t.start
  {
    match LastRawTime(t.state)
    case Err(e) => Err(e)
    case Ok(lastTs) =>
      var jump := t.ts - lastTs;
      match Classify(t, jump)
      case TzSwitch =>
        (match CalculateTime(t, None)
         case Err(e) => Err(e)
         case Ok(c) => Ok(SwitchTimezone(c)))
      case Straggler(offset) =>
        (match CalculateTime(t, None)
         case Err(e) => Err(e)
         case Ok(c) => Ok(c.(ts := c.ts - offset)))
      case FileGap =>
        Ok(PowerStates.StateTransition(PowerStates.StateTransition(t, lastTs, "NO_DATA"), t.ts, "NO_DATA"))
      case Unexplained => HandleJump(t, lastTs)
      case Steady => CalculateTime(t, None)
  }

  // ------------------------------------------------------------ properties

  /** A line whose gap from the last line matches the announced timezone
      jump within 300 s switches zone exactly once: the pending change is
      consumed and remembered for stragglers. */
  lemma TimezoneSwitchesOnce(t: Tracker, j: int, zone: Zone)
    requires t.state.power.Some? && t.state.baseline.None?
    requires t.state.pending == Some(TzJump(j, zone)) && j != 0
    requires Fuzz.EqualWithFuzz(j, t.ts - t.state.lastTs, Fuzz.DEFAULT_FUZZ)
    ensures CheckJump(t).Ok?
    ensures var r := CheckJump(t).value;
            && r.state.timezone == zone
            && r.state.pending.None?
            && r.state.previous == Some(TzJump(-j, t.state.timezone))
            && r.ts == t.ts - j
  {
  }

  /** A straggler still stamped in the old zone is moved back into the new
      one and changes nothing else. */
  lemma StragglerCorrectedWithoutStateChange(t: Tracker, j: int, zone: Zone)
    requires t.state.power.Some? && t.state.baseline.None? && t.state.pending.None?
    requires t.state.previous == Some(TzJump(j, zone)) && j != 0
    requires Fuzz.EqualWithFuzz(j, t.ts - t.state.lastTs, Fuzz.DEFAULT_FUZZ)
    ensures CheckJump(t) == Ok(t.(ts := t.ts - j))
  {
    Fuzz.MatchIsUnique(j, t.ts - t.state.lastTs, j);
  }

  /** The first unexplained jump starts a baseline and the line is placed at
      the last good time. */
  lemma UnexplainedJumpStartsBaseline(t: Tracker)
    requires t.state.power.Some? && t.state.baseline.None?
    requires Classify(t, t.ts - t.state.lastTs) == Unexplained
    ensures CheckJump(t) == Ok(t.(ts := t.state.lastTs,
                                  state := t.state.(baseline := Some(Baseline(t.state.lastTs, t.ts)))))
  {
  }

  /** Under a baseline, an unexplained jump back to within 120 days after the
      baseline's good time ends the correction: this line and the following
      ones keep their raw times. */
  lemma ReturnToRealityClearsBaseline(t: Tracker)
    requires t.state.power.Some? && t.state.baseline.Some?
    requires LastRawTime(t.state).Ok?
    requires Classify(t, t.ts - LastRawTime(t.state).value) == Unexplained
    requires 0 <= t.ts - t.state.baseline.value.realtime <= MAX_FORWARDS_JUMP
    ensures CheckJump(t) == Ok(t.(state := t.state.(baseline := None)))
    ensures CalculateTime(CheckJump(t).value, None) == Ok(CheckJump(t).value)
  {
  }

  /** A second unexplained jump that does not return to reality re-bases the
      baseline: the line is placed at the last corrected time and becomes the
      new anchor. */
  lemma SecondJumpRebases(t: Tracker)
    requires t.state.power.Some? && t.state.baseline.Some?
    requires LastRawTime(t.state).Ok?
    requires Classify(t, t.ts - LastRawTime(t.state).value) == Unexplained
    requires !(0 <= t.ts - t.state.baseline.value.realtime <= MAX_FORWARDS_JUMP)
    requires t.state.lastTs - t.state.baseline.value.realtime <= MAX_FORWARDS_JUMP
    ensures CheckJump(t) == Ok(t.(ts := t.state.lastTs,
                                  state := t.state.(baseline := Some(Baseline(t.state.lastTs, t.ts)))))
  {
  }

  /** The first line of a file more than 30 minutes after the last one
      records NO_DATA from the last line's time and again from this line's
      time, and leaves the line's time alone. */
  lemma FileGapRecordsNoData(t: Tracker)
    requires t.state.power.Some? && t.state.baseline.None?
    requires Classify(t, t.ts - t.state.lastTs) == FileGap
    ensures CheckJump(t).Ok?
    ensures var r := CheckJump(t).value;
            && r.ts == t.ts
            && r.states == t.states + [Transition(t.state.lastTs, "NO_DATA"), Transition(t.ts, "NO_DATA")]
            && r.state.power == Some(PowerState(t.ts, "NO_DATA"))
  {
  }

  /** An ordinary line without a baseline is left exactly as it is. */
  lemma SteadyLineUnchanged(t: Tracker)
    requires t.state.power.Some? && t.state.baseline.None?
    requires Classify(t, t.ts - t.state.lastTs) == Steady
    ensures CheckJump(t) == Ok(t)
  {
  }
}
